=== FILE: README.md ===
# linkmap core rules, modelled in Dafny

linkmap is a Next.js application for managing a project's external
services. It has a service map, environment-variable management, health
checks, an AI chat, a one-click site generator and deployer, and a small
command-line tool. This project models the deterministic rules inside it,
one Dafny module per source file:

- **Site code generator** (`codegen_escape.dfy`, `codegen_config.dfy`,
  `codegen_pattern.dfy`, `codegen_page.dfy`, `codegen_files.dfy`, over the
  shared shapes in `site_state.dfy`). It covers:
  - string-literal escaping and the parsers' unescape step;
  - skill levels;
  - the `build*Array` serialisers and the `siteConfig` entries;
  - the parser's key pattern as written, and where it reads from another
    entry than the key's own;
  - the page generators and the page parser;
  - `generateFiles`, `generateLayoutTsx` and `buildInitialState`.
- **One-click deploy**:
  - the reducer state machine and the site-name format (`deploy_machine.dfy`);
  - the two step derivations and the Pages status decision (`deploy_status.dfy`);
  - the refetch deciders (`deploy_polling.dfy`);
  - the ordered error classifier (`deploy_error_map.dfy`).
- **Environment-variable conflict detector** (`conflict_detector.dfy`):
  - the 32-bit base-36 hash;
  - the missing-value and config-mismatch conflicts;
  - the severity sort.
- **Sliding-window rate limiter** (`rate_limit.dfy`): a class over the
  per-key timestamp store, the key builder and the headers.
- **Zone grid layout** (`zone_layout.dfy`).
- **Site editor**:
  - file types, the file tree and the preview page (`site_editor.dfy`);
  - code blocks in AI replies (`chat_terminal.dfy`);
  - module panel updates (`module_panel.dfy`);
  - array-field editing (`module_form.dfy`);
  - site-name rules (`template_picker.dfy`).
- **Dashboard and service map**:
  - the system status (`system_status.dfy`);
  - the alert list (`alerts_list.dfy`);
  - the nodes and edges (`service_map_nodes.dfy`);
  - the comparison selection (`compare_client.dfy`);
  - the AI chat hook with its recommendation blocks and stream framing
    (`use_ai_chat.dfy`).
- **Behaviour fixed by tests only**: the suggested connections
  (`auto_connect.dfy`), the health score (`health_score.dfy`) and the
  secret mask (`mask_value.dfy`). Each is a reference definition that
  agrees with every assertion of its test, and lemmas state each
  assertion for all inputs.
- **CLI `check` command** (`cli_check.dfy`).

`text.dfy` holds the JavaScript string operations the model needs, and
`Option` for `null`/`undefined`.

Modelling choices:

- Regular-expression engines and `JSON.parse` are abstracted. A function
  receives the matches a pattern yields, or the parsed value, as input.
- The clock (`Date.now()`) and randomness (`Math.random()`) are
  parameters.
- State the source changes in place is modelled as classes with
  `modifies` clauses: the rate limiter's store, the deploy row that the
  status route polls, and the chat hook's state. Loops become methods
  with loop invariants, proved against specification functions.

## Model

| member | source | states |
|---|---|---|
| CodeGenEscape.EscNoBareQuote | src/lib/oneclick/code-generator.ts:8-10 | After `esc`, the text is made of escape pairs (`\\`, `\'`) and other characters only: every quote is preceded by an escaping backslash and backslashes come in pairs |
| CodeGenEscape.EscUnescape | src/lib/oneclick/code-generator.ts:8-10 | Every text made of escape pairs and other characters is `esc` of its unescaping, so these texts are exactly the outputs of `esc` |
| CodeGenEscape.EscPlain | src/lib/oneclick/code-generator.ts:8-10 | A text without backslash or quote passes through `esc` unchanged |
| CodeGenEscape.EscKeepsChar | src/lib/oneclick/code-generator.ts:8-10 | A character other than backslash and quote occurs in `esc(s)` iff it occurs in s |
| CodeGenEscape.UnescapeEsc | src/lib/oneclick/code-generator.ts:1544 | The parsers' unescape `replace(/\\(.)/g, '$1')` inverts `esc` on every string |
| CodeGenEscape.ScanQuotedEsc | src/lib/oneclick/code-generator.ts:1539-1545 | The quoted-string pattern scanning an escaped value stops exactly at its closing quote |
| CodeGenEscape.WrittenValueReadBack | src/lib/oneclick/code-generator.ts:1539-1545 | `extractString` reads a value written as `'`+esc(v)+`'` back as v, whatever follows |
| CodeGenEscape.ItemFieldAsWritten | src/lib/oneclick/code-generator.ts:1592-1601 | The item field pattern `'([^']*)'` as written never captures a quote |
| CodeGenEscape.ItemFieldAsWrittenLosesApostrophe | src/lib/oneclick/code-generator.ts:1592-1601 | A title "it's" written with `esc` is read back as `it\` |
| CodeGenEscape.ItemFieldAsWrittenDoublesBackslash | src/lib/oneclick/code-generator.ts:1592-1601 | A value `a\b` written with `esc` is read back with its backslash doubled |
| CodeGenEscape.ItemField | src/lib/oneclick/code-generator.ts:1592-1601 | The corrected item reader returns v for every text that starts with esc(v) and a quote |
| SiteState.StrOr | src/lib/oneclick/code-generator.ts:96 | `(m[key] as string) \|\| dflt`: the default for a missing or falsy value, the string for a non-empty string, None (a throw in `esc`) for other truthy values |
| CodeGenConfig.ParseIntNatToString | src/lib/oneclick/code-generator.ts:19 | `parseInt` reads back every number that `String` writes |
| CodeGenConfig.PercentToLevelBands | src/lib/oneclick/code-generator.ts:18-23 | For a percentage written in decimal: ≤33 is beginner, ≤66 intermediate, and above is advanced |
| CodeGenConfig.PercentToLevelNonNumeric | src/lib/oneclick/code-generator.ts:18-23 | A text without digits parses to NaN and maps to beginner |
| CodeGenConfig.ParseIntValueCases | src/lib/oneclick/code-generator.ts:691 | `parseInt` reads its argument through `String(x)`: a number reads as itself, so does a one-element array of it, a string reads as its text, and null, booleans and objects give NaN |
| CodeGenConfig.LevelRoundTrip | src/lib/oneclick/code-generator.ts:18-30 | percentToLevel(levelToPercent(l)) == l for each of the three levels |
| CodeGenConfig.LevelToPercentDefault | src/lib/oneclick/code-generator.ts:26-30 | Any string other than advanced or intermediate maps to "30" |
| CodeGenConfig.MapEntries | src/lib/oneclick/code-generator.ts:48-57 | `items.map(entry)` fails exactly when some entry fails, and otherwise keeps length and order |
| CodeGenConfig.BuildArrayShape | src/lib/oneclick/code-generator.ts:46-59 | A serialiser writes its empty literal for a missing, non-array or empty list; otherwise `[\n`, the entries' texts joined by `,\n`, and `\n]`; it fails iff some entry fails |
| CodeGenConfig.LinkIconSpec | src/lib/oneclick/code-generator.ts:389 | A non-empty string `emoji` is the icon, whatever `icon` holds; a falsy `emoji` falls back to `icon`, and to "" when that is falsy too |
| CodeGenConfig.EmptyArrays | src/lib/oneclick/code-generator.ts:210-211 | Every serialiser writes `[]` for an empty list, except the blog-post one, which writes `null` |
| CodeGenConfig.Tags | src/lib/oneclick/code-generator.ts:666-670 | Every tag is a trimmed, non-empty piece of the comma-separated list |
| CodeGenConfig.ValuesEntryTitleReadBack | src/lib/oneclick/code-generator.ts:46-58 | The DEMO_VALUES title is written so that the corrected item reader returns it |
| CodeGenConfig.GenerateReadBack | src/lib/oneclick/code-generator.ts:1539-1553 | For every generator: a quoted entry is read back, through the entry written for its key, as the field's string, or as the default when the field is empty; a nullable entry reads null as "" |
| CodeGenConfig.ParseScalars | src/lib/oneclick/code-generator.ts:1532-1583 | Starting from the schema's initial values, each field found in its own entry overwrites its value, and `parallaxEnabled` comes from its own entry's literal true/false |
| CodeGenConfig.FlagReadBack | src/lib/oneclick/code-generator.ts:1570-1571 | In a config generated with distinct keys, the `parallaxEnabled` entry reads back as the truthiness of the module value it was written from |
| CodeGenConfig.ParallaxRoundTrip | src/lib/oneclick/code-generator.ts:103 | A personal-brand config, whose entry writes `!!hero.parallaxEnabled` (line 167), reads `parallaxEnabled` back as that value |
| CodeGenConfig.ParsedFieldListedOnce | src/lib/oneclick/code-generator.ts:1555-1583 | A field read once and found holds what was found |
| CodeGenConfig.GenerateThenParse | src/lib/oneclick/code-generator.ts:1532-1583 | Generating and then parsing sets each field the parser reads from its own entry to the written string |
| CodeGenConfig.PersonalBrandRoundTrip | src/lib/oneclick/code-generator.ts:148-168 | A personal-brand config parsed back sets every scalar field read to the written value: the field's string when non-empty, else the generator's default |
| CodeGenPattern.AsWrittenReadsOwnSlot | src/lib/oneclick/code-generator.ts:1537-1553 | The unanchored first match over the text before `\n};` returns the value written for the key when no earlier entry's text holds `key:` and no entry holds `\n};` |
| CodeGenPattern.KeyInEarlierValue | src/lib/oneclick/code-generator.ts:1539-1545 | When an earlier value ends in ` key:`, the first match starts inside that value and returns the text of the following entry up to its quote |
| CodeGenPattern.EmailReadFromTagline | src/lib/oneclick/code-generator.ts:1539-1545 | With a tagline ending in ` email:`, the as-written reader returns `,\n  taglineEn: process.env.NEXT_PUBLIC_TAGLINE_EN \|\| ` for email, while the per-entry reader returns the email |
| CodeGenPattern.ParallaxAsWrittenAgrees | src/lib/oneclick/code-generator.ts:1570-1571 | The whole-file match of `parallaxEnabled:\s*(true\|false)` reads the flag's own entry when neither the text before the entries nor any earlier entry holds `parallaxEnabled:` |
| CodeGenPattern.ParallaxReadFromTagline | src/lib/oneclick/code-generator.ts:1570-1571 | With a tagline `parallaxEnabled: true` and the flag written false, the whole-file match reads true while the flag's own entry reads false |
| CodeGenPage.Active | src/lib/oneclick/code-generator.ts:1153 | The active modules are the ids of `order` that are enabled, in order |
| CodeGenPage.WithComponent | src/lib/oneclick/code-generator.ts:1166-1167 | The ids that have a component, in order |
| CodeGenPage.CollectComponents | src/lib/oneclick/code-generator.ts:1164-1178 | The loop appends one import and one render per mapped active id, in order, and flags whether the given id was among them |
| CodeGenPage.GenerateLinkInBioProPage | src/lib/oneclick/code-generator.ts:938-962 | The imports open with siteConfig and getTheme, then the component imports, ContentEmbed and Footer; the renders end with the embed |
| CodeGenPage.GenerateDigitalNamecardPage | src/lib/oneclick/code-generator.ts:1086-1116 | The component imports and renders, plus QrCode and SaveContactButton when contact is active, then Footer |
| CodeGenPage.FindHero | src/lib/oneclick/code-generator.ts:1184 | `findIndex` gives the first render mentioning HeroSection, or None |
| CodeGenPage.InsertAfter | src/lib/oneclick/code-generator.ts:1186 | `splice(k + 1, 0, x)` puts x right after position k and keeps everything else |
| CodeGenPage.GenerateStandardPage | src/lib/oneclick/code-generator.ts:1136-1206 | The standard page: siteConfig and NavHeader, the components, GithubGraph (dev-showcase with about), QuickActions (small-biz with hero), Footer |
| CodeGenPage.GeneratePage | src/lib/oneclick/code-generator.ts:1136-1142 | `generatePageTsx` dispatches on the template slug |
| CodeGenPage.PageFrame | src/lib/oneclick/code-generator.ts:1153-1190 | For any component table: imports open with siteConfig, then NavHeader (getTheme on link-in-bio, nothing fixed on the namecard), and close with Footer; except on small-biz, where QuickActions may be spliced in, renders begin with exactly the active mapped components in `order` order |
| CodeGenPage.RenderedModules | src/lib/oneclick/code-generator.ts:1164-1174 | A module's component is rendered iff the module is enabled, ordered and mapped |
| CodeGenPage.NamecardQr | src/lib/oneclick/code-generator.ts:1097-1112 | The namecard page has QrCode and SaveContactButton iff contact is active |
| CodeGenPage.LinkInBioEmbed | src/lib/oneclick/code-generator.ts:956-960 | The link-in-bio page always ends with the embed render |
| CodeGenPage.QuickActionsAfterHero | src/lib/oneclick/code-generator.ts:1180-1188 | When only the hero render mentions HeroSection and hero is active, QuickActions is rendered right after it |
| CodeGenPage.SmallBizQuickActions | src/lib/oneclick/code-generator.ts:1180-1188 | Small-biz with hero enabled and ordered renders QuickActions immediately after the hero section |
| CodeGenPage.SmallBizHeroOnly | src/lib/oneclick/code-generator.ts:1048-1083 | Of the small-biz renders, only the hero's mentions HeroSection |
| CodeGenPage.ParsePage | src/lib/oneclick/code-generator.ts:2322-2410 | `parsePageToEnabledModules`: mapped modules in first-import order, without repeats, plus theme for namecard and link-in-bio; order equals enabled |
| CodeGenPage.ParsedEnabledDistinct | src/lib/oneclick/code-generator.ts:2397-2410 | The parsed list never repeats a module and holds only mapped modules and theme |
| CodeGenPage.TablesAgree | src/lib/oneclick/code-generator.ts:2328-2390 | For every template, the generator's component table and the parser's import table agree |
| CodeGenPage.ParseGeneratedPage | src/lib/oneclick/code-generator.ts:2396-2410 | Parsing a generated page gives the enabled-and-ordered mapped modules, each once, in first-appearance order, plus theme where the template has one |
| CodeGenPage.ParseGeneratedPageExact | src/lib/oneclick/code-generator.ts:2396-2410 | With an `order` free of repeats, the parser recovers exactly the rendered modules in `order` order |
| CodeGenFiles.PlusForSpacesRun | src/lib/oneclick/code-generator.ts:1292 | A run of white-space characters (any `\s`) in the font name becomes a single `+` |
| CodeGenFiles.PlusForSpacesKeeps | src/lib/oneclick/code-generator.ts:1292 | A font name without white space passes through unchanged |
| CodeGenFiles.LayoutContent | src/lib/oneclick/code-generator.ts:1281-1314 | The layout comes back unchanged for a falsy font or Pretendard; any other string font rewrites it with that font's name and link tag; a non-string font value throws |
| CodeGenFiles.AssembleFiles | src/lib/oneclick/code-generator.ts:1355-1474 | Once the template's config and page are generated, the pushes of `generateFiles` give exactly the list `Files` defines for that template (config.ts, page.tsx, then the component files) |
| CodeGenFiles.AssembleShape | src/lib/oneclick/code-generator.ts:1355-1468 | config.ts then page.tsx come first, holding the config and page generators' output; every further file rewrites a non-empty cached file the template may touch; without a cache nothing else is written; no path is written twice |
| CodeGenFiles.AssembleFailure | src/lib/oneclick/code-generator.ts:1343-1468 | `generateFiles` throws exactly when the config generator does, or when a layout rewrite is due with a non-string font |
| CodeGenFiles.BuildInitialState | src/lib/oneclick/code-generator.ts:1481-1503 | The loop builds the values map, `enabled` as the default-enabled ids in schema order, and `order` as a copy of defaultOrder |
| CodeGenFiles.InitialStateDefaults | src/lib/oneclick/code-generator.ts:1487-1492 | values[mod.id][field.key] is field.defaultValue for every module and field that no later entry with the same id or key overrides |
| DeployMachine.SelectingEdits | src/hooks/use-deploy-machine.ts:83-93 | SELECT_TEMPLATE and SET_SITE_NAME edit one field while selecting and change nothing in other phases |
| DeployMachine.AuthSteps | src/hooks/use-deploy-machine.ts:109-127 | AUTH_COMPLETE and GITHUB_CONNECTED advance one phase, carrying template and site name, and are no-ops elsewhere |
| DeployMachine.ReadyStep | src/hooks/use-deploy-machine.ts:144-153 | DEPLOY_READY turns polling into success with the same ids and template, and is a no-op elsewhere |
| DeployMachine.Unconditional | src/hooks/use-deploy-machine.ts:95-165 | DEPLOY_ERROR and RETRY act the same from every phase; the unconditional actions take their fields from the action only |
| DeployMachine.PhaseAfter | src/hooks/use-deploy-machine.ts:81-170 | The phase after an action is one the action can lead to; only DEPLOY_ERROR newly reaches `error` |
| DeployMachine.GenerateSiteName | src/hooks/use-deploy-machine.ts:208-215 | The name is "my-site-" followed by exactly four characters from [a-z0-9] |
| DeployStatus.PagesStepsTable | src/lib/oneclick/deploy-status.ts:115-140 | The steps are repo, pages, live; repo follows the fork; pages waits for the repo and then follows pages_status; live is completed iff ready, error iff error, otherwise in progress iff pages is completed |
| DeployStatus.LegacyStepsTable | src/lib/oneclick/deploy-status.ts:146-172 | The steps are fork, project, build, deploy; deploy is completed iff ready and error iff error |
| DeployStatus.ResolveDeployStatus | src/lib/oneclick/deploy-status.ts:24-106 | The Pages/workflow decision table; changed iff a status differs; a 404 keeps the current state unchanged; other lookup errors are rethrown |
| StatusRoute.BuildStepsTable | src/app/api/oneclick/status/route.ts:143-169 | The route keys the pages step on deploy_status; live is in progress iff pages is completed and the deploy is building |
| StatusRoute.StepVariantsDiffer | src/app/api/oneclick/status/route.ts:153-156 | With the repo forked, building and Pages enabling, the route says the pages step is completed where deploy-status.ts says in progress |
| StatusRoute.Deploy.constructor | src/app/api/oneclick/status/route.ts:23-31 | The row as read |
| StatusRoute.Deploy.Poll | src/app/api/oneclick/status/route.ts:33-127 | GET's Pages polling updates the row per the status table, writes back iff a status changed, sets the deployment URL only on ready, and returns the steps of the new row |
| StatusRoute.RouteTableCases | src/app/api/oneclick/status/route.ts:64-78 | built, building, errored and null set both statuses; any other Pages status keeps them |
| DeployPolling.BackoffShape | src/lib/queries/oneclick.ts:312-315 | The delay never shrinks, stays between 1 and 10 seconds, and is 10 seconds from the fifth poll on |
| DeployPolling.StatusRefetchCases | src/lib/queries/oneclick.ts:331-355 | Fast first poll; stop on terminal statuses; stop and mark timeout after five minutes; otherwise back off |
| DeployPolling.ListRefetchCases | src/lib/queries/oneclick.ts:160-167 | The list refreshes every 5 s exactly while some deployment is building, creating or pending |
| DeployErrorMap.ChainIsFirstFiring | src/lib/deploy-error-map.ts:23-148 | The if-chain is the first firing rule of the ordered rule list |
| DeployErrorMap.ClassifyFirstMatch | src/lib/deploy-error-map.ts:19-148 | The cause is the first rule that fires on the lowercased message, else Unexpected |
| DeployErrorMap.PermissionBeforeToken | src/lib/deploy-error-map.ts:62-75 | A message with both 403 and 401 is a permission error unless an earlier rule fires |
| DeployErrorMap.PagesByFailedStep | src/lib/deploy-error-map.ts:101 | A failed step labelled with "설정" means a Pages failure unless an earlier rule fires |
| DeployErrorMap.FirstErrorSpec | src/lib/deploy-error-map.ts:20 | The first step in error is found, and nothing when none is |
| DeployErrorMap.FailedStepSpec | src/lib/deploy-error-map.ts:20 | The failed step is the first error step's label when that label is non-empty, and null when no step is in error or that label is empty |
| DeployErrorMap.ErrorDetailsSpec | src/lib/deploy-error-map.ts:14-148 | Every message gets a cause and a solution, in Korean iff the locale is ko, with the failed step passed through |
| DeployErrorMap.ErrorDetailsIgnoreCase | src/lib/deploy-error-map.ts:19 | The case of the message never matters |
| ConflictDetector.HashStepIsTimes31 | src/lib/env/conflict-detector.ts:39-40 | `((h<<5)-h)+c` then `\|= 0` is h·31+c wrapped to signed 32 bits |
| ConflictDetector.HashOfIsPoly31 | src/lib/env/conflict-detector.ts:34-41 | The hash is the 32-bit wrap of the base-31 polynomial of the UTF-16 code units that `charCodeAt` yields |
| ConflictDetector.HashUnitsIsPoly31 | src/lib/env/conflict-detector.ts:34-41 | Folding the hash step over any code units gives the 32-bit wrap of their base-31 polynomial |
| ConflictDetector.HashOfSurrogates | src/lib/env/conflict-detector.ts:36-40 | A character outside the BMP is hashed as its surrogate pair: U+1F600 folds 0xD83D and 0xDE00 to 1772899 |
| ConflictDetector.IntToBase36Injective | src/lib/env/conflict-detector.ts:42 | `toString(36)` is injective on 32-bit values |
| ConflictDetector.ValueHashEq | src/lib/env/conflict-detector.ts:34-43 | Two value hashes are equal exactly when the 32-bit hashes are |
| ConflictDetector.HashValue | src/lib/env/conflict-detector.ts:34-43 | The loop over the UTF-16 code units computes the polynomial hash, rendered in base 36 |
| ConflictDetector.GroupByKey | src/lib/env/conflict-detector.ts:51-55 | One list per key, keys in first-appearance order, each list the key's variables in order |
| ConflictDetector.GroupByEnv | src/lib/env/conflict-detector.ts:58-61 | The last entry per environment, environments in first-set order |
| ConflictDetector.CollectAffected | src/lib/env/conflict-detector.ts:75-86 | The affected-services loop collects the distinct non-empty service names |
| ConflictDetector.CollectHashes | src/lib/env/conflict-detector.ts:101-107 | The hashing loop maps each value hash to its environments |
| ConflictDetector.ConflictsForKey | src/lib/env/conflict-detector.ts:57-149 | One key's conflicts, per the missing-value and config-mismatch rules |
| ConflictDetector.ConflictsByKey | src/lib/env/conflict-detector.ts:57-150 | The loop pushes each key's conflicts in key order |
| ConflictDetector.DetectConflicts | src/lib/env/conflict-detector.ts:47-157 | `detectConflicts` is the conflicts per key, sorted by severity |
| ConflictDetector.BandsPermutes | src/lib/env/conflict-detector.ts:154 | The severity sort keeps every conflict with its multiplicity |
| ConflictDetector.InDetect | src/lib/env/conflict-detector.ts:47-157 | A conflict is in the result iff some key of the input yields it |
| ConflictDetector.MissingValueIff | src/lib/env/conflict-detector.ts:63-96 | "missing-"+key is reported iff the key is set in some but not all environments; it is critical iff production is missing |
| ConflictDetector.ConfigMismatchIff | src/lib/env/conflict-detector.ts:100-147 | "config-"+key (info) is reported iff ≥2 environments, >1 distinct value hash and >1 distinct non-null service id |
| ConflictDetector.NoCriticalMismatch | src/lib/env/conflict-detector.ts:47-157 | The critical_mismatch type is never produced |
| ConflictDetector.AffectedServicesDistinct | src/lib/env/conflict-detector.ts:83-85 | affected_services holds non-empty names of the key's variables, each once |
| ConflictDetector.DetectShape | src/lib/env/conflict-detector.ts:152-154 | Each key yields at most one conflict of each type, and the result is ordered critical, warning, info |
| RateLimit.PruneMembers | src/lib/rate-limit.ts:45 | Pruning keeps exactly the timestamps after the window start, in order |
| RateLimit.StepOutcome | src/lib/rate-limit.ts:47-57 | A refused call stores only in-window timestamps and reports 0; an accepted one appends now and reports limit − new count ≥ 0 |
| RateLimit.StepResetAt | src/lib/rate-limit.ts:49-55 | resetAt is the earliest stored in-window timestamp plus the window, on both paths |
| RateLimit.StepBounded | src/lib/rate-limit.ts:47-57 | If every key holds at most `limit` timestamps before a call, it still does after |
| RateLimit.Limiter.constructor | src/lib/rate-limit.ts:7 | The store starts empty |
| RateLimit.Limiter.Call | src/lib/rate-limit.ts:30-58 | `rateLimit` updates only the called key's entry, to the pruned list plus now when accepted |
| RateLimit.RateLimitKeyShape | src/lib/rate-limit.ts:64-69 | The key is "action:userId", with ":ip" appended exactly when ip is non-empty |
| RateLimit.RetryAfterSeconds | src/lib/rate-limit.ts:90 | Retry-After is at least one second |
| RateLimit.HeadersShape | src/lib/rate-limit.ts:75-95 | Remaining is clamped at 0; Reset is present iff resetAt is truthy; Retry-After iff in addition nothing remains |
| ZoneLayout.DomainToZoneCases | src/lib/layout/zone-layout.ts:28-37 | Infrastructure goes to frontend, devtools and observability to devtools, everything else and null to backend |
| ZoneLayout.ZoneSize | src/lib/layout/zone-layout.ts:85-92 | Every zone is MIN_ZONE_WIDTH wide; its height grows 60 per row of three and is never below the minimum |
| ZoneLayout.GroupByZone | src/lib/layout/zone-layout.ts:77-82 | The grouping loop pushes each id into its domain's zone, in input order |
| ZoneLayout.BuildNodeMap | src/lib/layout/zone-layout.ts:99 | `nodeMap.get(id)` is the last node with that id |
| ZoneLayout.PlaceZone | src/lib/layout/zone-layout.ts:125-139 | The forEach places each zone member at its grid cell |
| ZoneLayout.ComputeZoneLayout | src/lib/layout/zone-layout.ts:69-145 | `computeZoneLayout` emits each zone node followed by its placed services |
| ZoneLayout.LayoutShape | src/lib/layout/zone-layout.ts:102-139 | The layout is the three zones in ZONE_ORDER, each followed by its own service nodes only |
| ZoneLayout.XOffsets | src/lib/layout/zone-layout.ts:100-141 | The zones start at x = 0, 592 and 1184 |
| ZoneLayout.ZoneBoxes | src/lib/layout/zone-layout.ts:105-122 | The zone nodes are zone-frontend, zone-backend and zone-devtools, of the common maximum height and MIN_ZONE_WIDTH, each counting its nodes |
| ZoneLayout.PlacedNodes | src/lib/layout/zone-layout.ts:125-139 | The idx-th node of a zone sits at (24 + (idx mod 3)·176, 68 + (idx div 3)·60) with parentId "zone-"+zone and extent parent |
| ZoneLayout.MembersPartition | src/lib/layout/zone-layout.ts:77-82 | The three member lists together hold each input id as often as the input does |
| ZoneLayout.LastByIdUnique | src/lib/layout/zone-layout.ts:126 | With distinct ids, the node placed for an id is that input node |
| SiteEditor.FileTypeTests | src/components/my-sites/site-editor-client.tsx:68-99 | The tests ignore case and reject a null path; every TSX/JSX file is also a JS file |
| SiteEditor.TsxBeforeJs | src/components/my-sites/site-editor-client.tsx:101-128 | TSX is tested before JS for the icon, colour and badge; a badge exists exactly for the code types |
| SiteEditor.FindDir | src/components/my-sites/site-editor-client.tsx:157 | `find` returns the first directory node with the name, and none when no directory node has it |
| SiteEditor.PrecedesOrder | src/components/my-sites/site-editor-client.tsx:173-176 | Directories first, then by name, is a total preorder |
| SiteEditor.SortBySpec | src/components/my-sites/site-editor-client.tsx:173-176 | The sort orders by the comparator and permutes its input |
| SiteEditor.BuildFileTree | src/components/my-sites/site-editor-client.tsx:141-183 | The loop inserts every file into the tree, and the tree is then sorted |
| SiteEditor.SortTreeSpec | src/components/my-sites/site-editor-client.tsx:172-181 | After sorting, directories precede files and each group is in name order at every depth; the leaves are kept |
| SiteEditor.BuildFileTreeLeaves | src/components/my-sites/site-editor-client.tsx:141-183 | The tree's leaves are exactly the input paths, once per file; the tree is sorted and well formed at every depth |
| SiteEditor.SortTreeFormed | src/components/my-sites/site-editor-client.tsx:172-181 | Sorting keeps a tree well formed: each directory's path is its parent's path plus its name, each file is named by its path's last part, and no two sibling directories share a name |
| SiteEditor.FirstHtml | src/components/my-sites/site-editor-client.tsx:297-299 | The first HTML path of the listing, and none when the listing has no HTML path |
| SiteEditor.InjectAfterHead | src/components/my-sites/site-editor-client.tsx:320-322 | With `<head>`, the tags go right after its first occurrence, with the `$` patterns of the replacement expanded as `String.replace` does; without `$` they go in literally |
| SiteEditor.InjectBeforeCloseHead | src/components/my-sites/site-editor-client.tsx:323-326 | Without `<head>` but with `</head>`, the tags go right before it, `$` patterns expanded; with neither they go in front; an empty page stays empty |
| SiteEditor.InjectDollarQuote | src/components/my-sites/site-editor-client.tsx:320-322 | On any page that starts with `<head>`, a `$'` in the injected text copies the rest of the page into the head |
| SiteEditor.InjectDollarDollar | src/components/my-sites/site-editor-client.tsx:320-322 | A `$$` in the injected text becomes a single `$` |
| SiteEditor.CssContentsSpec | src/components/my-sites/site-editor-client.tsx:309-312 | Some stylesheet is collected exactly when some listed CSS file has non-empty text (the editor's for the selected file, else the cached one) |
| SiteEditor.InjectedParts | src/components/my-sites/site-editor-client.tsx:307-318 | The base tag is injected iff the live URL is set, the style block iff some CSS content is non-empty |
| ChatTerminal.ExtractCodeBlocks | src/components/my-sites/chat-terminal.tsx:44-69 | File blocks win; plain fences are read only when no file block matched |
| ChatTerminal.FileBlocks | src/components/my-sites/chat-terminal.tsx:47-54 | The first `exec` loop pushes one block per file-block match, in match order |
| ChatTerminal.FileBlocksSpec | src/components/my-sites/chat-terminal.tsx:48-53 | Each file block has the trimmed path and body, the language tag or html, and is new exactly when its path is not among the site's files |
| ChatTerminal.FallbackBlocks | src/components/my-sites/chat-terminal.tsx:56-66 | The fallback loop pushes, in order, a block for each fence with a non-blank body while a file is open |
| ChatTerminal.FenceBlocksSpec | src/components/my-sites/chat-terminal.tsx:56-66 | Fallback blocks target the open file, are not new and have non-blank trimmed bodies; with no open file there are none |
| ChatTerminal.HasCodeBlockSpec | src/components/my-sites/chat-terminal.tsx:71-73 | `hasCodeBlock` holds iff the text has a fence: three backticks, a word-character tag, a newline and a later closing fence |
| ChatTerminal.HasCodeBlockExample | src/components/my-sites/chat-terminal.tsx:71-73 | A fenced block with a tag and a body is detected |
| ChatTerminal.OneLineFenceIsNoBlock | src/components/my-sites/chat-terminal.tsx:71-73 | A fence without a newline after its tag is not a code block |
| ChatTerminal.ApplySingle | src/components/my-sites/chat-terminal.tsx:211-216 | `handleApplySingle` applies code only for one existing block for the open file |
| ChatTerminal.ApplySingleCases | src/components/my-sites/chat-terminal.tsx:211-216 | One fenced block and no file block is applied, trimmed; a single block for a new file never is |
| ModulePanel.MovedSpec | src/components/my-sites/module-panel.tsx:209-211 | The splice move keeps length and elements, puts the moved one at the target, and keeps the others' order |
| ModulePanel.DragEnd | src/components/my-sites/module-panel.tsx:200-214 | No change without a target, when dropped on itself, or for unknown ids |
| ModulePanel.DragEndPermutes | src/components/my-sites/module-panel.tsx:200-214 | Dragging permutes the order and drops the module where the target was |
| ModulePanel.MoveUp | src/components/my-sites/module-panel.tsx:266-275 | Swap with the predecessor; nothing for the first or an unknown module |
| ModulePanel.MoveDown | src/components/my-sites/module-panel.tsx:277-286 | Swap with the successor; nothing for the last or an unknown module |
| ModulePanel.MoveUpDown | src/components/my-sites/module-panel.tsx:266-286 | Moving up and then down restores the order |
| ModulePanel.ToggleSpec | src/components/my-sites/module-panel.tsx:230-246 | A required module cannot be switched; switching on appends to enabled and to order if absent; switching off removes every occurrence |
| ModulePanel.FieldChangeSpec | src/components/my-sites/module-panel.tsx:249-263 | Exactly one field of one module changes |
| ModulePanel.ApplyPresetSpec | src/components/my-sites/module-panel.tsx:217-227 | The preset replaces the lists it carries and merges values module by module |
| ModuleForm.Items | src/components/my-sites/module-form.tsx:187 | A non-array value reads as an empty list |
| ModuleForm.CanAddSpec | src/components/my-sites/module-form.tsx:189 | Without a positive cap anything may be added; with one, adding stops at the cap |
| ModuleForm.DefaultItemValues | src/components/my-sites/module-form.tsx:203-206 | Each key of the new item holds the default of the last sub-field with that key |
| ModuleForm.Add | src/components/my-sites/module-form.tsx:201-208 | No change when adding is not allowed or there is no item schema; otherwise one default item is appended |
| ModuleForm.AddGrows | src/components/my-sites/module-form.tsx:201-208 | Adding grows the list by one, keeps the items and respects the cap |
| ModuleForm.ItemChangeSpec | src/components/my-sites/module-form.tsx:191-199 | Only the item at the index changes; it becomes an object holding what `{ ...item }` copies, with only the key set to the new value |
| ModuleForm.IndexFieldsSpec | src/components/my-sites/module-form.tsx:194 | What `{ ...item }` copies from an array (its elements) or a string (its characters): each one under its decimal index, and no other key |
| ModuleForm.ItemChangeOfString | src/components/my-sites/module-form.tsx:194 | Changing `title` of a string item `"ab"` gives `{ "0": "a", "1": "b", title: "x" }` |
| ModuleForm.RemoveSpec | src/components/my-sites/module-form.tsx:210-215 | Exactly the item at the index is removed; an index outside the list removes nothing |
| TemplatePicker.ValidateSiteNameSpec | src/components/oneclick/template-picker-step.tsx:63-76 | A name is accepted iff it has 2 to 100 UTF-16 code units and fits the pattern; the length checks come first |
| TemplatePicker.NameCharsLength | src/components/oneclick/template-picker-step.tsx:63-76 | A name made of pattern characters has as many code units as characters |
| TemplatePicker.NormalizeKeeps | src/components/oneclick/template-picker-step.tsx:79 | A string of name characters passes through unchanged |
| TemplatePicker.NormalizeIdempotent | src/components/oneclick/template-picker-step.tsx:79 | Normalising twice is normalising once |
| TemplatePicker.SiteNameChangeSpec | src/components/oneclick/template-picker-step.tsx:78-88 | Short input clears the error, longer input gets the validator's verdict, so proceeding implies a valid name |
| TemplatePicker.TypedValidNameKept | src/components/oneclick/template-picker-step.tsx:78-86 | A valid name typed as is survives normalisation |
| TemplatePicker.GeneratedNameValid | src/hooks/use-deploy-machine.ts:208-215 | Every generated site name passes the picker's validator |
| TemplatePicker.GradientFromSpec | src/components/oneclick/template-picker-step.tsx:42-47 | The colours of the first entry whose key occurs in some tag, else the default |
| TemplatePicker.TemplateGradientExamples | src/components/oneclick/template-picker-step.tsx:35-47 | No tags give the default; a community tag gives the community colours |
| SystemStatus.ComputeSystemStatusSpec | src/components/dashboard/system-status-badge.tsx:8-28 | Unknown iff no cards or no checks; major outage iff some card is unhealthy and at least half of the checked are; degraded iff otherwise some is unhealthy or degraded |
| SystemStatus.OnlyCardsCount | src/components/dashboard/system-status-badge.tsx:14-16 | Checks of services without a card do not matter |
| AlertsList.SortBySeverity | src/components/service-map/views/alerts-list.tsx:52 | The sort orders by severity and permutes the items; a list already in order is left unchanged |
| AlertsList.InsertAt | src/components/service-map/views/alerts-list.tsx:52 | One insertion pass extends the sorted prefix by one item, permuting the array, and moves nothing when the item is already in place |
| AlertsList.PushItems | src/components/service-map/views/alerts-list.tsx:35-48 | One item per positive count, in push order; the list is empty exactly when all three counts are zero |
| AlertsList.Alerts | src/components/service-map/views/alerts-list.tsx:33-52 | None exactly when the unhealthy, missing and not-started counts are all zero; otherwise the pushed items, which the sort leaves in push order |
| AlertsList.PushedSpec | src/components/service-map/views/alerts-list.tsx:35-48 | An error, warning or info item exists iff its count is positive, with that count, in severity order |
| AlertsList.UnhealthyCount | src/components/service-map/views/alerts-list.tsx:35 | The error count is positive iff some check is unhealthy |
| AlertsList.MissingEnvCount | src/components/service-map/views/alerts-list.tsx:40 | The warning count is positive iff some variable has no value |
| AlertsList.NotStartedCount | src/components/service-map/views/alerts-list.tsx:45 | The info count is positive iff some service is not started |
| CompareClient.ToggleSpec | src/components/service/compare-client.tsx:38-42 | A selected slug is dropped; an unselected one is appended while fewer than four are selected |
| CompareClient.ToggleKeepsBound | src/components/service/compare-client.tsx:35-42 | From the empty start, every toggle keeps at most four distinct slugs |
| CompareClient.CategoriesSpec | src/components/service/compare-client.tsx:29-32 | Each category of some comparison appears once, in first-appearance order |
| CompareClient.FilteredSpec | src/components/service/compare-client.tsx:44-47 | 'all' keeps everything; a category keeps exactly its comparisons, as a subsequence in input order |
| UseAiChat.ParseRecommendations | src/lib/hooks/use-ai-chat.ts:16-31 | The loop collects the arrays of the well-formed blocks, in text order |
| UseAiChat.CollectedSpec | src/lib/hooks/use-ai-chat.ts:16-31 | A recommendation is collected iff some block parses to an array holding it |
| UseAiChat.CollectedSkipsMalformed | src/lib/hooks/use-ai-chat.ts:26-28 | Malformed blocks contribute nothing |
| UseAiChat.StripSpec | src/lib/hooks/use-ai-chat.ts:33-35 | Stripping keeps exactly the plain runs, trimmed; a text without blocks is only trimmed |
| UseAiChat.CollectedIgnoresPlain | src/lib/hooks/use-ai-chat.ts:16-31 | Plain text never yields recommendations |
| UseAiChat.ReplyMessageSpec | src/lib/hooks/use-ai-chat.ts:113-120 | The reply's content is the stripped text or the full text; recommendations are absent iff none were collected |
| UseAiChat.SplitAppend | src/lib/hooks/use-ai-chat.ts:86-88 | Splitting buffer+chunk keeps the complete lines and re-splits the tail |
| UseAiChat.ReadStream | src/lib/hooks/use-ai-chat.ts:79-110 | The read loop's final state equals the fold of the step over the complete lines of the concatenated chunks |
| UseAiChat.HandleLines | src/lib/hooks/use-ai-chat.ts:90-109 | The inner loop folds the step over the given lines |
| UseAiChat.FoldText | src/lib/hooks/use-ai-chat.ts:90-105 | The full text is the concatenation of the chunks of the chunk lines, in order |
| UseAiChat.FoldNoError | src/lib/hooks/use-ai-chat.ts:98-101 | Without an error line the error stays as it was |
| UseAiChat.FoldLastError | src/lib/hooks/use-ai-chat.ts:98-101 | The error is the last error line's message |
| UseAiChat.AiChat.constructor | src/lib/hooks/use-ai-chat.ts:38-41 | The hook starts with no messages, no streaming text, not streaming, no error |
| UseAiChat.AiChat.SendMessage | src/lib/hooks/use-ai-chat.ts:44-132 | The user message is appended; on success the reply follows; on refusal or failure the error is set; on abort nothing more is added; streaming ends |
| UseAiChat.AiChat.Stop | src/lib/hooks/use-ai-chat.ts:134-150 | Any streamed text becomes a reply message; streaming ends |
| UseAiChat.AiChat.Reset | src/lib/hooks/use-ai-chat.ts:152-158 | Messages, streaming text and error are cleared, and streaming ends |
| ServiceMapNodes.AssocLast | src/components/service-map/hooks/useServiceMapNodes.ts:53-59 | In a lookup table built in order, the last entry for a key wins |
| ServiceMapNodes.ServiceNames | src/components/service-map/hooks/useServiceMapNodes.ts:53-59 | The loop maps each catalogue id to its name, the last one winning |
| ServiceMapNodes.CurrentServiceIds | src/components/service-map/hooks/useServiceMapNodes.ts:63-65 | An id is current iff some project service has it |
| ServiceMapNodes.RelevantDependenciesSpec | src/components/service-map/hooks/useServiceMapNodes.ts:67-71 | A dependency is kept iff both ends are current; the kept ones are a subsequence of the input, in order |
| ServiceMapNodes.SelectedServiceDepsSpec | src/components/service-map/hooks/useServiceMapNodes.ts:73-79 | No id gives nothing; otherwise exactly the dependencies from that service |
| ServiceMapNodes.ServiceIdToNodeId | src/components/service-map/hooks/useServiceMapNodes.ts:81-87 | The loop maps each catalogue id to the node id of its last project service |
| ServiceMapNodes.NodeIdsSpec | src/components/service-map/hooks/useServiceMapNodes.ts:81-87 | Every current id has a node id |
| ServiceMapNodes.NodeDomainMap | src/components/service-map/hooks/useServiceMapNodes.ts:90-97 | The loop maps node ids to the non-empty domains of their services |
| ServiceMapNodes.GetDomainSpec | src/components/service-map/hooks/useServiceMapNodes.ts:99-102 | A node's domain, or null when it has none |
| ServiceMapNodes.ServiceNodesSpec | src/components/service-map/hooks/useServiceMapNodes.ts:105-126 | One node per project service, in order: its id and status, the service's name as caption or "Unknown", its slug as icon exactly when the service is known, its non-empty category and domain or else 'other' and 'integration', highlight iff the search is empty or matches the name |
| ServiceMapNodes.EmptyQueryHighlightsAll | src/components/service-map/hooks/useServiceMapNodes.ts:109 | An empty search highlights every node |
| ServiceMapNodes.RawEdges | src/components/service-map/hooks/useServiceMapNodes.ts:129-166 | The two loops produce the dependency edges, then the connection edges |
| ServiceMapNodes.DepEdgesSpec | src/components/service-map/hooks/useServiceMapNodes.ts:133-145 | An edge `dep-`+id joining two node ids exists iff it is built from a dependency whose two ends have node ids |
| ServiceMapNodes.ConnEdgesSpec | src/components/service-map/hooks/useServiceMapNodes.ts:148-163 | An edge `uc-`+id joining two node ids exists iff it is built from a connection whose two ends have node ids |
| ServiceMapNodes.RawEdgesJoinNodes | src/components/service-map/hooks/useServiceMapNodes.ts:129-166 | Every edge joins two node ids of project services |
| ServiceMapNodes.RawEdgesOrder | src/components/service-map/hooks/useServiceMapNodes.ts:129-166 | Dependency edges come before connection edges |
| ServiceMapNodes.RelevantDependencyDrawn | src/components/service-map/hooks/useServiceMapNodes.ts:133-145 | Every relevant dependency is drawn |
| AutoConnect.PickSpec | src/lib/connections/__tests__/auto-connect.test.ts:47-85 | A pick comes from an eligible dependency of that type, and every such dependency gives one |
| AutoConnect.SuggestSpec | src/lib/connections/__tests__/auto-connect.test.ts:48-107 | Exactly the eligible non-alternative dependencies: both ends in the project, not connected either way; required → uses, recommended → integrates |
| AutoConnect.SuggestOrdered | src/lib/connections/__tests__/auto-connect.test.ts:109-125 | Required suggestions first, then recommended, then optional |
| AutoConnect.EmptyInputs | src/lib/connections/__tests__/auto-connect.test.ts:143-145 | Empty inputs give no suggestions |
| HealthScore.Round | src/__tests__/health-score.test.ts:77-93 | Math.round(p/q) is the nearest integer, halves up |
| HealthScore.PercentBounds | src/__tests__/health-score.test.ts:62-76 | A percentage lies in 0..100, and is 0 for none and 100 for all |
| HealthScore.ScoreBounds | src/__tests__/health-score.test.ts:56-100 | Every part of the score lies in 0..100 |
| HealthScore.NoServices | src/__tests__/health-score.test.ts:56-60 | No services give overall 0 and connected 0 |
| HealthScore.AllIdeal | src/__tests__/health-score.test.ts:62-76 | All connected, healthy and filled give 100 everywhere |
| HealthScore.OverallMonotone | src/__tests__/health-score.test.ts:77-93 | The overall score never falls when a part rises |
| HealthScore.MixedExample | src/__tests__/health-score.test.ts:77-93 | 1 of 2 connected, 0 of 1 healthy and 1 of 2 filled score 35, from 50/0/50 |
| HealthScore.GradeMonotone | src/__tests__/health-score.test.ts:103-118 | A higher score never gets a worse grade; the boundaries are 40 and 70 |
| MaskValue.MaskValueSpec | src/lib/crypto/index.test.ts:72-86 | Short values show four marks; longer ones keep four characters and add min(len − 4, 20) marks |
| MaskValue.MaskHidesRest | src/lib/crypto/index.test.ts:73-75 | Nothing past the fourth character is revealed |
| MaskValue.MaskExamples | src/lib/crypto/index.test.ts:72-86 | The test's three cases |
| CliCheck.VarNamesSpec | packages/cli/src/index.ts:98-104 | The names are the keys of the variable lines, each once, in first-appearance order |
| CliCheck.IndentedCommentCounts | packages/cli/src/index.ts:102 | The '#' test is made before trimming, so an indented comment is read as a variable |
| CliCheck.MissingSpec | packages/cli/src/index.ts:109-126 | A name is missing iff the example has it and the .env does not; each once, in the example's order |
| CliCheck.EmptyVarsSpec | packages/cli/src/index.ts:128-136 | A name is reported empty iff some variable line with that name has an empty value |
| CliCheck.DoubleEqualsIsEmpty | packages/cli/src/index.ts:133-134 | Only the text up to a second '=' is the value, so "A==x" counts as empty |
| CliCheck.CheckSpec | packages/cli/src/index.ts:90-142 | No .env stops the check; otherwise the count is the number of distinct names, and the missing list is there iff the example is |

## Left out

- Regular-expression engines and `JSON.parse`: patterns are modelled by
  the matches they yield, given as inputs or as a decomposition of the
  text. JSON parsing is a function parameter.
- I/O is not modelled:
  - Supabase, GitHub, fetch and the file system;
  - `console` output, which is the `Report` value;
  - audit logging.
  The responses are inputs (`PagesLookup`, `RunLookup`, `Response`, file
  contents as `Option<string>`).
- `TextDecoder`: the stream is a sequence of already decoded strings.
- React wiring is not modelled: `useState` setters, `useMemo`/`useCallback`
  and stale closures. Each handler is a function from the current state
  to the next, or a class method.
- Concurrency is not modelled: abort races, overlapping sends, and the
  rate limiter's cleanup interval.
- JSX and the fixed text around generated files are not modelled. So are
  the bodies of the component rewrites (hero gradient, globals.css,
  columns, and the layout's font-link replacement, `</head>` insertion
  and font-family replacement); an `Edit` records which base text is
  rewritten with what values.
- The small-biz, freelancer and other template data files are not part of
  this model.
- `localeCompare` is code-point order. `toLowerCase` is ASCII-only.
- `buildFileTree` mutates nested arrays through a moving pointer. The model
  builds the same tree as a value.
- `computeHealthScore`, `suggestAutoConnections` and `maskValue` are not
  part of this model's sources, only their tests. The implementations are
  reference definitions consistent with every assertion.
- HealthScore.ComputeHealthScore: floating-point division and `Math.round`
  are exact rational rounding (halves up). The healthy and env values for
  a project without services are not fixed by the tests.
- AutoConnect.SuggestAutoConnections: the connection type for optional
  dependencies is a parameter, since the tests do not fix it. Within one
  type the input order is kept. Only a missing description falls back to
  the next one; an empty one is shown as is.
- MaskValue.MaskValue: the mask mark is a parameter. The test file holds
  the bullet in a mis-decoded three-character form.
- RateLimit.Limiter.Call: a negative `limit` is not excluded. Then
  `remaining` can be negative, as in the source.
- DeployPolling.StatusRefetchCases: marking the status 'timeout' is the
  returned flag. The cache update itself is not modelled.
- Time and randomness (`Date.now()`, `Math.random()`) are parameters.
- CodeGenConfig.GenerateReadBack: reads each entry through the per-entry
  lookup, not the first textual match of `key:` that `extractString` takes.
  The two agree when no earlier entry's text holds `key:` and no entry holds
  `\n};` (CodeGenPattern.AsWrittenReadsOwnSlot). The same holds for
  CodeGenConfig.ParseScalars, CodeGenConfig.GenerateThenParse and
  CodeGenConfig.PersonalBrandRoundTrip.
- CodeGenConfig.ParseScalars: reads `parallaxEnabled` from its own entry,
  not from the first match of `parallaxEnabled:\s*(true|false)` anywhere in
  the file as the source does. The two agree when no text before that entry
  holds `parallaxEnabled:` (CodeGenPattern.ParallaxAsWrittenAgrees); see
  Findings. An `export const siteConfig = {` spelled inside an earlier
  constant's text is not modelled.
- The generator writes `story` and `storyEn` over two lines. The model
  writes every entry on one line, which the pattern's `\s*` reads the same
  way.
- MaskValue.MaskValueSpec: lengths are counted in characters, not in the
  UTF-16 code units of JavaScript's `length`.
- ModuleForm.Fields: spreads a string one key per character. JavaScript
  spreads it one key per UTF-16 code unit, so a character above U+FFFF
  gives two keys there, one per surrogate, which a Dafny `char` cannot
  hold.
- Numbers in field values (`Value.Num`) are integers. Fractions such as
  4.5 and magnitudes of 1e21 or more, which `String(x)` writes in exponent
  form, are not expressible. So `CodeGenConfig.JsString` and
  `CodeGenConfig.CountText` write every number in plain decimal digits.

## Findings

| source | as written | input that shows it | evidently intended | confidence | as-written member | corrected member |
|---|---|---|---|---|---|---|
| src/lib/oneclick/code-generator.ts:1596-1599 | DEMO_VALUES item fields are read with `'([^']*)'` and not unescaped, although the generator wrote them through `esc` | a value title "it's" is written as `it\'s` and read back as `it\` | read item fields with the quoted-string scan and unescape that `extractString` uses, so every value round-trips | not executed | CodeGenEscape.ItemFieldAsWrittenLosesApostrophe | CodeGenEscape.ItemField |
| src/lib/oneclick/code-generator.ts:1596-1599 | The same capture keeps the escaping backslashes | a desc `a\b` is written as `a\\b` and read back as `a\\b` | as above | not executed | CodeGenEscape.ItemFieldAsWrittenDoublesBackslash | CodeGenEscape.ItemField |
| src/lib/oneclick/code-generator.ts:1539-1553 | `extractString` takes the first textual match of `key:` anywhere before the first `\n};`, even inside an earlier value | a tagline "Contact email:" makes email read as `,\n  taglineEn: process.env.NEXT_PUBLIC_TAGLINE_EN \|\| ` | read the entry written for the key | not executed | CodeGenPattern.EmailReadFromTagline | CodeGenConfig.GenerateReadBack |
| src/lib/oneclick/code-generator.ts:1570-1571 | `parallaxEnabled` is read from the first match of `parallaxEnabled:\s*(true\|false)` anywhere in the file, even inside an earlier value | a tagline "parallaxEnabled: true" with `hero.parallaxEnabled` false reads back true | read the entry written for the flag | not executed | CodeGenPattern.ParallaxReadFromTagline | CodeGenConfig.ParallaxRoundTrip |

=== FILE: alerts_list.dfy ===
/** The alert list of the service map
    (src/components/service-map/views/alerts-list.tsx): one item per kind
    of problem, with its count, sorted by severity. The message is the
    translation key the item is shown with. */
module AlertsList {
  import opened Text

  datatype Severity = Error | Warning | Info

  /** `severityOrder` */
  function Rank(s: Severity): nat {
    match s
    case Error => 0
    case Warning => 1
    case Info => 2
  }

  datatype AlertItem = AlertItem(severity: Severity, message: string, count: nat)

  /** `x` may come before `y`: its severity rank is not higher. */
  predicate InOrder(x: AlertItem, y: AlertItem) {
    Rank(x.severity) <= Rank(y.severity)
  }

  predicate SortedBySeverity(items: seq<AlertItem>) {
    forall i, j {:trigger InOrder(items[i], items[j])} :: 0 <= i < j < |items| ==> InOrder(items[i], items[j])
  }

  /** Sorted by rank everywhere in `s[..hi]` except that position `hole` may
      be out of place. */
  predicate SortedExcept(s: seq<AlertItem>, hi: nat, hole: nat)
    requires hi <= |s|
  {
    forall p, q {:trigger InOrder(s[p], s[q])} :: 0 <= p < q < hi && q != hole ==> InOrder(s[p], s[q])
  }

  lemma SwapMultiset(s: seq<AlertItem>, i: nat, j: nat)
    requires i < |s| && j < |s|
    ensures multiset(s[i := s[j]][j := s[i]]) == multiset(s)
  {
  }

  /** Swapping the hole with a predecessor of strictly higher rank moves
      the hole one place down. */
  lemma SwapDown(s: seq<AlertItem>, hi: nat, j: nat)
    requires 0 < j < hi <= |s| && SortedExcept(s, hi, j)
    requires Rank(s[j - 1].severity) > Rank(s[j].severity)
    ensures SortedExcept(s[j - 1 := s[j]][j := s[j - 1]], hi, j - 1)
  {
  }

  /** A hole not below its predecessor is in place. */
  lemma Settled(s: seq<AlertItem>, hi: nat, j: nat)
    requires j < hi <= |s| && SortedExcept(s, hi, j)
    requires j == 0 || Rank(s[j - 1].severity) <= Rank(s[j].severity)
    ensures SortedExcept(s, hi, hi)
  {
    forall p, q | 0 <= p < q < hi
      ensures InOrder(s[p], s[q])
    {
      if q == j {
        assert p <= j - 1;
        if p < j - 1 {
          assert InOrder(s[p], s[j - 1]);
        }
      }
    }
  }

  /** `items.sort((a, b) => severityOrder[a.severity] - severityOrder[b.severity])`,
      an insertion sort by adjacent swaps that moves an item only past a
      strictly higher rank. */
  method SortBySeverity(a: array<AlertItem>)
    modifies a
    ensures SortedBySeverity(a[..])
    ensures multiset(a[..]) == multiset(old(a[..]))
    ensures SortedBySeverity(old(a[..])) ==> a[..] == old(a[..])
  {
    for i := 0 to a.Length
      invariant SortedExcept(a[..], i, i)
      invariant multiset(a[..]) == multiset(old(a[..]))
      invariant SortedBySeverity(old(a[..])) ==> a[..] == old(a[..])
    {
      InsertAt(a, i);
    }
  }

  /** One pass of the insertion sort: the item at i sinks past every
      predecessor of strictly higher rank; an item already in place stays. */
  method InsertAt(a: array<AlertItem>, i: nat)
    requires i < a.Length && SortedExcept(a[..], i, i)
    modifies a
    ensures SortedExcept(a[..], i + 1, i + 1)
    ensures multiset(a[..]) == multiset(old(a[..]))
    ensures (i == 0 || InOrder(old(a[i - 1]), old(a[i]))) ==> a[..] == old(a[..])
  {
    ghost var s := a[..];
    var j: nat := i;
    while j > 0 && Rank(a[j - 1].severity) > Rank(a[j].severity)
      invariant j <= i && InsertInv(a[..], s, i, j)
    {
      ghost var t := a[..];
      a[j - 1], a[j] := a[j], a[j - 1];
      assert a[..] == t[j - 1 := t[j]][j := t[j - 1]];
      InsertStep(t, s, i, j);
      j := j - 1;
    }
    InsertDone(a[..], s, i, j);
  }

  /** The state of a pass that started from s and has the moving item at j. */
  ghost predicate InsertInv(t: seq<AlertItem>, s: seq<AlertItem>, i: nat, j: nat) {
    j <= i < |t| == |s| && SortedExcept(t, i + 1, j) && multiset(t) == multiset(s) &&
    (j == i ==> t == s) &&
    (j < i ==> 0 < i && Rank(s[i - 1].severity) > Rank(s[i].severity))
  }

  /** A swap with a predecessor of strictly higher rank keeps the state. */
  lemma InsertStep(t: seq<AlertItem>, s: seq<AlertItem>, i: nat, j: nat)
    requires InsertInv(t, s, i, j) && 0 < j && Rank(t[j - 1].severity) > Rank(t[j].severity)
    ensures InsertInv(t[j - 1 := t[j]][j := t[j - 1]], s, i, j - 1)
  {
    var t' := t[j - 1 := t[j]][j := t[j - 1]];
    SwapMultiset(t, j - 1, j);
    SwapDown(t, i + 1, j);
    StepOutOfOrder(t, s, i, j);
  }

  /** A pass takes a step only when the new item was out of order. */
  lemma StepOutOfOrder(t: seq<AlertItem>, s: seq<AlertItem>, i: nat, j: nat)
    requires 0 < j <= i < |t| == |s| && Rank(t[j - 1].severity) > Rank(t[j].severity)
    requires (j == i ==> t == s) && (j < i ==> 0 < i && Rank(s[i - 1].severity) > Rank(s[i].severity))
    ensures 0 < i && Rank(s[i - 1].severity) > Rank(s[i].severity)
  {
    if j == i {
      assert t[j - 1] == s[i - 1] && t[j] == s[i];
    }
  }

  /** A pass ends with the first i + 1 items sorted. */
  lemma InsertDone(t: seq<AlertItem>, s: seq<AlertItem>, i: nat, j: nat)
    requires InsertInv(t, s, i, j) && (j == 0 || Rank(t[j - 1].severity) <= Rank(t[j].severity))
    ensures SortedExcept(t, i + 1, i + 1) && multiset(t) == multiset(s)
    ensures (i == 0 || InOrder(s[i - 1], s[i])) ==> t == s
  {
    Settled(t, i + 1, j);
  }

  /** `!e.encrypted_value || e.encrypted_value === ''` */
  predicate Missing(v: Option<string>) {
    v.None? || v.value == ""
  }

  function IsUnhealthy(): string -> bool { (s: string) => s == "unhealthy" }
  function IsMissing(): Option<string> -> bool { (v: Option<string>) => Missing(v) }
  function IsNotStarted(): string -> bool { (s: string) => s == "not_started" }

  /** The items as pushed, before sorting. */
  function Pushed(u: nat, m: nat, n: nat): seq<AlertItem> {
    (if u > 0 then [AlertItem(Error, "serviceMap.alerts.unhealthy", u)] else []) +
    (if m > 0 then [AlertItem(Warning, "serviceMap.alerts.missingEnv", m)] else []) +
    (if n > 0 then [AlertItem(Info, "serviceMap.alerts.notConnected", n)] else [])
  }

  /** The items in push order are already in severity order. */
  lemma PushedSorted(u: nat, m: nat, n: nat)
    ensures SortedBySeverity(Pushed(u, m, n))
  {
  }

  /** The list for the latest check statuses (`Object.values(healthChecks)`),
      the environment variables' stored values and the services' statuses;
      None when there is nothing to show. */
  method Alerts(checkStatuses: seq<string>, envValues: seq<Option<string>>, serviceStatuses: seq<string>)
    returns (r: Option<seq<AlertItem>>)
    ensures var u, m, n := CountWhere(checkStatuses, IsUnhealthy()), CountWhere(envValues, IsMissing()),
                          CountWhere(serviceStatuses, IsNotStarted());
      (r.None? <==> u == 0 && m == 0 && n == 0) &&
      (r.Some? ==> r.value == Pushed(u, m, n))
  {
    var unhealthyCount := CountWhere(checkStatuses, IsUnhealthy());
    var missingEnvCount := CountWhere(envValues, IsMissing());
    var notConnectedCount := CountWhere(serviceStatuses, IsNotStarted());
    var items := PushItems(unhealthyCount, missingEnvCount, notConnectedCount);
    if |items| == 0 {
      return None;
    }
    var a := new AlertItem[|items|](k requires 0 <= k < |items| => items[k]);
    assert a[..] == items;
    PushedSorted(unhealthyCount, missingEnvCount, notConnectedCount);
    SortBySeverity(a);
    return Some(a[..]);
  }

  /** The pushes of `alerts`: one item per positive count, nothing when
      every count is zero. */
  method PushItems(u: nat, m: nat, n: nat) returns (items: seq<AlertItem>)
    ensures items == Pushed(u, m, n)
    ensures |items| == 0 <==> u == 0 && m == 0 && n == 0
  {
    items := [];
    if u > 0 {
      items := items + [AlertItem(Error, "serviceMap.alerts.unhealthy", u)];
    }
    if m > 0 {
      items := items + [AlertItem(Warning, "serviceMap.alerts.missingEnv", m)];
    }
    if n > 0 {
      items := items + [AlertItem(Info, "serviceMap.alerts.notConnected", n)];
    }
  }

  /** An error item exists iff its count is positive, and likewise for
      warnings and information; each carries its count; the list is in
      severity order. */
  lemma PushedSpec(u: nat, m: nat, n: nat)
    ensures var items := Pushed(u, m, n);
      ((exists k :: 0 <= k < |items| && items[k].severity == Error) <==> u > 0) &&
      ((exists k :: 0 <= k < |items| && items[k].severity == Warning) <==> m > 0) &&
      ((exists k :: 0 <= k < |items| && items[k].severity == Info) <==> n > 0) &&
      (forall k :: 0 <= k < |items| ==> (items[k].count ==
         match items[k].severity
         case Error => u
         case Warning => m
         case Info => n)) &&
      SortedBySeverity(items) && |items| <= 3
  {
    var items := Pushed(u, m, n);
    if u > 0 {
      assert items[0].severity == Error;
    }
    if m > 0 {
      assert items[if u > 0 then 1 else 0].severity == Warning;
    }
    if n > 0 {
      assert items[|items| - 1].severity == Info;
    }
  }

  /** The error count is positive exactly when some check is unhealthy. */
  lemma UnhealthyCount(checkStatuses: seq<string>)
    ensures CountWhere(checkStatuses, IsUnhealthy()) > 0 <==>
      exists i :: 0 <= i < |checkStatuses| && checkStatuses[i] == "unhealthy"
  {
    CountWhereSpec(checkStatuses, IsUnhealthy());
  }

  /** The warning count is positive exactly when some variable has no value. */
  lemma MissingEnvCount(envValues: seq<Option<string>>)
    ensures CountWhere(envValues, IsMissing()) > 0 <==>
      exists i :: 0 <= i < |envValues| && Missing(envValues[i])
  {
    CountWhereSpec(envValues, IsMissing());
  }

  /** The info count is positive exactly when some service is not started. */
  lemma NotStartedCount(serviceStatuses: seq<string>)
    ensures CountWhere(serviceStatuses, IsNotStarted()) > 0 <==>
      exists i :: 0 <= i < |serviceStatuses| && serviceStatuses[i] == "not_started"
  {
    CountWhereSpec(serviceStatuses, IsNotStarted());
  }
}

=== FILE: auto_connect.dfy ===
/** The suggested connections between a project's services
    (`suggestAutoConnections`, whose behaviour is fixed by
    src/lib/connections/__tests__/auto-connect.test.ts): one suggestion per
    catalogue dependency between two services of the project that are not
    yet connected, except the 'alternative' ones, required first, then
    recommended, then optional. */
module AutoConnect {
  import opened Text

  datatype DependencyType = Required | Recommended | Optional | Alternative

  datatype Dependency = Dependency(id: string, serviceId: string, dependsOn: string, dependencyType: DependencyType,
                                   description: Option<string>, descriptionKo: Option<string>)

  datatype Connection = Connection(source: string, target: string)

  datatype Suggestion = Suggestion(source: string, target: string, connectionType: string, reason: string,
                                   dependencyType: DependencyType)

  function TypeName(t: DependencyType): string {
    match t
    case Required => "required"
    case Recommended => "recommended"
    case Optional => "optional"
    case Alternative => "alternative"
  }

  /** The connection type a dependency type suggests; the one for optional
      dependencies is not fixed and is a parameter. */
  function ConnectionTypeFor(t: DependencyType, optionalType: string): string {
    match t
    case Required => "uses"
    case Recommended => "integrates"
    case _ => optionalType
  }

  /** The reason shown: the Korean description, else the description, else
      the dependency type. */
  function Reason(d: Dependency): string {
    if d.descriptionKo.Some? then d.descriptionKo.value
    else if d.description.Some? then d.description.value
    else TypeName(d.dependencyType)
  }

  /** The two services are connected, in either direction. */
  predicate Connected(existing: seq<Connection>, a: string, b: string) {
    exists k :: 0 <= k < |existing| && ((existing[k].source == a && existing[k].target == b) ||
                                        (existing[k].source == b && existing[k].target == a))
  }

  /** Both ends are in the project and not yet connected. */
  predicate Eligible(projectIds: set<string>, existing: seq<Connection>, d: Dependency) {
    d.serviceId in projectIds && d.dependsOn in projectIds && !Connected(existing, d.serviceId, d.dependsOn)
  }

  function ToSuggestion(d: Dependency, optionalType: string): Suggestion {
    Suggestion(d.serviceId, d.dependsOn, ConnectionTypeFor(d.dependencyType, optionalType), Reason(d), d.dependencyType)
  }

  /** The suggestions for the eligible dependencies of type t, in order. */
  function Pick(projectIds: set<string>, deps: seq<Dependency>, existing: seq<Connection>, t: DependencyType,
                optionalType: string): seq<Suggestion>
    decreases |deps|
  {
    if |deps| == 0 then []
    else
      var d := deps[|deps| - 1];
      Pick(projectIds, deps[..|deps| - 1], existing, t, optionalType) +
        (if d.dependencyType == t && Eligible(projectIds, existing, d) then [ToSuggestion(d, optionalType)] else [])
  }

  /** The project's catalogue service ids. */
  function ProjectIds(services: seq<string>): set<string> {
    set k | 0 <= k < |services| :: services[k]
  }

  /** `suggestAutoConnections(projectServices, dependencies, existing)`, the
      project's services given by their catalogue ids. Dependencies of one
      type keep their order. */
  function SuggestAutoConnections(services: seq<string>, deps: seq<Dependency>, existing: seq<Connection>,
                                  optionalType: string): seq<Suggestion> {
    var ids := ProjectIds(services);
    Pick(ids, deps, existing, Required, optionalType) +
    Pick(ids, deps, existing, Recommended, optionalType) +
    Pick(ids, deps, existing, Optional, optionalType)
  }

  /** A picked suggestion comes from an eligible dependency of that type,
      and every such dependency gives one. */
  lemma {:induction false} PickSpec(ids: set<string>, deps: seq<Dependency>, existing: seq<Connection>,
                                    t: DependencyType, optionalType: string)
    ensures forall s :: s in Pick(ids, deps, existing, t, optionalType) ==>
      exists d :: d in deps && d.dependencyType == t && Eligible(ids, existing, d) && s == ToSuggestion(d, optionalType)
    ensures forall d :: d in deps && d.dependencyType == t && Eligible(ids, existing, d) ==>
      ToSuggestion(d, optionalType) in Pick(ids, deps, existing, t, optionalType)
    ensures forall s :: s in Pick(ids, deps, existing, t, optionalType) ==> s.dependencyType == t
    decreases |deps|
  {
    if |deps| > 0 {
      PickSpec(ids, deps[..|deps| - 1], existing, t, optionalType);
      assert forall d :: d in deps ==> d in deps[..|deps| - 1] || d == deps[|deps| - 1];
      assert forall d :: d in deps[..|deps| - 1] ==> d in deps;
    }
  }

  /** What is suggested: exactly the eligible required, recommended and
      optional dependencies, never an alternative one, never a pair that
      is already connected, and never one with an end outside the project;
      required ones map to 'uses' and recommended ones to 'integrates'. */
  lemma SuggestSpec(services: seq<string>, deps: seq<Dependency>, existing: seq<Connection>, optionalType: string)
    ensures var r := SuggestAutoConnections(services, deps, existing, optionalType);
      (forall s :: s in r ==> (s.dependencyType != Alternative &&
         (exists i :: 0 <= i < |services| && services[i] == s.source) &&
         (exists i :: 0 <= i < |services| && services[i] == s.target) &&
         !Connected(existing, s.source, s.target) &&
         (s.dependencyType == Required ==> s.connectionType == "uses") &&
         (s.dependencyType == Recommended ==> s.connectionType == "integrates"))) &&
      (forall d :: d in deps && d.dependencyType != Alternative && Eligible(ProjectIds(services), existing, d) ==>
         ToSuggestion(d, optionalType) in r)
  {
    var ids := ProjectIds(services);
    PickSpec(ids, deps, existing, Required, optionalType);
    PickSpec(ids, deps, existing, Recommended, optionalType);
    PickSpec(ids, deps, existing, Optional, optionalType);
  }

  function Rank(t: DependencyType): nat {
    match t
    case Required => 0
    case Recommended => 1
    case Optional => 2
    case Alternative => 3
  }

  /** Required suggestions come first, then recommended, then optional. */
  lemma SuggestOrdered(services: seq<string>, deps: seq<Dependency>, existing: seq<Connection>, optionalType: string)
    ensures var r := SuggestAutoConnections(services, deps, existing, optionalType);
      forall i, j :: 0 <= i < j < |r| ==> Rank(r[i].dependencyType) <= Rank(r[j].dependencyType)
  {
    var ids := ProjectIds(services);
    var a := Pick(ids, deps, existing, Required, optionalType);
    var b := Pick(ids, deps, existing, Recommended, optionalType);
    var c := Pick(ids, deps, existing, Optional, optionalType);
    PickSpec(ids, deps, existing, Required, optionalType);
    PickSpec(ids, deps, existing, Recommended, optionalType);
    PickSpec(ids, deps, existing, Optional, optionalType);
    var r := a + b + c;
    forall i | 0 <= i < |r|
      ensures Rank(r[i].dependencyType) == if i < |a| then 0 else if i < |a| + |b| then 1 else 2
    {
      if i < |a| {
        assert r[i] in a;
      } else if i < |a| + |b| {
        assert r[i] == b[i - |a|] && r[i] in b;
      } else {
        assert r[i] == c[i - |a| - |b|] && r[i] in c;
      }
    }
  }

  /** No services, dependencies or connections give no suggestions. */
  lemma EmptyInputs(optionalType: string)
    ensures SuggestAutoConnections([], [], [], optionalType) == []
  {
  }
}

=== FILE: chat_terminal.dfy ===
/** The code-block extraction of the site editor's chat terminal
    (src/components/my-sites/chat-terminal.tsx). The two regular
    expressions are not modelled: their successive matches, as `exec`
    returns them, are the inputs. */
module ChatTerminal {
  import opened Text

  /** A match of the file-block pattern: the path line, the fence's
      language tag and the body, as captured. */
  datatype FileMatch = FileMatch(path: string, lang: string, code: string)

  /** A match of the plain-fence pattern: language tag and body. */
  datatype FenceMatch = FenceMatch(lang: string, code: string)

  datatype CodeBlock = CodeBlock(filePath: string, code: string, lang: string, isNew: bool)

  function LangOrHtml(lang: string): (r: string)
    ensures r != ""
    ensures lang != "" ==> r == lang
  {
    if lang == "" then "html" else lang
  }

  /** The block a file-block match becomes. */
  function FileBlock(m: FileMatch, allFiles: seq<string>): CodeBlock {
    var filePath := Trim(m.path);
    CodeBlock(filePath, Trim(m.code), LangOrHtml(m.lang), filePath !in allFiles)
  }

  /** The block a plain-fence match becomes, if its body is not blank and
      a file is open. */
  function FenceBlock(m: FenceMatch, currentFilePath: Option<string>): Option<CodeBlock> {
    var code := Trim(m.code);
    if code != "" && currentFilePath.Some? && currentFilePath.value != "" then
      Some(CodeBlock(currentFilePath.value, code, LangOrHtml(m.lang), false))
    else None
  }

  /** The fallback's blocks, in match order. */
  function FenceBlocks(ms: seq<FenceMatch>, currentFilePath: Option<string>): seq<CodeBlock>
    decreases |ms|
  {
    if |ms| == 0 then []
    else
      var b := FenceBlock(ms[|ms| - 1], currentFilePath);
      FenceBlocks(ms[..|ms| - 1], currentFilePath) + (if b.Some? then [b.value] else [])
  }

  function FileBlockFn(allFiles: seq<string>): FileMatch -> CodeBlock {
    (m: FileMatch) => FileBlock(m, allFiles)
  }

  /** The blocks of a list of matches, in match order. */
  function MapBlocks(ms: seq<FileMatch>, f: FileMatch -> CodeBlock): seq<CodeBlock>
    decreases |ms|
  {
    if |ms| == 0 then [] else MapBlocks(ms[..|ms| - 1], f) + [f(ms[|ms| - 1])]
  }

  /** The file blocks, in match order. */
  function FileBlocksOf(ms: seq<FileMatch>, allFiles: seq<string>): seq<CodeBlock> {
    MapBlocks(ms, FileBlockFn(allFiles))
  }

  /** One file block per match: the trimmed path and body, the language
      tag or html, and new exactly when the path is not among the site's
      files. */
  lemma FileBlocksSpec(ms: seq<FileMatch>, allFiles: seq<string>)
    ensures |FileBlocksOf(ms, allFiles)| == |ms|
    ensures forall i :: 0 <= i < |ms| ==> var b := FileBlocksOf(ms, allFiles)[i];
      b.filePath == Trim(ms[i].path) && b.code == Trim(ms[i].code) &&
      b.lang == LangOrHtml(ms[i].lang) && (b.isNew <==> Trim(ms[i].path) !in allFiles)
  {
    MapBlocksAt(ms, FileBlockFn(allFiles));
    forall i | 0 <= i < |ms|
      ensures var b := FileBlocksOf(ms, allFiles)[i];
        b.filePath == Trim(ms[i].path) && b.code == Trim(ms[i].code) &&
        b.lang == LangOrHtml(ms[i].lang) && (b.isNew <==> Trim(ms[i].path) !in allFiles)
    {
      assert FileBlocksOf(ms, allFiles)[i] == FileBlockFn(allFiles)(ms[i]);
    }
  }

  lemma {:induction false} MapBlocksAt(ms: seq<FileMatch>, f: FileMatch -> CodeBlock)
    ensures |MapBlocks(ms, f)| == |ms|
    ensures forall i :: 0 <= i < |ms| ==> MapBlocks(ms, f)[i] == f(ms[i])
    decreases |ms|
  {
    if |ms| > 0 {
      MapBlocksAt(ms[..|ms| - 1], f);
    }
  }

  /** `extractCodeBlocks(text, currentFilePath, allFiles)`: file blocks
      win; the plain fences are read only when no file block matched. */
  method ExtractCodeBlocks(fileMatches: seq<FileMatch>, fenceMatches: seq<FenceMatch>,
                           currentFilePath: Option<string>, allFiles: seq<string>)
    returns (blocks: seq<CodeBlock>)
    ensures |fileMatches| > 0 ==> blocks == FileBlocksOf(fileMatches, allFiles)
    ensures |fileMatches| == 0 ==> blocks == FenceBlocks(fenceMatches, currentFilePath)
  {
    blocks := FileBlocks(fileMatches, allFiles);
    MapBlocksAt(fileMatches, FileBlockFn(allFiles));
    if |blocks| == 0 {
      blocks := FallbackBlocks(fenceMatches, currentFilePath);
    }
  }

  /** The first `exec` loop: one block per file-block match. */
  method FileBlocks(fileMatches: seq<FileMatch>, allFiles: seq<string>) returns (blocks: seq<CodeBlock>)
    ensures blocks == FileBlocksOf(fileMatches, allFiles)
  {
    blocks := [];
    var i := 0;
    while i < |fileMatches|
      invariant 0 <= i <= |fileMatches|
      invariant blocks == FileBlocksOf(fileMatches[..i], allFiles)
    {
      var m := fileMatches[i];
      var filePath := Trim(m.path);
      blocks := blocks + [CodeBlock(filePath, Trim(m.code), LangOrHtml(m.lang), filePath !in allFiles)];
      assert FileBlockFn(allFiles)(m) == CodeBlock(filePath, Trim(m.code), LangOrHtml(m.lang), filePath !in allFiles);
      assert fileMatches[..i + 1][..i] == fileMatches[..i];
      i := i + 1;
    }
    WholePrefix(fileMatches);
  }

  /** The fallback `exec` loop over plain fences. */
  method FallbackBlocks(fenceMatches: seq<FenceMatch>, currentFilePath: Option<string>) returns (blocks: seq<CodeBlock>)
    ensures blocks == FenceBlocks(fenceMatches, currentFilePath)
  {
    blocks := [];
    var j := 0;
    while j < |fenceMatches|
      invariant 0 <= j <= |fenceMatches|
      invariant blocks == FenceBlocks(fenceMatches[..j], currentFilePath)
    {
      var m := fenceMatches[j];
      var code := Trim(m.code);
      if code != "" && currentFilePath.Some? && currentFilePath.value != "" {
        blocks := blocks + [CodeBlock(currentFilePath.value, code, LangOrHtml(m.lang), false)];
      }
      FenceBlocksSnoc(fenceMatches, j, currentFilePath);
      j := j + 1;
    }
    WholePrefix(fenceMatches);
  }

  /** One more match adds at most its own block. */
  lemma FenceBlocksSnoc(ms: seq<FenceMatch>, j: nat, currentFilePath: Option<string>)
    requires j < |ms|
    ensures var b := FenceBlock(ms[j], currentFilePath);
      FenceBlocks(ms[..j + 1], currentFilePath) ==
      FenceBlocks(ms[..j], currentFilePath) + (if b.Some? then [b.value] else [])
  {
    assert ms[..j + 1][..j] == ms[..j];
  }

  /** Every fallback block targets the open file, is not new and has a
      non-blank body taken from one of the matches; with no open file there
      are none; one block per match with a non-blank body. */
  lemma FenceBlocksSpec(ms: seq<FenceMatch>, currentFilePath: Option<string>)
    ensures currentFilePath.None? || currentFilePath.value == "" ==> FenceBlocks(ms, currentFilePath) == []
    ensures forall b :: b in FenceBlocks(ms, currentFilePath) ==>
      Some(b.filePath) == currentFilePath && !b.isNew && b.code != "" &&
      exists k :: 0 <= k < |ms| && b.code == Trim(ms[k].code) && b.lang == LangOrHtml(ms[k].lang)
    ensures currentFilePath.Some? && currentFilePath.value != "" ==>
      |FenceBlocks(ms, currentFilePath)| == |NonBlank(ms)|
  {
    FenceBlocksFrom(ms, currentFilePath);
    FenceBlocksCount(ms, currentFilePath);
  }

  lemma {:induction false} FenceBlocksFrom(ms: seq<FenceMatch>, currentFilePath: Option<string>)
    ensures forall b :: b in FenceBlocks(ms, currentFilePath) ==>
      Some(b.filePath) == currentFilePath && !b.isNew && b.code != "" &&
      exists k :: 0 <= k < |ms| && b.code == Trim(ms[k].code) && b.lang == LangOrHtml(ms[k].lang)
    decreases |ms|
  {
    if |ms| > 0 {
      var p := ms[..|ms| - 1];
      var last := FenceBlock(ms[|ms| - 1], currentFilePath);
      FenceBlocksFrom(p, currentFilePath);
      assert FenceBlocks(ms, currentFilePath) == FenceBlocks(p, currentFilePath) + (if last.Some? then [last.value] else []);
      forall b | b in FenceBlocks(ms, currentFilePath)
        ensures Some(b.filePath) == currentFilePath && !b.isNew && b.code != "" &&
          exists k :: 0 <= k < |ms| && b.code == Trim(ms[k].code) && b.lang == LangOrHtml(ms[k].lang)
      {
        if b in FenceBlocks(p, currentFilePath) {
          var k :| 0 <= k < |p| && b.code == Trim(p[k].code) && b.lang == LangOrHtml(p[k].lang);
          assert ms[k] == p[k];
        } else {
          assert b == last.value;
          assert b.code == Trim(ms[|ms| - 1].code);
        }
      }
    }
  }

  lemma {:induction false} FenceBlocksCount(ms: seq<FenceMatch>, currentFilePath: Option<string>)
    ensures currentFilePath.None? || currentFilePath.value == "" ==> FenceBlocks(ms, currentFilePath) == []
    ensures currentFilePath.Some? && currentFilePath.value != "" ==>
      |FenceBlocks(ms, currentFilePath)| == |NonBlank(ms)|
    decreases |ms|
  {
    if |ms| > 0 {
      FenceBlocksCount(ms[..|ms| - 1], currentFilePath);
    }
  }

  /** The matches whose body is not blank. */
  function NonBlank(ms: seq<FenceMatch>): seq<FenceMatch>
    decreases |ms|
  {
    if |ms| == 0 then []
    else NonBlank(ms[..|ms| - 1]) + (if Trim(ms[|ms| - 1].code) != "" then [ms[|ms| - 1]] else [])
  }

  /** The pattern ```` ```[\w]*\n[\s\S]*?``` ```` matches with its opening
      fence at i, the newline at p and the closing fence at q. */
  predicate FenceAt(s: string, i: nat, p: nat, q: nat) {
    OccursAt(s, "```", i) && i + 3 <= p < q && p < |s| &&
    (forall k :: i + 3 <= k < p ==> IsWordChar(s[k])) && s[p] == '\n' && OccursAt(s, "```", q)
  }

  /** The pattern matches from start position i: a fence, the tag's run of
      word characters, a newline, and a closing fence after it. */
  predicate OpensAt(s: string, i: nat)
    requires i + 3 <= |s|
  {
    var r := WordEnd(s, i + 3);
    OccursAt(s, "```", i) && r < |s| && s[r] == '\n' && Contains(s[r + 1..], "```")
  }

  /** The pattern's search, trying each start position from i on. */
  function HasCodeBlockFrom(s: string, i: nat): bool
    requires i <= |s|
    decreases |s| - i
  {
    if i + 3 > |s| then false else OpensAt(s, i) || HasCodeBlockFrom(s, i + 1)
  }

  /** `hasCodeBlock(content)` */
  function HasCodeBlock(content: string): bool {
    HasCodeBlockFrom(content, 0)
  }

  /** The message gets its code-block actions exactly when it holds a fence:
      three backticks, a language tag of word characters, a newline, and
      three more backticks somewhere later. */
  lemma HasCodeBlockSpec(content: string)
    ensures HasCodeBlock(content) <==> exists i, p, q :: FenceAt(content, i, p, q)
  {
    HasCodeBlockFromSpec(content, 0);
  }

  lemma {:induction false} HasCodeBlockFromSpec(s: string, i: nat)
    requires i <= |s|
    ensures HasCodeBlockFrom(s, i) <==> exists j, p, q :: i <= j && FenceAt(s, j, p, q)
    decreases |s| - i
  {
    if i + 3 <= |s| {
      HasCodeBlockFromSpec(s, i + 1);
      OpensAtSpec(s, i);
      assert forall j, p, q :: i <= j && FenceAt(s, j, p, q) ==> j == i || i + 1 <= j;
    }
  }

  /** One start position: the search succeeds there exactly when a match
      opens there. */
  lemma OpensAtSpec(s: string, i: nat)
    requires i + 3 <= |s|
    ensures OpensAt(s, i) <==> exists p, q :: FenceAt(s, i, p, q)
  {
    if exists p, q :: FenceAt(s, i, p, q) {
      var p: nat, q: nat :| FenceAt(s, i, p, q);
      FenceOpens(s, i, p, q);
    }
    if OpensAt(s, i) {
      OpensFence(s, i);
    }
  }

  lemma FenceOpens(s: string, i: nat, p: nat, q: nat)
    requires FenceAt(s, i, p, q)
    ensures i + 3 <= |s| && OpensAt(s, i)
  {
    FenceNewline(s, i, p, q);
    var t := s[p + 1..];
    assert OccursAt(t, "```", q - p - 1) by {
      assert t[q - p - 1..q - p + 2] == s[q..q + 3];
    }
    ContainsAt(t, "```", q - p - 1);
  }

  lemma OpensFence(s: string, i: nat)
    requires i + 3 <= |s| && OpensAt(s, i)
    ensures exists p, q :: FenceAt(s, i, p, q)
  {
    var r := WordEnd(s, i + 3);
    var t := s[r + 1..];
    var k: nat :| k <= |t| && OccursAt(t, "```", k);
    assert s[r + 1 + k..r + 1 + k + 3] == t[k..k + 3];
    assert FenceAt(s, i, r, r + 1 + k);
  }

  /** In a match, the newline ends the tag's run of word characters. */
  lemma FenceNewline(s: string, i: nat, p: nat, q: nat)
    requires FenceAt(s, i, p, q)
    ensures WordEnd(s, i + 3) == p
  {
    var r := WordEnd(s, i + 3);
    assert r < |s| ==> !IsWordChar(s[r]);
    assert !IsWordChar(s[p]);
  }

  /** A fence with a tag and a newline is a block. */
  lemma HasCodeBlockExample()
    ensures HasCodeBlock("```js\nx```")
  {
    var s := "```js\nx```";
    assert s[0..3] == "```" && s[7..10] == "```";
    assert IsWordChar(s[3]) && IsWordChar(s[4]) && s[5] == '\n';
    assert FenceAt(s, 0, 5, 7);
    HasCodeBlockSpec(s);
  }

  /** Code between backticks on one line is not a block: the pattern needs
      a newline after the tag. */
  lemma OneLineFenceIsNoBlock()
    ensures !HasCodeBlock("```js```")
  {
    var t := "```js```";
    assert '\n' !in t;
    HasCodeBlockSpec(t);
  }

  /** `handleApplySingle`: the code to put into the editor, if any. */
  function ApplySingle(blocks: seq<CodeBlock>, filePath: Option<string>): (r: Option<string>)
    ensures r.Some? <==> |blocks| == 1 && !blocks[0].isNew && Some(blocks[0].filePath) == filePath
    ensures r.Some? ==> r.value == blocks[0].code
  {
    if |blocks| == 1 && !blocks[0].isNew && Some(blocks[0].filePath) == filePath then Some(blocks[0].code) else None
  }

  /** A reply with one fenced block and no file block is applied to the
      open file, trimmed; a single file block for a file not in the site is
      never applied in place. */
  lemma ApplySingleCases(fenceMatch: FenceMatch, fileMatch: FileMatch, filePath: Option<string>, allFiles: seq<string>)
    ensures filePath.Some? && filePath.value != "" && Trim(fenceMatch.code) != "" ==>
      ApplySingle(FenceBlocks([fenceMatch], filePath), filePath) == Some(Trim(fenceMatch.code))
    ensures Trim(fileMatch.path) !in allFiles ==> ApplySingle([FileBlock(fileMatch, allFiles)], filePath).None?
  {
    assert [fenceMatch][..0] == [];
  }
}

=== FILE: cli_check.dfy ===
/** The `linkmap check` command of the command-line tool
    (`check` in packages/cli/src/index.ts): the variable names of a .env
    file, the names of .env.example missing from it, and the variables
    with empty values. The files are given by their contents (None when
    the file does not exist); the console output is the Report. */
module CliCheck {
  import opened Text

  /** A line that declares a variable: not blank after trimming, and not
      starting with '#' — tested on the line as it is, untrimmed. */
  predicate IsVarLine(line: string) {
    Trim(line) != "" && !StartsWith(line, "#")
  }

  /** `line.split('=')[0].trim()` */
  function KeyOf(line: string): string {
    Trim(Split(line, '=')[0])
  }

  function VarLineFn(): string -> bool { (line: string) => IsVarLine(line) }

  /** The variable lines of a file, in order. */
  function VarLines(content: string): seq<string> {
    Filter(Split(content, '\n'), VarLineFn())
  }

  function Keys(lines: seq<string>): seq<string> {
    seq(|lines|, k requires 0 <= k < |lines| => KeyOf(lines[k]))
  }

  /** The set of variable names of a file, in insertion order
      (`new Set(...)`). */
  function VarNames(content: string): seq<string> {
    Distinct(Keys(VarLines(content)))
  }

  /** The keys are exactly the keys of the lines. */
  lemma KeysSpec(lines: seq<string>)
    ensures forall x :: x in Keys(lines) <==> exists line :: line in lines && KeyOf(line) == x
  {
    forall x | x in Keys(lines) ensures exists line :: line in lines && KeyOf(line) == x {
      var k :| 0 <= k < |lines| && Keys(lines)[k] == x;
      assert lines[k] in lines;
    }
    forall line | line in lines ensures KeyOf(line) in Keys(lines) {
      var k :| 0 <= k < |lines| && lines[k] == line;
      assert Keys(lines)[k] == KeyOf(line);
    }
  }

  /** The names are the keys of the variable lines, each once, in the
      order of the first line declaring each. */
  lemma VarNamesSpec(content: string)
    ensures NoDuplicates(VarNames(content))
    ensures forall x :: x in VarNames(content) <==>
      exists line :: line in Split(content, '\n') && IsVarLine(line) && KeyOf(line) == x
    ensures forall k :: 0 <= k < |VarNames(content)| ==> VarNames(content)[k] in Keys(VarLines(content))
    ensures forall k, l :: 0 <= k < l < |VarNames(content)| ==>
      FirstIndex(Keys(VarLines(content)), VarNames(content)[k]) < FirstIndex(Keys(VarLines(content)), VarNames(content)[l])
  {
    var lines := VarLines(content);
    DistinctSpec(Keys(lines));
    DistinctOrder(Keys(lines));
    VarKeys(content);
  }

  /** The keys of the variable lines are the keys of the lines that
      declare a variable. */
  lemma VarKeys(content: string)
    ensures forall x :: x in Keys(VarLines(content)) <==>
      exists line :: line in Split(content, '\n') && IsVarLine(line) && KeyOf(line) == x
  {
    FilteredKeys(Split(content, '\n'));
  }

  lemma FilteredKeys(parts: seq<string>)
    ensures forall x :: x in Keys(Filter(parts, VarLineFn())) <==>
      exists line :: line in parts && IsVarLine(line) && KeyOf(line) == x
  {
    var lines := Filter(parts, VarLineFn());
    KeysSpec(lines);
    FilterSpec(parts, VarLineFn());
    forall x | x in Keys(lines) ensures exists line :: line in parts && IsVarLine(line) && KeyOf(line) == x {
      var line :| line in lines && KeyOf(line) == x;
      assert VarLineFn()(line);
    }
    forall line | line in parts && IsVarLine(line) ensures KeyOf(line) in Keys(lines) {
      assert VarLineFn()(line);
      assert line in lines;
    }
  }

  /** An indented comment line is read as a variable, since the '#' test
      is made before trimming; an unindented one is not. */
  lemma IndentedCommentCounts()
    ensures IsVarLine(" #A=1") && KeyOf(" #A=1") == "#A"
    ensures !IsVarLine("#A=1")
  {
    IndentedIsVar();
    IndentedKey();
    CommentNotVar();
  }

  lemma CommentNotVar()
    ensures !IsVarLine("#A=1")
  {
    assert StartsWith("#A=1", "#") by { assert "#A=1"[..1] == "#"; }
  }

  lemma IndentedIsVar()
    ensures IsVarLine(" #A=1")
  {
    IndentedTrim();
    assert " #A=1"[..1] == " ";
  }

  lemma IndentedTrim()
    ensures Trim(" #A=1") == "#A=1"
  {
    assert " #A=1"[0] == ' ' && " #A=1"[1..] == "#A=1";
    assert !IsSpace('#') && !IsSpace('1');
  }

  lemma IndentedKey()
    ensures KeyOf(" #A=1") == "#A"
  {
    assert " #A=1" == " #A" + ['='] + "1";
    SplitAt(" #A", "1", '=');
    assert " #A"[1..] == "#A";
    assert !IsSpace('#') && !IsSpace('A');
    assert TrimStart(" #A") == "#A";
  }

  function NotIn(names: seq<string>): string -> bool { (v: string) => v !in names }

  /** `missing`: the example's names not defined locally, in example order. */
  function Missing(local: seq<string>, example: seq<string>): seq<string> {
    Filter(example, NotIn(local))
  }

  /** A name is missing exactly when the example has it and the .env file
      does not; a name is listed once; the missing names keep the order
      they have in the example. */
  lemma MissingSpec(env: string, example: string)
    ensures var m := Missing(VarNames(env), VarNames(example));
      NoDuplicates(m) &&
      forall x :: x in m <==> x in VarNames(example) && x !in VarNames(env)
    ensures var idx := FilterIndices(VarNames(example), NotIn(VarNames(env)));
      Picks(Missing(VarNames(env), VarNames(example)), VarNames(example), idx) &&
      forall i :: i in idx <==> 0 <= i < |VarNames(example)| && VarNames(example)[i] !in VarNames(env)
  {
    MissingOrder(VarNames(env), VarNames(example));
    VarNamesSpec(example);
    FilterSpec(VarNames(example), NotIn(VarNames(env)));
    FilterNoDuplicates(VarNames(example), NotIn(VarNames(env)));
  }

  lemma MissingOrder(local: seq<string>, example: seq<string>)
    ensures var idx := FilterIndices(example, NotIn(local));
      Picks(Missing(local, example), example, idx) &&
      forall i :: i in idx <==> 0 <= i < |example| && example[i] !in local
  {
    FilterOrder(example, NotIn(local));
  }

  /** `const [, value] = line.split('=')` is empty: absent, blank, or `""`. */
  predicate EmptyValue(line: string) {
    var parts := Split(line, '=');
    |parts| < 2 || Trim(parts[1]) == "" || Trim(parts[1]) == "\"\""
  }

  function EmptyFn(): string -> bool { (line: string) => EmptyValue(line) }

  /** `emptyVars`: the names of the variable lines with empty values, in
      line order, repeats kept. */
  function EmptyVars(env: string): seq<string> {
    Keys(Filter(VarLines(env), EmptyFn()))
  }

  /** A name is reported empty exactly when some variable line with that
      name has an empty value. Only the text up to a second '=' is the
      value, so "A==x" is reported too. */
  lemma EmptyVarsSpec(env: string)
    ensures forall x :: x in EmptyVars(env) <==>
      exists line :: line in Split(env, '\n') && IsVarLine(line) && EmptyValue(line) && KeyOf(line) == x
  {
    var parts, lines := Split(env, '\n'), VarLines(env);
    var empty := Filter(lines, EmptyFn());
    FilterSpec(parts, VarLineFn());
    FilterSpec(lines, EmptyFn());
    KeysSpec(empty);
    forall x ensures x in EmptyVars(env) <==>
      exists line :: line in parts && IsVarLine(line) && EmptyValue(line) && KeyOf(line) == x
    {
      if x in EmptyVars(env) {
        var line :| line in empty && KeyOf(line) == x;
        assert line in lines && EmptyFn()(line);
        assert VarLineFn()(line);
      }
      if exists line :: line in parts && IsVarLine(line) && EmptyValue(line) && KeyOf(line) == x {
        var line :| line in parts && IsVarLine(line) && EmptyValue(line) && KeyOf(line) == x;
        assert VarLineFn()(line);
        assert line in lines;
        assert EmptyFn()(line);
        assert line in empty;
      }
    }
  }

  /** A value cut at a second '=' counts as empty. */
  lemma DoubleEqualsIsEmpty()
    ensures EmptyValue("A==x")
  {
    assert "A==x" == "A" + ['='] + "=x";
    assert "=x" == "" + ['='] + "x";
    SplitAt("A", "=x", '=');
    SplitAt("", "x", '=');
    assert Trim("") == "";
  }

  /** What the command prints: no .env file, or the number of local
      names, the missing names when there is an example file, and the
      empty ones. */
  datatype Report = NoEnvFile | Report(localCount: nat, missing: Option<seq<string>>, empty: seq<string>)

  /** `check()` */
  function Check(env: Option<string>, example: Option<string>): Report {
    if env.None? then NoEnvFile
    else
      var local := VarNames(env.value);
      Report(|local|, if example.Some? then Some(Missing(local, VarNames(example.value))) else None,
             EmptyVars(env.value))
  }

  /** Without a .env file nothing else is checked; with one, the count is
      the number of distinct names, and the missing list is there exactly
      when the example file is. */
  lemma CheckSpec(env: Option<string>, example: Option<string>)
    ensures env.None? <==> Check(env, example) == NoEnvFile
    ensures env.Some? ==> var r := Check(env, example);
      (r.localCount == |set x | x in VarNames(env.value)| &&
       (r.missing.Some? <==> example.Some?) &&
       (example.Some? ==> forall x :: x in r.missing.value <==> x in VarNames(example.value) && x !in VarNames(env.value)) &&
       r.empty == EmptyVars(env.value))
  {
    if env.Some? {
      VarNamesSpec(env.value);
      DistinctCard(VarNames(env.value));
      if example.Some? {
        MissingSpec(env.value, example.value);
      }
    }
  }

  /** A list without repeats has as many elements as its set. */
  lemma {:induction false} DistinctCard(xs: seq<string>)
    requires NoDuplicates(xs)
    ensures |set x | x in xs| == |xs|
    decreases |xs|
  {
    if |xs| > 0 {
      var q := xs[..|xs| - 1];
      DistinctCard(q);
      assert (set x | x in xs) == (set x | x in q) + {xs[|xs| - 1]};
      assert xs[|xs| - 1] !in q;
    }
  }
}

=== FILE: codegen_config.dfy ===
/** `config.ts` generation (src/lib/oneclick/code-generator.ts): skill
    levels, the `build*Array` serialisers and the `siteConfig` entries each
    template's generator writes.

    A `None` result stands for the TypeError the source throws when `esc` is
    handed something that is not a string. The fixed text around the
    `siteConfig` object (interfaces, the `parseJSON` helper, demo projects)
    is not part of this model: a generator's result is the list of named
    array constants it embeds and the `siteConfig` entries in source order. */
module CodeGenConfig {
  import opened Text
  import opened SiteState
  import opened CodeGenEscape

  // ----- parseInt and skill levels -----

  predicate IsDigit(c: char) {
    '0' <= c <= '9'
  }

  /** The longest prefix of decimal digits. */
  function DigitPrefix(s: string): (r: string)
    ensures |r| <= |s| && r == s[..|r|]
    ensures forall k :: 0 <= k < |r| ==> IsDigit(r[k])
    ensures |r| < |s| ==> !IsDigit(s[|r|])
    decreases |s|
  {
    if |s| > 0 && IsDigit(s[0]) then [s[0]] + DigitPrefix(s[1..]) else ""
  }

  function DigitsValue(d: string): nat
    requires forall k :: 0 <= k < |d| ==> IsDigit(d[k])
    decreases |d|
  {
    if |d| == 0 then 0
    else
      assert IsDigit(d[|d| - 1]);
      DigitsValue(d[..|d| - 1]) * 10 + (d[|d| - 1] as int - '0' as int)
  }

  /** `parseInt(s, 10)`: leading white space, an optional sign, then the
      longest run of digits; None stands for NaN. */
  function ParseInt(s: string): Option<int> {
    var t := TrimStart(s);
    var negative := |t| > 0 && t[0] == '-';
    var body := if |t| > 0 && (t[0] == '-' || t[0] == '+') then t[1..] else t;
    var d := DigitPrefix(body);
    if |d| == 0 then None
    else
      var n: int := DigitsValue(d);
      Some(if negative then -n else n)
  }

  lemma {:induction false} DigitPrefixAllDigits(s: string)
    requires forall k :: 0 <= k < |s| ==> IsDigit(s[k])
    ensures DigitPrefix(s) == s
    decreases |s|
  {
    if |s| > 0 {
      DigitPrefixAllDigits(s[1..]);
    }
  }

  lemma {:induction false} DigitsValueOfNat(n: nat)
    ensures forall k :: 0 <= k < |NatToString(n)| ==> IsDigit(NatToString(n)[k])
    ensures DigitsValue(NatToString(n)) == n
  {
    var r := NatToString(n);
    DigitCharValue(n % 10);
    if n >= 10 {
      var q := NatToString(n / 10);
      DigitsValueOfNat(n / 10);
      assert r == q + [DigitChar(n % 10)];
      assert r[..|r| - 1] == q && r[|r| - 1] == DigitChar(n % 10);
      assert DigitsValue(r) == DigitsValue(q) * 10 + n % 10;
      assert (n / 10) * 10 + n % 10 == n;
    } else {
      assert r == [DigitChar(n)] && r[..0] == "";
    }
  }

  /** The digit character of d stands for d. */
  /** `parseInt` reads back every number `String` writes. */
  lemma ParseIntNatToString(n: nat)
    ensures ParseInt(NatToString(n)) == Some(n)
  {
    var s := NatToString(n);
    DigitsValueOfNat(n);
    DigitPrefixAllDigits(s);
    assert '0' <= s[0] <= '9';
    assert !IsSpace(s[0]) && s[0] != '-' && s[0] != '+';
    assert TrimStart(s) == s;
    assert DigitPrefix(s) == s;
  }

  datatype Level = Beginner | Intermediate | Advanced

  function LevelName(l: Level): string {
    match l
    case Beginner => "beginner"
    case Intermediate => "intermediate"
    case Advanced => "advanced"
  }

  /** The level for an already parsed number (None for NaN). */
  function LevelOf(n: Option<int>): Level {
    if n.None? || n.value <= 33 then Beginner
    else if n.value <= 66 then Intermediate
    else Advanced
  }

  /** `percentToLevel(pct)` */
  function PercentToLevel(pct: string): Level {
    LevelOf(ParseInt(pct))
  }

  /** `levelToPercent(level)` */
  function LevelToPercent(level: string): string {
    if level == "advanced" then "90"
    else if level == "intermediate" then "60"
    else "30"
  }

  /** The three bands of `percentToLevel` on the percentages a form writes. */
  lemma PercentToLevelBands(n: nat)
    ensures PercentToLevel(NatToString(n)) == Beginner <==> n <= 33
    ensures PercentToLevel(NatToString(n)) == Intermediate <==> 33 < n <= 66
    ensures PercentToLevel(NatToString(n)) == Advanced <==> 66 < n
  {
    ParseIntNatToString(n);
  }

  /** Text without a digit is NaN to `parseInt`, and NaN is a beginner. */
  lemma PercentToLevelNonNumeric(pct: string)
    requires forall k :: 0 <= k < |pct| ==> !IsDigit(pct[k])
    ensures ParseInt(pct).None?
    ensures PercentToLevel(pct) == Beginner
  {
    var t := TrimStart(pct);
    var body := if |t| > 0 && (t[0] == '-' || t[0] == '+') then t[1..] else t;
    assert forall k :: 0 <= k < |body| ==> !IsDigit(body[k]);
  }

  /** A level survives the trip to a percentage and back. */
  lemma LevelRoundTrip(l: Level)
    ensures PercentToLevel(LevelToPercent(LevelName(l))) == l
  {
    match l
    case Beginner =>
      assert NatToString(30) == "30";
      LevelOfWritten(LevelToPercent(LevelName(l)), 30);
    case Intermediate =>
      assert NatToString(60) == "60";
      LevelOfWritten(LevelToPercent(LevelName(l)), 60);
    case Advanced =>
      assert NatToString(90) == "90";
      LevelOfWritten(LevelToPercent(LevelName(l)), 90);
  }

  lemma LevelOfWritten(s: string, n: nat)
    requires s == NatToString(n)
    ensures PercentToLevel(s) == LevelOf(Some(n))
  {
    ParseIntNatToString(n);
  }

  /** Any string other than the two upper level names is read as 30%. */
  lemma LevelToPercentDefault(level: string)
    requires level != "advanced" && level != "intermediate"
    ensures LevelToPercent(level) == "30"
    ensures PercentToLevel(LevelToPercent(level)) == Beginner
  {
    assert NatToString(30) == "30";
    ParseIntNatToString(30);
  }

  /** `parseInt(v, 10)`: JavaScript first converts v with `String(v)`. */
  function ParseIntValue(v: Value): Option<int> {
    ParseInt(JsString(v))
  }

  /** A number parses back to itself (so does a one-element array holding
      it), a string parses as its text, and null, booleans and objects give
      NaN. */
  lemma ParseIntValueCases(v: Value)
    ensures v.Str? ==> ParseIntValue(v) == ParseInt(v.s)
    ensures v.Num? ==> ParseIntValue(v) == Some(v.n)
    ensures v.List? && |v.elems| == 1 && v.elems[0].Num? ==> ParseIntValue(v) == Some(v.elems[0].n)
    ensures v.Null? || v.Bool? || v.Obj? ==> ParseIntValue(v).None?
  {
    match v
    case Num(n) => ParseIntOfInt(n);
    case List(es) =>
      if |es| == 1 && es[0].Num? {
        assert JsString(v) == JsString(es[0]);
        ParseIntOfInt(es[0].n);
      }
    case Null => NoDigitsNoInt("null");
    case Bool(b) => NoDigitsNoInt(if b then "true" else "false");
    case Obj(_) => NoDigitsNoInt("[object Object]");
    case Str(_) =>
  }

  /** `parseInt(String(n), 10) == n`. */
  lemma ParseIntOfInt(n: int)
    ensures ParseInt(IntToString(n)) == Some(n)
  {
    if n < 0 {
      DigitsValueOfNat(-n);
      ParseIntNegative(NatToString(-n));
    } else {
      ParseIntNatToString(n);
    }
  }

  lemma ParseIntNegative(q: string)
    requires |q| > 0 && forall k :: 0 <= k < |q| ==> IsDigit(q[k])
    ensures var n: int := DigitsValue(q); ParseInt("-" + q) == Some(-n)
  {
    var s := "-" + q;
    DigitPrefixAllDigits(q);
    assert s[1..] == q;
    assert !IsSpace(s[0]);
    assert TrimStart(s) == s;
    assert DigitPrefix(s[1..]) == q;
  }

  /** A text that starts with a letter or a bracket parses to NaN. */
  lemma NoDigitsNoInt(s: string)
    requires |s| > 0 && !IsSpace(s[0]) && !IsDigit(s[0]) && s[0] != '-' && s[0] != '+'
    ensures ParseInt(s).None?
  {
    assert TrimStart(s) == s;
  }

  // ----- the array serialisers -----

  /** A single-quoted, escaped string literal. */
  function Quote(v: string): string {
    "'" + Esc(v) + "'"
  }

  /** One `    key: '<esc(v)>',` line of a multi-line entry. */
  function Line(key: string, v: string): string {
    "    " + key + ": " + Quote(v) + ","
  }

  /** The line pushed only when the optional field is set. */
  function OptLine(key: string, v: Option<string>): seq<string> {
    if v.Some? then [Line(key, v.value)] else []
  }

  /** A multi-line entry: `  {\n<lines>\n  }`. */
  function Block(lines: seq<string>): string {
    "  {\n" + Join(lines, "\n") + "\n  }"
  }

  /** `items.map(entry)`, failing when any entry fails. */
  function MapEntries(xs: seq<Value>, entry: Value -> Option<string>): (r: Option<seq<string>>)
    ensures r.Some? ==> |r.value| == |xs| && forall i :: 0 <= i < |xs| ==> entry(xs[i]) == Some(r.value[i])
    ensures r.None? ==> exists i :: 0 <= i < |xs| && entry(xs[i]).None?
    decreases |xs|
  {
    if |xs| == 0 then Some([])
    else
      match entry(xs[0])
      case None => None
      case Some(e) =>
        match MapEntries(xs[1..], entry)
        case None => None
        case Some(es) => Some([e] + es)
  }

  /** The common shape of every `build*Array`: `empty` for a missing,
      non-array or empty list, otherwise `[\n<entries joined by ,\n>\n]`. */
  function BuildArray(items: Value, entry: Value -> Option<string>, empty: string): Option<string> {
    if !items.List? || |items.elems| == 0 then Some(empty)
    else
      var es :- MapEntries(items.elems, entry);
      Some("[\n" + Join(es, ",\n") + "\n]")
  }

  lemma BuildArrayShape(items: Value, entry: Value -> Option<string>, empty: string)
    ensures !items.List? || |items.elems| == 0 ==> BuildArray(items, entry, empty) == Some(empty)
    ensures items.List? && |items.elems| > 0 && BuildArray(items, entry, empty).Some? ==>
      var r := BuildArray(items, entry, empty).value;
      StartsWith(r, "[\n") && EndsWith(r, "\n]") &&
      exists es: seq<string> :: |es| == |items.elems| &&
        (forall i :: 0 <= i < |items.elems| ==> entry(items.elems[i]) == Some(es[i])) &&
        r == "[\n" + Join(es, ",\n") + "\n]"
    ensures items.List? && |items.elems| > 0 ==>
      (BuildArray(items, entry, empty).None? <==> exists i :: 0 <= i < |items.elems| && entry(items.elems[i]).None?)
  {
    if items.List? && |items.elems| > 0 {
      var m := MapEntries(items.elems, entry);
      if m.Some? {
        var r := "[\n" + Join(m.value, ",\n") + "\n]";
        assert r[..2] == "[\n";
        assert r[|r| - 2..] == "\n]";
        assert forall i :: 0 <= i < |items.elems| ==> entry(items.elems[i]).Some?;
      } else {
        assert BuildArray(items, entry, empty).None?;
      }
    }
  }

  function ValuesEntry(v: Value): Option<string> {
    var emoji :- ItemStrOr(v, "emoji", "✦");
    var title :- ItemStrOr(v, "title", "");
    var titleEn :- ItemOptStr(v, "titleEn");
    var desc :- ItemStrOr(v, "desc", "");
    var descEn :- ItemOptStr(v, "descEn");
    Some(ValuesEntryText(emoji, title, titleEn, desc, descEn))
  }

  function ValuesEntryText(emoji: string, title: string, titleEn: Option<string>, desc: string, descEn: Option<string>): string {
    "  {\n    emoji: " + Quote(emoji) + ",\n    title: " + Quote(title) + ValuesEntryTail(titleEn, desc, descEn)
  }

  /** What follows the title in a DEMO_VALUES entry. */
  function ValuesEntryTail(titleEn: Option<string>, desc: string, descEn: Option<string>): string {
    ",\n    " +
      (if titleEn.Some? then "titleEn: " + Quote(titleEn.value) + "," else "") +
      "\n    desc: " + Quote(desc) + ",\n    " +
      (if descEn.Some? then "descEn: " + Quote(descEn.value) + "," else "") +
      "\n  }"
  }

  function HighlightsEntry(v: Value): Option<string> {
    var lbl :- ItemStrOr(v, "label", "");
    var labelEn :- ItemOptStr(v, "labelEn");
    var value :- ItemStrOr(v, "value", "");
    var valueEn :- ItemOptStr(v, "valueEn");
    Some("  { label: " + Quote(lbl) + ", " +
      (if labelEn.Some? then "labelEn: " + Quote(labelEn.value) + ", " else "") +
      "value: " + Quote(value) + ", " +
      (if valueEn.Some? then "valueEn: " + Quote(valueEn.value) + ", " else "") + "}")
  }

  function SocialsEntry(v: Value): Option<string> {
    var platform :- ItemStrOr(v, "platform", "");
    var url :- ItemStrOr(v, "url", "");
    Some("  { platform: " + Quote(platform) + ", url: " + Quote(url) + " }")
  }

  /** `esc(v.url || v)`: a plain string is used as is; anything else without
      a string url makes `esc` throw. */
  function GalleryEntry(v: Value): Option<string> {
    match v
    case Str(s) => Some("  " + Quote(s))
    case Obj(f) =>
      var u := Get(f, "url");
      if u.Str? && u.s != "" then Some("  " + Quote(u.s)) else None
    case _ => None
  }

  function SkillsEntry(v: Value): Option<string> {
    var name :- ItemStrOr(v, "name", "");
    var level :- ItemLevel(v);
    Some("  { name: " + Quote(name) + ", level: '" + LevelName(level) + "' }")
  }

  /** `percentToLevel(v.level || '50')` */
  function ItemLevel(v: Value): Option<Level> {
    match v
    case Null => None
    case Obj(f) =>
      var x := Get(f, "level");
      Some(if Truthy(x) then LevelOf(ParseIntValue(x)) else PercentToLevel("50"))
    case _ => Some(PercentToLevel("50"))
  }

  function ExperienceEntry(v: Value): Option<string> {
    var title :- ItemStrOr(v, "title", "");
    var titleEn :- ItemOptStr(v, "titleEn");
    var company :- ItemStrOr(v, "company", "");
    var companyEn :- ItemOptStr(v, "companyEn");
    var period :- ItemStrOr(v, "period", "");
    var periodEn :- ItemOptStr(v, "periodEn");
    var description :- ItemStrOr(v, "description", "");
    var descriptionEn :- ItemOptStr(v, "descriptionEn");
    Some(Block([Line("title", title)] + OptLine("titleEn", titleEn) +
      [Line("company", company)] + OptLine("companyEn", companyEn) +
      [Line("period", period)] + OptLine("periodEn", periodEn) +
      [Line("description", description)] + OptLine("descriptionEn", descriptionEn)))
  }

  function BlogPostsEntry(v: Value): Option<string> {
    var title :- ItemStrOr(v, "title", "");
    var url :- ItemStrOr(v, "url", "");
    var date :- ItemStrOr(v, "date", "");
    Some("  { title: " + Quote(title) + ", url: " + Quote(url) + ", date: " + Quote(date) + " }")
  }

  /** `v.emoji || v.icon || ''`: the icon is read only when the emoji is
      falsy. */
  function LinkIcon(v: Value): Option<string> {
    var emoji :- ItemOptStr(v, "emoji");
    if emoji.Some? then Some(emoji.value) else ItemStrOr(v, "icon", "")
  }

  function LinksEntry(v: Value): Option<string> {
    var title :- ItemStrOr(v, "title", "");
    var titleEn :- ItemOptStr(v, "titleEn");
    var url :- ItemStrOr(v, "url", "");
    var icon :- LinkIcon(v);
    Some(Block([Line("title", title)] + OptLine("titleEn", titleEn) +
      [Line("url", url), Line("icon", icon)]))
  }

  /** A non-empty emoji is the link's icon, whatever the icon field holds,
      even a value `esc` would reject; a falsy emoji leaves the icon field,
      or "" when that is falsy too. */
  lemma LinkIconSpec(f: map<string, Value>, x: Value)
    ensures Get(f, "emoji").Str? && Get(f, "emoji").s != "" ==>
      LinkIcon(Obj(f)) == Some(Get(f, "emoji").s) &&
      LinksEntry(Obj(f)) == LinksEntry(Obj(f["icon" := x]))
    ensures !Truthy(Get(f, "emoji")) ==> LinkIcon(Obj(f)) == StrOr(f, "icon", "")
    ensures !Truthy(Get(f, "emoji")) && !Truthy(Get(f, "icon")) ==> LinkIcon(Obj(f)) == Some("")
  {
    var g := f["icon" := x];
    assert Get(g, "emoji") == Get(f, "emoji") && Get(g, "title") == Get(f, "title") &&
           Get(g, "titleEn") == Get(f, "titleEn") && Get(g, "url") == Get(f, "url");
  }

  function MenuItemsEntry(v: Value): Option<string> {
    var name :- ItemStrOr(v, "name", "");
    var nameEn :- ItemOptStr(v, "nameEn");
    var desc :- ItemStrOr(v, "desc", "");
    var descEn :- ItemOptStr(v, "descEn");
    var price :- ItemStrOr(v, "price", "");
    var category :- ItemStrOr(v, "category", "");
    var emoji :- ItemStrOr(v, "emoji", "🍽️");
    Some(Block([Line("name", name)] + OptLine("nameEn", nameEn) +
      [Line("desc", desc)] + OptLine("descEn", descEn) +
      [Line("price", price), Line("category", category), Line("emoji", emoji)]))
  }

  function BusinessHoursEntry(v: Value): Option<string> {
    var day :- ItemStrOr(v, "day", "");
    var dayEn :- ItemOptStr(v, "dayEn");
    var hours :- ItemStrOr(v, "hours", "");
    var hoursEn :- ItemOptStr(v, "hoursEn");
    var holiday := v.Obj? && Truthy(Get(v.fields, "isHoliday"));
    Some(Block([Line("day", day)] + OptLine("dayEn", dayEn) +
      [Line("hours", hours)] + OptLine("hoursEn", hoursEn) +
      (if holiday then ["    isHoliday: true,"] else [])))
  }

  function ServicesEntry(v: Value): Option<string> {
    var title :- ItemStrOr(v, "title", "");
    var titleEn :- ItemOptStr(v, "titleEn");
    var desc :- ItemStrOr(v, "desc", "");
    var descEn :- ItemOptStr(v, "descEn");
    var price :- ItemStrOr(v, "price", "");
    var priceEn :- ItemOptStr(v, "priceEn");
    var icon :- ItemStrOr(v, "icon", "palette");
    Some(Block([Line("title", title)] + OptLine("titleEn", titleEn) +
      [Line("desc", desc)] + OptLine("descEn", descEn) +
      [Line("price", price)] + OptLine("priceEn", priceEn) +
      [Line("icon", icon)]))
  }

  /** `tags.split(',').map(t => t.trim()).filter(Boolean)` */
  function Tags(tags: string): (r: seq<string>)
    ensures forall i :: 0 <= i < |r| ==> r[i] != "" && ',' !in r[i]
  {
    TrimmedNonEmpty(Split(tags, ','))
  }

  function TrimmedNonEmpty(parts: seq<string>): (r: seq<string>)
    requires forall i :: 0 <= i < |parts| ==> ',' !in parts[i]
    ensures forall i :: 0 <= i < |r| ==> r[i] != "" && ',' !in r[i]
    decreases |parts|
  {
    if |parts| == 0 then []
    else
      var t := Trim(parts[0]);
      assert forall k :: 0 <= k < |t| ==> t[k] in parts[0] by {
        var a := TrimStart(parts[0]);
        assert forall k :: 0 <= k < |t| ==> t[k] == a[k];
        assert forall k :: 0 <= k < |a| ==> a[k] == parts[0][|parts[0]| - |a| + k];
      }
      (if t != "" then [t] else []) + TrimmedNonEmpty(parts[1..])
  }

  function QuotedList(ts: seq<string>): seq<string> {
    seq(|ts|, i requires 0 <= i < |ts| => Quote(ts[i]))
  }

  function PortfolioEntry(v: Value): Option<string> {
    var title :- ItemStrOr(v, "title", "");
    var titleEn :- ItemOptStr(v, "titleEn");
    var category :- ItemStrOr(v, "category", "");
    var categoryEn :- ItemOptStr(v, "categoryEn");
    var desc :- ItemStrOr(v, "desc", "");
    var descEn :- ItemOptStr(v, "descEn");
    var imageUrl :- ItemStrOr(v, "imageUrl", "");
    var tags :- ItemStrOr(v, "tags", "");
    Some(Block([Line("title", title)] + OptLine("titleEn", titleEn) +
      [Line("category", category)] + OptLine("categoryEn", categoryEn) +
      [Line("desc", desc)] + OptLine("descEn", descEn) +
      [Line("imageUrl", imageUrl),
       "    tags: [" + Join(QuotedList(Tags(tags)), ", ") + "],"]))
  }

  /** `String(parseInt(v.rating || '5', 10))` */
  function RatingText(v: Value): string {
    var x := if v.Obj? then Get(v.fields, "rating") else Null;
    var n := if Truthy(x) then ParseIntValue(x) else ParseInt("5");
    if n.Some? then IntToString(n.value) else "NaN"
  }

  function TestimonialsEntry(v: Value): Option<string> {
    var author :- ItemStrOr(v, "author", "");
    var authorEn :- ItemOptStr(v, "authorEn");
    var role :- ItemStrOr(v, "role", "");
    var roleEn :- ItemOptStr(v, "roleEn");
    var company :- ItemStrOr(v, "company", "");
    var companyEn :- ItemOptStr(v, "companyEn");
    var content :- ItemStrOr(v, "content", "");
    var contentEn :- ItemOptStr(v, "contentEn");
    Some(Block([Line("author", author)] + OptLine("authorEn", authorEn) +
      [Line("role", role)] + OptLine("roleEn", roleEn) +
      [Line("company", company)] + OptLine("companyEn", companyEn) +
      [Line("content", content)] + OptLine("contentEn", contentEn) +
      ["    rating: " + RatingText(v) + ","]))
  }

  function ProcessEntry(v: Value): Option<string> {
    var number :- ItemStrOr(v, "number", "01");
    var title :- ItemStrOr(v, "title", "");
    var titleEn :- ItemOptStr(v, "titleEn");
    var desc :- ItemStrOr(v, "desc", "");
    var descEn :- ItemOptStr(v, "descEn");
    Some(Block([Line("number", number), Line("title", title)] + OptLine("titleEn", titleEn) +
      [Line("desc", desc)] + OptLine("descEn", descEn)))
  }

  function BuildValuesArray(items: Value): Option<string> { BuildArray(items, ValuesEntry, "[]") }
  function BuildHighlightsArray(items: Value): Option<string> { BuildArray(items, HighlightsEntry, "[]") }
  function BuildSocialsArray(items: Value): Option<string> { BuildArray(items, SocialsEntry, "[]") }
  function BuildGalleryArray(items: Value): Option<string> { BuildArray(items, GalleryEntry, "[]") }
  function BuildSkillsArray(items: Value): Option<string> { BuildArray(items, SkillsEntry, "[]") }
  function BuildExperienceArray(items: Value): Option<string> { BuildArray(items, ExperienceEntry, "[]") }
  function BuildBlogPostsArray(items: Value): Option<string> { BuildArray(items, BlogPostsEntry, "null") }
  function BuildLinksArray(items: Value): Option<string> { BuildArray(items, LinksEntry, "[]") }
  function BuildMenuItemsArray(items: Value): Option<string> { BuildArray(items, MenuItemsEntry, "[]") }
  function BuildBusinessHoursArray(items: Value): Option<string> { BuildArray(items, BusinessHoursEntry, "[]") }
  function BuildServicesArray(items: Value): Option<string> { BuildArray(items, ServicesEntry, "[]") }
  function BuildPortfolioArray(items: Value): Option<string> { BuildArray(items, PortfolioEntry, "[]") }
  function BuildTestimonialsArray(items: Value): Option<string> { BuildArray(items, TestimonialsEntry, "[]") }
  function BuildProcessArray(items: Value): Option<string> { BuildArray(items, ProcessEntry, "[]") }

  /** Which `build*Array` serialiser an array entry or constant uses. */
  datatype ArrayBuilder =
    | ValuesBuilder | HighlightsBuilder | SocialsBuilder | GalleryBuilder | SkillsBuilder
    | ExperienceBuilder | BlogPostsBuilder | LinksBuilder | MenuItemsBuilder | BusinessHoursBuilder
    | ServicesBuilder | PortfolioBuilder | TestimonialsBuilder | ProcessBuilder

  function Build(b: ArrayBuilder, items: Value): Option<string> {
    match b
    case ValuesBuilder => BuildValuesArray(items)
    case HighlightsBuilder => BuildHighlightsArray(items)
    case SocialsBuilder => BuildSocialsArray(items)
    case GalleryBuilder => BuildGalleryArray(items)
    case SkillsBuilder => BuildSkillsArray(items)
    case ExperienceBuilder => BuildExperienceArray(items)
    case BlogPostsBuilder => BuildBlogPostsArray(items)
    case LinksBuilder => BuildLinksArray(items)
    case MenuItemsBuilder => BuildMenuItemsArray(items)
    case BusinessHoursBuilder => BuildBusinessHoursArray(items)
    case ServicesBuilder => BuildServicesArray(items)
    case PortfolioBuilder => BuildPortfolioArray(items)
    case TestimonialsBuilder => BuildTestimonialsArray(items)
    case ProcessBuilder => BuildProcessArray(items)
  }

  /** Every serialiser writes `[]` for an empty or non-array list, except the
      blog-post one, which writes `null`. */
  lemma EmptyArrays(items: Value)
    requires !items.List? || |items.elems| == 0
    ensures BuildValuesArray(items) == Some("[]") && BuildHighlightsArray(items) == Some("[]")
    ensures BuildSocialsArray(items) == Some("[]") && BuildGalleryArray(items) == Some("[]")
    ensures BuildSkillsArray(items) == Some("[]") && BuildExperienceArray(items) == Some("[]")
    ensures BuildLinksArray(items) == Some("[]") && BuildMenuItemsArray(items) == Some("[]")
    ensures BuildBusinessHoursArray(items) == Some("[]") && BuildServicesArray(items) == Some("[]")
    ensures BuildPortfolioArray(items) == Some("[]") && BuildTestimonialsArray(items) == Some("[]")
    ensures BuildProcessArray(items) == Some("[]")
    ensures BuildBlogPostsArray(items) == Some("null")
  {
  }

  /** The DEMO_VALUES title is written so that the quoted-string scan used by
      `extractString` reads it back; see `CodeGenEscape.ItemField`. */
  lemma ValuesEntryTitleReadBack(emoji: string, title: string, titleEn: Option<string>, desc: string, descEn: Option<string>)
    ensures var prefix := "  {\n    emoji: " + Quote(emoji) + ",\n    title: '";
      var e := ValuesEntryText(emoji, title, titleEn, desc, descEn);
      StartsWith(e, prefix) && ItemField(e[|prefix|..]) == Some(title)
  {
    var head := "  {\n    emoji: " + Quote(emoji) + ",\n    title: ";
    var prefix := head + "'";
    var tail := ValuesEntryTail(titleEn, desc, descEn);
    var e := ValuesEntryText(emoji, title, titleEn, desc, descEn);
    var after := Esc(title) + "'" + tail;
    assert Quote(title) == "'" + Esc(title) + "'";
    assert e == head + Quote(title) + tail;
    assert e == prefix + after;
    assert e[|prefix|..] == after;
    WrittenValueReadBack(title, tail);
  }

  // ----- siteConfig entries -----

  /** The value written after `key: ` (and after `process.env.X || `). */
  datatype Lit = Quoted(v: string) | NullLit | Raw(text: string)

  /** One `siteConfig` entry; `env` names the environment variable that
      overrides the written value at run time. */
  datatype Slot = Slot(key: string, env: Option<string>, lit: Lit)

  /** A generated `config.ts`: its embedded array constants (name and text)
      and its `siteConfig` entries. */
  datatype ConfigTs = ConfigTs(consts: seq<(string, string)>, slots: seq<Slot>)

  /** Where a generator takes an entry's value from. Every generator reads
      `state.values[moduleId][key]` and writes one of these forms:
      - Text: `'${esc(x || dflt)}'`;
      - TextOrNull: `${x ? `'${esc(x)}'` : 'null'}` where x is the field or
        `dflt` (so a non-empty default always writes the quoted form);
      - Flag: `${x !== undefined ? !!x : false}`;
      - Count: `${x ?? dflt}` for a number;
      - Array: `parseJSON<typ>(process.env.NEXT_PUBLIC_<env>, <build(items)>)`;
      - Fixed: text that does not depend on the state. */
  datatype Source =
    | Text(moduleId: string, key: string, dflt: string)
    | TextOrNull(moduleId: string, key: string, dflt: string)
    | Flag(moduleId: string, key: string)
    | Count(moduleId: string, key: string, fallback: int)
    | Array(typ: string, env: string, moduleId: string, key: string, build: ArrayBuilder)
    | Fixed(lit: Lit)

  datatype SlotSpec = SlotSpec(key: string, env: Option<string>, src: Source)

  /** A `const DEMO_X: T[] = <build(items)>;` array constant. */
  datatype ConstSpec = ConstSpec(name: string, moduleId: string, key: string, build: ArrayBuilder)

  /** One template's generator: the constants it embeds and its entries. */
  datatype Generator = Generator(consts: seq<ConstSpec>, slots: seq<SlotSpec>)

  function LitText(l: Lit): string {
    match l
    case Quoted(v) => Quote(v)
    case NullLit => "null"
    case Raw(t) => t
  }

  /** `String(v)`; inside an array, null reads as the empty string. */
  function JsString(v: Value): string
    decreases v
  {
    match v
    case Null => "null"
    case Bool(b) => if b then "true" else "false"
    case Num(n) => IntToString(n)
    case Str(s) => s
    case List(es) => Join(seq(|es|, i requires 0 <= i < |es| => if es[i].Null? then "" else JsString(es[i])), ",")
    case Obj(_) => "[object Object]"
  }

  /** `${x ?? dflt}` written into the file. */
  function CountText(v: Value, dflt: int): string {
    if v.Null? then IntToString(dflt) else JsString(v)
  }

  /** The literal a source produces, or None when the generator would throw. */
  function EvalSource(values: Values, src: Source): Option<Lit> {
    match src
    case Text(m, k, d) =>
      var x :- StrOr(ModuleValues(values, m), k, d);
      Some(Quoted(x))
    case TextOrNull(m, k, d) =>
      var x :- StrOr(ModuleValues(values, m), k, d);
      Some(if x != "" then Quoted(x) else NullLit)
    case Flag(m, k) =>
      Some(Raw(if Truthy(Get(ModuleValues(values, m), k)) then "true" else "false"))
    case Count(m, k, d) =>
      Some(Raw(CountText(Get(ModuleValues(values, m), k), d)))
    case Array(typ, env, m, k, build) =>
      var arr :- Build(build, ItemsOr(ModuleValues(values, m), k));
      Some(Raw("parseJSON<" + typ + ">(process.env.NEXT_PUBLIC_" + env + ", " + arr + ")"))
    case Fixed(l) => Some(l)
  }

  function EvalSlots(values: Values, specs: seq<SlotSpec>): (r: Option<seq<Slot>>)
    ensures r.Some? ==> |r.value| == |specs|
    ensures r.Some? ==> forall i :: 0 <= i < |specs| ==>
      r.value[i].key == specs[i].key && r.value[i].env == specs[i].env &&
      EvalSource(values, specs[i].src) == Some(r.value[i].lit)
    decreases |specs|
  {
    if |specs| == 0 then Some([])
    else
      var lit :- EvalSource(values, specs[0].src);
      var rest :- EvalSlots(values, specs[1..]);
      Some([Slot(specs[0].key, specs[0].env, lit)] + rest)
  }

  function EvalConsts(values: Values, specs: seq<ConstSpec>): (r: Option<seq<(string, string)>>)
    ensures r.Some? ==> |r.value| == |specs|
    ensures r.Some? ==> forall i :: 0 <= i < |specs| ==> r.value[i].0 == specs[i].name
    decreases |specs|
  {
    if |specs| == 0 then Some([])
    else
      var text :- Build(specs[0].build, ItemsOr(ModuleValues(values, specs[0].moduleId), specs[0].key));
      var rest :- EvalConsts(values, specs[1..]);
      Some([(specs[0].name, text)] + rest)
  }

  /** The `config.ts` a generator writes for the given field values. */
  function Generate(g: Generator, values: Values): Option<ConfigTs> {
    var consts :- EvalConsts(values, g.consts);
    var slots :- EvalSlots(values, g.slots);
    Some(ConfigTs(consts, slots))
  }

  function Env(name: string): Option<string> {
    Some("NEXT_PUBLIC_" + name)
  }

  /** `parseJSON<T>(process.env.NEXT_PUBLIC_X, DEMO_X)` */
  function ConstRef(typ: string, env: string, name: string): Source {
    Fixed(Raw("parseJSON<" + typ + ">(process.env.NEXT_PUBLIC_" + env + ", " + name + ")"))
  }

  /** `generateConfigTs` (personal-brand). */
  const PersonalBrand := Generator(
    [ ConstSpec("DEMO_VALUES", "values", "items", ValuesBuilder),
      ConstSpec("DEMO_HIGHLIGHTS", "highlights", "items", HighlightsBuilder) ],
    [ SlotSpec("name", Env("SITE_NAME"), Text("hero", "name", "이지원")),
      SlotSpec("nameEn", Env("SITE_NAME_EN"), Text("hero", "nameEn", "Jiwon Lee")),
      SlotSpec("tagline", Env("TAGLINE"), Text("hero", "tagline", "콘텐츠로 세상을 연결하는 크리에이터")),
      SlotSpec("taglineEn", Env("TAGLINE_EN"), Text("hero", "taglineEn", "Creator who connects the world through content")),
      SlotSpec("heroImageUrl", Env("HERO_IMAGE_URL"), TextOrNull("hero", "heroImageUrl", "")),
      SlotSpec("story", Env("STORY"), Text("about", "story", "")),
      SlotSpec("storyEn", Env("STORY_EN"), Text("about", "storyEn", "")),
      SlotSpec("values", None, ConstRef("ValueItem[]", "VALUES", "DEMO_VALUES")),
      SlotSpec("highlights", None, ConstRef("HighlightItem[]", "HIGHLIGHTS", "DEMO_HIGHLIGHTS")),
      SlotSpec("galleryImages", None, Array("string[]", "GALLERY_IMAGES", "gallery", "images", GalleryBuilder)),
      SlotSpec("email", Env("EMAIL"), Text("contact", "email", "hello@example.com")),
      SlotSpec("socials", None, Array("SocialItem[]", "SOCIALS", "contact", "socials", SocialsBuilder)),
      SlotSpec("gradientFrom", None, Text("hero", "gradientFrom", "#ee5b2b")),
      SlotSpec("gradientTo", None, Text("hero", "gradientTo", "#f59e0b")),
      SlotSpec("parallaxEnabled", None, Flag("hero", "parallaxEnabled")),
      SlotSpec("fontFamily", None, Text("hero", "fontFamily", "Noto Sans KR")),
      SlotSpec("galleryColumns", None, Text("gallery", "columns", "3")),
      SlotSpec("gaId", Env("GA_ID"), Fixed(NullLit)) ])

  /** `generateDevShowcaseConfigTs`. */
  const DevShowcase := Generator(
    [ ConstSpec("DEMO_SKILLS", "about", "skills", SkillsBuilder),
      ConstSpec("DEMO_EXPERIENCE", "experience", "items", ExperienceBuilder) ],
    [ SlotSpec("name", Env("SITE_NAME"), Text("hero", "name", "김개발")),
      SlotSpec("nameEn", Env("SITE_NAME_EN"), Text("hero", "nameEn", "Gaebal Kim")),
      SlotSpec("githubUsername", Env("GITHUB_USERNAME"), TextOrNull("projects", "githubUsername", "")),
      SlotSpec("tagline", Env("TAGLINE"), Text("hero", "tagline", "풀스택 개발자 | 오픈소스 기여자")),
      SlotSpec("taglineEn", Env("TAGLINE_EN"), Text("hero", "taglineEn", "Full-Stack Developer | Open Source Contributor")),
      SlotSpec("about", Env("ABOUT"), Text("about", "story", "")),
      SlotSpec("aboutEn", Env("ABOUT_EN"), Text("about", "storyEn", "")),
      SlotSpec("skills", None, ConstRef("SkillItem[]", "SKILLS", "DEMO_SKILLS")),
      SlotSpec("experience", None, ConstRef("ExperienceItem[]", "EXPERIENCE", "DEMO_EXPERIENCE")),
      SlotSpec("projects", None, Fixed(Raw("DEMO_PROJECTS"))),
      SlotSpec("blogPosts", None, Array("BlogPost[] | null", "BLOG_POSTS", "blog", "items", BlogPostsBuilder)),
      SlotSpec("resumeUrl", Env("RESUME_URL"), Fixed(NullLit)),
      SlotSpec("email", Env("EMAIL"), TextOrNull("contact", "email", "")),
      SlotSpec("linkedinUrl", Env("LINKEDIN_URL"), TextOrNull("contact", "linkedin", "")),
      SlotSpec("typingWords", None, TextOrNull("hero", "typingWords", "")),
      SlotSpec("maxRepos", None, Count("projects", "maxRepos", 6)),
      SlotSpec("gaId", Env("GA_ID"), Fixed(NullLit)) ])

  /** `generateLinkInBioProConfigTs`. */
  const LinkInBioPro := Generator(
    [ ConstSpec("DEMO_LINKS", "links", "items", LinksBuilder) ],
    [ SlotSpec("siteName", Env("SITE_NAME"), Text("profile", "name", "내 링크 페이지")),
      SlotSpec("siteNameEn", Env("SITE_NAME_EN"), Text("profile", "nameEn", "My Link Page")),
      SlotSpec("bio", Env("BIO"), Text("profile", "bio", "안녕하세요! 여기서 저의 모든 링크를 확인하세요.")),
      SlotSpec("bioEn", Env("BIO_EN"), Text("profile", "bioEn", "Hello! Check out all my links here.")),
      SlotSpec("avatarUrl", Env("AVATAR_URL"), TextOrNull("profile", "avatarUrl", "")),
      SlotSpec("theme", Env("THEME"), Text("theme", "bgStyle", "gradient")),
      SlotSpec("primaryColor", None, Text("theme", "primaryColor", "#8b5cf6")),
      SlotSpec("cardStyle", None, Text("theme", "cardStyle", "rounded")),
      SlotSpec("links", None, ConstRef("LinkItem[]", "LINKS", "DEMO_LINKS")),
      SlotSpec("socials", None, Array("SocialItem[]", "SOCIALS", "socials", "items", SocialsBuilder)),
      SlotSpec("youtubeUrl", Env("YOUTUBE_URL"), Fixed(NullLit)),
      SlotSpec("gaId", Env("GA_ID"), Fixed(NullLit)) ])

  /** `generateDigitalNamecardConfigTs`. */
  const DigitalNamecard := Generator(
    [],
    [ SlotSpec("name", Env("SITE_NAME"), Text("profile", "name", "홍길동")),
      SlotSpec("nameEn", Env("SITE_NAME_EN"), Text("profile", "nameEn", "Gildong Hong")),
      SlotSpec("title", Env("TITLE"), Text("profile", "title", "프리랜서 개발자")),
      SlotSpec("titleEn", Env("TITLE_EN"), Text("profile", "titleEn", "Freelance Developer")),
      SlotSpec("company", Env("COMPANY"), TextOrNull("profile", "company", "")),
      SlotSpec("companyEn", Env("COMPANY_EN"), TextOrNull("profile", "companyEn", "")),
      SlotSpec("email", Env("EMAIL"), Text("contact", "email", "hello@example.com")),
      SlotSpec("phone", Env("PHONE"), TextOrNull("contact", "phone", "010-1234-5678")),
      SlotSpec("address", Env("ADDRESS"), TextOrNull("contact", "address", "")),
      SlotSpec("addressEn", Env("ADDRESS_EN"), TextOrNull("contact", "addressEn", "")),
      SlotSpec("website", Env("WEBSITE"), TextOrNull("contact", "website", "")),
      SlotSpec("socials", None, Array("SocialItem[]", "SOCIALS", "socials", "items", SocialsBuilder)),
      SlotSpec("avatarUrl", Env("AVATAR_URL"), TextOrNull("profile", "avatarUrl", "")),
      SlotSpec("accentColor", Env("ACCENT_COLOR"), Text("theme", "accentColor", "#3b82f6")),
      SlotSpec("gaId", Env("GA_ID"), Fixed(NullLit)) ])

  /** `generateSmallBizConfigTs`; its optional strings fall back to `''`,
      which is the `Text` form with an empty default. */
  const SmallBiz := Generator(
    [ ConstSpec("DEMO_MENU", "menu", "items", MenuItemsBuilder),
      ConstSpec("DEMO_HOURS", "hours", "items", BusinessHoursBuilder) ],
    [ SlotSpec("name", Env("SITE_NAME"), Text("hero", "name", "온기 베이커리")),
      SlotSpec("nameEn", Env("SITE_NAME_EN"), Text("hero", "nameEn", "Ongi Bakery")),
      SlotSpec("description", Env("DESCRIPTION"), Text("hero", "description", "매일 아침 직접 구운 빵 한 조각으로 하루를 시작하세요.")),
      SlotSpec("descriptionEn", Env("DESCRIPTION_EN"), Text("hero", "descriptionEn", "Start your day with a freshly baked loaf every morning.")),
      SlotSpec("phone", Env("PHONE"), TextOrNull("hero", "phone", "02-334-5870")),
      SlotSpec("primaryColor", Env("PRIMARY_COLOR"), Text("hero", "primaryColor", "#d47311")),
      SlotSpec("address", Env("ADDRESS"), Text("location", "address", "서울 마포구 연남동 239-10")),
      SlotSpec("addressEn", Env("ADDRESS_EN"), Text("location", "addressEn", "239-10, Yeonnam-dong, Mapo-gu, Seoul")),
      SlotSpec("kakaoMapId", Env("KAKAO_MAP_ID"), Text("location", "kakaoMapId", "")),
      SlotSpec("menuItems", None, ConstRef("MenuItem[]", "MENU_ITEMS", "DEMO_MENU")),
      SlotSpec("businessHours", None, ConstRef("BusinessHour[]", "BUSINESS_HOURS", "DEMO_HOURS")),
      SlotSpec("galleryImages", None, Array("string[]", "GALLERY_IMAGES", "gallery", "images", GalleryBuilder)),
      SlotSpec("instagramUrl", Env("INSTAGRAM_URL"), Text("sns", "instagramUrl", "")),
      SlotSpec("naverBlogUrl", Env("NAVER_BLOG_URL"), Text("sns", "naverBlogUrl", "")),
      SlotSpec("kakaoChannelUrl", Env("KAKAO_CHANNEL_URL"), Text("sns", "kakaoChannelUrl", "")),
      SlotSpec("fontFamily", None, Text("hero", "fontFamily", "Noto Sans KR")),
      SlotSpec("gaId", Env("GA_ID"), Fixed(NullLit)) ])

  /** `generateFreelancerConfigTs`. */
  const Freelancer := Generator(
    [ ConstSpec("DEMO_SERVICES", "services", "items", ServicesBuilder),
      ConstSpec("DEMO_PORTFOLIO", "portfolio", "items", PortfolioBuilder),
      ConstSpec("DEMO_TESTIMONIALS", "testimonials", "items", TestimonialsBuilder),
      ConstSpec("DEMO_PROCESS", "process", "items", ProcessBuilder) ],
    [ SlotSpec("name", Env("SITE_NAME"), Text("hero", "name", "정하은")),
      SlotSpec("nameEn", Env("SITE_NAME_EN"), Text("hero", "nameEn", "Haeun Jung")),
      SlotSpec("title", Env("TITLE"), Text("hero", "title", "그래픽 디자이너")),
      SlotSpec("titleEn", Env("TITLE_EN"), Text("hero", "titleEn", "Graphic Designer")),
      SlotSpec("tagline", Env("TAGLINE"), Text("hero", "tagline", "브랜드의 이야기를 시각으로 풀어내는 그래픽 디자이너")),
      SlotSpec("taglineEn", Env("TAGLINE_EN"), Text("hero", "taglineEn", "Graphic designer who tells brand stories through visuals")),
      SlotSpec("avatarUrl", Env("AVATAR_URL"), TextOrNull("hero", "avatarUrl", "")),
      SlotSpec("services", None, ConstRef("ServiceItem[]", "SERVICES", "DEMO_SERVICES")),
      SlotSpec("portfolio", None, ConstRef("PortfolioItem[]", "PORTFOLIO", "DEMO_PORTFOLIO")),
      SlotSpec("testimonials", None, ConstRef("TestimonialItem[]", "TESTIMONIALS", "DEMO_TESTIMONIALS")),
      SlotSpec("process", None, ConstRef("ProcessStep[]", "PROCESS", "DEMO_PROCESS")),
      SlotSpec("email", Env("EMAIL"), Text("contact", "email", "haeun@jung-design.kr")),
      SlotSpec("socials", None, Array("SocialItem[]", "SOCIALS", "contact", "socials", SocialsBuilder)),
      SlotSpec("gradientFrom", None, Text("hero", "gradientFrom", "#5b13ec")),
      SlotSpec("gradientTo", None, Text("hero", "gradientTo", "#06b6d4")),
      SlotSpec("fontFamily", None, Text("hero", "fontFamily", "Noto Sans KR")),
      SlotSpec("portfolioColumns", None, Text("portfolio", "columns", "3")),
      SlotSpec("gaId", Env("GA_ID"), Fixed(NullLit)) ])

  // ----- reading a config back -----

  /** The first entry with the given key (the key search of the parsers'
      patterns, taken abstractly). */
  function FindSlot(slots: seq<Slot>, key: string): (r: Option<Slot>)
    ensures r.Some? ==> r.value in slots && r.value.key == key
    ensures r.None? ==> forall i :: 0 <= i < |slots| ==> slots[i].key != key
    decreases |slots|
  {
    if |slots| == 0 then None
    else if slots[0].key == key then Some(slots[0])
    else FindSlot(slots[1..], key)
  }

  lemma {:induction false} FindSlotAt(s: seq<Slot>, i: nat, key: string)
    requires i < |s| && s[i].key == key
    requires forall j :: 0 <= j < i ==> s[j].key != key
    ensures FindSlot(s, key) == Some(s[i])
    decreases i
  {
    if i > 0 {
      FindSlotAt(s[1..], i - 1, key);
    }
  }

  /** The text that follows the opening quote of a quoted entry. */
  function AfterOpeningQuote(v: string): string {
    Quote(v)[1..] + ","
  }

  /** `extractString(key)`: the unescaped body of the quoted literal written
      for `key`, scanned from just after its opening quote. */
  function ExtractString(cfg: ConfigTs, key: string): Option<string> {
    match FindSlot(cfg.slots, key)
    case Some(Slot(_, _, Quoted(v))) => ExtractQuoted(AfterOpeningQuote(v))
    case _ => None
  }

  /** `extractNullable(key)`: like `extractString`, with `null` read as "". */
  function ExtractNullable(cfg: ConfigTs, key: string): Option<string> {
    match FindSlot(cfg.slots, key)
    case Some(Slot(_, _, Quoted(v))) => ExtractQuoted(AfterOpeningQuote(v))
    case Some(Slot(_, _, NullLit)) => Some("")
    case _ => None
  }

  lemma QuotedReadBack(v: string)
    ensures ExtractQuoted(AfterOpeningQuote(v)) == Some(v)
  {
    assert AfterOpeningQuote(v) == Esc(v) + "'" + ",";
    WrittenValueReadBack(v, ",");
  }

  predicate KeysDistinct(specs: seq<SlotSpec>) {
    forall i, j :: 0 <= i < j < |specs| ==> specs[i].key != specs[j].key
  }

  /** Round trip for every generator: an entry written from a text field is
      read back by `extractString` as the field's string, or as the
      generator's default when the field is empty; an entry written as
      `'…'` or `null` is read back by `extractNullable` as the string or "". */
  lemma {:induction false} GenerateReadBack(g: Generator, values: Values, i: nat)
    requires KeysDistinct(g.slots)
    requires Generate(g, values).Some?
    requires i < |g.slots|
    ensures var cfg := Generate(g, values).value;
      var spec := g.slots[i];
      (spec.src.Text? ==>
        ExtractString(cfg, spec.key) == StrOr(ModuleValues(values, spec.src.moduleId), spec.src.key, spec.src.dflt)) &&
      (spec.src.TextOrNull? ==>
        ExtractNullable(cfg, spec.key) == StrOr(ModuleValues(values, spec.src.moduleId), spec.src.key, spec.src.dflt))
  {
    var cfg := Generate(g, values).value;
    var slots := EvalSlots(values, g.slots).value;
    assert cfg.slots == slots;
    assert forall j :: 0 <= j < i ==> slots[j].key != slots[i].key;
    ReadOwnSlot(cfg, i);
    SourceLit(values, g.slots[i].src, slots[i].lit);
  }

  /** The literal a text source writes. */
  lemma SourceLit(values: Values, src: Source, lit: Lit)
    requires EvalSource(values, src) == Some(lit)
    ensures src.Text? || src.TextOrNull? ==> StrOr(ModuleValues(values, src.moduleId), src.key, src.dflt).Some?
    ensures src.Text? ==> lit == Quoted(StrOr(ModuleValues(values, src.moduleId), src.key, src.dflt).value)
    ensures src.TextOrNull? ==>
      var x := StrOr(ModuleValues(values, src.moduleId), src.key, src.dflt).value;
      lit == (if x != "" then Quoted(x) else NullLit)
  {
  }

  /** An entry whose key no earlier entry has is the one both readers use. */
  lemma ReadOwnSlot(cfg: ConfigTs, i: nat)
    requires i < |cfg.slots|
    requires forall j :: 0 <= j < i ==> cfg.slots[j].key != cfg.slots[i].key
    ensures cfg.slots[i].lit.Quoted? ==>
      ExtractString(cfg, cfg.slots[i].key) == Some(cfg.slots[i].lit.v) &&
      ExtractNullable(cfg, cfg.slots[i].key) == Some(cfg.slots[i].lit.v)
    ensures cfg.slots[i].lit.NullLit? ==> ExtractNullable(cfg, cfg.slots[i].key) == Some("")
  {
    FindSlotAt(cfg.slots, i, cfg.slots[i].key);
    if cfg.slots[i].lit.Quoted? {
      QuotedReadBack(cfg.slots[i].lit.v);
    }
  }

  function Keys(specs: seq<SlotSpec>): (r: seq<string>)
    ensures |r| == |specs| && forall i :: 0 <= i < |specs| ==> r[i] == specs[i].key
  {
    seq(|specs|, i requires 0 <= i < |specs| => specs[i].key)
  }

  /** The personal-brand entry keys, in order. */
  const PersonalBrandKeys := ["name", "nameEn", "tagline", "taglineEn", "heroImageUrl", "story", "storyEn",
    "values", "highlights", "galleryImages", "email", "socials", "gradientFrom", "gradientTo", "parallaxEnabled",
    "fontFamily", "galleryColumns", "gaId"]

  lemma PersonalBrandKeyList()
    ensures Keys(PersonalBrand.slots) == PersonalBrandKeys
  {
  }

  lemma PersonalBrandKeyListDistinct()
    ensures NoDuplicates(PersonalBrandKeys)
  {
    var front := ["name", "nameEn", "tagline", "taglineEn", "heroImageUrl", "story", "storyEn", "values", "highlights"];
    var back := ["galleryImages", "email", "socials", "gradientFrom", "gradientTo", "parallaxEnabled",
      "fontFamily", "galleryColumns", "gaId"];
    FrontKeysDistinct();
    BackKeysDistinct();
    HalvesDisjoint();
    assert PersonalBrandKeys == front + back;
    NoDuplicatesAppend(front, back);
  }

  lemma FrontKeysDistinct()
    ensures NoDuplicates(["name", "nameEn", "tagline", "taglineEn", "heroImageUrl", "story", "storyEn", "values",
      "highlights"])
  {
  }

  lemma BackKeysDistinct()
    ensures NoDuplicates(["galleryImages", "email", "socials", "gradientFrom", "gradientTo", "parallaxEnabled",
      "fontFamily", "galleryColumns", "gaId"])
  {
  }

  lemma HalvesDisjoint()
    ensures forall x :: x in ["name", "nameEn", "tagline", "taglineEn", "heroImageUrl", "story", "storyEn", "values",
      "highlights"] ==> x !in ["galleryImages", "email", "socials", "gradientFrom", "gradientTo", "parallaxEnabled",
      "fontFamily", "galleryColumns", "gaId"]
  {
  }

  lemma PersonalBrandKeysDistinct()
    ensures KeysDistinct(PersonalBrand.slots)
  {
    PersonalBrandKeyList();
    PersonalBrandKeyListDistinct();
    var ss := PersonalBrand.slots;
    forall i, j | 0 <= i < j < |ss| ensures ss[i].key != ss[j].key {
      assert ss[i].key == PersonalBrandKeys[i] && ss[j].key == PersonalBrandKeys[j];
    }
  }

  // ----- the personal-brand parser -----

  /** A scalar field the personal-brand parser reads: its module, its key,
      and whether it is read with `extractNullable`. */
  datatype ScalarField = ScalarField(moduleId: string, configKey: string, key: string, nullable: bool)

  /** The fields `parsePersonalBrandConfigToState` reads with its two
      extractors, in order. */
  const PersonalBrandScalars: seq<ScalarField> := [
    ScalarField("hero", "name", "name", false),
    ScalarField("hero", "nameEn", "nameEn", false),
    ScalarField("hero", "tagline", "tagline", false),
    ScalarField("hero", "taglineEn", "taglineEn", false),
    ScalarField("hero", "heroImageUrl", "heroImageUrl", true),
    ScalarField("hero", "gradientFrom", "gradientFrom", false),
    ScalarField("hero", "gradientTo", "gradientTo", false),
    ScalarField("hero", "fontFamily", "fontFamily", false),
    ScalarField("about", "story", "story", false),
    ScalarField("about", "storyEn", "storyEn", false),
    ScalarField("contact", "email", "email", false)
  ]

  function ExtractField(cfg: ConfigTs, f: ScalarField): Option<string> {
    if f.nullable then ExtractNullable(cfg, f.configKey) else ExtractString(cfg, f.configKey)
  }

  /** `state.values[module][key]`, with an absent module or key read as null. */
  function FieldValue(values: Values, moduleId: string, key: string): Value {
    Get(ModuleValues(values, moduleId), key)
  }

  /** A field's value after the entries of `fields` have been read in
      order, starting from `init`: the last entry for the field that was found
      wins. */
  function ParsedField(cfg: ConfigTs, fields: seq<ScalarField>, init: Values, moduleId: string, key: string): Value
    decreases |fields|
  {
    if |fields| == 0 then FieldValue(init, moduleId, key)
    else
      var f := fields[|fields| - 1];
      var x := ExtractField(cfg, f);
      if f.moduleId == moduleId && f.key == key && x.Some? then Str(x.value)
      else ParsedField(cfg, fields[..|fields| - 1], init, moduleId, key)
  }

  const FlagKey := "parallaxEnabled"

  /** `parallaxEnabled` read from the entry written for it: the flag when
      that entry holds a literal `true` or `false`. */
  function ParallaxOwnEntry(cfg: ConfigTs): Option<bool> {
    var p := FindSlot(cfg.slots, FlagKey);
    if p.Some? && p.value.lit == Raw("true") then Some(true)
    else if p.Some? && p.value.lit == Raw("false") then Some(false)
    else None
  }

  /** An entry written as a flag (`x !== undefined ? !!x : false`) reads back
      from its own entry as the field's truthiness. */
  lemma FlagReadBack(g: Generator, values: Values, j: nat, moduleId: string, key: string)
    requires KeysDistinct(g.slots) && Generate(g, values).Some?
    requires j < |g.slots| && g.slots[j] == SlotSpec(FlagKey, None, Flag(moduleId, key))
    ensures ParallaxOwnEntry(Generate(g, values).value) == Some(Truthy(Get(ModuleValues(values, moduleId), key)))
  {
    var slots := EvalSlots(values, g.slots).value;
    assert EvalSource(values, g.slots[j].src) == Some(slots[j].lit);
    forall i | 0 <= i < j
      ensures slots[i].key != FlagKey
    {
      assert slots[i].key == g.slots[i].key;
    }
    FindSlotAt(slots, j, FlagKey);
  }

  /** The personal-brand generator writes `hero.parallaxEnabled` as a flag,
      and its own entry reads back as the field's truthiness. */
  lemma ParallaxRoundTrip(values: Values)
    requires Generate(PersonalBrand, values).Some?
    ensures ParallaxOwnEntry(Generate(PersonalBrand, values).value) ==
      Some(Truthy(Get(ModuleValues(values, "hero"), "parallaxEnabled")))
  {
    PersonalBrandKeysDistinct();
    PersonalBrandParallaxEntry();
    FlagReadBack(PersonalBrand, values, 14, "hero", "parallaxEnabled");
  }

  lemma PersonalBrandParallaxEntry()
    ensures 14 < |PersonalBrand.slots| &&
      PersonalBrand.slots[14] == SlotSpec(FlagKey, None, Flag("hero", "parallaxEnabled"))
  {
  }

  /** The scalar part of `parsePersonalBrandConfigToState`: starting from the
      schema's initial values, every field found in the config overwrites its
      value, and `parallaxEnabled` is set from a literal `true`/`false` in its
      own entry. */
  method ParseScalars(cfg: ConfigTs, fields: seq<ScalarField>, init: Values) returns (values: Values)
    ensures forall m, k :: !(m == "hero" && k == "parallaxEnabled") ==>
      FieldValue(values, m, k) == ParsedField(cfg, fields, init, m, k)
    ensures FieldValue(values, "hero", "parallaxEnabled") ==
      (if ParallaxOwnEntry(cfg).Some? then Bool(ParallaxOwnEntry(cfg).value)
       else ParsedField(cfg, fields, init, "hero", "parallaxEnabled"))
  {
    values := init;
    var i := 0;
    while i < |fields|
      invariant 0 <= i <= |fields|
      invariant forall m, k :: FieldValue(values, m, k) == ParsedField(cfg, fields[..i], init, m, k)
    {
      var f := fields[i];
      var x := ExtractField(cfg, f);
      ghost var before := values;
      if x.Some? {
        values := values[f.moduleId := ModuleValues(values, f.moduleId)[f.key := Str(x.value)]];
        FieldValueUpdate(before, f.moduleId, f.key, Str(x.value));
      }
      assert fields[..i + 1][..i] == fields[..i];
      forall m, k ensures FieldValue(values, m, k) == ParsedField(cfg, fields[..i + 1], init, m, k) {
        assert FieldValue(before, m, k) == ParsedField(cfg, fields[..i], init, m, k);
      }
      i := i + 1;
    }
    WholePrefix(fields);
    var flag := ParallaxOwnEntry(cfg);
    if flag.Some? {
      FieldValueUpdate(values, "hero", "parallaxEnabled", Bool(flag.value));
      values := values["hero" := ModuleValues(values, "hero")["parallaxEnabled" := Bool(flag.value)]];
    }
  }

  /** Setting one field changes that field and no other. */
  lemma FieldValueUpdate(values: Values, moduleId: string, key: string, v: Value)
    ensures var after := values[moduleId := ModuleValues(values, moduleId)[key := v]];
      forall m, k :: FieldValue(after, m, k) == if m == moduleId && k == key then v else FieldValue(values, m, k)
  {
  }

  /** A field listed once and found is set to what was found. */
  lemma {:induction false} ParsedFieldListedOnce(cfg: ConfigTs, fields: seq<ScalarField>, init: Values, i: nat)
    requires i < |fields|
    requires forall j :: 0 <= j < |fields| && j != i ==>
      (fields[j].moduleId, fields[j].key) != (fields[i].moduleId, fields[i].key)
    requires ExtractField(cfg, fields[i]).Some?
    ensures ParsedField(cfg, fields, init, fields[i].moduleId, fields[i].key) == Str(ExtractField(cfg, fields[i]).value)
    decreases |fields|
  {
    if i < |fields| - 1 {
      var prefix := fields[..|fields| - 1];
      assert prefix[i] == fields[i];
      ParsedFieldListedOnce(cfg, prefix, init, i);
    }
  }

  /** The parser reads field `f` from entry `s`, which the generator wrote
      from that same field, with the extractor matching how it was written. */
  predicate Reads(f: ScalarField, s: SlotSpec) {
    s.key == f.configKey &&
    (if f.nullable then s.src.TextOrNull? else s.src.Text?) &&
    s.src.moduleId == f.moduleId && s.src.key == f.key
  }

  predicate FieldsDistinct(fields: seq<ScalarField>) {
    forall i, j :: 0 <= i < j < |fields| ==>
      (fields[i].moduleId, fields[i].key) != (fields[j].moduleId, fields[j].key)
  }

  /** Generate, then parse: a field the parser reads from the entry the
      generator wrote for it ends up holding the written string. */
  lemma GenerateThenParse(g: Generator, values: Values, fields: seq<ScalarField>, init: Values, i: nat, j: nat)
    requires KeysDistinct(g.slots) && FieldsDistinct(fields)
    requires Generate(g, values).Some?
    requires i < |fields| && j < |g.slots| && Reads(fields[i], g.slots[j])
    ensures StrOr(ModuleValues(values, fields[i].moduleId), fields[i].key, g.slots[j].src.dflt).Some?
    ensures ParsedField(Generate(g, values).value, fields, init, fields[i].moduleId, fields[i].key) ==
      Str(StrOr(ModuleValues(values, fields[i].moduleId), fields[i].key, g.slots[j].src.dflt).value)
  {
    var cfg := Generate(g, values).value;
    var slots := EvalSlots(values, g.slots).value;
    assert EvalSource(values, g.slots[j].src) == Some(slots[j].lit);
    GenerateReadBack(g, values, j);
    forall k | 0 <= k < |fields| && k != i
      ensures (fields[k].moduleId, fields[k].key) != (fields[i].moduleId, fields[i].key)
    {
      if k < i {} else {}
    }
    ParsedFieldListedOnce(cfg, fields, init, i);
  }

  /** Which personal-brand entry each parsed scalar field is read from. */
  const PersonalBrandSource: seq<nat> := [0, 1, 2, 3, 4, 12, 13, 15, 5, 6, 10]

  lemma PersonalBrandScalarsDistinct()
    ensures FieldsDistinct(PersonalBrandScalars)
  {
    var fs := PersonalBrandScalars;
    var keys := seq(|fs|, i requires 0 <= i < |fs| => fs[i].key);
    var front := ["name", "nameEn", "tagline", "taglineEn", "heroImageUrl", "gradientFrom"];
    var back := ["gradientTo", "fontFamily", "story", "storyEn", "email"];
    assert keys == front + back;
    ScalarFrontDistinct();
    ScalarBackDistinct();
    ScalarHalvesDisjoint();
    NoDuplicatesAppend(front, back);
    forall i, j | 0 <= i < j < |fs| ensures (fs[i].moduleId, fs[i].key) != (fs[j].moduleId, fs[j].key) {
      assert keys[i] != keys[j];
    }
  }

  lemma ScalarFrontDistinct()
    ensures NoDuplicates(["name", "nameEn", "tagline", "taglineEn", "heroImageUrl", "gradientFrom"])
  {
  }

  lemma ScalarBackDistinct()
    ensures NoDuplicates(["gradientTo", "fontFamily", "story", "storyEn", "email"])
  {
  }

  lemma ScalarHalvesDisjoint()
    ensures forall x :: x in ["name", "nameEn", "tagline", "taglineEn", "heroImageUrl", "gradientFrom"] ==>
      x !in ["gradientTo", "fontFamily", "story", "storyEn", "email"]
  {
  }

  lemma PersonalBrandParserMatches()
    ensures forall i :: 0 <= i < |PersonalBrandScalars| ==>
      PersonalBrandSource[i] < |PersonalBrand.slots| &&
      Reads(PersonalBrandScalars[i], PersonalBrand.slots[PersonalBrandSource[i]])
  {
    var fs := PersonalBrandScalars;
    var ss := PersonalBrand.slots;
    assert Reads(fs[0], ss[0]) && Reads(fs[1], ss[1]) && Reads(fs[2], ss[2]) && Reads(fs[3], ss[3]);
    assert Reads(fs[4], ss[4]) && Reads(fs[5], ss[12]) && Reads(fs[6], ss[13]) && Reads(fs[7], ss[15]);
    assert Reads(fs[8], ss[5]) && Reads(fs[9], ss[6]) && Reads(fs[10], ss[10]);
  }

  /** Writing a personal-brand config and parsing it back sets every scalar
      field the parser reads to the value that was written: the field's own
      string when it was non-empty, otherwise the generator's default. */
  lemma PersonalBrandRoundTrip(values: Values, init: Values)
    requires Generate(PersonalBrand, values).Some?
    ensures forall i :: 0 <= i < |PersonalBrandScalars| ==>
      var f := PersonalBrandScalars[i];
      PersonalBrandSource[i] < |PersonalBrand.slots| &&
      var s := PersonalBrand.slots[PersonalBrandSource[i]];
      Reads(f, s) &&
      (var w := StrOr(ModuleValues(values, f.moduleId), f.key, s.src.dflt);
       w.Some? &&
       ParsedField(Generate(PersonalBrand, values).value, PersonalBrandScalars, init, f.moduleId, f.key) == Str(w.value))
  {
    PersonalBrandKeysDistinct();
    PersonalBrandScalarsDistinct();
    PersonalBrandParserMatches();
    RoundTripAll(PersonalBrand, values, PersonalBrandScalars, PersonalBrandSource, init);
  }

  /** Generate, then parse, for every field of a parser whose fields each
      read the entry `source` names for them. */
  lemma RoundTripAll(g: Generator, values: Values, fields: seq<ScalarField>, source: seq<nat>, init: Values)
    requires KeysDistinct(g.slots) && FieldsDistinct(fields) && Generate(g, values).Some?
    requires |source| == |fields|
    requires forall i :: 0 <= i < |fields| ==> source[i] < |g.slots| && Reads(fields[i], g.slots[source[i]])
    ensures forall i :: 0 <= i < |fields| ==>
      var f := fields[i];
      source[i] < |g.slots| &&
      var s := g.slots[source[i]];
      Reads(f, s) &&
      (var w := StrOr(ModuleValues(values, f.moduleId), f.key, s.src.dflt);
       w.Some? && ParsedField(Generate(g, values).value, fields, init, f.moduleId, f.key) == Str(w.value))
  {
    forall i | 0 <= i < |fields|
      ensures var f := fields[i];
        source[i] < |g.slots| &&
        var s := g.slots[source[i]];
        Reads(f, s) &&
        (var w := StrOr(ModuleValues(values, f.moduleId), f.key, s.src.dflt);
         w.Some? && ParsedField(Generate(g, values).value, fields, init, f.moduleId, f.key) == Str(w.value))
    {
      GenerateThenParse(g, values, fields, init, i, source[i]);
    }
  }
}

=== FILE: codegen_escape.dfy ===
/** String-literal escaping in the site code generator and the matching
    unescape step of the config parsers (src/lib/oneclick/code-generator.ts).

    The generator writes every user string inside single quotes after `esc`;
    the parsers find the quoted body with the pattern
    `'((?:[^'\\]|\\.)*)'` and undo the escaping with `replace(/\\(.)/g, '$1')`.
    The regular-expression engine itself is not modelled: `ScanQuoted` is the
    deterministic scan that this particular pattern performs from the opening
    quote onwards. */
module CodeGenEscape {
  import opened Text

  /** First pass of `esc`: `s.replace(/\\/g, '\\\\')`. */
  function DoubleBackslashes(s: string): string
    decreases |s|
  {
    if |s| == 0 then ""
    else (if s[0] == '\\' then "\\\\" else [s[0]]) + DoubleBackslashes(s[1..])
  }

  /** Second pass of `esc`: `s.replace(/'/g, "\\'")`. */
  function EscapeQuotes(s: string): string
    decreases |s|
  {
    if |s| == 0 then ""
    else (if s[0] == '\'' then "\\'" else [s[0]]) + EscapeQuotes(s[1..])
  }

  /** `esc(s)` */
  function Esc(s: string): string {
    EscapeQuotes(DoubleBackslashes(s))
  }

  /** What `esc` writes for one character. */
  function EscChar(c: char): string {
    if c == '\\' then "\\\\" else if c == '\'' then "\\'" else [c]
  }

  lemma {:induction false} EscapeQuotesAppend(a: string, b: string)
    ensures EscapeQuotes(a + b) == EscapeQuotes(a) + EscapeQuotes(b)
    decreases |a|
  {
    if |a| > 0 {
      assert (a + b)[0] == a[0];
      assert (a + b)[1..] == a[1..] + b;
      EscapeQuotesAppend(a[1..], b);
    } else {
      assert a + b == b;
    }
  }

  /** The two passes of `esc` act character by character. */
  lemma {:induction false} EscUnfold(s: string)
    requires |s| > 0
    ensures Esc(s) == EscChar(s[0]) + Esc(s[1..])
  {
    var head := if s[0] == '\\' then "\\\\" else [s[0]];
    EscapeQuotesAppend(head, DoubleBackslashes(s[1..]));
    if s[0] == '\\' {
      assert EscapeQuotes(head) == "\\\\";
    } else if s[0] == '\'' {
      assert EscapeQuotes(head) == "\\'";
    } else {
      assert EscapeQuotes(head) == [s[0]];
    }
  }

  /** Text without backslashes or quotes is written unchanged. */
  lemma {:induction false} EscPlain(s: string)
    requires '\\' !in s && '\'' !in s
    ensures Esc(s) == s
    decreases |s|
  {
    if |s| > 0 {
      EscUnfold(s);
      assert s[0] in s;
      assert forall c :: c in s[1..] ==> c in s;
      EscPlain(s[1..]);
      assert s == [s[0]] + s[1..];
    }
  }

  /** `esc` adds only backslashes and quotes: every other character is in
      the written text exactly when it is in the original. */
  lemma {:induction false} EscKeepsChar(s: string, c: char)
    requires c != '\\' && c != '\''
    ensures c in Esc(s) <==> c in s
    decreases |s|
  {
    if |s| > 0 {
      EscUnfold(s);
      EscKeepsChar(s[1..], c);
      assert s == [s[0]] + s[1..];
    }
  }

  /** Text made of escape pairs `\\` and `\'` and of characters that are
      neither a backslash nor a quote: no quote stands unescaped and the
      backslashes come in pairs. */
  predicate Escaped(t: string)
    decreases |t|
  {
    |t| == 0 ||
    (t[0] == '\\' && |t| >= 2 && (t[1] == '\\' || t[1] == '\'') && Escaped(t[2..])) ||
    (t[0] != '\\' && t[0] != '\'' && Escaped(t[1..]))
  }

  /** After `esc`, every quote is preceded by a backslash and every backslash
      starts a two-character escape pair. */
  lemma {:induction false} EscNoBareQuote(s: string)
    ensures Escaped(Esc(s))
    ensures |Esc(s)| >= |s|
    ensures |Esc(s)| > 0 ==> Esc(s)[0] != '\''
    decreases |s|
  {
    if |s| > 0 {
      EscUnfold(s);
      EscNoBareQuote(s[1..]);
      var e := Esc(s[1..]);
      var t := EscChar(s[0]) + e;
      if s[0] == '\\' || s[0] == '\'' {
        assert t[2..] == e;
      } else {
        assert t[1..] == e;
      }
    }
  }

  /** `esc` is onto the escaped texts: escaping the unescaped form of one
      gives it back. */
  lemma {:induction false} EscUnescape(t: string)
    requires Escaped(t)
    ensures Esc(Unescape(t)) == t
    decreases |t|
  {
    if |t| > 0 {
      var n := if t[0] == '\\' then 2 else 1;
      var c := if t[0] == '\\' then t[1] else t[0];
      EscUnescape(t[n..]);
      var u := Unescape(t[n..]);
      assert Unescape(t) == [c] + u;
      EscUnfold([c] + u);
      assert ([c] + u)[1..] == u;
      assert EscChar(c) == t[..n];
      assert t == t[..n] + t[n..];
    }
  }

  /** The characters JavaScript's `.` does not match. */
  predicate IsLineTerminator(c: char) {
    c == '\n' || c == '\r' || c == '\U{2028}' || c == '\U{2029}'
  }

  /** The parsers' `replace(/\\(.)/g, '$1')`: a backslash followed by any
      character other than a line terminator is replaced by that character. */
  function Unescape(s: string): string
    decreases |s|
  {
    if |s| == 0 then ""
    else if |s| >= 2 && s[0] == '\\' && !IsLineTerminator(s[1]) then [s[1]] + Unescape(s[2..])
    else [s[0]] + Unescape(s[1..])
  }

  /** Unescaping inverts `esc` on every string. */
  lemma {:induction false} UnescapeEsc(s: string)
    ensures Unescape(Esc(s)) == s
    decreases |s|
  {
    if |s| > 0 {
      EscUnfold(s);
      UnescapeEsc(s[1..]);
      var e := Esc(s[1..]);
      var t := EscChar(s[0]) + e;
      if s[0] == '\\' || s[0] == '\'' {
        assert t[2..] == e;
        assert t[0] == '\\' && t[1] == s[0];
      } else {
        assert t[1..] == e;
        assert t[0] == s[0];
      }
      assert s == [s[0]] + s[1..];
    }
  }

  /** The pattern `((?:[^'\\]|\\.)*)'` matched from just after an opening quote:
      the body up to the closing quote and the text after it, or None when the
      scan hits the end of input or a backslash that `.` cannot follow. */
  function ScanQuoted(t: string): (r: Option<(string, string)>)
    ensures r.Some? ==> t == r.value.0 + "'" + r.value.1
    decreases |t|
  {
    if |t| == 0 then None
    else if t[0] == '\'' then
      assert t == "" + "'" + t[1..];
      Some(("", t[1..]))
    else if t[0] == '\\' then
      if |t| >= 2 && !IsLineTerminator(t[1]) then
        match ScanQuoted(t[2..])
        case None => None
        case Some(p) =>
          assert t == t[..2] + t[2..];
          Some((t[..2] + p.0, p.1))
      else None
    else
      match ScanQuoted(t[1..])
      case None => None
      case Some(p) =>
        assert t == [t[0]] + t[1..];
        Some(([t[0]] + p.0, p.1))
  }

  /** The scan stops exactly at the quote that closes an escaped string. */
  lemma {:induction false} ScanQuotedEsc(s: string, rest: string)
    ensures ScanQuoted(Esc(s) + "'" + rest) == Some((Esc(s), rest))
    decreases |s|
  {
    if |s| == 0 {
      assert Esc(s) + "'" + rest == "'" + rest;
    } else {
      EscUnfold(s);
      ScanQuotedEsc(s[1..], rest);
      ScanQuotedStep(s[0], Esc(s[1..]), rest);
    }
  }

  /** One written character more in front keeps the scan's split. */
  lemma ScanQuotedStep(c: char, e: string, rest: string)
    requires ScanQuoted(e + "'" + rest) == Some((e, rest))
    ensures ScanQuoted(EscChar(c) + e + "'" + rest) == Some((EscChar(c) + e, rest))
  {
    var tail := e + "'" + rest;
    var t := EscChar(c) + e + "'" + rest;
    assert t == EscChar(c) + tail;
    if c == '\\' || c == '\'' {
      assert t[0] == '\\' && t[1] == c && !IsLineTerminator(c);
      assert t[2..] == tail && t[..2] == EscChar(c);
    } else {
      assert t[0] == c && t[1..] == tail;
      assert [t[0]] == EscChar(c);
    }
  }

  /** `extractString` from the opening quote on: the unescaped body, or None
      when the pattern does not match. */
  function ExtractQuoted(t: string): (r: Option<string>)
    ensures r.Some? <==> ScanQuoted(t).Some?
  {
    match ScanQuoted(t)
    case None => None
    case Some(p) => Some(Unescape(p.0))
  }

  /** Round trip: a value written as `'` + esc(v) + `'` is read back as v,
      whatever follows the closing quote. */
  lemma WrittenValueReadBack(v: string, rest: string)
    ensures ExtractQuoted(Esc(v) + "'" + rest) == Some(v)
  {
    ScanQuotedEsc(v, rest);
    UnescapeEsc(v);
  }

  // ----- Item fields of DEMO_VALUES / DEMO_HIGHLIGHTS / socials -----

  /** The item parsers' field pattern `(\w+):\s*'([^']*)'` from just after the
      opening quote, as written: the capture is everything up to the first
      quote and is not unescaped. */
  function ItemFieldAsWritten(t: string): (r: Option<string>)
    ensures r.Some? ==> '\'' !in r.value
    decreases |t|
  {
    if |t| == 0 then None
    else if t[0] == '\'' then Some("")
    else match ItemFieldAsWritten(t[1..])
      case None => None
      case Some(b) => Some([t[0]] + b)
  }

  /** A title with an apostrophe is cut at the escaped quote. */
  lemma ItemFieldAsWrittenLosesApostrophe()
    ensures Esc("it's") == "it\\'s"
    ensures ItemFieldAsWritten(Esc("it's") + "',") == Some("it\\")
  {
    EscApostrophe();
    CutAtEscapedQuote();
    assert "it\\'s" + "'," == "it\\'s',";
  }

  lemma EscApostrophe()
    ensures Esc("it's") == "it\\'s"
  {
    assert DoubleBackslashes("it's") == "it's" by {
      assert DoubleBackslashes("s") == "s";
      assert DoubleBackslashes("'s") == "'s";
      assert DoubleBackslashes("t's") == "t's";
    }
    assert EscapeQuotes("it's") == "it\\'s" by {
      assert EscapeQuotes("s") == "s";
      assert EscapeQuotes("'s") == "\\'s";
      assert EscapeQuotes("t's") == "t\\'s";
    }
  }

  lemma CutAtEscapedQuote()
    ensures ItemFieldAsWritten("it\\'s',") == Some("it\\")
  {
    var t := "it\\'s',";
    assert t[3..] == "'s',";
    assert ItemFieldAsWritten(t[3..]) == Some("");
    assert t[2..] == "\\'s',";
    assert t[2..][1..] == t[3..];
    assert t[2..][0] == '\\' && t[2..][0] != '\'' && |t[2..]| > 0;
    assert [t[2..][0]] + "" == "\\";
    assert ItemFieldAsWritten(t[2..]) == Some("\\");
    assert t[1..] == "t\\'s',";
    assert t[1..][1..] == t[2..];
    assert t[1..][0] == 't';
    assert [t[1..][0]] + "\\" == "t\\";
    assert ItemFieldAsWritten(t[1..]) == Some("t\\");
    assert t[0] == 'i';
    assert [t[0]] + "t\\" == "it\\";
  }

  /** A value with a backslash comes back with the backslash doubled. */
  lemma ItemFieldAsWrittenDoublesBackslash()
    ensures Esc("a\\b") == "a\\\\b"
    ensures ItemFieldAsWritten(Esc("a\\b") + "'") == Some("a\\\\b")
  {
    assert DoubleBackslashes("a\\b") == "a\\\\b" by {
      assert DoubleBackslashes("b") == "b";
      assert DoubleBackslashes("\\b") == "\\\\b";
    }
    assert EscapeQuotes("a\\\\b") == "a\\\\b" by {
      assert EscapeQuotes("b") == "b";
      assert EscapeQuotes("\\b") == "\\b";
      assert EscapeQuotes("\\\\b") == "\\\\b";
    }
    var t := "a\\\\b'";
    assert Esc("a\\b") + "'" == t;
    assert t[4..] == "'";
    assert ItemFieldAsWritten(t[4..]) == Some("");
    assert t[3..] == "b'";
    assert t[3..][1..] == t[4..];
    assert ItemFieldAsWritten(t[3..]) == Some("b");
    assert t[2..] == "\\b'";
    assert t[2..][1..] == t[3..];
    assert ItemFieldAsWritten(t[2..]) == Some("\\b");
    assert t[1..] == "\\\\b'";
    assert t[1..][1..] == t[2..];
    assert ItemFieldAsWritten(t[1..]) == Some("\\\\b");
  }

  /** The item field read with the same quoted-string scan and unescape as
      `extractString`: every escaped item value is read back exactly. */
  function ItemField(t: string): (r: Option<string>)
    ensures forall v, rest :: t == Esc(v) + "'" + rest ==> r == Some(v)
  {
    forall v, rest | t == Esc(v) + "'" + rest
      ensures ExtractQuoted(t) == Some(v)
    {
      WrittenValueReadBack(v, rest);
    }
    ExtractQuoted(t)
  }
}

=== FILE: codegen_files.dfy ===
/** `generateFiles`, `generateLayoutTsx` and `buildInitialState` of
    src/lib/oneclick/code-generator.ts.

    `generateFiles` always writes `config.ts` and `page.tsx`; with a cache of
    the site's current files it also rewrites some component files. Those
    rewrites are regular-expression replacements inside the cached text; the
    model records which base text is rewritten and with what values
    (an `Edit`), not the replaced text itself. */
module CodeGenFiles {
  import opened Text
  import opened SiteState
  import opened CodeGenPage
  import Config = CodeGenConfig

  /** The rewrite a component file receives. */
  datatype Edit =
    | HeroGradient(from: Value, to: Value)   // from-[..], to-[..] and linear-gradient colours
    | PrimaryColor(color: Value)             // `--color-primary: <color>` in globals.css
    | GridColumns(prefix: string, cols: Value) // `<prefix>grid-cols-<cols>`
    | Font(family: string, linkTag: string)  // Google Fonts link and font-family rules

  datatype Content =
    | ConfigFile(config: Config.ConfigTs)
    | PageFile(page: Page)
    | Kept(text: string)
    | Rewritten(base: string, edit: Edit)

  datatype GeneratedFile = GeneratedFile(path: string, content: Content)

  const ConfigPath := "src/lib/config.ts"
  const PagePath := "src/app/page.tsx"
  const HeroPath := "src/components/hero-section.tsx"
  const CssPath := "src/app/globals.css"
  const ValuesPath := "src/components/values-section.tsx"
  const GalleryPath := "src/components/gallery-section.tsx"
  const PortfolioPath := "src/components/portfolio-section.tsx"
  const LayoutPath := "src/app/layout.tsx"

  /** The config generator `generateFiles` picks for a template. */
  function GeneratorOf(t: Template): Config.Generator {
    match t
    case PersonalBrand => Config.PersonalBrand
    case DevShowcase => Config.DevShowcase
    case LinkInBioPro => Config.LinkInBioPro
    case DigitalNamecard => Config.DigitalNamecard
    case FreelancerPage => Config.Freelancer
    case SmallBiz => Config.SmallBiz
  }

  /** `(v as string) || dflt` where the result is only interpolated into a
      template literal, which accepts any value. */
  function Or(v: Value, dflt: string): (r: Value)
    ensures Truthy(r)  || dflt == ""
    ensures Truthy(v) ==> r == v
  {
    if Truthy(v) then v else Str(dflt)
  }

  /** `v && v !== dflt`: set, and different from the default. */
  predicate Changed(v: Value, dflt: string) {
    Truthy(v) && v != Str(dflt)
  }

  /** `currentFiles[path]` when it is a non-empty string. */
  function BaseFile(files: map<string, string>, path: string): (r: Option<string>)
    ensures r.Some? <==> path in files && files[path] != ""
    ensures r.Some? ==> r.value == files[path]
  {
    if path in files && files[path] != "" then Some(files[path]) else None
  }

  // ----- generateLayoutTsx -----

  /** `s.replace(/\s+/g, '+')`: every maximal run of white space becomes one `+`. */
  function PlusForSpaces(s: string): (r: string)
    ensures forall k :: 0 <= k < |r| ==> !IsSpace(r[k])
    decreases |s|
  {
    if |s| == 0 then ""
    else if IsSpace(s[0]) then
      var rest := TrimStart(s);
      "+" + PlusForSpaces(rest)
    else [s[0]] + PlusForSpaces(s[1..])
  }

  /** Text without white space passes through unchanged. */
  lemma {:induction false} PlusForSpacesKeeps(a: string, s: string)
    requires forall k :: 0 <= k < |a| ==> !IsSpace(a[k])
    ensures PlusForSpaces(a + s) == a + PlusForSpaces(s)
    decreases |a|
  {
    if |a| == 0 {
      assert a + s == s;
    } else {
      assert (a + s)[0] == a[0] && (a + s)[1..] == a[1..] + s;
      PlusForSpacesKeeps(a[1..], s);
      assert a == [a[0]] + a[1..];
    }
  }

  /** A run of white space, however long and of whatever kind, becomes a
      single `+`. */
  lemma PlusForSpacesRun(w: string, b: string)
    requires |w| > 0 && forall k :: 0 <= k < |w| ==> IsSpace(w[k])
    requires |b| == 0 || !IsSpace(b[0])
    ensures PlusForSpaces(w + b) == "+" + PlusForSpaces(b)
  {
    assert (w + b)[0] == w[0];
    TrimStartSpaces(w, b);
  }

  lemma {:induction false} TrimStartSpaces(w: string, b: string)
    requires forall k :: 0 <= k < |w| ==> IsSpace(w[k])
    requires |b| == 0 || !IsSpace(b[0])
    ensures TrimStart(w + b) == b
    decreases |w|
  {
    if |w| > 0 {
      assert (w + b)[0] == w[0] && (w + b)[1..] == w[1..] + b;
      TrimStartSpaces(w[1..], b);
    } else {
      assert w + b == b;
    }
  }

  function FontUrl(font: string): string {
    "https://fonts.googleapis.com/css2?family=" + PlusForSpaces(font) + ":wght@300;400;500;600;700&display=swap"
  }

  function LinkTag(font: string): string {
    "<link rel=\"stylesheet\" href=\"" + FontUrl(font) + "\" />"
  }

  /** `generateLayoutTsx(state, base)`: the base comes back as it is for
      the default font (Pretendard); any other font rewrites the font link and
      the font-family rules. None when the font value is set but is not a
      string (`font.replace` throws). */
  function LayoutContent(values: Values, base: string): (r: Option<Content>)
    ensures var font := Get(ModuleValues(values, "hero"), "fontFamily");
      r == Some(Kept(base)) <==> !Truthy(font) || font == Str("Pretendard")
    ensures var font := Get(ModuleValues(values, "hero"), "fontFamily");
      r.None? <==> Truthy(font) && !font.Str?
    ensures r.Some? && r.value != Kept(base) ==>
      exists f :: f != "Pretendard" && f != "" && r.value == Rewritten(base, Font(f, LinkTag(f)))
    ensures var font := Get(ModuleValues(values, "hero"), "fontFamily");
      font.Str? && font.s != "" && font.s != "Pretendard" ==> r == Some(Rewritten(base, Font(font.s, LinkTag(font.s))))
  {
    var font :- StrOr(ModuleValues(values, "hero"), "fontFamily", "Pretendard");
    if font == "Pretendard" then Some(Kept(base))
    else Some(Rewritten(base, Font(font, LinkTag(font))))
  }

  // ----- generateFiles -----

  /** The file at `path` rewritten by `edit`, when the cache holds it. */
  function Rewrite(files: map<string, string>, path: string, edit: Edit): (r: seq<GeneratedFile>)
    ensures |r| <= 1
    ensures |r| == 1 <==> path in files && files[path] != ""
    ensures |r| == 1 ==> r[0] == GeneratedFile(path, Rewritten(files[path], edit))
  {
    match BaseFile(files, path)
    case None => []
    case Some(base) => [GeneratedFile(path, Rewritten(base, edit))]
  }

  /** The layout file when the font is not the default one; None when
      `generateLayoutTsx` throws. */
  function LayoutFile(values: Values, files: map<string, string>): (r: Option<seq<GeneratedFile>>)
    ensures r.Some? ==> |r.value| <= 1
    ensures r.Some? && |r.value| == 1 ==>
      LayoutPath in files && files[LayoutPath] != "" && r.value[0].path == LayoutPath &&
      r.value[0].content.Rewritten? && r.value[0].content.base == files[LayoutPath]
  {
    if !Changed(Get(ModuleValues(values, "hero"), "fontFamily"), "Pretendard") then Some([])
    else match BaseFile(files, LayoutPath)
      case None => Some([])
      case Some(base) =>
        var content :- LayoutContent(values, base);
        Some([GeneratedFile(LayoutPath, content)])
  }

  /** The component files personal-brand and freelancer-page rewrite. The
      hero gradient and the primary colour fall back to the personal-brand
      colours for both templates, as `generateHeroSection` and
      `generateGlobalsCss` do. */
  function ComponentFiles(isFreelancer: bool, values: Values, files: map<string, string>): Option<seq<GeneratedFile>> {
    var layout :- LayoutFile(values, files);
    Some(ComponentGradient(isFreelancer, values, files) + ComponentColumns(isFreelancer, values, files) + layout)
  }

  /** The hero section and globals.css, when either gradient colour differs
      from the template's default. */
  function ComponentGradient(isFreelancer: bool, values: Values, files: map<string, string>): seq<GeneratedFile> {
    var hero := ModuleValues(values, "hero");
    var from, to := Get(hero, "gradientFrom"), Get(hero, "gradientTo");
    if Changed(from, if isFreelancer then "#5b13ec" else "#ee5b2b") ||
       Changed(to, if isFreelancer then "#06b6d4" else "#f59e0b")
    then Rewrite(files, HeroPath, HeroGradient(Or(from, "#ee5b2b"), Or(to, "#f59e0b"))) +
      Rewrite(files, CssPath, PrimaryColor(Or(from, "#ee5b2b")))
    else []
  }

  /** The grid-column rewrites: values and gallery for personal-brand,
      portfolio for freelancer-page, each when its column count is not 3. */
  function ComponentColumns(isFreelancer: bool, values: Values, files: map<string, string>): seq<GeneratedFile> {
    var valuesCols := Get(ModuleValues(values, "values"), "columns");
    var galleryCols := Get(ModuleValues(values, "gallery"), "columns");
    var portfolioCols := Get(ModuleValues(values, "portfolio"), "columns");
    if !isFreelancer then
      (if Changed(valuesCols, "3") then Rewrite(files, ValuesPath, GridColumns("md:", Or(valuesCols, "3"))) else []) +
      (if Changed(galleryCols, "3") then Rewrite(files, GalleryPath, GridColumns("lg:", Or(galleryCols, "3"))) else [])
    else if Changed(portfolioCols, "3") then Rewrite(files, PortfolioPath, GridColumns("lg:", portfolioCols))
    else []
  }

  /** The files small-biz rewrites. */
  function SmallBizFiles(values: Values, files: map<string, string>): Option<seq<GeneratedFile>> {
    var primary := Get(ModuleValues(values, "hero"), "primaryColor");
    var css := if Changed(primary, "#d47311") then Rewrite(files, CssPath, PrimaryColor(primary)) else [];
    var layout :- LayoutFile(values, files);
    Some(css + layout)
  }

  /** The files after `config.ts` and `page.tsx`. */
  function ExtraFiles(t: Template, values: Values, currentFiles: Option<map<string, string>>): Option<seq<GeneratedFile>> {
    match currentFiles
    case None => Some([])
    case Some(files) =>
      if t == PersonalBrand || t == FreelancerPage then ComponentFiles(t == FreelancerPage, values, files)
      else if t == SmallBiz then SmallBizFiles(values, files)
      else Some([])
  }

  /** `generateFiles(state, currentFiles, templateSlug)`; None when one of
      the generators throws. */
  function Files(state: ModuleConfigState, currentFiles: Option<map<string, string>>, slug: Option<string>): Option<seq<GeneratedFile>> {
    var t := TemplateOf(slug);
    Assemble(t, Config.Generate(GeneratorOf(t), state.values), PageOf(t, state), state.values, currentFiles)
  }

  /** The file list around the config generator's result and the page. */
  function Assemble(t: Template, config: Option<Config.ConfigTs>, page: Page, values: Values,
                    currentFiles: Option<map<string, string>>): Option<seq<GeneratedFile>> {
    var c :- config;
    var extra :- ExtraFiles(t, values, currentFiles);
    Some([GeneratedFile(ConfigPath, ConfigFile(c)), GeneratedFile(PagePath, PageFile(page))] + extra)
  }

  /** The pushes `generateFiles` makes for personal-brand and freelancer-page. */
  method GenerateComponentFiles(isFreelancer: bool, values: Values, cache: map<string, string>)
    returns (r: Option<seq<GeneratedFile>>)
    ensures r == ComponentFiles(isFreelancer, values, cache)
  {
    var hero := ModuleValues(values, "hero");
    var defaultFrom := if isFreelancer then "#5b13ec" else "#ee5b2b";
    var defaultTo := if isFreelancer then "#06b6d4" else "#f59e0b";
    var from, to := Get(hero, "gradientFrom"), Get(hero, "gradientTo");
    var gradient := [];
    if Changed(from, defaultFrom) || Changed(to, defaultTo) {
      gradient := Rewrite(cache, HeroPath, HeroGradient(Or(from, "#ee5b2b"), Or(to, "#f59e0b")));
      gradient := gradient + Rewrite(cache, CssPath, PrimaryColor(Or(from, "#ee5b2b")));
    }
    var columns := [];
    if !isFreelancer {
      var cols := Get(ModuleValues(values, "values"), "columns");
      if Changed(cols, "3") {
        columns := Rewrite(cache, ValuesPath, GridColumns("md:", Or(cols, "3")));
      }
      cols := Get(ModuleValues(values, "gallery"), "columns");
      if Changed(cols, "3") {
        columns := columns + Rewrite(cache, GalleryPath, GridColumns("lg:", Or(cols, "3")));
      }
    }
    if isFreelancer {
      var cols := Get(ModuleValues(values, "portfolio"), "columns");
      if Changed(cols, "3") {
        columns := Rewrite(cache, PortfolioPath, GridColumns("lg:", cols));
      }
    }
    var layout := LayoutFile(values, cache);
    if layout.None? {
      return None;
    }
    assert gradient == ComponentGradient(isFreelancer, values, cache);
    assert columns == ComponentColumns(isFreelancer, values, cache);
    r := Some(gradient + columns + layout.value);
  }

  /** The pushes `generateFiles` makes for small-biz. */
  method GenerateSmallBizFiles(values: Values, cache: map<string, string>)
    returns (r: Option<seq<GeneratedFile>>)
    ensures r == SmallBizFiles(values, cache)
  {
    var css := [];
    var primary := Get(ModuleValues(values, "hero"), "primaryColor");
    if Changed(primary, "#d47311") {
      css := Rewrite(cache, CssPath, PrimaryColor(primary));
    }
    var layout := LayoutFile(values, cache);
    if layout.None? {
      return None;
    }
    r := Some(css + layout.value);
  }

  /** The pushes of `generateFiles` once the template's `config.ts` and
      `page.tsx` are generated: the two of them, then the component files. */
  method AssembleFiles(t: Template, config: Config.ConfigTs, page: Page, values: Values,
                       currentFiles: Option<map<string, string>>)
    returns (r: Option<seq<GeneratedFile>>)
    ensures r == Assemble(t, Some(config), page, values, currentFiles)
  {
    var files := [GeneratedFile(ConfigPath, ConfigFile(config)), GeneratedFile(PagePath, PageFile(page))];
    var extra: Option<seq<GeneratedFile>> := Some([]);
    if currentFiles.Some? && (t == PersonalBrand || t == FreelancerPage) {
      extra := GenerateComponentFiles(t == FreelancerPage, values, currentFiles.value);
    }
    if currentFiles.Some? && t == SmallBiz {
      extra := GenerateSmallBizFiles(values, currentFiles.value);
    }
    if extra.None? {
      return None;
    }
    r := Some(files + extra.value);
  }

  // ----- properties of the generated file list -----

  function Paths(fs: seq<GeneratedFile>): (r: seq<string>)
    ensures |r| == |fs| && forall k :: 0 <= k < |fs| ==> r[k] == fs[k].path
  {
    seq(|fs|, k requires 0 <= k < |fs| => fs[k].path)
  }

  /** Every file is a rewrite of the non-empty cached file at its own path. */
  predicate FromCache(files: map<string, string>, fs: seq<GeneratedFile>) {
    forall k :: 0 <= k < |fs| ==>
      fs[k].path in files && files[fs[k].path] != "" &&
      fs[k].content.Rewritten? && fs[k].content.base == files[fs[k].path]
  }

  /** The component files a template may rewrite. */
  function Rewritable(t: Template): set<string> {
    match t
    case PersonalBrand => {HeroPath, CssPath, ValuesPath, GalleryPath, LayoutPath}
    case FreelancerPage => {HeroPath, CssPath, PortfolioPath, LayoutPath}
    case SmallBiz => {CssPath, LayoutPath}
    case _ => {}
  }

  /** The paths of `fs` all lie in `ps`. */
  predicate PathsIn(fs: seq<GeneratedFile>, ps: set<string>) {
    forall k :: 0 <= k < |fs| ==> fs[k].path in ps
  }

  /** A list with distinct paths, rewritten from the cache. */
  predicate WellFormed(files: map<string, string>, fs: seq<GeneratedFile>, ps: set<string>) {
    FromCache(files, fs) && NoDuplicates(Paths(fs)) && PathsIn(fs, ps)
  }

  lemma RewriteShape(files: map<string, string>, path: string, edit: Edit)
    ensures WellFormed(files, Rewrite(files, path, edit), {path})
  {
  }

  lemma LayoutShape(values: Values, files: map<string, string>)
    requires LayoutFile(values, files).Some?
    ensures WellFormed(files, LayoutFile(values, files).value, {LayoutPath})
  {
  }

  /** Lists with distinct paths over disjoint path sets concatenate to a
      list with distinct paths. */
  lemma {:induction false} DistinctConcat(a: seq<GeneratedFile>, b: seq<GeneratedFile>, pa: set<string>, pb: set<string>)
    requires NoDuplicates(Paths(a)) && NoDuplicates(Paths(b)) && PathsIn(a, pa) && PathsIn(b, pb) && pa !! pb
    ensures NoDuplicates(Paths(a + b)) && PathsIn(a + b, pa + pb)
  {
    var ab := a + b;
    forall i, j | 0 <= i < j < |ab|
      ensures Paths(ab)[i] != Paths(ab)[j]
    {
      if i < |a| && j >= |a| {
        assert ab[i].path in pa && ab[j].path in pb;
      } else if i >= |a| {
        assert ab[i] == b[i - |a|] && ab[j] == b[j - |a|];
        assert Paths(b)[i - |a|] != Paths(b)[j - |a|];
      } else {
        assert Paths(a)[i] != Paths(a)[j];
      }
    }
  }

  /** Lists over disjoint path sets concatenate to a well-formed list. */
  lemma ConcatShape(files: map<string, string>, a: seq<GeneratedFile>, b: seq<GeneratedFile>,
                    pa: set<string>, pb: set<string>)
    requires WellFormed(files, a, pa) && WellFormed(files, b, pb) && pa !! pb
    ensures WellFormed(files, a + b, pa + pb)
  {
    DistinctConcat(a, b, pa, pb);
  }

  lemma ComponentGradientShape(isFreelancer: bool, values: Values, files: map<string, string>)
    ensures WellFormed(files, ComponentGradient(isFreelancer, values, files), {HeroPath, CssPath})
  {
    var hero := ModuleValues(values, "hero");
    var from, to := Get(hero, "gradientFrom"), Get(hero, "gradientTo");
    var h := Rewrite(files, HeroPath, HeroGradient(Or(from, "#ee5b2b"), Or(to, "#f59e0b")));
    var c := Rewrite(files, CssPath, PrimaryColor(Or(from, "#ee5b2b")));
    RewriteShape(files, HeroPath, HeroGradient(Or(from, "#ee5b2b"), Or(to, "#f59e0b")));
    RewriteShape(files, CssPath, PrimaryColor(Or(from, "#ee5b2b")));
    ConcatShape(files, h, c, {HeroPath}, {CssPath});
    assert {HeroPath} + {CssPath} == {HeroPath, CssPath};
    assert WellFormed(files, [], {HeroPath, CssPath});
  }

  lemma ComponentColumnsShape(isFreelancer: bool, values: Values, files: map<string, string>)
    ensures WellFormed(files, ComponentColumns(isFreelancer, values, files),
      if isFreelancer then {PortfolioPath} else {ValuesPath, GalleryPath})
  {
    var valuesCols := Get(ModuleValues(values, "values"), "columns");
    var galleryCols := Get(ModuleValues(values, "gallery"), "columns");
    var portfolioCols := Get(ModuleValues(values, "portfolio"), "columns");
    RewriteShape(files, PortfolioPath, GridColumns("lg:", portfolioCols));
    assert WellFormed(files, [], {PortfolioPath});
    if !isFreelancer {
      var v := if Changed(valuesCols, "3") then Rewrite(files, ValuesPath, GridColumns("md:", Or(valuesCols, "3"))) else [];
      var g := if Changed(galleryCols, "3") then Rewrite(files, GalleryPath, GridColumns("lg:", Or(galleryCols, "3"))) else [];
      RewriteShape(files, ValuesPath, GridColumns("md:", Or(valuesCols, "3")));
      RewriteShape(files, GalleryPath, GridColumns("lg:", Or(galleryCols, "3")));
      assert WellFormed(files, v, {ValuesPath});
      assert WellFormed(files, g, {GalleryPath});
      ConcatShape(files, v, g, {ValuesPath}, {GalleryPath});
      assert {ValuesPath} + {GalleryPath} == {ValuesPath, GalleryPath};
    }
  }

  lemma ComponentFilesShape(isFreelancer: bool, values: Values, files: map<string, string>)
    requires ComponentFiles(isFreelancer, values, files).Some?
    ensures WellFormed(files, ComponentFiles(isFreelancer, values, files).value,
      Rewritable(if isFreelancer then FreelancerPage else PersonalBrand))
  {
    var g := ComponentGradient(isFreelancer, values, files);
    var c := ComponentColumns(isFreelancer, values, files);
    var l := LayoutFile(values, files).value;
    var pc: set<string> := if isFreelancer then {PortfolioPath} else {ValuesPath, GalleryPath};
    ComponentGradientShape(isFreelancer, values, files);
    ComponentColumnsShape(isFreelancer, values, files);
    LayoutShape(values, files);
    ConcatShape(files, g, c, {HeroPath, CssPath}, pc);
    ConcatShape(files, g + c, l, {HeroPath, CssPath} + pc, {LayoutPath});
    assert {HeroPath, CssPath} + pc + {LayoutPath} == Rewritable(if isFreelancer then FreelancerPage else PersonalBrand);
  }

  lemma SmallBizFilesShape(values: Values, files: map<string, string>)
    requires SmallBizFiles(values, files).Some?
    ensures WellFormed(files, SmallBizFiles(values, files).value, Rewritable(SmallBiz))
  {
    var primary := Get(ModuleValues(values, "hero"), "primaryColor");
    var css := if Changed(primary, "#d47311") then Rewrite(files, CssPath, PrimaryColor(primary)) else [];
    RewriteShape(files, CssPath, PrimaryColor(primary));
    assert WellFormed(files, css, {CssPath});
    LayoutShape(values, files);
    ConcatShape(files, css, LayoutFile(values, files).value, {CssPath}, {LayoutPath});
    SmallBizFilesSplit(values, files);
  }

  lemma SmallBizFilesSplit(values: Values, files: map<string, string>)
    requires SmallBizFiles(values, files).Some?
    ensures var primary := Get(ModuleValues(values, "hero"), "primaryColor");
      var css := if Changed(primary, "#d47311") then Rewrite(files, CssPath, PrimaryColor(primary)) else [];
      LayoutFile(values, files).Some? &&
      SmallBizFiles(values, files).value == css + LayoutFile(values, files).value
    ensures Rewritable(SmallBiz) == {CssPath} + {LayoutPath}
  {
  }

  lemma ExtraFilesShape(t: Template, values: Values, currentFiles: Option<map<string, string>>)
    requires ExtraFiles(t, values, currentFiles).Some?
    ensures currentFiles.None? ==> ExtraFiles(t, values, currentFiles).value == []
    ensures currentFiles.Some? ==> WellFormed(currentFiles.value, ExtraFiles(t, values, currentFiles).value, Rewritable(t))
  {
    if currentFiles.Some? {
      if t == PersonalBrand || t == FreelancerPage {
        ComponentFilesShape(t == FreelancerPage, values, currentFiles.value);
      } else if t == SmallBiz {
        SmallBizFilesShape(values, currentFiles.value);
      }
    }
  }

  /** `config.ts` then `page.tsx` come first, with the config generator's
      and the page generator's output (for `Files`: those of the template);
      every further file is a rewrite of a non-empty cached file the template
      is allowed to touch; without a cache nothing else is written; no path
      is written twice. */
  lemma AssembleShape(t: Template, config: Option<Config.ConfigTs>, page: Page, values: Values,
                      currentFiles: Option<map<string, string>>)
    requires Assemble(t, config, page, values, currentFiles).Some?
    ensures var fs := Assemble(t, config, page, values, currentFiles).value;
      |fs| >= 2 && fs[0] == GeneratedFile(ConfigPath, ConfigFile(config.value)) &&
      fs[1] == GeneratedFile(PagePath, PageFile(page))
    ensures var fs := Assemble(t, config, page, values, currentFiles).value;
      (currentFiles.None? ==> |fs| == 2) &&
      (currentFiles.Some? ==> FromCache(currentFiles.value, fs[2..])) &&
      PathsIn(fs[2..], Rewritable(t)) && NoDuplicates(Paths(fs))
  {
    var fs := Assemble(t, config, page, values, currentFiles).value;
    var extra := ExtraFiles(t, values, currentFiles).value;
    ExtraFilesShape(t, values, currentFiles);
    assert PathsIn(extra, Rewritable(t)) && NoDuplicates(Paths(extra)) by {
      if currentFiles.Some? {
        assert WellFormed(currentFiles.value, extra, Rewritable(t));
      }
    }
    var head := fs[..2];
    assert fs == head + extra;
    assert fs[2..] == extra;
    assert head[0].path == ConfigPath && head[1].path == PagePath;
    HeadPathsApart(t);
    DistinctConcat(head, extra, {ConfigPath, PagePath}, Rewritable(t));
  }

  lemma HeadPathsApart(t: Template)
    ensures {ConfigPath, PagePath} !! Rewritable(t)
  {
  }

  /** `generateFiles` throws exactly when the config generator does (config
      is None), or when a layout rewrite is due and the font value is not a
      string. */
  lemma AssembleFailure(t: Template, config: Option<Config.ConfigTs>, page: Page, values: Values,
                        currentFiles: Option<map<string, string>>)
    ensures var font := Get(ModuleValues(values, "hero"), "fontFamily");
      Assemble(t, config, page, values, currentFiles).None? <==>
        config.None? ||
        (currentFiles.Some? && t in {PersonalBrand, FreelancerPage, SmallBiz} &&
         Truthy(font) && !font.Str? && LayoutPath in currentFiles.value && currentFiles.value[LayoutPath] != "")
  {
    if config.Some? && currentFiles.Some? && t in {PersonalBrand, FreelancerPage, SmallBiz} {
      assert ExtraFiles(t, values, currentFiles).None? <==> LayoutFile(values, currentFiles.value).None?;
    }
  }

  // ----- buildInitialState -----

  /** The field map of one module: every field key set to its default, a
      later field overriding an earlier one with the same key. */
  function FieldDefaults(fields: seq<FieldDef>): (m: map<string, Value>)
    ensures m.Keys == set f | f in fields :: f.key
    decreases |fields|
  {
    if |fields| == 0 then map[]
    else
      var last := fields[|fields| - 1];
      var m := FieldDefaults(fields[..|fields| - 1]);
      assert fields == fields[..|fields| - 1] + [last];
      m[last.key := last.defaultValue]
  }

  /** `values` after the outer loop: one field map per module id, a later
      module overriding an earlier one with the same id. */
  function InitialValues(mods: seq<ModuleDef>): (v: Values)
    ensures v.Keys == set m | m in mods :: m.id
    decreases |mods|
  {
    if |mods| == 0 then map[]
    else
      var last := mods[|mods| - 1];
      var v := InitialValues(mods[..|mods| - 1]);
      assert mods == mods[..|mods| - 1] + [last];
      v[last.id := FieldDefaults(last.fields)]
  }

  /** The ids of the modules enabled by default, in schema order. */
  function DefaultEnabled(mods: seq<ModuleDef>): (r: seq<string>)
    ensures |r| <= |mods|
    ensures forall id :: id in r <==> exists m :: m in mods && m.defaultEnabled && m.id == id
    decreases |mods|
  {
    if |mods| == 0 then []
    else
      var last := mods[|mods| - 1];
      assert mods == mods[..|mods| - 1] + [last];
      DefaultEnabled(mods[..|mods| - 1]) + (if last.defaultEnabled then [last.id] else [])
  }

  function InitialState(schema: Schema): ModuleConfigState {
    ModuleConfigState(InitialValues(schema.modules), DefaultEnabled(schema.modules), schema.defaultOrder)
  }

  /** `buildInitialState(schema)` */
  method BuildInitialState(schema: Schema) returns (state: ModuleConfigState)
    ensures state == InitialState(schema)
  {
    var values: Values := map[];
    var enabled: seq<string> := [];
    var mods := schema.modules;
    for i := 0 to |mods|
      invariant values == InitialValues(mods[..i])
      invariant enabled == DefaultEnabled(mods[..i])
    {
      var mod := mods[i];
      var modValues: map<string, Value> := map[];
      for j := 0 to |mod.fields|
        invariant modValues == FieldDefaults(mod.fields[..j])
      {
        modValues := modValues[mod.fields[j].key := mod.fields[j].defaultValue];
        assert mod.fields[..j + 1][..j] == mod.fields[..j];
      }
      WholePrefix(mod.fields);
      values := values[mod.id := modValues];
      if mod.defaultEnabled {
        enabled := enabled + [mod.id];
      }
      assert mods[..i + 1][..i] == mods[..i];
    }
    WholePrefix(mods);
    state := ModuleConfigState(values, enabled, schema.defaultOrder);
  }

  /** The field that comes last among those with its key sets the default. */
  lemma {:induction false} FieldDefaultsLast(fields: seq<FieldDef>, j: nat)
    requires j < |fields|
    requires forall k :: j < k < |fields| ==> fields[k].key != fields[j].key
    ensures FieldDefaults(fields)[fields[j].key] == fields[j].defaultValue
    decreases |fields|
  {
    if j < |fields| - 1 {
      FieldDefaultsLast(fields[..|fields| - 1], j);
    }
  }

  lemma {:induction false} InitialValuesLast(mods: seq<ModuleDef>, i: nat)
    requires i < |mods|
    requires forall k :: i < k < |mods| ==> mods[k].id != mods[i].id
    ensures InitialValues(mods)[mods[i].id] == FieldDefaults(mods[i].fields)
    decreases |mods|
  {
    if i < |mods| - 1 {
      InitialValuesLast(mods[..|mods| - 1], i);
    }
  }

  /** `values[mod.id][field.key] == field.defaultValue` for every module and
      field that no later module or field of the same id or key overrides
      (for a schema with distinct ids and keys: every one of them). */
  lemma InitialStateDefaults(schema: Schema, i: nat, j: nat)
    requires i < |schema.modules| && j < |schema.modules[i].fields|
    requires forall k :: i < k < |schema.modules| ==> schema.modules[k].id != schema.modules[i].id
    requires forall k :: j < k < |schema.modules[i].fields| ==>
      schema.modules[i].fields[k].key != schema.modules[i].fields[j].key
    ensures var v := InitialState(schema).values; var m := schema.modules[i]; var f := m.fields[j];
      m.id in v && f.key in v[m.id] && v[m.id][f.key] == f.defaultValue
  {
    InitialValuesLast(schema.modules, i);
    FieldDefaultsLast(schema.modules[i].fields, j);
  }
}

=== FILE: codegen_page.dfy ===
/** The `page.tsx` generators of src/lib/oneclick/code-generator.ts and the
    reverse step `parsePageToEnabledModules`.

    A generated page is modelled by the two lists the generators build: the
    import lines (component name and module path) and the render snippets, in
    the order they are written. The JSX that surrounds them is fixed text and
    is not modelled. The parser scans the page with `/import\s*\{\s*(\w+)\s*\}/g`;
    that scan is taken abstractly as the sequence of imported names. */
module CodeGenPage {
  import opened Text
  import opened SiteState

  /** The templates the generator knows; any other slug (or none) falls
      back to the personal-brand tables. */
  datatype Template = PersonalBrand | DevShowcase | LinkInBioPro | DigitalNamecard | FreelancerPage | SmallBiz

  function TemplateOf(slug: Option<string>): (t: Template)
    ensures slug == Some("small-biz") <==> t == SmallBiz
    ensures slug == Some("dev-showcase") <==> t == DevShowcase
    ensures slug == Some("link-in-bio-pro") <==> t == LinkInBioPro
    ensures slug == Some("digital-namecard") <==> t == DigitalNamecard
    ensures slug == Some("freelancer-page") <==> t == FreelancerPage
  {
    match slug
    case Some("small-biz") => SmallBiz
    case Some("dev-showcase") => DevShowcase
    case Some("link-in-bio-pro") => LinkInBioPro
    case Some("digital-namecard") => DigitalNamecard
    case Some("freelancer-page") => FreelancerPage
    case _ => PersonalBrand
  }

  /** One entry of a `*_MODULE_COMPONENTS` table. */
  datatype Comp = Comp(importName: string, importPath: string, render: string)

  datatype Import = Import(name: string, path: string)

  /** The two lists a page generator writes into `page.tsx`. */
  datatype Page = Page(imports: seq<Import>, renders: seq<string>)

  function Line(s: string): string { "        " + s }

  /** A one-line self-closing element, `        <Name attrs />`. */
  function Tag(name: string, attrs: string): string { Line("<" + name + " " + attrs + " />") }

  /** An element rendered only when `cond` holds, over three lines. */
  function Guarded(cond: string, name: string, attrs: string): string {
    Line("{" + cond + " && (\n          <" + name + " " + attrs + " />\n        )}")
  }

  const Hero := Comp("HeroSection", "@/components/hero-section", Tag("HeroSection", "config={siteConfig}"))
  const Contact := Comp("ContactSection", "@/components/contact-section", Tag("ContactSection", "config={siteConfig}"))
  const Gallery := Comp("GallerySection", "@/components/gallery-section",
    Guarded("siteConfig.galleryImages.length > 0", "GallerySection", "images={siteConfig.galleryImages}"))

  /** `MODULE_COMPONENTS` (personal-brand and unknown slugs). */
  const PersonalBrandComponents: map<string, Comp> := map[
    "hero" := Hero,
    "about" := Comp("AboutSection", "@/components/about-section", Tag("AboutSection", "config={siteConfig}")),
    "values" := Comp("ValuesSection", "@/components/values-section", Tag("ValuesSection", "values={siteConfig.values}")),
    "highlights" := Comp("HighlightsSection", "@/components/highlights-section",
      Tag("HighlightsSection", "highlights={siteConfig.highlights}")),
    "gallery" := Gallery,
    "contact" := Contact]

  /** `DEV_SHOWCASE_MODULE_COMPONENTS` */
  const DevShowcaseComponents: map<string, Comp> := map[
    "hero" := Hero,
    "about" := Comp("AboutSection", "@/components/about-section",
      Line("<AboutSection config={siteConfig} />\n        {siteConfig.githubUsername && (\n          <GithubGraph username={siteConfig.githubUsername} />\n        )}")),
    "projects" := Comp("ProjectsSection", "@/components/projects-section", Tag("ProjectsSection", "projects={siteConfig.projects}")),
    "experience" := Comp("ExperienceTimeline", "@/components/experience-timeline",
      Tag("ExperienceTimeline", "experience={siteConfig.experience}")),
    "blog" := Comp("BlogSection", "@/components/blog-section",
      Guarded("siteConfig.blogPosts && siteConfig.blogPosts.length > 0", "BlogSection", "posts={siteConfig.blogPosts}")),
    "contact" := Contact]

  /** `LINK_IN_BIO_PRO_MODULE_COMPONENTS`; the theme module has no component. */
  const LinkInBioProComponents: map<string, Comp> := map[
    "profile" := Comp("ProfileSection", "@/components/profile-section", Tag("ProfileSection", "config={siteConfig} theme={theme}")),
    "links" := Comp("LinkList", "@/components/link-list", Tag("LinkList", "links={siteConfig.links} theme={theme}")),
    "socials" := Comp("SocialBar", "@/components/social-bar",
      Guarded("siteConfig.socials.length > 0", "SocialBar", "socials={siteConfig.socials} theme={theme}"))]

  /** `DIGITAL_NAMECARD_MODULE_COMPONENTS`; the theme module has no component. */
  const DigitalNamecardComponents: map<string, Comp> := map[
    "profile" := Comp("ProfileCard", "@/components/profile-card", "            <ProfileCard config={siteConfig} />"),
    "contact" := Comp("ContactInfo", "@/components/contact-info", "            <ContactInfo config={siteConfig} />"),
    "socials" := Comp("SocialLinks", "@/components/social-links",
      "            {siteConfig.socials.length > 0 && <SocialLinks socials={siteConfig.socials} accentColor={siteConfig.accentColor} />}")]

  /** `FREELANCER_MODULE_COMPONENTS` */
  const FreelancerComponents: map<string, Comp> := map[
    "hero" := Hero,
    "services" := Comp("ServicesSection", "@/components/services-section", Tag("ServicesSection", "services={siteConfig.services}")),
    "portfolio" := Comp("PortfolioSection", "@/components/portfolio-section", Tag("PortfolioSection", "portfolio={siteConfig.portfolio}")),
    "testimonials" := Comp("TestimonialsSection", "@/components/testimonials-section",
      Tag("TestimonialsSection", "testimonials={siteConfig.testimonials}")),
    "process" := Comp("ProcessSection", "@/components/process-section", Tag("ProcessSection", "process={siteConfig.process}")),
    "contact" := Contact]

  /** `SMALL_BIZ_MODULE_COMPONENTS` */
  const SmallBizComponents: map<string, Comp> := map[
    "hero" := Hero,
    "menu" := Comp("MenuSection", "@/components/menu-section", Tag("MenuSection", "items={siteConfig.menuItems}")),
    "hours" := Comp("HoursSection", "@/components/hours-section", Tag("HoursSection", "hours={siteConfig.businessHours}")),
    "location" := Comp("LocationSection", "@/components/location-section", Tag("LocationSection", "config={siteConfig}")),
    "gallery" := Gallery,
    "sns" := Comp("SnsSection", "@/components/sns-section", Tag("SnsSection", "config={siteConfig}"))]

  function Components(t: Template): map<string, Comp> {
    match t
    case PersonalBrand => PersonalBrandComponents
    case DevShowcase => DevShowcaseComponents
    case LinkInBioPro => LinkInBioProComponents
    case DigitalNamecard => DigitalNamecardComponents
    case FreelancerPage => FreelancerComponents
    case SmallBiz => SmallBizComponents
  }

  /** `state.order.filter((id) => state.enabled.includes(id))` */
  function Active(order: seq<string>, enabled: seq<string>): (r: seq<string>)
    ensures |r| <= |order|
    ensures forall id :: id in r <==> id in order && id in enabled
    decreases |order|
  {
    if |order| == 0 then []
    else
      var rest := Active(order[..|order| - 1], enabled);
      assert order == order[..|order| - 1] + [order[|order| - 1]];
      if order[|order| - 1] in enabled then rest + [order[|order| - 1]] else rest
  }

  /** A component table: module id to the component it renders. */
  type Table = map<string, Comp>

  /** The ids of `ids` that have a component, in order. */
  function WithComponent(table: Table, ids: seq<string>): (r: seq<string>)
    ensures |r| <= |ids|
    ensures forall id :: id in r <==> id in ids && id in table
    decreases |ids|
  {
    if |ids| == 0 then []
    else
      var rest := WithComponent(table, ids[..|ids| - 1]);
      assert ids == ids[..|ids| - 1] + [ids[|ids| - 1]];
      if ids[|ids| - 1] in table then rest + [ids[|ids| - 1]] else rest
  }

  /** The import line each mapped id contributes, in order. */
  function CompImports(table: Table, ids: seq<string>): seq<Import>
    decreases |ids|
  {
    if |ids| == 0 then []
    else
      var rest := CompImports(table, ids[..|ids| - 1]);
      var id := ids[|ids| - 1];
      if id in table then rest + [Import(table[id].importName, table[id].importPath)] else rest
  }

  /** The render snippet each mapped id contributes, in order. */
  function CompRenders(table: Table, ids: seq<string>): seq<string>
    decreases |ids|
  {
    if |ids| == 0 then []
    else
      var rest := CompRenders(table, ids[..|ids| - 1]);
      var id := ids[|ids| - 1];
      if id in table then rest + [table[id].render] else rest
  }

  /** The k-th import and the k-th render come from the k-th mapped id. */
  lemma {:induction false} CompListsMatch(table: Table, ids: seq<string>)
    ensures |CompImports(table, ids)| == |CompRenders(table, ids)| == |WithComponent(table, ids)|
    ensures forall k :: 0 <= k < |WithComponent(table, ids)| ==>
      var c := table[WithComponent(table, ids)[k]];
      CompImports(table, ids)[k] == Import(c.importName, c.importPath) && CompRenders(table, ids)[k] == c.render
    decreases |ids|
  {
    if |ids| > 0 {
      CompListsMatch(table, ids[..|ids| - 1]);
    }
  }

  const SiteConfigImport := Import("siteConfig", "@/lib/config")
  const NavHeaderImport := Import("NavHeader", "@/components/nav-header")
  const GetThemeImport := Import("getTheme", "@/lib/themes")
  const FooterImport := Import("Footer", "@/components/footer")
  const GithubGraphImport := Import("GithubGraph", "@/components/github-graph")
  const QuickActionsImport := Import("QuickActions", "@/components/quick-actions")
  const QrCodeImport := Import("QrCode", "@/components/qr-code")
  const SaveContactImport := Import("SaveContactButton", "@/components/save-contact-button")
  const ContentEmbedImport := Import("ContentEmbed", "@/components/content-embed")

  const ContentEmbedRender := Guarded("siteConfig.youtubeUrl", "ContentEmbed", "youtubeUrl={siteConfig.youtubeUrl}")
  const QrCodeRender := "            <QrCode config={siteConfig} />"
  const SaveContactRender := "            <SaveContactButton config={siteConfig} />"
  const QuickActionsRender := Tag("QuickActions", "config={siteConfig}")

  /** The loop the three page generators share: for every active id with a
      component, its import is appended to `imports` and its render to
      `renders`; `flag` records whether `flagId` was among them. */
  method CollectComponents(table: Table, active: seq<string>, imports0: seq<Import>, flagId: string)
    returns (imports: seq<Import>, renders: seq<string>, flag: bool)
    ensures imports == imports0 + CompImports(table, active)
    ensures renders == CompRenders(table, active)
    ensures flag <==> flagId in active && flagId in table
  {
    imports := imports0;
    renders := [];
    flag := false;
    var i := 0;
    while i < |active|
      invariant 0 <= i <= |active|
      invariant imports == imports0 + CompImports(table, active[..i])
      invariant renders == CompRenders(table, active[..i])
      invariant flag <==> flagId in active[..i] && flagId in table
    {
      var id := active[i];
      assert active[..i + 1] == active[..i] + [id];
      if id in table {
        var comp := table[id];
        imports := imports + [Import(comp.importName, comp.importPath)];
        renders := renders + [comp.render];
        if id == flagId {
          flag := true;
        }
      }
      i := i + 1;
    }
    WholePrefix(active);
  }

  // ----- link-in-bio-pro -----

  /** What `generateLinkInBioProPageTsx` writes: the embed and the footer
      always follow the components. */
  function LinkInBioProPage(table: Table, state: ModuleConfigState): Page {
    var active := Active(state.order, state.enabled);
    Page([SiteConfigImport, GetThemeImport] + CompImports(table, active) + [ContentEmbedImport, FooterImport],
      CompRenders(table, active) + [ContentEmbedRender])
  }

  method GenerateLinkInBioProPage(state: ModuleConfigState) returns (page: Page)
    ensures page == LinkInBioProPage(LinkInBioProComponents, state)
  {
    var active := Active(state.order, state.enabled);
    var imports, renders, _ := CollectComponents(LinkInBioProComponents, active, [SiteConfigImport, GetThemeImport], "");
    imports := imports + [ContentEmbedImport];
    renders := renders + [ContentEmbedRender];
    imports := imports + [FooterImport];
    page := Page(imports, renders);
  }

  // ----- digital-namecard -----

  /** What `generateDigitalNamecardPageTsx` writes: the QR code and the
      save-contact button follow the components when contact is active. */
  function DigitalNamecardPage(table: Table, state: ModuleConfigState): Page {
    var active := Active(state.order, state.enabled);
    var qr := "contact" in active && "contact" in table;
    Page([SiteConfigImport] + CompImports(table, active) +
        (if qr then [QrCodeImport, SaveContactImport] else []) + [FooterImport],
      CompRenders(table, active) + (if qr then [QrCodeRender, SaveContactRender] else []))
  }

  method GenerateDigitalNamecardPage(state: ModuleConfigState) returns (page: Page)
    ensures page == DigitalNamecardPage(DigitalNamecardComponents, state)
  {
    var active := Active(state.order, state.enabled);
    var imports, renders, needsQr := CollectComponents(DigitalNamecardComponents, active, [SiteConfigImport], "contact");
    if needsQr {
      imports := imports + [QrCodeImport];
      imports := imports + [SaveContactImport];
      renders := renders + [QrCodeRender];
      renders := renders + [SaveContactRender];
    }
    imports := imports + [FooterImport];
    page := Page(imports, renders);
  }

  // ----- every other template -----

  /** `renders.findIndex(r => r.includes('HeroSection'))`, None for -1. */
  function FindHero(renders: seq<string>): (r: Option<nat>)
    ensures r.Some? ==> r.value < |renders| && Contains(renders[r.value], "HeroSection")
    ensures r.Some? ==> forall k :: 0 <= k < r.value ==> !Contains(renders[k], "HeroSection")
    ensures r.None? ==> forall k :: 0 <= k < |renders| ==> !Contains(renders[k], "HeroSection")
    decreases |renders|
  {
    if |renders| == 0 then None
    else if Contains(renders[0], "HeroSection") then Some(0)
    else match FindHero(renders[1..])
      case None => None
      case Some(k) => Some(k + 1)
  }

  /** `renders.splice(k + 1, 0, x)` */
  function InsertAfter(renders: seq<string>, k: nat, x: string): (r: seq<string>)
    requires k < |renders|
    ensures |r| == |renders| + 1 && r[k + 1] == x
    ensures r[..k + 1] == renders[..k + 1] && r[k + 2..] == renders[k + 1..]
  {
    renders[..k + 1] + [x] + renders[k + 1..]
  }

  /** What `generatePageTsx` writes for the templates with a navigation
      header, given its `isDevShowcase`, `isSmallBiz` and `componentMap`:
      GithubGraph is imported for dev-showcase when about is active; for
      small-biz with hero enabled, QuickActions is imported and its render is
      inserted right after the first render that mentions HeroSection. */
  function StandardPage(isDevShowcase: bool, isSmallBiz: bool, table: Table, state: ModuleConfigState): Page {
    var active := Active(state.order, state.enabled);
    var github := isDevShowcase && "about" in active && "about" in table;
    var quick := isSmallBiz && "hero" in state.enabled;
    var rs := CompRenders(table, active);
    var hero := FindHero(rs);
    Page([SiteConfigImport, NavHeaderImport] + CompImports(table, active) +
        (if github then [GithubGraphImport] else []) +
        (if quick then [QuickActionsImport] else []) + [FooterImport],
      if quick && hero.Some? then InsertAfter(rs, hero.value, QuickActionsRender) else rs)
  }

  method GenerateStandardPage(isDevShowcase: bool, isSmallBiz: bool, componentMap: Table, state: ModuleConfigState)
    returns (page: Page)
    ensures page == StandardPage(isDevShowcase, isSmallBiz, componentMap, state)
  {
    var active := Active(state.order, state.enabled);
    var imports, renders, aboutActive :=
      CollectComponents(componentMap, active, [SiteConfigImport, NavHeaderImport], "about");
    var needsGithubGraph := isDevShowcase && aboutActive;
    if needsGithubGraph {
      imports := imports + [GithubGraphImport];
    }
    if isSmallBiz && "hero" in state.enabled {
      imports := imports + [QuickActionsImport];
      var heroIdx := FindHero(renders);
      if heroIdx.Some? {
        renders := InsertAfter(renders, heroIdx.value, QuickActionsRender);
      }
    }
    imports := imports + [FooterImport];
    page := Page(imports, renders);
  }

  /** The page of template t built from the component table `table`. */
  function PageWith(t: Template, table: Table, state: ModuleConfigState): Page {
    match t
    case LinkInBioPro => LinkInBioProPage(table, state)
    case DigitalNamecard => DigitalNamecardPage(table, state)
    case _ => StandardPage(t == DevShowcase, t == SmallBiz, table, state)
  }

  function PageOf(t: Template, state: ModuleConfigState): Page {
    PageWith(t, Components(t), state)
  }

  /** `generatePageTsx(state, templateSlug)` */
  method GeneratePage(state: ModuleConfigState, slug: Option<string>) returns (page: Page)
    ensures page == PageOf(TemplateOf(slug), state)
  {
    var t := TemplateOf(slug);
    if t == LinkInBioPro {
      page := GenerateLinkInBioProPage(state);
    } else if t == DigitalNamecard {
      page := GenerateDigitalNamecardPage(state);
    } else {
      page := GenerateStandardPage(t == DevShowcase, t == SmallBiz, Components(t), state);
    }
  }

  // ----- properties of the generated page -----

  /** Imports open with siteConfig (then NavHeader, or getTheme for
      link-in-bio) and close with Footer; the renders begin with exactly the
      components of the active modules that have one, in `order` order
      (small-biz may insert QuickActions among them). */
  lemma PageFrame(t: Template, table: Table, state: ModuleConfigState)
    ensures var p := PageWith(t, table, state);
      |p.imports| >= 2 && p.imports[0] == SiteConfigImport && p.imports[|p.imports| - 1] == FooterImport &&
      (t != DigitalNamecard ==> p.imports[1] == (if t == LinkInBioPro then GetThemeImport else NavHeaderImport))
    ensures var p := PageWith(t, table, state);
      var rs := CompRenders(table, Active(state.order, state.enabled));
      t != SmallBiz ==> |rs| <= |p.renders| && p.renders[..|rs|] == rs
  {
    match t
    case LinkInBioPro => LinkInBioProFrame(table, state);
    case DigitalNamecard => DigitalNamecardFrame(table, state);
    case _ => StandardFrame(t == DevShowcase, t == SmallBiz, table, state);
  }

  lemma LinkInBioProFrame(table: Table, state: ModuleConfigState)
    ensures var p := LinkInBioProPage(table, state);
      |p.imports| >= 2 && p.imports[0] == SiteConfigImport && p.imports[1] == GetThemeImport &&
      p.imports[|p.imports| - 1] == FooterImport
    ensures var p := LinkInBioProPage(table, state);
      var rs := CompRenders(table, Active(state.order, state.enabled));
      |rs| <= |p.renders| && p.renders[..|rs|] == rs
  {
    var rs := CompRenders(table, Active(state.order, state.enabled));
    assert (rs + [ContentEmbedRender])[..|rs|] == rs;
  }

  lemma DigitalNamecardFrame(table: Table, state: ModuleConfigState)
    ensures var p := DigitalNamecardPage(table, state);
      |p.imports| >= 2 && p.imports[0] == SiteConfigImport && p.imports[|p.imports| - 1] == FooterImport
    ensures var p := DigitalNamecardPage(table, state);
      var rs := CompRenders(table, Active(state.order, state.enabled));
      |rs| <= |p.renders| && p.renders[..|rs|] == rs
  {
    var active := Active(state.order, state.enabled);
    var rs := CompRenders(table, active);
    var extra := if "contact" in active && "contact" in table then [QrCodeRender, SaveContactRender] else [];
    assert (rs + extra)[..|rs|] == rs;
  }

  lemma StandardFrame(isDevShowcase: bool, isSmallBiz: bool, table: Table, state: ModuleConfigState)
    ensures var p := StandardPage(isDevShowcase, isSmallBiz, table, state);
      |p.imports| >= 2 && p.imports[0] == SiteConfigImport && p.imports[1] == NavHeaderImport &&
      p.imports[|p.imports| - 1] == FooterImport
    ensures !isSmallBiz ==>
      StandardPage(isDevShowcase, isSmallBiz, table, state).renders == CompRenders(table, Active(state.order, state.enabled))
  {
  }

  /** A module's component is rendered exactly when the module is enabled,
      ordered, and has an entry in the template's table. */
  lemma RenderedModules(table: Table, state: ModuleConfigState, id: string)
    requires id in table
    requires forall a, b :: a in table && b in table && table[a].render == table[b].render ==> a == b
    ensures table[id].render in CompRenders(table, Active(state.order, state.enabled)) <==>
      id in state.order && id in state.enabled
  {
    var active := Active(state.order, state.enabled);
    var w := WithComponent(table, active);
    CompListsMatch(table, active);
    if id in state.order && id in state.enabled {
      var k :| 0 <= k < |w| && w[k] == id;
      assert CompRenders(table, active)[k] == table[id].render;
    }
    if table[id].render in CompRenders(table, active) {
      var k :| 0 <= k < |w| && CompRenders(table, active)[k] == table[id].render;
      assert w[k] in active;
    }
  }

  /** The digital-namecard page has the QR code and the save-contact button
      exactly when the contact module is enabled and ordered. */
  lemma NamecardQr(state: ModuleConfigState)
    ensures var p := DigitalNamecardPage(DigitalNamecardComponents, state);
      (QrCodeImport in p.imports && SaveContactImport in p.imports) <==> "contact" in state.order && "contact" in state.enabled
  {
    var active := Active(state.order, state.enabled);
    var table := DigitalNamecardComponents;
    var p := DigitalNamecardPage(table, state);
    CompListsMatch(table, active);
    if "contact" !in active {
      forall k | 0 <= k < |CompImports(table, active)|
        ensures CompImports(table, active)[k] != QrCodeImport
      {
        var id := WithComponent(table, active)[k];
        assert id in table;
      }
      assert QrCodeImport !in p.imports;
    }
  }

  /** The link-in-bio page always ends with the embed render. */
  lemma LinkInBioEmbed(table: Table, state: ModuleConfigState)
    ensures var p := LinkInBioProPage(table, state);
      p.renders[|p.renders| - 1] == ContentEmbedRender && ContentEmbedImport in p.imports
  {
  }

  /** A text without the first character of `sub` does not contain it. */
  lemma LacksFirst(s: string, sub: string)
    requires |sub| > 0 && sub[0] !in s
    ensures !Contains(s, sub)
  {
    assert s + "" == s;
    NotContainsSkip(s, "", sub);
    NotContainsShort("", sub);
  }

  lemma HeroMentionsHero()
    ensures Contains(Hero.render, "HeroSection")
  {
    var sub := "HeroSection";
    assert Hero.render == "        <" + sub + " config={siteConfig} />";
    assert Hero.render[9..9 + |sub|] == sub;
    ContainsAt(Hero.render, sub, 9);
  }

  /** `H` occurs in the hours render only at the start of `HoursSection` and
      in `businessHours`, and neither is followed by `eroSection`. */
  lemma HoursLacksHero()
    ensures !Contains(Tag("HoursSection", "hours={siteConfig.businessHours}"), "HeroSection")
  {
    var sub := "HeroSection";
    var t := "HoursSection" + " " + "hours={siteConfig.businessHours}" + " />";
    assert Tag("HoursSection", "hours={siteConfig.businessHours}") == "        " + ("<" + t);
    HoursElementLacksHero();
    NotContainsSkip("<", t, sub);
    NotContainsSkip("        ", "<" + t, sub);
  }

  lemma HoursElementLacksHero()
    ensures !Contains("HoursSection" + " " + "hours={siteConfig.businessHours}" + " />", "HeroSection")
  {
    var u := HoursHead() + HoursRest();
    HoursTailLacksHero();
    assert u[0] == 'o';
    ConsLacks('H', u, "HeroSection");
    assert "HoursSection" + " " + "hours={siteConfig.businessHours}" + " />" == ['H'] + u;
  }

  /** A text whose second character already breaks the match holds `sub`
      only where its tail does. */
  lemma ConsLacks(c: char, u: string, sub: string)
    requires |u| > 0 && |sub| > 1 && u[0] != sub[1] && !Contains(u, sub)
    ensures !Contains([c] + u, sub)
  {
    var t := [c] + u;
    assert t[1] == u[0] && t[1..] == u;
    ContainsUnfold(t, sub);
  }

  function HoursHead(): string { "oursSection" + " " + "hours={siteConfig.business" }
  function HoursRest(): string { "Hours}" + " />" }

  lemma HoursTailLacksHero()
    ensures !Contains(HoursHead() + HoursRest(), "HeroSection")
  {
    assert 'H' !in HoursHead();
    NotContainsSkip(HoursHead(), HoursRest(), "HeroSection");
    NotContainsShort(HoursRest(), "HeroSection");
  }

  lemma GuardedLacks(cond: string, name: string, attrs: string, c: char)
    requires c !in cond && c !in name && c !in attrs && c !in " &(\n<>/){}"
    ensures c !in Guarded(cond, name, attrs)
  {
  }

  /** The other small-biz renders do not mention HeroSection. */
  lemma SmallBizOthersLackHero()
    ensures !Contains(Tag("MenuSection", "items={siteConfig.menuItems}"), "HeroSection")
    ensures !Contains(Tag("LocationSection", "config={siteConfig}"), "HeroSection")
    ensures !Contains(Tag("SnsSection", "config={siteConfig}"), "HeroSection")
    ensures !Contains(Gallery.render, "HeroSection")
  {
    TagLacksHero("MenuSection", "items={siteConfig.menuItems}");
    TagLacksHero("LocationSection", "config={siteConfig}");
    TagLacksHero("SnsSection", "config={siteConfig}");
    GalleryLacksHero();
  }

  /** A tag with no 'H' in its name or attributes does not mention HeroSection. */
  lemma TagLacksHero(name: string, attrs: string)
    requires 'H' !in name && 'H' !in attrs
    ensures !Contains(Tag(name, attrs), "HeroSection")
  {
    assert 'H' !in Tag(name, attrs);
    LacksFirst(Tag(name, attrs), "HeroSection");
  }

  lemma GalleryLacksHero()
    ensures !Contains(Gallery.render, "HeroSection")
  {
    var cond, name, attrs := "siteConfig.galleryImages.length > 0", "GallerySection", "images={siteConfig.galleryImages}";
    assert 'H' !in cond && 'H' !in name && 'H' !in attrs;
    GuardedLacksHero(cond, name, attrs);
  }

  /** A guarded render with no 'H' in its parts does not mention HeroSection. */
  lemma GuardedLacksHero(cond: string, name: string, attrs: string)
    requires 'H' !in cond && 'H' !in name && 'H' !in attrs
    ensures !Contains(Guarded(cond, name, attrs), "HeroSection")
  {
    GuardedLacks(cond, name, attrs, 'H');
    LacksFirst(Guarded(cond, name, attrs), "HeroSection");
  }

  /** When hero is the only component whose render mentions HeroSection and
      it is active, the small-biz page renders QuickActions right after it. */
  lemma QuickActionsAfterHero(table: Table, state: ModuleConfigState)
    requires "hero" in table && "hero" in state.enabled && "hero" in state.order
    requires forall id :: id in table ==> (Contains(table[id].render, "HeroSection") <==> id == "hero")
    ensures var p := StandardPage(false, true, table, state);
      exists k :: 0 <= k < |p.renders| - 1 && p.renders[k] == table["hero"].render && p.renders[k + 1] == QuickActionsRender
  {
    var active := Active(state.order, state.enabled);
    var rs := CompRenders(table, active);
    var w := WithComponent(table, active);
    CompListsMatch(table, active);
    assert "hero" in w;
    var h :| 0 <= h < |w| && w[h] == "hero";
    assert rs[h] == table["hero"].render;
    match FindHero(rs)
    case None =>
      assert false;
    case Some(k) =>
      assert w[k] in table;
      assert rs[k] == table["hero"].render;
      var p := StandardPage(false, true, table, state);
      assert p.renders == InsertAfter(rs, k, QuickActionsRender);
      assert p.renders[k] == rs[k];
  }

  /** Small-biz with hero enabled and ordered: QuickActions is rendered
      immediately after the hero section. */
  lemma SmallBizQuickActions(state: ModuleConfigState)
    requires "hero" in state.enabled && "hero" in state.order
    ensures var p := PageOf(SmallBiz, state);
      exists k :: 0 <= k < |p.renders| - 1 && p.renders[k] == Hero.render && p.renders[k + 1] == QuickActionsRender
  {
    SmallBizHeroOnly();
    SmallBizHero();
    QuickActionsAfterHero(SmallBizComponents, state);
    SmallBizPage(state);
  }

  lemma SmallBizHero()
    ensures "hero" in SmallBizComponents && SmallBizComponents["hero"] == Hero
  {
  }

  lemma SmallBizPage(state: ModuleConfigState)
    ensures PageOf(SmallBiz, state) == PageWith(SmallBiz, SmallBizComponents, state)
  {
  }

  /** Of the small-biz renders, only the hero's mentions HeroSection. */
  lemma SmallBizHeroOnly()
    ensures forall id :: id in SmallBizComponents ==> (Contains(SmallBizComponents[id].render, "HeroSection") <==> id == "hero")
  {
    HeroMentionsHero();
    HoursLacksHero();
    SmallBizOthersLackHero();
    forall id | id in SmallBizComponents
      ensures Contains(SmallBizComponents[id].render, "HeroSection") <==> id == "hero"
    {
      if id == "hero" {
      } else if id == "hours" {
      } else if id == "menu" {
      } else if id == "location" {
      } else if id == "sns" {
      } else {
        assert id == "gallery";
      }
    }
  }

  // ----- parsePageToEnabledModules -----

  /** The parsers' `importToModule` tables. */
  function ImportToModule(t: Template): map<string, string> {
    match t
    case PersonalBrand => map["HeroSection" := "hero", "AboutSection" := "about", "ValuesSection" := "values",
      "HighlightsSection" := "highlights", "GallerySection" := "gallery", "ContactSection" := "contact"]
    case DevShowcase => map["HeroSection" := "hero", "AboutSection" := "about", "ProjectsSection" := "projects",
      "ExperienceTimeline" := "experience", "BlogSection" := "blog", "ContactSection" := "contact"]
    case LinkInBioPro => map["ProfileSection" := "profile", "LinkList" := "links", "SocialBar" := "socials"]
    case DigitalNamecard => map["ProfileCard" := "profile", "ContactInfo" := "contact", "SocialLinks" := "socials"]
    case FreelancerPage => map["HeroSection" := "hero", "ServicesSection" := "services", "PortfolioSection" := "portfolio",
      "TestimonialsSection" := "testimonials", "ProcessSection" := "process", "ContactSection" := "contact"]
    case SmallBiz => map["HeroSection" := "hero", "MenuSection" := "menu", "HoursSection" := "hours",
      "LocationSection" := "location", "GallerySection" := "gallery", "SnsSection" := "sns"]
  }

  /** The module ids the parser collects from a sequence of imported names,
      before repeats are dropped. */
  function Mapped(back: map<string, string>, names: seq<string>): seq<string>
    decreases |names|
  {
    if |names| == 0 then []
    else
      var rest := Mapped(back, names[..|names| - 1]);
      var n := names[|names| - 1];
      if n in back then rest + [back[n]] else rest
  }

  /** The enabled list the parser returns for the imported names. */
  function ParsedEnabled(t: Template, names: seq<string>): seq<string> {
    var e := Distinct(Mapped(ImportToModule(t), names));
    if (t == DigitalNamecard || t == LinkInBioPro) && "theme" !in e then e + ["theme"] else e
  }

  /** `parsePageToEnabledModules(pageContent, templateSlug)`, given the names
      the import pattern captures, in page order. */
  method ParsePage(names: seq<string>, slug: Option<string>) returns (enabled: seq<string>, order: seq<string>)
    ensures enabled == ParsedEnabled(TemplateOf(slug), names)
    ensures order == enabled
  {
    var t := TemplateOf(slug);
    var importToModule := ImportToModule(t);
    enabled := [];
    var i := 0;
    while i < |names|
      invariant 0 <= i <= |names|
      invariant enabled == Distinct(Mapped(importToModule, names[..i]))
    {
      assert names[..i + 1][..i] == names[..i];
      var name := names[i];
      if name in importToModule {
        var modId := importToModule[name];
        var m := Mapped(importToModule, names[..i + 1]);
        assert m == Mapped(importToModule, names[..i]) + [modId];
        assert m[..|m| - 1] == Mapped(importToModule, names[..i]);
        if modId !in enabled {
          enabled := enabled + [modId];
        }
      }
      i := i + 1;
    }
    WholePrefix(names);
    if (t == DigitalNamecard || t == LinkInBioPro) && "theme" !in enabled {
      enabled := enabled + ["theme"];
    }
    order := enabled;
  }

  /** The parsed list never repeats a module, and holds only modules some
      imported name maps to (plus `theme`). */
  lemma ParsedEnabledDistinct(t: Template, names: seq<string>)
    ensures NoDuplicates(ParsedEnabled(t, names))
    ensures forall id :: id in ParsedEnabled(t, names) && id != "theme" ==>
      exists k :: 0 <= k < |names| && names[k] in ImportToModule(t) && ImportToModule(t)[names[k]] == id
  {
    var back := ImportToModule(t);
    DistinctSpec(Mapped(back, names));
    MappedFrom(back, names);
  }

  lemma {:induction false} MappedFrom(back: map<string, string>, names: seq<string>)
    ensures forall id :: id in Mapped(back, names) ==>
      exists k :: 0 <= k < |names| && names[k] in back && back[names[k]] == id
    decreases |names|
  {
    if |names| > 0 {
      var prefix := names[..|names| - 1];
      MappedFrom(back, prefix);
      forall id | id in Mapped(back, names)
        ensures exists k :: 0 <= k < |names| && names[k] in back && back[names[k]] == id
      {
        if id in Mapped(back, prefix) {
          var k :| 0 <= k < |prefix| && prefix[k] in back && back[prefix[k]] == id;
          assert names[k] == prefix[k];
        } else {
          assert names[|names| - 1] in back && back[names[|names| - 1]] == id;
        }
      }
    }
  }

  function ImportNames(imports: seq<Import>): (r: seq<string>)
    ensures |r| == |imports| && forall k :: 0 <= k < |imports| ==> r[k] == imports[k].name
  {
    seq(|imports|, k requires 0 <= k < |imports| => imports[k].name)
  }

  lemma {:induction false} MappedAppend(back: map<string, string>, a: seq<string>, b: seq<string>)
    ensures Mapped(back, a + b) == Mapped(back, a) + Mapped(back, b)
    decreases |b|
  {
    if |b| == 0 {
      assert a + b == a;
    } else {
      assert (a + b)[..|a + b| - 1] == a + b[..|b| - 1];
      MappedAppend(back, a, b[..|b| - 1]);
    }
  }

  /** The parser's table inverts the generator's: every component's import
      name maps back to its module id. */
  predicate Inverts(table: Table, back: map<string, string>) {
    forall id :: id in table ==> table[id].importName in back && back[table[id].importName] == id
  }

  /** Names the generator imports that are not module components. */
  predicate Unmapped(back: map<string, string>, names: seq<string>) {
    forall k :: 0 <= k < |names| ==> names[k] !in back
  }

  lemma {:induction false} MappedUnmapped(back: map<string, string>, names: seq<string>)
    requires Unmapped(back, names)
    ensures Mapped(back, names) == []
    decreases |names|
  {
    if |names| > 0 {
      MappedUnmapped(back, names[..|names| - 1]);
    }
  }

  lemma {:induction false} MappedComponents(table: Table, back: map<string, string>, ids: seq<string>)
    requires Inverts(table, back)
    ensures Mapped(back, ImportNames(CompImports(table, ids))) == WithComponent(table, ids)
    decreases |ids|
  {
    if |ids| > 0 {
      var prefix := ids[..|ids| - 1];
      var id := ids[|ids| - 1];
      MappedComponents(table, back, prefix);
      if id in table {
        var c := table[id];
        assert CompImports(table, ids) == CompImports(table, prefix) + [Import(c.importName, c.importPath)];
        assert ImportNames(CompImports(table, ids)) == ImportNames(CompImports(table, prefix)) + [c.importName];
        MappedAppend(back, ImportNames(CompImports(table, prefix)), [c.importName]);
        assert Mapped(back, [c.importName]) == [id] by {
          assert [c.importName][..0] == [];
        }
      }
    }
  }

  /** The parser maps none of the names a page imports besides its components. */
  predicate ExtrasUnmapped(back: map<string, string>) {
    SiteConfigImport.name !in back && NavHeaderImport.name !in back && GetThemeImport.name !in back &&
    FooterImport.name !in back && GithubGraphImport.name !in back && QuickActionsImport.name !in back &&
    QrCodeImport.name !in back && SaveContactImport.name !in back && ContentEmbedImport.name !in back
  }

  /** The generator's and the parser's tables agree, template by template. */
  lemma TablesAgreePersonalBrand()
    ensures Inverts(PersonalBrandComponents, ImportToModule(PersonalBrand))
  {
    forall id | id in PersonalBrandComponents
      ensures PersonalBrandComponents[id].importName in ImportToModule(PersonalBrand) && ImportToModule(PersonalBrand)[PersonalBrandComponents[id].importName] == id
    {
      if id == "hero" {
      } else if id == "about" {
      } else if id == "values" {
      } else if id == "highlights" {
      } else if id == "gallery" {
      } else if id == "contact" {
      }
    }
  }

  lemma TablesAgreeDevShowcase()
    ensures Inverts(DevShowcaseComponents, ImportToModule(DevShowcase))
  {
    forall id | id in DevShowcaseComponents
      ensures DevShowcaseComponents[id].importName in ImportToModule(DevShowcase) && ImportToModule(DevShowcase)[DevShowcaseComponents[id].importName] == id
    {
      if id == "hero" {
      } else if id == "about" {
      } else if id == "projects" {
      } else if id == "experience" {
      } else if id == "blog" {
      } else if id == "contact" {
      }
    }
  }

  lemma TablesAgreeLinkInBioPro()
    ensures Inverts(LinkInBioProComponents, ImportToModule(LinkInBioPro))
  {
    forall id | id in LinkInBioProComponents
      ensures LinkInBioProComponents[id].importName in ImportToModule(LinkInBioPro) && ImportToModule(LinkInBioPro)[LinkInBioProComponents[id].importName] == id
    {
      if id == "profile" {
      } else if id == "links" {
      } else if id == "socials" {
      }
    }
  }

  lemma TablesAgreeDigitalNamecard()
    ensures Inverts(DigitalNamecardComponents, ImportToModule(DigitalNamecard))
  {
    forall id | id in DigitalNamecardComponents
      ensures DigitalNamecardComponents[id].importName in ImportToModule(DigitalNamecard) && ImportToModule(DigitalNamecard)[DigitalNamecardComponents[id].importName] == id
    {
      if id == "profile" {
      } else if id == "contact" {
      } else if id == "socials" {
      }
    }
  }

  lemma TablesAgreeFreelancerPage()
    ensures Inverts(FreelancerComponents, ImportToModule(FreelancerPage))
  {
    forall id | id in FreelancerComponents
      ensures FreelancerComponents[id].importName in ImportToModule(FreelancerPage) && ImportToModule(FreelancerPage)[FreelancerComponents[id].importName] == id
    {
      if id == "hero" {
      } else if id == "services" {
      } else if id == "portfolio" {
      } else if id == "testimonials" {
      } else if id == "process" {
      } else if id == "contact" {
      }
    }
  }

  lemma TablesAgreeSmallBiz()
    ensures Inverts(SmallBizComponents, ImportToModule(SmallBiz))
  {
    forall id | id in SmallBizComponents
      ensures SmallBizComponents[id].importName in ImportToModule(SmallBiz) && ImportToModule(SmallBiz)[SmallBizComponents[id].importName] == id
    {
      if id == "hero" {
      } else if id == "menu" {
      } else if id == "hours" {
      } else if id == "location" {
      } else if id == "gallery" {
      } else if id == "sns" {
      }
    }
  }

  lemma TablesAgree(t: Template)
    ensures Inverts(Components(t), ImportToModule(t))
    ensures ExtrasUnmapped(ImportToModule(t))
  {
    TablesInvert(t);
    TablesExtras(t);
  }

  lemma TablesInvert(t: Template)
    ensures Inverts(Components(t), ImportToModule(t))
  {
    match t
    case PersonalBrand => TablesAgreePersonalBrand();
    case DevShowcase => TablesAgreeDevShowcase();
    case LinkInBioPro => TablesAgreeLinkInBioPro();
    case DigitalNamecard => TablesAgreeDigitalNamecard();
    case FreelancerPage => TablesAgreeFreelancerPage();
    case SmallBiz => TablesAgreeSmallBiz();
  }

  lemma TablesExtras(t: Template)
    ensures ExtrasUnmapped(ImportToModule(t))
  {
    match t
    case PersonalBrand => PersonalBrandExtras();
    case DevShowcase => DevShowcaseExtras();
    case LinkInBioPro => LinkInBioProExtras();
    case DigitalNamecard => DigitalNamecardExtras();
    case FreelancerPage => FreelancerPageExtras();
    case SmallBiz => SmallBizExtras();
  }

  /** None of the fixed imports is a name the parser maps. */
  lemma PersonalBrandExtras()
    ensures ExtrasUnmapped(ImportToModule(PersonalBrand))
  {
  }

  lemma DevShowcaseExtras()
    ensures ExtrasUnmapped(ImportToModule(DevShowcase))
  {
  }

  lemma LinkInBioProExtras()
    ensures ExtrasUnmapped(ImportToModule(LinkInBioPro))
  {
  }

  lemma DigitalNamecardExtras()
    ensures ExtrasUnmapped(ImportToModule(DigitalNamecard))
  {
  }

  lemma FreelancerPageExtras()
    ensures ExtrasUnmapped(ImportToModule(FreelancerPage))
  {
  }

  lemma SmallBizExtras()
    ensures ExtrasUnmapped(ImportToModule(SmallBiz))
  {
  }


  /** Parsing `pre` followed by the component imports keeps only the
      components' modules when `pre` imports nothing the parser maps. */
  lemma ParseImports(table: Table, back: map<string, string>, ids: seq<string>, pre: seq<Import>)
    requires Inverts(table, back)
    requires forall k :: 0 <= k < |pre| ==> pre[k].name !in back
    ensures Mapped(back, ImportNames(pre + CompImports(table, ids))) == WithComponent(table, ids)
  {
    var comps := CompImports(table, ids);
    MappedComponents(table, back, ids);
    assert ImportNames(pre + comps) == ImportNames(pre) + ImportNames(comps);
    MappedUnmapped(back, ImportNames(pre));
    MappedAppend(back, ImportNames(pre), ImportNames(comps));
  }

  /** Imports the parser does not map add nothing to what it collects. */
  lemma ParseSkips(back: map<string, string>, a: seq<Import>, b: seq<Import>)
    requires forall k :: 0 <= k < |b| ==> b[k].name !in back
    ensures Mapped(back, ImportNames(a + b)) == Mapped(back, ImportNames(a))
  {
    assert ImportNames(a + b) == ImportNames(a) + ImportNames(b);
    MappedUnmapped(back, ImportNames(b));
    MappedAppend(back, ImportNames(a), ImportNames(b));
    assert Mapped(back, ImportNames(a)) + [] == Mapped(back, ImportNames(a));
  }

  lemma ParseStandardPage(t: Template, state: ModuleConfigState)
    requires t != LinkInBioPro && t != DigitalNamecard
    ensures Mapped(ImportToModule(t), ImportNames(PageOf(t, state).imports)) ==
      WithComponent(Components(t), Active(state.order, state.enabled))
  {
    TablesAgree(t);
    assert PageOf(t, state) == StandardPage(t == DevShowcase, t == SmallBiz, Components(t), state);
    ParseStandard(t == DevShowcase, t == SmallBiz, Components(t), ImportToModule(t), state);
  }

  lemma ParseStandard(isDevShowcase: bool, isSmallBiz: bool, table: Table, back: map<string, string>, state: ModuleConfigState)
    requires Inverts(table, back) && ExtrasUnmapped(back)
    ensures Mapped(back, ImportNames(StandardPage(isDevShowcase, isSmallBiz, table, state).imports)) ==
      WithComponent(table, Active(state.order, state.enabled))
  {
    var active := Active(state.order, state.enabled);
    var base := [SiteConfigImport, NavHeaderImport] + CompImports(table, active);
    var g := if isDevShowcase && "about" in active && "about" in table then [GithubGraphImport] else [];
    var q := if isSmallBiz && "hero" in state.enabled then [QuickActionsImport] else [];
    assert StandardPage(isDevShowcase, isSmallBiz, table, state).imports == base + g + q + [FooterImport];
    ParseSkips(back, base + g + q, [FooterImport]);
    ParseSkips(back, base + g, q);
    ParseSkips(back, base, g);
    ParseImports(table, back, active, [SiteConfigImport, NavHeaderImport]);
  }

  lemma ParseLinkInBioProPage(state: ModuleConfigState)
    ensures Mapped(ImportToModule(LinkInBioPro), ImportNames(PageOf(LinkInBioPro, state).imports)) ==
      WithComponent(LinkInBioProComponents, Active(state.order, state.enabled))
  {
    TablesAgreeLinkInBioPro();
    LinkInBioProExtras();
    ParseLinkInBioPro(LinkInBioProComponents, ImportToModule(LinkInBioPro), Active(state.order, state.enabled));
  }

  lemma ParseLinkInBioPro(table: Table, back: map<string, string>, active: seq<string>)
    requires Inverts(table, back) && ExtrasUnmapped(back)
    ensures Mapped(back, ImportNames([SiteConfigImport, GetThemeImport] + CompImports(table, active) +
      [ContentEmbedImport, FooterImport])) == WithComponent(table, active)
  {
    var base := [SiteConfigImport, GetThemeImport] + CompImports(table, active);
    ParseSkips(back, base, [ContentEmbedImport, FooterImport]);
    ParseImports(table, back, active, [SiteConfigImport, GetThemeImport]);
  }

  lemma ParseDigitalNamecardPage(state: ModuleConfigState)
    ensures Mapped(ImportToModule(DigitalNamecard), ImportNames(PageOf(DigitalNamecard, state).imports)) ==
      WithComponent(DigitalNamecardComponents, Active(state.order, state.enabled))
  {
    TablesAgreeDigitalNamecard();
    DigitalNamecardExtras();
    var active := Active(state.order, state.enabled);
    ParseDigitalNamecard(DigitalNamecardComponents, ImportToModule(DigitalNamecard), active,
      "contact" in active && "contact" in DigitalNamecardComponents);
  }

  lemma ParseDigitalNamecard(table: Table, back: map<string, string>, active: seq<string>, qr: bool)
    requires Inverts(table, back) && ExtrasUnmapped(back)
    ensures Mapped(back, ImportNames([SiteConfigImport] + CompImports(table, active) +
      (if qr then [QrCodeImport, SaveContactImport] else []) + [FooterImport])) == WithComponent(table, active)
  {
    var base := [SiteConfigImport] + CompImports(table, active);
    var extra := if qr then [QrCodeImport, SaveContactImport] else [];
    ParseSkips(back, base + extra, [FooterImport]);
    ParseSkips(back, base, extra);
    ParseImports(table, back, active, [SiteConfigImport]);
  }

  /** Round trip: parsing the generated page's imports gives back the
      enabled-and-ordered modules that have a component (each once, in the
      order of first appearance), plus `theme` for the two templates whose
      theme module has no component. */
  lemma ParseGeneratedPage(t: Template, state: ModuleConfigState)
    ensures var names := ImportNames(PageOf(t, state).imports);
      var mods := Distinct(WithComponent(Components(t), Active(state.order, state.enabled)));
      ParsedEnabled(t, names) == if t == DigitalNamecard || t == LinkInBioPro then
        (if "theme" in mods then mods else mods + ["theme"]) else mods
  {
    var names := ImportNames(PageOf(t, state).imports);
    var w := WithComponent(Components(t), Active(state.order, state.enabled));
    if t == LinkInBioPro {
      ParseLinkInBioProPage(state);
    } else if t == DigitalNamecard {
      ParseDigitalNamecardPage(state);
    } else {
      ParseStandardPage(t, state);
    }
    ParsedEnabledOf(t, ImportToModule(t), names, w);
  }

  /** What the parser returns once the mapped ids are known. */
  lemma ParsedEnabledOf(t: Template, back: map<string, string>, names: seq<string>, w: seq<string>)
    requires back == ImportToModule(t) && Mapped(back, names) == w
    ensures ParsedEnabled(t, names) == if t == DigitalNamecard || t == LinkInBioPro then
      (if "theme" in Distinct(w) then Distinct(w) else Distinct(w) + ["theme"]) else Distinct(w)
  {
  }

  /** With an `order` that repeats no module, the parser recovers exactly
      the rendered modules in `order` order. */
  lemma ParseGeneratedPageExact(t: Template, state: ModuleConfigState)
    requires NoDuplicates(state.order)
    ensures var mods := WithComponent(Components(t), Active(state.order, state.enabled));
      NoDuplicates(mods) && Distinct(mods) == mods
  {
    ActiveNoDuplicates(state.order, state.enabled);
    WithComponentNoDuplicates(Components(t), Active(state.order, state.enabled));
    DistinctOfNoDuplicates(WithComponent(Components(t), Active(state.order, state.enabled)));
  }

  lemma {:induction false} ActiveNoDuplicates(order: seq<string>, enabled: seq<string>)
    requires NoDuplicates(order)
    ensures NoDuplicates(Active(order, enabled))
    decreases |order|
  {
    if |order| > 0 {
      var prefix := order[..|order| - 1];
      assert NoDuplicates(prefix);
      ActiveNoDuplicates(prefix, enabled);
      assert order[|order| - 1] !in prefix;
    }
  }

  lemma {:induction false} WithComponentNoDuplicates(table: Table, ids: seq<string>)
    requires NoDuplicates(ids)
    ensures NoDuplicates(WithComponent(table, ids))
    decreases |ids|
  {
    if |ids| > 0 {
      var prefix := ids[..|ids| - 1];
      assert NoDuplicates(prefix);
      WithComponentNoDuplicates(table, prefix);
      assert ids[|ids| - 1] !in prefix;
    }
  }
}

=== FILE: codegen_pattern.dfy ===
/** The key pattern of the personal-brand parser's `extractString` and
    `extractNullable` as written: a regular expression
    `key:\s*(?:process\.env\.[\w]+\s*\|\|\s*)?'((?:[^'\\]|\\.)*)'`
    (with `|null` after the quoted literal for `extractNullable`), not
    anchored to the start of an entry, run over the text of `siteConfig`.
    Its first textual match wins, whichever entry it falls in. */
module CodeGenPattern {
  import opened Text
  import opened CodeGenEscape
  import opened CodeGenConfig

  // ----- the text the pattern runs over -----

  /** `process.env.X || ` in front of a value that X overrides. */
  function EnvText(env: Option<string>): string {
    if env.Some? then "process.env." + env.value + " || " else ""
  }

  /** The line a `siteConfig` entry is written as. */
  function SlotText(s: Slot): string {
    "\n  " + s.key + ": " + EnvText(s.env) + LitText(s.lit) + ","
  }

  function SlotsText(slots: seq<Slot>): string
    decreases |slots|
  {
    if |slots| == 0 then "" else SlotText(slots[0]) + SlotsText(slots[1..])
  }

  /** `siteBlock`, the capture of `\{([\s\S]*?)\n\};`: the entries' text up
      to the first `\n};`. The file closes the object with one, so the lazy
      capture stops there or at an earlier one that a value holds. */
  function SiteBlock(cfg: ConfigTs): string {
    var t := SlotsText(cfg.slots);
    IndexOfFound(t, "\n};");
    match IndexOf(t, "\n};")
    case None => t
    case Some(i) => t[..i]
  }

  // ----- the pattern -----

  /** A non-empty run of word characters (a key, an environment variable). */
  predicate IsWord(s: string) {
    |s| > 0 && forall k :: 0 <= k < |s| ==> IsWordChar(s[k])
  }

  lemma WordFromChars(s: string)
    requires |s| > 0 && forall c :: c in s ==> IsWordChar(c)
    ensures IsWord(s)
  {
    assert forall k :: 0 <= k < |s| ==> s[k] in s;
  }

  /** The optional group `process\.env\.[\w]+\s*\|\|\s*` at the start of a:
      the text after it when it matches. Backtracking inside the group never
      helps: `[\w]+` and each `\s*` stop at a character that the next item
      of the pattern cannot take either. */
  function EnvGroup(a: string): Option<string> {
    if !StartsWith(a, "process.env.") then None
    else
      var e := WordEnd(a, 12);
      if e == 12 then None
      else
        var s := TrimStart(a[e..]);
        if StartsWith(s, "||") then Some(TrimStart(s[2..])) else None
  }

  /** `'((?:[^'\\]|\\.)*)'`, or also `null` when `nullable`, at the start of
      b: the body with `.replace(/\\(.)/g, '$1')` applied, or "" for `null`. */
  function Literal(b: string, nullable: bool): Option<string> {
    if |b| > 0 && b[0] == '\'' then ExtractQuoted(b[1..])
    else if nullable && StartsWith(b, "null") then Some("")
    else None
  }

  /** The pattern matched at the start of t. When the group matches but no
      literal follows it, the engine tries again without the group. */
  function MatchHere(t: string, key: string, nullable: bool): Option<string> {
    if !StartsWith(t, key + ":") then None
    else
      var a := TrimStart(t[|key| + 1..]);
      var g := EnvGroup(a);
      if g.Some? && Literal(g.value, nullable).Some? then Literal(g.value, nullable)
      else Literal(a, nullable)
  }

  /** `text.match(re)`: the match at the leftmost position where there is one. */
  function Search(t: string, key: string, nullable: bool): Option<string>
    decreases |t|
  {
    var m := MatchHere(t, key, nullable);
    if m.Some? || |t| == 0 then m else Search(t[1..], key, nullable)
  }

  /** `extractString(key)` (nullable false) and `extractNullable(key)`
      (nullable true) as the parser writes them. */
  function ExtractAsWritten(cfg: ConfigTs, key: string, nullable: bool): Option<string> {
    Search(SiteBlock(cfg), key, nullable)
  }

  // ----- where the first match falls -----

  lemma {:induction false} SlotsTextAppend(a: seq<Slot>, b: seq<Slot>)
    ensures SlotsText(a + b) == SlotsText(a) + SlotsText(b)
    decreases |a|
  {
    if |a| == 0 {
      assert a + b == b;
    } else {
      assert (a + b)[1..] == a[1..] + b;
      SlotsTextAppend(a[1..], b);
    }
  }

  /** The entries' text around entry i. */
  lemma SlotsTextAround(slots: seq<Slot>, i: nat)
    requires i < |slots|
    ensures SlotsText(slots) == SlotsText(slots[..i]) + (SlotText(slots[i]) + SlotsText(slots[i + 1..]))
  {
    assert slots == slots[..i] + slots[i..];
    SlotsTextAppend(slots[..i], slots[i..]);
    assert slots[i..][0] == slots[i] && slots[i..][1..] == slots[i + 1..];
  }

  /** No match starts before n, so the search goes on from n. */
  lemma {:induction false} SearchSkip(t: string, key: string, nullable: bool, n: nat)
    requires n <= |t|
    requires forall p :: 0 <= p < n ==> !StartsWith(t[p..], key + ":")
    ensures Search(t, key, nullable) == Search(t[n..], key, nullable)
    decreases n
  {
    if n > 0 {
      assert t[0..] == t;
      forall p | 0 <= p < n - 1
        ensures !StartsWith(t[1..][p..], key + ":")
      {
        assert t[1..][p..] == t[p + 1..];
      }
      SearchSkip(t[1..], key, nullable, n - 1);
      assert t[1..][n - 1..] == t[n..];
    }
  }

  /** `key:` cannot start inside a when a does not hold it and b starts with
      a character that is neither a word character nor `:`. */
  lemma NoKeyBefore(a: string, b: string, key: string, p: nat)
    requires IsWord(key) && !Contains(a, key + ":")
    requires |b| > 0 && !IsWordChar(b[0]) && b[0] != ':'
    requires p < |a|
    ensures !StartsWith((a + b)[p..], key + ":")
  {
    var pat := key + ":";
    if p + |pat| <= |a| {
      assert !OccursAt(a, pat, p);
      assert (a + b)[p..][..|pat|] == a[p..p + |pat|];
    } else if |pat| <= |(a + b)[p..]| {
      var j := |a| - p;
      assert (a + b)[p..][j] == b[0];
      assert j < |key| ==> pat[j] == key[j];
      assert pat[j] != b[0];
    }
  }

  /** `key:` cannot start inside `x:y` when neither x nor y holds a colon
      and x does not end with the key. */
  lemma NoKeyAroundColon(x: string, y: string, key: string)
    requires IsWord(key) && ':' !in x && ':' !in y
    requires !EndsWith(x, key)
    ensures !Contains(x + ":" + y, key + ":")
  {
    var t := x + ":" + y;
    var pat := key + ":";
    assert pat[..|key|] == key && pat[|key|] == ':';
    forall k: nat | k <= |t|
      ensures !OccursAt(t, pat, k)
    {
      if k + |pat| <= |t| {
        var c := k + |key|;
        if c < |x| {
          assert t[c] == x[c];
          assert t[c] != ':';
          assert t[k..k + |pat|][|key|] == t[c];
        } else if c == |x| {
          assert t[k..k + |pat|][..|key|] == x[k..];
          assert x[|x| - |key|..] != key;
        } else {
          assert t[c] == y[c - |x| - 1];
          assert t[c] != ':';
          assert t[k..k + |pat|][|key|] == t[c];
        }
      }
    }
  }

  /** TrimStart drops one leading space in front of a non-space. */
  lemma TrimOneSpace(x: string)
    requires |x| > 0 && !IsSpace(x[0])
    ensures TrimStart(" " + x) == x
  {
    assert (" " + x)[1..] == x;
  }

  /** The text from the value on: what the pattern sees after the group. */
  lemma LiteralOfSlot(l: Lit, rest: string, nullable: bool)
    requires l.Quoted? || (nullable && l.NullLit?)
    ensures Literal(LitText(l) + rest, nullable) ==
      (if l.Quoted? then Some(l.v) else Some(""))
  {
    if l.Quoted? {
      assert (LitText(l) + rest)[1..] == Esc(l.v) + "'" + rest;
      WrittenValueReadBack(l.v, rest);
    } else {
      assert (LitText(l) + rest)[..4] == "null";
    }
  }

  /** `process.env.X || ` in front of the value is taken by the group. */
  lemma EnvGroupOfSlot(env: string, y: string)
    requires IsWord(env) && |y| > 0 && !IsSpace(y[0])
    ensures EnvGroup("process.env." + env + " || " + y) == Some(y)
  {
    var z := " " + ("||" + (" " + y));
    SpacedOr("process.env." + env, y);
    WordEndAfterEnv(env, z);
    assert ("process.env." + env + z)[..12] == "process.env.";
    SpacedToken("||", y);
  }

  lemma SpacedOr(p: string, y: string)
    ensures p + " || " + y == p + (" " + ("||" + (" " + y)))
  {
    assert " || " == " " + ("||" + " ");
  }

  /** `\s*` + a two-character token + `\s*` over the token between single
      spaces, in front of a non-space. */
  lemma SpacedToken(bar: string, y: string)
    requires |bar| == 2 && !IsSpace(bar[0]) && |y| > 0 && !IsSpace(y[0])
    ensures var s := TrimStart(" " + (bar + (" " + y))); StartsWith(s, bar) && TrimStart(s[2..]) == y
  {
    TrimOneSpace(bar + (" " + y));
    assert (bar + (" " + y))[..2] == bar;
    assert (bar + (" " + y))[2..] == " " + y;
    TrimOneSpace(y);
  }

  /** `[\w]+` after `process.env.` takes exactly the variable's name. */
  lemma WordEndAfterEnv(env: string, z: string)
    requires IsWord(env) && |z| > 0 && !IsWordChar(z[0])
    ensures WordEnd("process.env." + env + z, 12) == 12 + |env|
    ensures ("process.env." + env + z)[12 + |env|..] == z
  {
    WordEndAfter("process.env.", env, z);
  }

  lemma WordEndAfter(p: string, w: string, z: string)
    requires IsWord(w) && |z| > 0 && !IsWordChar(z[0])
    ensures WordEnd(p + w + z, |p|) == |p| + |w|
    ensures (p + w + z)[|p| + |w|..] == z
  {
    var a := p + w + z;
    assert forall k :: |p| <= k < |p| + |w| ==> a[k] == w[k - |p|];
    assert a[|p| + |w|] == z[0];
    WordEndAt(a, |p|, |p| + |w|);
  }

  /** A text that starts with another character does not start with p. */
  lemma NotStartsWith(y: string, p: string)
    requires |y| > 0 && |p| > 0 && y[0] != p[0]
    ensures !StartsWith(y, p)
  {
    assert |p| <= |y| ==> y[..|p|][0] == y[0];
  }

  lemma {:induction false} WordEndAt(s: string, i: nat, e: nat)
    requires i <= e < |s| && !IsWordChar(s[e])
    requires forall k :: i <= k < e ==> IsWordChar(s[k])
    ensures WordEnd(s, i) == e
    decreases e - i
  {
    if i < e {
      WordEndAt(s, i + 1, e);
    }
  }

  /** `key: process.env.X || ` then a literal: the group is taken. */
  lemma MatchWithGroup(key: string, env: string, y: string, nullable: bool)
    requires IsWord(key) && IsWord(env) && |y| > 0 && !IsSpace(y[0])
    requires Literal(y, nullable).Some?
    ensures MatchHere(key + ":" + (" " + ("process.env." + env + " || " + y)), key, nullable) == Literal(y, nullable)
  {
    var g := "process.env." + env + " || " + y;
    var t := key + ":" + (" " + g);
    assert t[..|key| + 1] == key + ":";
    assert t[|key| + 1..] == " " + g;
    TrimOneSpace(g);
    EnvGroupOfSlot(env, y);
  }

  /** `key:`, at most one space, then a literal: no group to take. */
  lemma MatchWithoutGroup(key: string, sp: string, y: string, nullable: bool)
    requires IsWord(key) && (sp == "" || sp == " ")
    requires |y| > 0 && !IsSpace(y[0]) && y[0] != 'p'
    ensures MatchHere(key + ":" + (sp + y), key, nullable) == Literal(y, nullable)
  {
    var t := key + ":" + (sp + y);
    assert t[..|key| + 1] == key + ":";
    assert t[|key| + 1..] == sp + y;
    if sp == " " {
      TrimOneSpace(y);
    } else {
      assert sp + y == y;
    }
    NotStartsWith(y, "process.env.");
  }

  /** An entry's line followed by more text, split where the pattern reads it. */
  lemma SlotTextSplit(s: Slot, rest: string)
    ensures SlotText(s) + rest ==
      "\n  " + (s.key + ":" + (" " + (EnvText(s.env) + (LitText(s.lit) + ("," + rest)))))
  {
  }

  /** At the start of an entry's `key:` the pattern reads the entry's value. */
  lemma MatchAtSlot(s: Slot, rest: string, nullable: bool)
    requires IsWord(s.key) && (s.env.Some? ==> IsWord(s.env.value))
    requires s.lit.Quoted? || (nullable && s.lit.NullLit?)
    ensures MatchHere(s.key + ":" + (" " + (EnvText(s.env) + (LitText(s.lit) + ("," + rest)))), s.key, nullable) ==
      (if s.lit.Quoted? then Some(s.lit.v) else Some(""))
  {
    var y := LitText(s.lit) + ("," + rest);
    LiteralOfSlot(s.lit, "," + rest, nullable);
    assert y[0] == (if s.lit.Quoted? then '\'' else 'n');
    if s.env.Some? {
      MatchWithGroup(s.key, s.env.value, y, nullable);
    } else {
      assert EnvText(s.env) + y == y;
      MatchWithoutGroup(s.key, " ", y, nullable);
    }
  }

  /** The search runs past text without `key:` and the three characters
      that open an entry's line, to the entry's key. */
  lemma SearchFromEntry(pre: string, body: string, key: string, nullable: bool)
    requires IsWord(key) && !Contains(pre, key + ":")
    ensures Search(pre + ("\n  " + body), key, nullable) == Search(body, key, nullable)
  {
    var after := "\n  " + body;
    var t := pre + after;
    forall p | 0 <= p < |pre|
      ensures !StartsWith(t[p..], key + ":")
    {
      NoKeyBefore(pre, after, key, p);
    }
    SearchSkip(t, key, nullable, |pre|);
    assert t[|pre|..] == after;
    assert (key + ":")[0] == key[0];
    forall p | 0 <= p < 3
      ensures !StartsWith(after[p..], key + ":")
    {
      assert after[p..][0] == after[p];
    }
    SearchSkip(after, key, nullable, 3);
    assert after[3..] == body;
  }

  /** A line holds `key:` three characters in. */
  lemma KeyInLine(pre: string, key: string, w: string)
    ensures Contains(pre + ("\n  " + (key + ":" + w)), key + ":")
  {
    var t := pre + ("\n  " + (key + ":" + w));
    assert t[|pre| + 3..|pre| + 3 + |key| + 1] == key + ":";
    assert OccursAt(t, key + ":", |pre| + 3);
  }

  /** Entries' text holds the `key:` of each of its entries. */
  lemma KeyInOwnText(slots: seq<Slot>, j: nat)
    requires j < |slots|
    ensures Contains(SlotsText(slots), slots[j].key + ":")
  {
    var s := slots[j];
    var rest := SlotsText(slots[j + 1..]);
    SlotsTextAround(slots, j);
    SlotTextSplit(s, rest);
    KeyInLine(SlotsText(slots[..j]), s.key, " " + (EnvText(s.env) + (LitText(s.lit) + ("," + rest))));
  }

  /** When no earlier entry's text holds `key:` and no entry's text holds
      `\n};`, the first match is at entry i's own key, and the parser as
      written reads what the per-entry lookup reads. */
  lemma AsWrittenReadsOwnSlot(cfg: ConfigTs, i: nat, nullable: bool)
    requires i < |cfg.slots|
    requires IsWord(cfg.slots[i].key)
    requires cfg.slots[i].env.Some? ==> IsWord(cfg.slots[i].env.value)
    requires cfg.slots[i].lit.Quoted? || (nullable && cfg.slots[i].lit.NullLit?)
    requires !Contains(SlotsText(cfg.slots[..i]), cfg.slots[i].key + ":")
    requires !Contains(SlotsText(cfg.slots), "\n};")
    ensures var key := cfg.slots[i].key;
      ExtractAsWritten(cfg, key, nullable) ==
        (if nullable then ExtractNullable(cfg, key) else ExtractString(cfg, key))
    ensures cfg.slots[i].lit.Quoted? ==> ExtractAsWritten(cfg, cfg.slots[i].key, nullable) == Some(cfg.slots[i].lit.v)
  {
    var slots := cfg.slots;
    var s := slots[i];
    var pre := SlotsText(slots[..i]);
    var rest := SlotsText(slots[i + 1..]);
    var body := s.key + ":" + (" " + (EnvText(s.env) + (LitText(s.lit) + ("," + rest))));
    SlotsTextAround(slots, i);
    SlotTextSplit(s, rest);
    IndexOfFound(SlotsText(slots), "\n};");
    assert SiteBlock(cfg) == pre + ("\n  " + body);
    SearchFromEntry(pre, body, s.key, nullable);
    MatchAtSlot(s, rest, nullable);
    forall j | 0 <= j < i
      ensures slots[j].key != s.key
    {
      KeyInOwnText(slots[..i], j);
    }
    FindSlotAt(slots, i, s.key);
    if s.lit.Quoted? {
      QuotedReadBack(s.lit.v);
    }
  }

  // ----- a value that spells out a later key -----

  /** `key:` inside an earlier value, after the last colon of the text
      before it and followed by the value's closing quote: the search stops
      there and reads up to the next quote. */
  lemma SearchMisread(x: string, y: string, key: string, c: string, r: string)
    requires IsWord(key) && ':' !in x && ':' !in y && !EndsWith(x, key)
    requires '\\' !in c && '\'' !in c
    ensures Search(x + ":" + y + (" " + (key + ":" + ("'" + c + "'" + r))), key, false) == Some(c)
  {
    var u := "'" + c + "'" + r;
    SkipToColon(x, y, key, " " + (key + ":" + u));
    SkipSpace(key, key + ":" + u);
    MatchQuoted(key, c, r);
  }

  /** No match starts inside `x:y`. */
  lemma SkipToColon(x: string, y: string, key: string, b: string)
    requires IsWord(key) && ':' !in x && ':' !in y && !EndsWith(x, key)
    requires |b| > 0 && !IsWordChar(b[0]) && b[0] != ':'
    ensures Search(x + ":" + y + b, key, false) == Search(b, key, false)
  {
    var a := x + ":" + y;
    NoKeyAroundColon(x, y, key);
    forall p | 0 <= p < |a|
      ensures !StartsWith((a + b)[p..], key + ":")
    {
      NoKeyBefore(a, b, key, p);
    }
    SearchSkip(a + b, key, false, |a|);
    assert (a + b)[|a|..] == b;
  }

  /** No match starts at a space. */
  lemma SkipSpace(key: string, t: string)
    requires IsWord(key)
    ensures Search(" " + t, key, false) == Search(t, key, false)
  {
    assert (key + ":")[0] == key[0];
    NotStartsWith(" " + t, key + ":");
    assert (" " + t)[1..] == t;
  }

  /** `key:` then a quoted literal right away: the match reads its body. */
  lemma MatchQuoted(key: string, c: string, r: string)
    requires IsWord(key) && '\\' !in c && '\'' !in c
    ensures Search(key + ":" + ("'" + c + "'" + r), key, false) == Some(c)
  {
    var u := "'" + c + "'" + r;
    assert key + ":" + u == key + ":" + ("" + u);
    MatchWithoutGroup(key, "", u, false);
    LiteralQuoted(c, r);
  }

  lemma LiteralQuoted(c: string, r: string)
    requires '\\' !in c && '\'' !in c
    ensures Literal("'" + c + "'" + r, false) == Some(c)
  {
    EscPlain(c);
    assert ("'" + c + "'" + r)[1..] == Esc(c) + "'" + r;
    WrittenValueReadBack(c, r);
  }

  /** Where the pattern first matches `e2.key` when the value of the entry
      e0 before it ends with ` ` + `e2.key` + `:`: at that mention, whose
      closing quote it takes for an opening one. It then reads up to the
      next quote, the opening quote of e1's value. */
  lemma KeyInEarlierValue(e0: Slot, e1: Slot, e2: Slot, w: string)
    requires IsWord(e0.key) && e0.env.Some? && IsWord(e0.env.value)
    requires e0.lit == Quoted(w + " " + e2.key + ":")
    requires ':' !in w && '\\' !in w && '\'' !in w && !EndsWith("\n  " + e0.key, e2.key)
    requires IsWord(e1.key) && (e1.env.Some? ==> IsWord(e1.env.value)) && e1.lit.Quoted?
    requires IsWord(e2.key)
    requires !Contains(SlotsText([e0, e1, e2]), "\n};")
    ensures ExtractAsWritten(ConfigTs([], [e0, e1, e2]), e2.key, false) ==
      Some("," + ("\n  " + e1.key + ": " + EnvText(e1.env)))
  {
    var key := e2.key;
    var r2 := SlotText(e2) + "";
    SlotsText3(e0, e1, e2);
    IndexOfFound(SlotsText([e0, e1, e2]), "\n};");
    MisreadParts(e0, e1, w, key);
    ThreeShape(e0, e1, w, key, r2);
    SearchMisread("\n  " + e0.key, " " + EnvText(e0.env) + "'" + w, key,
      "," + ("\n  " + e1.key + ": " + EnvText(e1.env)), Esc(e1.lit.v) + "'" + "," + r2);
  }

  /** The parts `SearchMisread` needs free of colons, quotes and backslashes. */
  lemma MisreadParts(e0: Slot, e1: Slot, w: string, key: string)
    requires IsWord(e0.key) && e0.env.Some? && IsWord(e0.env.value)
    requires ':' !in w && '\\' !in w && '\'' !in w && IsWord(key)
    requires IsWord(e1.key) && (e1.env.Some? ==> IsWord(e1.env.value))
    ensures ':' !in "\n  " + e0.key && ':' !in " " + EnvText(e0.env) + "'" + w
    ensures var c := "," + ("\n  " + e1.key + ": " + EnvText(e1.env)); '\\' !in c && '\'' !in c
    ensures Esc(w + " " + key + ":") == w + " " + key + ":"
  {
    MisreadColons(e0, w);
    MisreadNextKey(e1);
    WordNoQuote(key);
    EscPlain(w + " " + key + ":");
  }

  lemma MisreadColons(e0: Slot, w: string)
    requires IsWord(e0.key) && e0.env.Some? && IsWord(e0.env.value) && ':' !in w
    ensures ':' !in "\n  " + e0.key && ':' !in " " + EnvText(e0.env) + "'" + w
  {
    WordNoQuote(e0.key);
    WordNoQuote(e0.env.value);
  }

  lemma MisreadNextKey(e1: Slot)
    requires IsWord(e1.key) && (e1.env.Some? ==> IsWord(e1.env.value))
    ensures var c := "," + ("\n  " + e1.key + ": " + EnvText(e1.env)); '\\' !in c && '\'' !in c
  {
    WordNoQuote(e1.key);
    if e1.env.Some? {
      WordNoQuote(e1.env.value);
    }
  }

  lemma SlotsText3(e0: Slot, e1: Slot, e2: Slot)
    ensures SlotsText([e0, e1, e2]) == SlotText(e0) + (SlotText(e1) + (SlotText(e2) + ""))
  {
    assert [e2][1..] == [];
    assert SlotsText([e2]) == SlotText(e2) + "";
    assert [e1, e2][1..] == [e2];
    assert SlotsText([e1, e2]) == SlotText(e1) + SlotsText([e2]);
    assert [e0, e1, e2][1..] == [e1, e2];
  }

  /** The text of e0 and e1 cut where `SearchMisread` reads it. */
  lemma ThreeShape(e0: Slot, e1: Slot, w: string, key: string, r2: string)
    requires e0.lit == Quoted(w + " " + key + ":") && Esc(w + " " + key + ":") == w + " " + key + ":"
    requires e1.lit.Quoted?
    ensures SlotText(e0) + (SlotText(e1) + r2) ==
      "\n  " + e0.key + ":" + (" " + EnvText(e0.env) + "'" + w) +
      (" " + (key + ":" + ("'" + ("," + ("\n  " + e1.key + ": " + EnvText(e1.env))) + "'" +
        (Esc(e1.lit.v) + "'" + "," + r2))))
  {
    var lit := w + " " + key + ":";
    assert ": " == ":" + " ";
    assert SlotText(e0) == "\n  " + e0.key + (":" + " ") + EnvText(e0.env) + ("'" + (w + " " + key + ":") + "'") + ",";
    assert SlotText(e1) == "\n  " + e1.key + ": " + EnvText(e1.env) + ("'" + Esc(e1.lit.v) + "'") + ",";
    Regroup("\n  ", e0.key, ":", " ", EnvText(e0.env), "'", w, key, ",",
      "\n  " + e1.key + ": " + EnvText(e1.env), Esc(e1.lit.v), r2);
  }

  /** Regrouping the parts of two entries' lines. */
  lemma Regroup(nl: string, k0: string, colon: string, sp: string, e0: string, q: string, w: string,
                key: string, comma: string, h1: string, v1: string, r2: string)
    ensures nl + k0 + (colon + sp) + e0 + (q + (w + sp + key + colon) + q) + comma + (h1 + (q + v1 + q) + comma + r2) ==
      nl + k0 + colon + (sp + e0 + q + w) + (sp + (key + colon + (q + (comma + h1) + q + (v1 + q + comma + r2))))
  {
  }

  /** A word holds no colon, quote or backslash. */
  lemma WordNoQuote(s: string)
    requires IsWord(s)
    ensures ':' !in s && '\'' !in s && '\\' !in s
  {
  }

  /** Three entries written as the personal-brand template writes them,
      with a tagline that ends in ` email:`. */
  function TaglineEmail(w: string, taglineEn: string, email: string): seq<Slot> {
    [ Slot("tagline", Env("TAGLINE"), Quoted(w + " email:")),
      Slot("taglineEn", Env("TAGLINE_EN"), Quoted(taglineEn)),
      Slot("email", Env("EMAIL"), Quoted(email)) ]
  }

  /** The per-entry lookup reads the email entry; the parser as written
      matches `email:` inside the tagline and reads
      `,\n  taglineEn: process.env.NEXT_PUBLIC_TAGLINE_EN || ` instead. */
  lemma EmailReadFromTagline(w: string, taglineEn: string, email: string)
    requires ':' !in w && '\\' !in w && '\'' !in w && '}' !in w
    requires '}' !in taglineEn && '}' !in email
    ensures ExtractString(ConfigTs([], TaglineEmail(w, taglineEn, email)), "email") == Some(email)
    ensures ExtractAsWritten(ConfigTs([], TaglineEmail(w, taglineEn, email)), "email", false) ==
      Some("," + ("\n  " + "taglineEn" + ": " + EnvText(Env("TAGLINE_EN"))))
  {
    var slots := TaglineEmail(w, taglineEn, email);
    FindSlotAt(slots, 2, "email");
    QuotedReadBack(email);
    TaglineEmailWords(w, taglineEn, email);
    assert slots == [slots[0], slots[1], slots[2]];
    TaglineEmailNoClose(w, taglineEn, email);
    KeyInEarlierValue(slots[0], slots[1], slots[2], w);
  }

  /** The keys and variable names of the three entries are words, and the
      tagline's value ends in ` ` + the email entry's key + `:`. */
  lemma TaglineEmailWords(w: string, taglineEn: string, email: string)
    ensures var s := TaglineEmail(w, taglineEn, email);
      IsWord(s[0].key) && s[0].env.Some? && IsWord(s[0].env.value) &&
      s[0].lit == Quoted(w + " " + s[2].key + ":") && !EndsWith("\n  " + s[0].key, s[2].key) &&
      IsWord(s[1].key) && s[1].env.Some? && IsWord(s[1].env.value) && s[1].lit.Quoted? &&
      IsWord(s[2].key) && s[2].key == "email" && s[1].key == "taglineEn" && s[1].env == Env("TAGLINE_EN")
  {
    assert w + " email:" == w + " " + "email" + ":";
    assert ("\n  " + "tagline")[5..] == "gline";
    WordFromChars("tagline");
    WordFromChars("taglineEn");
    WordFromChars("email");
    WordFromChars("NEXT_PUBLIC_" + "TAGLINE");
    WordFromChars("NEXT_PUBLIC_" + "TAGLINE_EN");
  }

  lemma TaglineEmailNoClose(w: string, taglineEn: string, email: string)
    requires '}' !in w && '}' !in taglineEn && '}' !in email
    ensures !Contains(SlotsText(TaglineEmail(w, taglineEn, email)), "\n};")
  {
    var slots := TaglineEmail(w, taglineEn, email);
    SlotsText3(slots[0], slots[1], slots[2]);
    assert slots == [slots[0], slots[1], slots[2]];
    NoBraceInSlot(slots[0]);
    NoBraceInSlot(slots[1]);
    NoBraceInSlot(slots[2]);
    NoBrace(SlotsText(slots));
  }

  lemma NoBraceInSlot(e: Slot)
    requires '}' !in e.key && (e.env.Some? ==> '}' !in e.env.value)
    requires e.lit.Quoted? && '}' !in e.lit.v
    ensures '}' !in SlotText(e)
  {
    EscKeepsChar(e.lit.v, '}');
  }

  /** Text without a `}` holds no `\n};`. */
  lemma NoBrace(t: string)
    requires '}' !in t
    ensures !Contains(t, "\n};")
  {
    forall k: nat | k <= |t|
      ensures !OccursAt(t, "\n};", k)
    {
      if k + 3 <= |t| {
        assert t[k + 1] in t;
        assert t[k..k + 3][1] == t[k + 1];
      }
    }
  }

  // ----- `parallaxEnabled`, matched on the whole file -----

  lemma FlagKeyWord()
    ensures IsWord(FlagKey) && |FlagKey| == 15 && FlagKey[0] == 'p'
  {
    WordFromChars(FlagKey);
  }

  /** `parallaxEnabled:\s*(true|false)` at the start of t. */
  function FlagHere(t: string): Option<bool> {
    if !StartsWith(t, FlagKey + ":") then None
    else
      var a := TrimStart(t[|FlagKey| + 1..]);
      if StartsWith(a, "true") then Some(true)
      else if StartsWith(a, "false") then Some(false)
      else None
  }

  /** `configContent.match(/parallaxEnabled:\s*(true|false)/)`: the match at
      the leftmost position where there is one. */
  function FlagSearch(t: string): Option<bool>
    decreases |t|
  {
    var m := FlagHere(t);
    if m.Some? || |t| == 0 then m else FlagSearch(t[1..])
  }

  /** The flag the parser as written reads from a file whose entries come
      after `head` (the interfaces, the `DEMO_*` constants, `parseJSON` and
      the opening of `siteConfig`) and before `tail`. */
  function ParallaxAsWritten(head: string, cfg: ConfigTs, tail: string): Option<bool> {
    FlagSearch(head + SlotsText(cfg.slots) + tail)
  }

  /** No match starts before n, so the search goes on from n. */
  lemma {:induction false} FlagSkip(t: string, n: nat)
    requires n <= |t|
    requires forall p :: 0 <= p < n ==> !StartsWith(t[p..], FlagKey + ":")
    ensures FlagSearch(t) == FlagSearch(t[n..])
    decreases n
  {
    if n > 0 {
      assert t[0..] == t;
      forall p | 0 <= p < n - 1
        ensures !StartsWith(t[1..][p..], FlagKey + ":")
      {
        assert t[1..][p..] == t[p + 1..];
      }
      FlagSkip(t[1..], n - 1);
      assert t[1..][n - 1..] == t[n..];
    }
  }

  /** A pattern cannot start inside a when a does not hold it and a ends
      with a character the pattern does not have. */
  lemma NoMatchBeforeEnd(a: string, b: string, pat: string, p: nat)
    requires !Contains(a, pat) && |a| > 0 && a[|a| - 1] !in pat
    requires p < |a|
    ensures !StartsWith((a + b)[p..], pat)
  {
    if p + |pat| <= |a| {
      assert !OccursAt(a, pat, p);
      assert (a + b)[p..][..|pat|] == a[p..p + |pat|];
    } else if |pat| <= |(a + b)[p..]| {
      var j := |a| - 1 - p;
      assert (a + b)[p..][j] == a[|a| - 1];
      assert pat[j] in pat;
    }
  }

  /** `parallaxEnabled: ` then a literal flag. */
  lemma FlagAt(lit: string, r: string)
    requires lit == "true" || lit == "false"
    ensures FlagSearch(FlagKey + ":" + (" " + (lit + r))) == Some(lit == "true")
  {
    var t := FlagKey + ":" + (" " + (lit + r));
    assert t[..|FlagKey| + 1] == FlagKey + ":";
    assert t[|FlagKey| + 1..] == " " + (lit + r);
    TrimOneSpace(lit + r);
    assert (lit + r)[..|lit|] == lit;
    if lit == "false" {
      assert (lit + r)[0] == 'f';
    }
  }

  lemma {:induction false} SlotsTextOpens(slots: seq<Slot>)
    requires |slots| > 0
    ensures |SlotsText(slots)| > 0 && SlotsText(slots)[0] == '\n'
  {
  }

  /** When neither the text before the entries nor any entry before the
      flag's own holds `parallaxEnabled:`, the parser as written reads the
      flag's own entry. */
  lemma ParallaxAsWrittenAgrees(head: string, cfg: ConfigTs, tail: string, i: nat)
    requires i < |cfg.slots| && cfg.slots[i].key == FlagKey && cfg.slots[i].env.None?
    requires cfg.slots[i].lit == Raw("true") || cfg.slots[i].lit == Raw("false")
    requires !Contains(head, FlagKey + ":") && !Contains(SlotsText(cfg.slots[..i]), FlagKey + ":")
    ensures ParallaxAsWritten(head, cfg, tail) == ParallaxOwnEntry(cfg)
    ensures ParallaxOwnEntry(cfg) == Some(cfg.slots[i].lit == Raw("true"))
  {
    var slots := cfg.slots;
    var lit := slots[i].lit.text;
    var pre := SlotsText(slots[..i]);
    var r := "," + (SlotsText(slots[i + 1..]) + tail);
    FlagEntryText(slots, i, tail);
    Assoc3(head, SlotsText(slots), tail);
    var b := pre + ("\n  " + (FlagKey + ":" + (" " + (lit + r))));
    if |pre| > 0 {
      SlotsTextOpens(slots[..i]);
    }
    SkipHead(head, b);
    SearchFromFlagEntry(pre, FlagKey + ":" + (" " + (lit + r)));
    FlagAt(lit, r);
    OwnFlagEntry(slots, i);
  }

  /** The entries' text around the flag's own entry. */
  lemma FlagEntryText(slots: seq<Slot>, i: nat, tail: string)
    requires i < |slots| && slots[i].key == FlagKey && slots[i].env.None? && slots[i].lit.Raw?
    ensures SlotsText(slots) + tail == SlotsText(slots[..i]) +
      ("\n  " + (FlagKey + ":" + (" " + (slots[i].lit.text + ("," + (SlotsText(slots[i + 1..]) + tail))))))
  {
    var s := slots[i];
    var rest := SlotsText(slots[i + 1..]);
    SlotsTextAround(slots, i);
    SlotTextSplit(s, rest + tail);
    assert EnvText(s.env) + (LitText(s.lit) + ("," + (rest + tail))) == s.lit.text + ("," + (rest + tail));
    Assoc3(SlotText(s), rest, tail);
    Assoc3(SlotsText(slots[..i]), SlotText(s) + rest, tail);
  }

  /** The flag's own entry is the first with its key. */
  lemma OwnFlagEntry(slots: seq<Slot>, i: nat)
    requires i < |slots| && slots[i].key == FlagKey
    requires !Contains(SlotsText(slots[..i]), FlagKey + ":")
    ensures FindSlot(slots, FlagKey) == Some(slots[i])
  {
    forall j | 0 <= j < i
      ensures slots[j].key != FlagKey
    {
      KeyInOwnText(slots[..i], j);
    }
    FindSlotAt(slots, i, FlagKey);
  }

  /** No match starts in text without `parallaxEnabled:` followed by a
      line break. */
  lemma SkipHead(head: string, b: string)
    requires !Contains(head, FlagKey + ":") && |b| > 0 && b[0] == '\n'
    ensures FlagSearch(head + b) == FlagSearch(b)
  {
    FlagKeyWord();
    forall p | 0 <= p < |head|
      ensures !StartsWith((head + b)[p..], FlagKey + ":")
    {
      NoKeyBefore(head, b, FlagKey, p);
    }
    FlagSkip(head + b, |head|);
    assert (head + b)[|head|..] == b;
  }

  /** The search runs past entries without `parallaxEnabled:` and the three
      characters that open the flag's line. */
  lemma SearchFromFlagEntry(pre: string, body: string)
    requires !Contains(pre, FlagKey + ":")
    ensures FlagSearch(pre + ("\n  " + body)) == FlagSearch(body)
  {
    var after := "\n  " + body;
    SkipHead(pre, after);
    FlagKeyWord();
    assert (FlagKey + ":")[0] == 'p';
    forall p | 0 <= p < 3
      ensures !StartsWith(after[p..], FlagKey + ":")
    {
      assert after[p..][0] == after[p];
    }
    FlagSkip(after, 3);
    assert after[3..] == body;
  }

  /** A tagline that spells out `parallaxEnabled: true`, then the flag's own
      entry written as `false`, as the personal-brand template orders them. */
  function TaglineParallax(): seq<Slot> {
    [ Slot("tagline", Env("TAGLINE"), Quoted(FlagKey + ": true")),
      Slot(FlagKey, None, Raw("false")) ]
  }

  /** The flag's own entry says false; the parser as written matches inside
      the tagline and reads true, whatever precedes the entries. */
  lemma ParallaxReadFromTagline(head: string, tail: string)
    requires !Contains(head, FlagKey + ":")
    ensures ParallaxOwnEntry(ConfigTs([], TaglineParallax())) == Some(false)
    ensures ParallaxAsWritten(head, ConfigTs([], TaglineParallax()), tail) == Some(true)
  {
    var slots := TaglineParallax();
    TaglineParallaxParts();
    FindSlotAt(slots, 1, FlagKey);
    assert slots == [slots[0], slots[1]];
    FlagInEarlierValue(head, slots[0], slots[1], tail);
  }

  lemma TaglineParallaxParts()
    ensures var s := TaglineParallax();
      IsWord(s[0].key) && s[0].env.Some? && IsWord(s[0].env.value) && |s[0].key| < 12 && s[0].key != FlagKey &&
      s[0].lit == Quoted(FlagKey + ": true") && s[1].key == FlagKey
  {
    WordFromChars("tagline");
    WordFromChars("NEXT_PUBLIC_" + "TAGLINE");
  }

  /** An earlier entry whose value is `parallaxEnabled: true`: the search
      stops inside that value. */
  lemma FlagInEarlierValue(head: string, e0: Slot, e1: Slot, tail: string)
    requires IsWord(e0.key) && e0.env.Some? && IsWord(e0.env.value) && |e0.key| < 12
    requires e0.lit == Quoted(FlagKey + ": true")
    requires !Contains(head, FlagKey + ":")
    ensures FlagSearch(head + SlotsText([e0, e1]) + tail) == Some(true)
  {
    var v := FlagKey + ": true";
    var a := "\n  " + e0.key + ":" + (" " + EnvText(e0.env) + "'");
    var r := "'," + (SlotText(e1) + "") + tail;
    FlagValuePlain();
    EarlierValueText(e0, e1, v, tail);
    Assoc3(head, SlotsText([e0, e1]), tail);
    EarlierEntryOpening(e0);
    SkipHead(head, a + (v + r));
    SkipQuoted(a, v + r);
    SpellTrue(r);
    FlagAt("true", r);
  }

  /** The text of an entry up to its value's opening quote holds no
      `parallaxEnabled:` when its key is shorter than that word. */
  lemma EarlierEntryOpening(e0: Slot)
    requires IsWord(e0.key) && e0.env.Some? && IsWord(e0.env.value) && |e0.key| < 12
    ensures var a := "\n  " + e0.key + ":" + (" " + EnvText(e0.env) + "'");
      a[0] == '\n' && a[|a| - 1] == '\'' && !Contains(a, FlagKey + ":")
  {
    var x := "\n  " + e0.key;
    var y := " " + EnvText(e0.env) + "'";
    MisreadColons(e0, "");
    assert y + "" == y;
    FlagKeyWord();
    NoKeyAroundColon(x, y, FlagKey);
  }

  /** `parallaxEnabled: true` needs no escaping inside quotes. */
  lemma FlagValuePlain()
    ensures '\\' !in FlagKey + ": true" && '\'' !in FlagKey + ": true"
  {
    FlagKeyWord();
    WordNoQuote(FlagKey);
    var v := FlagKey + ": true";
    forall k | 0 <= k < |v|
      ensures v[k] != '\\' && v[k] != '\''
    {
      if k >= |FlagKey| {
        assert v[k] == ": true"[k - |FlagKey|];
      }
    }
  }

  lemma SpellTrue(r: string)
    ensures FlagKey + ": true" + r == FlagKey + ":" + (" " + ("true" + r))
  {
    assert ": true" == ":" + " " + "true";
  }

  /** No match starts inside `x:y'` when that text does not hold
      `parallaxEnabled:`. */
  lemma SkipQuoted(a: string, b: string)
    requires !Contains(a, FlagKey + ":") && |a| > 0 && a[|a| - 1] == '\''
    ensures FlagSearch(a + b) == FlagSearch(b)
  {
    forall p | 0 <= p < |a|
      ensures !StartsWith((a + b)[p..], FlagKey + ":")
    {
      NoMatchBeforeEnd(a, b, FlagKey + ":", p);
    }
    FlagSkip(a + b, |a|);
    assert (a + b)[|a|..] == b;
  }

  /** Two entries' text, the first one's value v, cut around v. */
  lemma EarlierValueText(e0: Slot, e1: Slot, v: string, tail: string)
    requires e0.lit == Quoted(v) && '\\' !in v && '\'' !in v
    ensures ("\n  " + e0.key + ":" + (" " + EnvText(e0.env) + "'")) + (v + ("'," + (SlotText(e1) + "") + tail)) ==
      SlotsText([e0, e1]) + tail
  {
    SlotsTwo(e0, e1);
    QuotedSlotText(e0, v);
    var b := SlotText(e1) + "";
    RegroupEntry("\n  ", e0.key, EnvText(e0.env), v, b + tail);
    assert (SlotText(e0) + b) + tail == SlotText(e0) + (b + tail);
  }

  lemma SlotsTwo(e0: Slot, e1: Slot)
    ensures SlotsText([e0, e1]) == SlotText(e0) + (SlotText(e1) + "")
  {
    assert [e0, e1][1..] == [e1] && [e1][1..] == [];
    assert SlotsText([e1]) == SlotText(e1) + SlotsText([e1][1..]);
  }

  /** The line of an entry whose quoted value needs no escaping. */
  lemma QuotedSlotText(e: Slot, v: string)
    requires e.lit == Quoted(v) && '\\' !in v && '\'' !in v
    ensures SlotText(e) == "\n  " + e.key + ": " + EnvText(e.env) + ("'" + v + "'") + ","
  {
    EscPlain(v);
  }

  /** Regrouping an entry's line around its quoted value. */
  lemma RegroupEntry(nl: string, k: string, env: string, v: string, rest: string)
    ensures nl + k + ": " + env + ("'" + v + "'") + "," + rest ==
      (nl + k + ":" + (" " + env + "'")) + (v + ("'," + rest))
  {
    assert ": " == ":" + " ";
    assert "'," == "'" + ",";
  }

}

=== FILE: compare_client.dfy ===
/** The service comparison page's derived lists
    (src/components/service/compare-client.tsx): the category list, the
    category filter, and the selection of at most four services for the
    AI comparison. */
module CompareClient {
  import opened Text

  datatype Comparison = Comparison(id: string, category: string)

  const MaxSelected := 4

  /** `toggleAiCompare(slug)` */
  function ToggleAiCompare(prev: seq<string>, slug: string): seq<string> {
    if slug in prev then Filter(prev, NotEqual(slug))
    else if |prev| < MaxSelected then prev + [slug]
    else prev
  }

  function NotEqual(slug: string): string -> bool {
    (s: string) => s != slug
  }

  /** A selected slug is dropped; an unselected one is added at the end
      while fewer than four are selected and ignored otherwise. */
  lemma ToggleSpec(prev: seq<string>, slug: string)
    ensures slug in prev ==>
      slug !in ToggleAiCompare(prev, slug) &&
      forall s :: s != slug ==> (s in ToggleAiCompare(prev, slug) <==> s in prev)
    ensures slug !in prev && |prev| < MaxSelected ==> ToggleAiCompare(prev, slug) == prev + [slug]
    ensures slug !in prev && |prev| >= MaxSelected ==> ToggleAiCompare(prev, slug) == prev
  {
    FilterSpec(prev, NotEqual(slug));
  }

  /** The selection starts empty and every toggle keeps it at most four
      long and free of repeats. */
  lemma ToggleKeepsBound(prev: seq<string>, slug: string)
    requires |prev| <= MaxSelected && NoDuplicates(prev)
    ensures |ToggleAiCompare(prev, slug)| <= MaxSelected
    ensures NoDuplicates(ToggleAiCompare(prev, slug))
  {
    if slug in prev {
      FilterNoDuplicates(prev, NotEqual(slug));
    }
  }

  /** The categories of the comparisons, in list order, repeats kept. */
  function CategoryList(comparisons: seq<Comparison>): (r: seq<string>)
    ensures |r| == |comparisons| && forall k :: 0 <= k < |r| ==> r[k] == comparisons[k].category
  {
    seq(|comparisons|, k requires 0 <= k < |comparisons| => comparisons[k].category)
  }

  /** `[...new Set(comparisons.map((c) => c.category))]` */
  function Categories(comparisons: seq<Comparison>): seq<string> {
    Distinct(CategoryList(comparisons))
  }

  /** Each category of some comparison appears once, in the order of the
      first comparison of each category. */
  lemma CategoriesSpec(comparisons: seq<Comparison>)
    ensures NoDuplicates(Categories(comparisons))
    ensures forall c :: c in Categories(comparisons) <==> exists k :: 0 <= k < |comparisons| && comparisons[k].category == c
    ensures forall k :: 0 <= k < |Categories(comparisons)| ==> Categories(comparisons)[k] in CategoryList(comparisons)
    ensures forall k, l :: 0 <= k < l < |Categories(comparisons)| ==>
      FirstIndex(CategoryList(comparisons), Categories(comparisons)[k]) <
      FirstIndex(CategoryList(comparisons), Categories(comparisons)[l])
  {
    var cats := CategoryList(comparisons);
    DistinctSpec(cats);
    DistinctOrder(cats);
    forall c | c in cats ensures exists k :: 0 <= k < |comparisons| && comparisons[k].category == c {
      var k :| 0 <= k < |cats| && cats[k] == c;
    }
    forall k | 0 <= k < |comparisons| ensures comparisons[k].category in cats {
      assert cats[k] == comparisons[k].category;
    }
  }

  function InCategory(category: string): Comparison -> bool {
    (c: Comparison) => c.category == category
  }

  /** The `filtered` list; None stands for 'all'. */
  function Filtered(comparisons: seq<Comparison>, selectedCategory: Option<string>): seq<Comparison> {
    if selectedCategory.None? then comparisons else Filter(comparisons, InCategory(selectedCategory.value))
  }

  /** 'all' keeps every comparison; a category keeps exactly the
      comparisons in it, in their order. */
  lemma FilteredSpec(comparisons: seq<Comparison>, selectedCategory: Option<string>)
    ensures selectedCategory.None? ==> Filtered(comparisons, selectedCategory) == comparisons
    ensures selectedCategory.Some? ==>
      forall c :: c in Filtered(comparisons, selectedCategory) <==> c in comparisons && c.category == selectedCategory.value
    ensures selectedCategory.Some? ==>
      |Filtered(comparisons, selectedCategory)| == CountWhere(comparisons, InCategory(selectedCategory.value))
    ensures selectedCategory.Some? ==>
      var idx := FilterIndices(comparisons, InCategory(selectedCategory.value));
      Picks(Filtered(comparisons, selectedCategory), comparisons, idx) &&
      forall i :: i in idx <==> 0 <= i < |comparisons| && comparisons[i].category == selectedCategory.value
  {
    if selectedCategory.Some? {
      FilterSpec(comparisons, InCategory(selectedCategory.value));
      FilterOrder(comparisons, InCategory(selectedCategory.value));
    }
  }
}

=== FILE: conflict_detector.dfy ===
/** The environment-variable conflict detector of
    src/lib/env/conflict-detector.ts: a 32-bit string hash rendered in base
    36, and the grouping of variables by key across the three environments
    into missing-value and config-mismatch conflicts, sorted by severity. */
module ConflictDetector {
  import opened Text

  // ---------------------------------------------------------------------
  // hashValue: 32-bit signed arithmetic and base-36 rendering
  // ---------------------------------------------------------------------

  const Two32: int := 0x1_0000_0000

  /** ECMAScript ToInt32: the signed 32-bit value congruent to x. */
  function ToInt32(x: int): (r: int)
    ensures -0x8000_0000 <= r < 0x8000_0000
    ensures r % Two32 == x % Two32
  {
    var m := x % Two32;
    if m >= 0x8000_0000 then m - Two32 else m
  }

  /** ToInt32 depends only on the residue modulo 2^32. */
  lemma ToInt32Congruent(x: int, y: int)
    requires x % Two32 == y % Two32
    ensures ToInt32(x) == ToInt32(y)
  {
  }

  /** One step of the loop: `hash = ((hash << 5) - hash) + char; hash |= 0`,
      where `char` is a UTF-16 code unit (`charCodeAt`). `<<` works on the
      32-bit value and wraps; the subtraction and the addition are exact
      until `|= 0` wraps again. */
  function HashStep(hash: int, unit: int): int {
    ToInt32(ToInt32(hash * 32) - hash + unit)
  }

  /** The hash after folding every code unit of u, starting from 0. */
  function HashUnits(u: seq<int>): (r: int)
    ensures -0x8000_0000 <= r < 0x8000_0000
    decreases |u|
  {
    if |u| == 0 then 0 else HashStep(HashUnits(u[..|u| - 1]), u[|u| - 1])
  }

  /** The hash of a string: the loop runs over its `length` code units. */
  function HashOf(s: string): (r: int)
    ensures -0x8000_0000 <= r < 0x8000_0000
  {
    HashUnits(Utf16(s))
  }

  /** The unbounded polynomial hash `u[0]*31^(n-1) + ... + u[n-1]`. */
  function Poly31(u: seq<int>): int
    decreases |u|
  {
    if |u| == 0 then 0 else Poly31(u[..|u| - 1]) * 31 + u[|u| - 1]
  }

  lemma MulCongruent(a: int, b: int, c: int)
    requires a % Two32 == b % Two32
    ensures (31 * a + c) % Two32 == (31 * b + c) % Two32
  {
    var qa := a / Two32;
    var qb := b / Two32;
    assert a == Two32 * qa + a % Two32;
    assert b == Two32 * qb + b % Two32;
    assert 31 * a + c == Two32 * (31 * qa) + (31 * (a % Two32) + c);
    assert 31 * b + c == Two32 * (31 * qb) + (31 * (b % Two32) + c);
  }

  /** Each step multiplies by 31 and adds the character code, wrapped to
      32 bits: the shift-and-subtract form is `hash * 31`. */
  lemma HashStepIsTimes31(hash: int, c: int)
    ensures HashStep(hash, c) == ToInt32(31 * hash + c)
  {
    var w := ToInt32(hash * 32);
    AddCongruent(w, hash * 32, c - hash);
    assert hash * 32 + (c - hash) == 31 * hash + c;
    ToInt32Congruent(w + (c - hash), 31 * hash + c);
  }

  /** Adding the same amount keeps two numbers congruent modulo 2^32. */
  lemma AddCongruent(a: int, b: int, d: int)
    requires a % Two32 == b % Two32
    ensures (a + d) % Two32 == (b + d) % Two32
  {
    var qa, qb := a / Two32, b / Two32;
    assert a == Two32 * qa + a % Two32;
    assert b == Two32 * qb + b % Two32;
    assert a + d == Two32 * (qa - qb) + (b + d);
  }

  /** hashValue is the 32-bit wrap of the polynomial hash with base 31
      over the UTF-16 code units (the classic `String.hashCode`). */
  lemma {:induction false} HashUnitsIsPoly31(u: seq<int>)
    ensures HashUnits(u) == ToInt32(Poly31(u))
    decreases |u|
  {
    if |u| > 0 {
      var p := u[..|u| - 1];
      var c := u[|u| - 1];
      HashUnitsIsPoly31(p);
      HashStepIsTimes31(HashUnits(p), c);
      MulCongruent(HashUnits(p), Poly31(p), c);
      ToInt32Congruent(31 * HashUnits(p) + c, 31 * Poly31(p) + c);
    }
  }

  lemma HashOfIsPoly31(s: string)
    ensures HashOf(s) == ToInt32(Poly31(Utf16(s)))
  {
    HashUnitsIsPoly31(Utf16(s));
  }

  /** A character outside the Basic Multilingual Plane is hashed as its
      two surrogates: U+1F600 gives 0xD83D * 31 + 0xDE00, not its code
      point 0x1F600. */
  lemma HashOfSurrogates()
    ensures Utf16("\U{1F600}") == [0xD83D, 0xDE00]
    ensures HashOf("\U{1F600}") == 1772899
  {
    EmojiUnits();
    PairHash();
  }

  lemma EmojiUnits()
    ensures Utf16("\U{1F600}") == [0xD83D, 0xDE00]
  {
    var s := "\U{1F600}";
    assert s[..0] == "" && s[0] == '\U{1F600}';
    assert Utf16(s) == CodeUnits('\U{1F600}');
  }

  lemma PairHash()
    ensures HashUnits([0xD83D, 0xDE00]) == 1772899
  {
    var u := [0xD83D, 0xDE00];
    var w := u[..1];
    assert w == [0xD83D] && w[..0] == [] && w[|w| - 1] == 0xD83D;
    assert HashUnits(w[..0]) == 0;
    var h1 := HashUnits(w);
    assert h1 == HashStep(0, 0xD83D);
    HashStepIsTimes31(0, 0xD83D);
    assert h1 == 0xD83D;
    HashStepIsTimes31(0xD83D, 0xDE00);
    assert 31 * 0xD83D + 0xDE00 == 1772899;
  }

  function Base36Digit(d: nat): (c: char)
    requires d < 36
  {
    if d < 10 then ('0' as int + d) as char else ('a' as int + d - 10) as char
  }

  lemma Base36DigitInjective(d: nat, e: nat)
    requires d < 36 && e < 36
    ensures Base36Digit(d) == Base36Digit(e) ==> d == e
    ensures Base36Digit(d) != '-'
  {
  }

  /** `n.toString(36)` for a natural number. */
  function NatToBase36(n: nat): (r: string)
    ensures |r| >= 1 && (n >= 36 <==> |r| >= 2)
    ensures forall k :: 0 <= k < |r| ==> r[k] != '-'
  {
    if n < 36 then [Base36Digit(n)] else NatToBase36(n / 36) + [Base36Digit(n % 36)]
  }

  /** `n.toString(36)` for an integer: a minus sign, then the digits. */
  function IntToBase36(n: int): string {
    if n < 0 then "-" + NatToBase36(-n) else NatToBase36(n)
  }

  lemma {:induction false} NatToBase36Injective(a: nat, b: nat)
    ensures NatToBase36(a) == NatToBase36(b) ==> a == b
    decreases a
  {
    if NatToBase36(a) == NatToBase36(b) {
      var s := NatToBase36(a);
      if a < 36 {
        Base36DigitInjective(a, if b < 36 then b else 0);
      } else {
        assert b >= 36;
        Base36DigitInjective(a % 36, b % 36);
        assert NatToBase36(a / 36) == s[..|s| - 1] == NatToBase36(b / 36);
        NatToBase36Injective(a / 36, b / 36);
      }
    }
  }

  /** Rendering in base 36 loses nothing: two value hashes are equal
      exactly when the 32-bit hashes are. */
  lemma IntToBase36Injective(a: int, b: int)
    ensures IntToBase36(a) == IntToBase36(b) <==> a == b
  {
    if IntToBase36(a) == IntToBase36(b) {
      var s := IntToBase36(a);
      assert (a < 0) == (s[0] == '-');
      assert (b < 0) == (IntToBase36(b)[0] == '-');
      if a < 0 {
        assert NatToBase36(-a) == s[1..] == NatToBase36(-b);
        NatToBase36Injective(-a, -b);
      } else {
        NatToBase36Injective(a, b);
      }
    }
  }

  /** The `value_hash` of a value. */
  function ValueHash(value: string): string {
    IntToBase36(HashOf(value))
  }

  /** Equal hashes, equal value hashes: the only thing detectConflicts
      compares. */
  lemma ValueHashEq(v: string, w: string)
    ensures ValueHash(v) == ValueHash(w) <==> HashOf(v) == HashOf(w)
  {
    IntToBase36Injective(HashOf(v), HashOf(w));
  }

  /** `hashValue(value)`: the loop over `value.length` code units. */
  method HashValue(value: string) returns (hash: string)
    ensures hash == ValueHash(value)
    ensures hash == IntToBase36(ToInt32(Poly31(Utf16(value))))
  {
    var units := Utf16(value);
    var h := 0;
    for i := 0 to |units|
      invariant h == HashUnits(units[..i])
    {
      assert units[..i + 1][..i] == units[..i];
      var shifted := ToInt32(h * 32);
      h := ToInt32(shifted - h + units[i]);
    }
    WholePrefix(units);
    HashOfIsPoly31(value);
    hash := IntToBase36(h);
  }

  // ---------------------------------------------------------------------
  // Data
  // ---------------------------------------------------------------------

  datatype Env = Development | Staging | Production

  const AllEnvs: seq<Env> := [Development, Staging, Production]

  lemma EnvInAll(e: Env)
    ensures e in AllEnvs
  {
    match e
    case Development => assert AllEnvs[0] == e;
    case Staging => assert AllEnvs[1] == e;
    case Production => assert AllEnvs[2] == e;
  }

  function EnvName(e: Env): string {
    match e
    case Development => "development"
    case Staging => "staging"
    case Production => "production"
  }

  datatype EnvVar = EnvVar(
    id: string, keyName: string, environment: Env, decryptedValue: string,
    serviceId: Option<string>, serviceName: Option<string>, updatedAt: string)

  datatype Entry = Entry(
    varId: string, valueHash: string, serviceId: Option<string>,
    serviceName: Option<string>, updatedAt: string)

  /** The `Record<Environment, EnvConflictEntry | null>`. */
  datatype Slots = Slots(development: Option<Entry>, staging: Option<Entry>, production: Option<Entry>)

  datatype Kind = CriticalMismatch | MissingValue | ConfigMismatch

  datatype Severity = Critical | Warning | Info

  datatype Conflict = Conflict(
    id: string, keyName: string, kind: Kind, severity: Severity,
    description: string, environments: Slots, affectedServices: seq<string>)

  /** A `string | null` that JavaScript treats as true: present and non-empty. */
  predicate Truthy(o: Option<string>) {
    o.Some? && o.value != ""
  }

  // ---------------------------------------------------------------------
  // Grouping by key and environment
  // ---------------------------------------------------------------------

  function KeyNames(vars: seq<EnvVar>): (r: seq<string>)
    ensures |r| == |vars| && forall i :: 0 <= i < |vars| ==> r[i] == vars[i].keyName
  {
    seq(|vars|, i requires 0 <= i < |vars| => vars[i].keyName)
  }

  /** The keys of `keyMap`, in first-appearance order. */
  function Keys(vars: seq<EnvVar>): seq<string> {
    Distinct(KeyNames(vars))
  }

  /** `keyMap.get(key)`: the variables with that key, in input order. */
  function EntriesOf(vars: seq<EnvVar>, key: string): seq<EnvVar>
    decreases |vars|
  {
    if |vars| == 0 then []
    else
      var last := vars[|vars| - 1];
      EntriesOf(vars[..|vars| - 1], key) + (if last.keyName == key then [last] else [])
  }

  lemma {:induction false} EntriesOfMembers(vars: seq<EnvVar>, key: string)
    ensures forall v :: v in EntriesOf(vars, key) <==> v in vars && v.keyName == key
    decreases |vars|
  {
    if |vars| > 0 {
      EntriesOfMembers(vars[..|vars| - 1], key);
      assert vars == vars[..|vars| - 1] + [vars[|vars| - 1]];
    }
  }

  function Envs(entries: seq<EnvVar>): (r: seq<Env>)
    ensures |r| == |entries| && forall i :: 0 <= i < |entries| ==> r[i] == entries[i].environment
  {
    seq(|entries|, i requires 0 <= i < |entries| => entries[i].environment)
  }

  /** `presentEnvs`: the keys of `envEntries`, in first-set order. */
  function PresentEnvs(entries: seq<EnvVar>): seq<Env> {
    Distinct(Envs(entries))
  }

  /** `envEntries.get(env)`: the last entry set for that environment. */
  function LastOf(entries: seq<EnvVar>, env: Env): (r: Option<EnvVar>)
    ensures r.Some? ==> r.value in entries && r.value.environment == env
    decreases |entries|
  {
    if |entries| == 0 then None
    else if entries[|entries| - 1].environment == env then Some(entries[|entries| - 1])
    else LastOf(entries[..|entries| - 1], env)
  }

  lemma {:induction false} LastOfPresent(entries: seq<EnvVar>, env: Env)
    ensures LastOf(entries, env).Some? <==> env in PresentEnvs(entries)
    ensures LastOf(entries, env).Some? <==> exists v :: v in entries && v.environment == env
    decreases |entries|
  {
    DistinctSpec(Envs(entries));
    if |entries| > 0 {
      var p := entries[..|entries| - 1];
      LastOfPresent(p, env);
      DistinctSpec(Envs(p));
      assert entries == p + [entries[|entries| - 1]];
    }
  }

  /** `ALL_ENVS.filter((e) => !envEntries.has(e))` */
  function Absent(all: seq<Env>, present: seq<Env>): (r: seq<Env>)
    ensures forall e :: e in r <==> e in all && e !in present
    decreases |all|
  {
    if |all| == 0 then []
    else Absent(all[..|all| - 1], present) + (if all[|all| - 1] in present then [] else [all[|all| - 1]])
  }

  function EntryOf(v: EnvVar): Entry {
    Entry(v.id, ValueHash(v.decryptedValue), v.serviceId, v.serviceName, v.updatedAt)
  }

  function SlotOf(entries: seq<EnvVar>, env: Env): Option<Entry> {
    match LastOf(entries, env)
    case None => None
    case Some(v) => Some(EntryOf(v))
  }

  /** The `environments` record: null where the key is missing. */
  function SlotsOf(entries: seq<EnvVar>): Slots {
    Slots(SlotOf(entries, Development), SlotOf(entries, Staging), SlotOf(entries, Production))
  }

  /** The truthy service names of the entries kept per environment, in
      `envEntries` order. */
  function ServiceNames(present: seq<Env>, entries: seq<EnvVar>): (r: seq<string>)
    decreases |present|
  {
    if |present| == 0 then []
    else
      var e := present[|present| - 1];
      ServiceNames(present[..|present| - 1], entries) +
      (match LastOf(entries, e)
       case Some(v) => if Truthy(v.serviceName) then [v.serviceName.value] else []
       case None => [])
  }

  /** `affectedServices`: pushed when truthy and not yet included. */
  function Affected(entries: seq<EnvVar>): seq<string> {
    Distinct(ServiceNames(PresentEnvs(entries), entries))
  }

  /** The value hashes of the entries kept per environment: the keys of `values`. */
  function Hashes(present: seq<Env>, entries: seq<EnvVar>): (r: seq<string>)
    ensures |r| == |present|
    decreases |present|
  {
    if |present| == 0 then []
    else
      var e := present[|present| - 1];
      Hashes(present[..|present| - 1], entries) + [KeptHash(entries, e)]
  }

  /** The value hash of the entry kept for one environment. */
  function KeptHash(entries: seq<EnvVar>, e: Env): string {
    match LastOf(entries, e)
    case Some(v) => ValueHash(v.decryptedValue)
    case None => ""
  }

  /** `entries.filter((e) => e.service_id).map((e) => e.service_id)`, over
      every variable of the key, not only the ones kept per environment. */
  function ServiceIds(entries: seq<EnvVar>): seq<string>
    decreases |entries|
  {
    if |entries| == 0 then []
    else
      var v := entries[|entries| - 1];
      ServiceIds(entries[..|entries| - 1]) + (if Truthy(v.serviceId) then [v.serviceId.value] else [])
  }

  lemma {:induction false} ServiceIdsMembers(entries: seq<EnvVar>)
    ensures forall s :: s in ServiceIds(entries) <==> exists v :: v in entries && Truthy(v.serviceId) && v.serviceId.value == s
    decreases |entries|
  {
    if |entries| > 0 {
      var p := entries[..|entries| - 1];
      ServiceIdsMembers(p);
      assert entries == p + [entries[|entries| - 1]];
      forall s | exists v :: v in entries && Truthy(v.serviceId) && v.serviceId.value == s
        ensures s in ServiceIds(entries)
      {
        var v :| v in entries && Truthy(v.serviceId) && v.serviceId.value == s;
        if v != entries[|entries| - 1] {
          assert v in p;
        }
      }
    }
  }

  function MissingDescription(key: string, missing: seq<Env>): string {
    key + "이(가) " + Join(seq(|missing|, i requires 0 <= i < |missing| => EnvName(missing[i])), ", ") + " 환경에 없습니다"
  }

  function ConfigDescription(key: string): string {
    key + "이(가) 환경별로 다른 서비스에 연결되어 있습니다"
  }

  /** The key is set in some environments but not all. */
  predicate MissingCond(entries: seq<EnvVar>) {
    |Absent(AllEnvs, PresentEnvs(entries))| > 0 && |PresentEnvs(entries)| > 0
  }

  /** At least two environments, two value hashes and two service ids. */
  predicate ConfigCond(entries: seq<EnvVar>) {
    var present := PresentEnvs(entries);
    |present| >= 2 && |Distinct(Hashes(present, entries))| > 1 && |Distinct(ServiceIds(entries))| > 1
  }

  function MissingConflict(key: string, entries: seq<EnvVar>): Conflict {
    var missing := Absent(AllEnvs, PresentEnvs(entries));
    Conflict("missing-" + key, key, MissingValue,
             if Production in missing then Critical else Warning,
             MissingDescription(key, missing), SlotsOf(entries), Affected(entries))
  }

  function ConfigConflict(key: string, entries: seq<EnvVar>): Conflict {
    Conflict("config-" + key, key, ConfigMismatch, Info, ConfigDescription(key), SlotsOf(entries), Affected(entries))
  }

  /** The conflicts one key yields, before sorting. */
  function KeyConflicts(key: string, entries: seq<EnvVar>): seq<Conflict> {
    (if MissingCond(entries) then [MissingConflict(key, entries)] else []) +
    (if ConfigCond(entries) then [ConfigConflict(key, entries)] else [])
  }

  /** The per-key results of `keys`, concatenated in key order. */
  function Collect<T>(f: string -> seq<T>, keys: seq<string>): seq<T>
    decreases |keys|
  {
    if |keys| == 0 then [] else Collect(f, keys[..|keys| - 1]) + f(keys[|keys| - 1])
  }

  lemma {:induction false} InCollect<T>(f: string -> seq<T>, keys: seq<string>, x: T)
    ensures x in Collect(f, keys) <==> exists k :: k in keys && x in f(k)
    decreases |keys|
  {
    if |keys| > 0 {
      var p := keys[..|keys| - 1];
      var last := keys[|keys| - 1];
      InCollect(f, p, x);
      if x in Collect(f, keys) && x in Collect(f, p) {
        var k :| k in p && x in f(k);
        assert k in keys;
      }
      if exists k :: k in keys && x in f(k) {
        var k :| k in keys && x in f(k);
        if k != last {
          assert k in p;
        }
      }
    }
  }

  /** The conflicts of the given keys, in key order. */
  function ConflictsOf(vars: seq<EnvVar>, keys: seq<string>): seq<Conflict> {
    Collect(k => KeyConflicts(k, EntriesOf(vars, k)), keys)
  }

  lemma ConflictsOfSnoc(vars: seq<EnvVar>, keys: seq<string>, k: string)
    ensures ConflictsOf(vars, keys + [k]) == ConflictsOf(vars, keys) + KeyConflicts(k, EntriesOf(vars, k))
  {
    assert (keys + [k])[..|keys|] == keys;
  }

  /** One more key's conflicts continue the list of the keys before it. */
  lemma ConflictsOfPrefix(vars: seq<EnvVar>, keys: seq<string>, j: nat, before: seq<Conflict>, found: seq<Conflict>)
    requires j < |keys|
    requires before == ConflictsOf(vars, keys[..j]) && found == KeyConflicts(keys[j], EntriesOf(vars, keys[j]))
    ensures before + found == ConflictsOf(vars, keys[..j + 1])
  {
    assert keys[..j + 1] == keys[..j] + [keys[j]];
    ConflictsOfSnoc(vars, keys[..j], keys[j]);
  }

  // ---------------------------------------------------------------------
  // Sorting by severity
  // ---------------------------------------------------------------------

  /** `severityOrder` */
  function Rank(s: Severity): nat {
    match s
    case Critical => 0
    case Warning => 1
    case Info => 2
  }

  /** The elements of one severity, in input order. */
  function Band<T>(xs: seq<T>, sev: T -> Severity, s: Severity): seq<T>
    decreases |xs|
  {
    if |xs| == 0 then []
    else Band(xs[..|xs| - 1], sev, s) + (if sev(xs[|xs| - 1]) == s then [xs[|xs| - 1]] else [])
  }

  /** A stable sort by severity rank: the critical elements, then the
      warnings, then the infos, each in input order. */
  function Bands<T>(xs: seq<T>, sev: T -> Severity): seq<T> {
    Band(xs, sev, Critical) + Band(xs, sev, Warning) + Band(xs, sev, Info)
  }

  lemma {:induction false} BandMembers<T>(xs: seq<T>, sev: T -> Severity, s: Severity)
    ensures forall x :: x in Band(xs, sev, s) ==> sev(x) == s
    decreases |xs|
  {
    if |xs| > 0 {
      BandMembers(xs[..|xs| - 1], sev, s);
    }
  }

  lemma BandsSorted<T>(xs: seq<T>, sev: T -> Severity)
    ensures forall i, j :: 0 <= i < j < |Bands(xs, sev)| ==>
      Rank(sev(Bands(xs, sev)[i])) <= Rank(sev(Bands(xs, sev)[j]))
  {
    var a, b, c := Band(xs, sev, Critical), Band(xs, sev, Warning), Band(xs, sev, Info);
    var r := Bands(xs, sev);
    BandMembers(xs, sev, Critical);
    BandMembers(xs, sev, Warning);
    BandMembers(xs, sev, Info);
    forall i, j | 0 <= i < j < |r|
      ensures Rank(sev(r[i])) <= Rank(sev(r[j]))
    {
      if i < |a| {
        assert r[i] in a;
      } else if i < |a| + |b| {
        assert r[i] == b[i - |a|] && r[i] in b;
        if j < |a| + |b| {
          assert r[j] == b[j - |a|] && r[j] in b;
        } else {
          assert r[j] == c[j - |a| - |b|] && r[j] in c;
        }
      } else {
        assert r[j] == c[j - |a| - |b|] && r[j] in c;
        assert r[i] == c[i - |a| - |b|] && r[i] in c;
      }
    }
  }

  lemma BandSnoc<T>(p: seq<T>, x: T, sev: T -> Severity, s: Severity)
    ensures Band(p + [x], sev, s) == Band(p, sev, s) + (if sev(x) == s then [x] else [])
  {
    assert (p + [x])[..|p + [x]| - 1] == p;
  }

  /** Appending one element puts it at the end of its own band. */
  lemma BandsSnoc<T>(p: seq<T>, x: T, sev: T -> Severity)
    ensures sev(x) == Critical ==> Bands(p + [x], sev) == (Band(p, sev, Critical) + [x]) + Band(p, sev, Warning) + Band(p, sev, Info)
    ensures sev(x) == Warning ==> Bands(p + [x], sev) == Band(p, sev, Critical) + (Band(p, sev, Warning) + [x]) + Band(p, sev, Info)
    ensures sev(x) == Info ==> Bands(p + [x], sev) == Band(p, sev, Critical) + Band(p, sev, Warning) + (Band(p, sev, Info) + [x])
  {
    BandSnoc(p, x, sev, Critical);
    BandSnoc(p, x, sev, Warning);
    BandSnoc(p, x, sev, Info);
  }

  /** The sort is a permutation: every element is kept, with its multiplicity. */
  lemma {:induction false} BandsPermutes<T>(xs: seq<T>, sev: T -> Severity)
    ensures multiset(Bands(xs, sev)) == multiset(xs)
    decreases |xs|
  {
    if |xs| == 0 {
      assert Bands(xs, sev) == [];
    } else {
      BandsPermutes(xs[..|xs| - 1], sev);
      BandsStep(xs, sev);
    }
  }

  lemma BandsStep<T>(xs: seq<T>, sev: T -> Severity)
    requires |xs| > 0 && multiset(Bands(xs[..|xs| - 1], sev)) == multiset(xs[..|xs| - 1])
    ensures multiset(Bands(xs, sev)) == multiset(xs)
  {
    var p, x := xs[..|xs| - 1], xs[|xs| - 1];
    forall s ensures multiset(Band(xs, sev, s)) ==
      multiset(Band(p, sev, s)) + (if sev(x) == s then multiset{x} else multiset{})
    {
    }
    assert multiset(Bands(xs, sev)) ==
      multiset(Band(xs, sev, Critical)) + multiset(Band(xs, sev, Warning)) + multiset(Band(xs, sev, Info));
    assert multiset(Bands(p, sev)) ==
      multiset(Band(p, sev, Critical)) + multiset(Band(p, sev, Warning)) + multiset(Band(p, sev, Info));
    MultisetSnoc(xs);
  }

  /** The number of elements satisfying f. */
  function CountIf<T>(xs: seq<T>, f: T -> bool): nat
    decreases |xs|
  {
    if |xs| == 0 then 0 else CountIf(xs[..|xs| - 1], f) + (if f(xs[|xs| - 1]) then 1 else 0)
  }

  lemma {:induction false} CountIfConcat<T>(a: seq<T>, b: seq<T>, f: T -> bool)
    ensures CountIf(a + b, f) == CountIf(a, f) + CountIf(b, f)
    decreases |b|
  {
    if |b| == 0 {
      assert a + b == a;
    } else {
      var p := b[..|b| - 1];
      CountIfConcat(a, p, f);
      assert (a + b)[..|a + b| - 1] == a + p;
      assert (a + b)[|a + b| - 1] == b[|b| - 1];
    }
  }

  lemma CountIfOne<T>(x: T, f: T -> bool)
    ensures CountIf([x], f) == if f(x) then 1 else 0
  {
    assert [x][..0] == [];
  }

  lemma CountIfSum<T>(a: seq<T>, b: seq<T>, c: seq<T>, f: T -> bool)
    ensures CountIf(a + b + c, f) == CountIf(a, f) + CountIf(b, f) + CountIf(c, f)
  {
    CountIfConcat(a, b, f);
    CountIfConcat(a + b, c, f);
  }

  /** Sorting keeps the number of elements satisfying any test. */
  lemma {:induction false} BandsCount<T>(xs: seq<T>, sev: T -> Severity, f: T -> bool)
    ensures CountIf(Bands(xs, sev), f) == CountIf(xs, f)
    decreases |xs|
  {
    if |xs| == 0 {
      assert Bands(xs, sev) == [];
    } else {
      var p := xs[..|xs| - 1];
      var x := xs[|xs| - 1];
      BandsCount(p, sev, f);
      assert xs == p + [x];
      BandsSnoc(p, x, sev);
      var pa, pb, pc := Band(p, sev, Critical), Band(p, sev, Warning), Band(p, sev, Info);
      CountIfSum(pa, pb, pc, f);
      CountIfOne(x, f);
      CountIfConcat(p, [x], f);
      match sev(x)
      case Critical =>
        CountIfSum(pa + [x], pb, pc, f);
        CountIfConcat(pa, [x], f);
      case Warning =>
        CountIfSum(pa, pb + [x], pc, f);
        CountIfConcat(pb, [x], f);
      case Info =>
        CountIfSum(pa, pb, pc + [x], f);
        CountIfConcat(pc, [x], f);
    }
  }

  function SeverityOf(c: Conflict): Severity {
    c.severity
  }

  /** `conflicts.sort((a, b) => severityOrder[a.severity] - severityOrder[b.severity])` */
  function SortBySeverity(cs: seq<Conflict>): seq<Conflict> {
    Bands(cs, SeverityOf)
  }

  /** `detectConflicts(vars)` as a function of the input list. */
  function Detect(vars: seq<EnvVar>): seq<Conflict> {
    SortBySeverity(ConflictsOf(vars, Keys(vars)))
  }

  // ---------------------------------------------------------------------
  // The imperative detector
  // ---------------------------------------------------------------------

  lemma EntriesOfAbsent(vars: seq<EnvVar>, key: string)
    requires key !in KeyNames(vars)
    ensures EntriesOf(vars, key) == []
  {
    EntriesOfMembers(vars, key);
  }

  /** The `keyMap` loop: one list per key, keys in first-appearance order. */
  method GroupByKey(vars: seq<EnvVar>) returns (keyOrder: seq<string>, keyMap: map<string, seq<EnvVar>>)
    ensures keyOrder == Keys(vars)
    ensures forall k :: k in keyMap <==> k in keyOrder
    ensures forall k :: k in keyMap ==> keyMap[k] == EntriesOf(vars, k)
  {
    keyOrder := [];
    keyMap := map[];
    for i := 0 to |vars|
      invariant keyOrder == Keys(vars[..i])
      invariant forall k :: k in keyMap <==> k in keyOrder
      invariant forall k :: k in keyMap ==> keyMap[k] == EntriesOf(vars[..i], k)
    {
      var v := vars[i];
      DistinctSpec(KeyNames(vars[..i]));
      assert vars[..i + 1][..i] == vars[..i];
      assert KeyNames(vars[..i + 1]) == KeyNames(vars[..i]) + [v.keyName];
      var existing := if v.keyName in keyMap then keyMap[v.keyName] else [];
      if v.keyName !in keyMap {
        EntriesOfAbsent(vars[..i], v.keyName);
        keyOrder := keyOrder + [v.keyName];
      }
      keyMap := keyMap[v.keyName := existing + [v]];
    }
    WholePrefix(vars);
  }

  /** The `envEntries` loop: the last entry per environment, environments
      in first-set order. */
  method GroupByEnv(entries: seq<EnvVar>) returns (order: seq<Env>, last: map<Env, EnvVar>)
    ensures order == PresentEnvs(entries)
    ensures forall e :: e in last <==> LastOf(entries, e).Some?
    ensures forall e :: e in last ==> last[e] == LastOf(entries, e).value
  {
    order := [];
    last := map[];
    for i := 0 to |entries|
      invariant order == PresentEnvs(entries[..i])
      invariant forall e :: e in last <==> LastOf(entries[..i], e).Some?
      invariant forall e :: e in last ==> last[e] == LastOf(entries[..i], e).value
    {
      var v := entries[i];
      assert entries[..i + 1][..i] == entries[..i];
      assert Envs(entries[..i + 1]) == Envs(entries[..i]) + [v.environment];
      LastOfPresent(entries[..i], v.environment);
      if v.environment !in last {
        order := order + [v.environment];
      }
      last := last[v.environment := v];
    }
    WholePrefix(entries);
  }

  /** The `affectedServices` loop over `envEntries`. */
  method CollectAffected(order: seq<Env>, last: map<Env, EnvVar>, ghost entries: seq<EnvVar>)
    returns (affected: seq<string>)
    requires forall e :: e in last <==> LastOf(entries, e).Some?
    requires forall e :: e in last ==> last[e] == LastOf(entries, e).value
    requires forall e :: e in order ==> e in last
    ensures affected == Distinct(ServiceNames(order, entries))
  {
    affected := [];
    for i := 0 to |order|
      invariant affected == Distinct(ServiceNames(order[..i], entries))
    {
      assert order[..i + 1][..i] == order[..i];
      var entry := last[order[i]];
      var names := ServiceNames(order[..i], entries);
      if Truthy(entry.serviceName) {
        DistinctSpec(names);
        assert ServiceNames(order[..i + 1], entries) == names + [entry.serviceName.value];
        if entry.serviceName.value !in affected {
          affected := affected + [entry.serviceName.value];
        }
      } else {
        assert ServiceNames(order[..i + 1], entries) == names;
      }
    }
    WholePrefix(order);
  }

  /** The hashing loop over `envEntries` that fills `values`. */
  method CollectHashes(order: seq<Env>, last: map<Env, EnvVar>, ghost entries: seq<EnvVar>)
    returns (hashes: seq<string>)
    requires forall e :: e in last <==> LastOf(entries, e).Some?
    requires forall e :: e in last ==> last[e] == LastOf(entries, e).value
    requires forall e :: e in order ==> e in last
    ensures hashes == Hashes(order, entries)
  {
    hashes := [];
    for i := 0 to |order|
      invariant hashes == Hashes(order[..i], entries)
    {
      assert order[..i + 1][..i] == order[..i];
      var h := HashValue(last[order[i]].decryptedValue);
      hashes := hashes + [h];
    }
    WholePrefix(order);
  }

  /** The body of the loop over `keyMap`: the conflicts of one key. */
  method ConflictsForKey(key: string, entries: seq<EnvVar>) returns (cs: seq<Conflict>)
    ensures cs == KeyConflicts(key, entries)
  {
    var order, last := GroupByEnv(entries);
    forall e | e in order ensures e in last {
      LastOfPresent(entries, e);
    }
    var missing := Absent(AllEnvs, order);
    var slots := SlotsOf(entries);
    var affected := CollectAffected(order, last, entries);
    var missingFound: seq<Conflict> := [];
    if |missing| > 0 && |order| > 0 {
      var severity := if Production in missing then Critical else Warning;
      missingFound := [Conflict("missing-" + key, key, MissingValue, severity, MissingDescription(key, missing), slots, affected)];
      assert missingFound == [MissingConflict(key, entries)];
    }
    var configFound: seq<Conflict> := [];
    if |order| >= 2 {
      var hashes := CollectHashes(order, last, entries);
      if |Distinct(hashes)| > 1 {
        var serviceIds := Distinct(ServiceIds(entries));
        if |serviceIds| > 1 {
          configFound := [Conflict("config-" + key, key, ConfigMismatch, Info, ConfigDescription(key), slots, affected)];
        }
      }
      assert ConfigCond(entries) <==> |Distinct(hashes)| > 1 && |Distinct(ServiceIds(entries))| > 1;
    }
    assert missingFound == if MissingCond(entries) then [MissingConflict(key, entries)] else [];
    assert configFound == if ConfigCond(entries) then [ConfigConflict(key, entries)] else [];
    cs := missingFound + configFound;
  }

  /** The loop over `keyMap`, pushing each key's conflicts. */
  method ConflictsByKey(vars: seq<EnvVar>, keyOrder: seq<string>, keyMap: map<string, seq<EnvVar>>)
    returns (unsorted: seq<Conflict>)
    requires forall k :: k in keyOrder ==> k in keyMap && keyMap[k] == EntriesOf(vars, k)
    ensures unsorted == ConflictsOf(vars, keyOrder)
  {
    unsorted := [];
    for j := 0 to |keyOrder|
      invariant unsorted == ConflictsOf(vars, keyOrder[..j])
    {
      var key := keyOrder[j];
      KeyMapAt(vars, keyOrder, keyMap, j);
      var found := ConflictsForKey(key, keyMap[key]);
      ConflictsOfPrefix(vars, keyOrder, j, unsorted, found);
      unsorted := unsorted + found;
    }
    WholePrefix(keyOrder);
  }

  lemma KeyMapAt(vars: seq<EnvVar>, keyOrder: seq<string>, keyMap: map<string, seq<EnvVar>>, j: nat)
    requires j < |keyOrder|
    requires forall k :: k in keyOrder ==> k in keyMap && keyMap[k] == EntriesOf(vars, k)
    ensures keyOrder[j] in keyMap && keyMap[keyOrder[j]] == EntriesOf(vars, keyOrder[j])
  {
    assert keyOrder[j] in keyOrder;
  }

  /** `detectConflicts(vars)` */
  method DetectConflicts(vars: seq<EnvVar>) returns (conflicts: seq<Conflict>)
    ensures conflicts == Detect(vars)
  {
    var keyOrder, keyMap := GroupByKey(vars);
    var unsorted := ConflictsByKey(vars, keyOrder, keyMap);
    conflicts := SortBySeverity(unsorted);
  }

  // ---------------------------------------------------------------------
  // Properties
  // ---------------------------------------------------------------------

  /** The key has a variable in the given environment. */
  predicate InEnv(vars: seq<EnvVar>, key: string, env: Env) {
    exists v :: v in vars && v.keyName == key && v.environment == env
  }

  predicate HasKey(vars: seq<EnvVar>, key: string) {
    exists v :: v in vars && v.keyName == key
  }

  /** The variable kept for the key in one environment: the last one in input order. */
  function Kept(vars: seq<EnvVar>, key: string, env: Env): Option<EnvVar> {
    LastOf(EntriesOf(vars, key), env)
  }

  lemma KeyConflictsMembers(key: string, entries: seq<EnvVar>, c: Conflict)
    ensures c in KeyConflicts(key, entries) <==>
      (MissingCond(entries) && c == MissingConflict(key, entries)) ||
      (ConfigCond(entries) && c == ConfigConflict(key, entries))
  {
  }

  lemma InConflictsOf(vars: seq<EnvVar>, keys: seq<string>, c: Conflict)
    ensures c in ConflictsOf(vars, keys) <==> exists k :: k in keys && c in KeyConflicts(k, EntriesOf(vars, k))
  {
    InCollect(k => KeyConflicts(k, EntriesOf(vars, k)), keys, c);
  }

  /** The key of every conflict a key yields is that key. */
  lemma KeyConflictsKey(k: string, entries: seq<EnvVar>, c: Conflict)
    requires c in KeyConflicts(k, entries)
    ensures c.keyName == k
  {
    KeyConflictsMembers(k, entries, c);
  }

  lemma HasKeyIn(vars: seq<EnvVar>, key: string)
    ensures HasKey(vars, key) <==> key in Keys(vars)
  {
    DistinctSpec(KeyNames(vars));
    if HasKey(vars, key) {
      var v :| v in vars && v.keyName == key;
      var i :| 0 <= i < |vars| && vars[i] == v;
      assert KeyNames(vars)[i] == key;
    }
    if key in Keys(vars) {
      var i :| 0 <= i < |vars| && KeyNames(vars)[i] == key;
      assert vars[i] in vars;
    }
  }

  /** A conflict is in the result iff a key of the input yields it. */
  lemma InDetect(vars: seq<EnvVar>, c: Conflict)
    ensures c in Detect(vars) <==> HasKey(vars, c.keyName) && c in KeyConflicts(c.keyName, EntriesOf(vars, c.keyName))
  {
    var cs := ConflictsOf(vars, Keys(vars));
    BandsPermutes(cs, SeverityOf);
    assert c in Detect(vars) <==> c in multiset(cs);
    InConflictsOf(vars, Keys(vars), c);
    HasKeyIn(vars, c.keyName);
    if c in cs {
      var k :| k in Keys(vars) && c in KeyConflicts(k, EntriesOf(vars, k));
      KeyConflictsKey(k, EntriesOf(vars, k), c);
    }
  }

  lemma PresentOfKey(vars: seq<EnvVar>, key: string, env: Env)
    ensures env in PresentEnvs(EntriesOf(vars, key)) <==> InEnv(vars, key, env)
  {
    EntriesOfMembers(vars, key);
    LastOfPresent(EntriesOf(vars, key), env);
  }

  lemma MissingCondMeaning(vars: seq<EnvVar>, key: string)
    ensures MissingCond(EntriesOf(vars, key)) <==> HasKey(vars, key) && exists e: Env :: !InEnv(vars, key, e)
    ensures Production in Absent(AllEnvs, PresentEnvs(EntriesOf(vars, key))) <==> !InEnv(vars, key, Production)
  {
    if MissingCond(EntriesOf(vars, key)) {
      MissingCondSound(vars, key);
    }
    if HasKey(vars, key) && exists e: Env :: !InEnv(vars, key, e) {
      var e: Env :| !InEnv(vars, key, e);
      MissingCondComplete(vars, key, e);
    }
    EnvInAll(Production);
    PresentOfKey(vars, key, Production);
  }

  /** Some environment present and some absent: the key is set, and not
      everywhere. */
  lemma MissingCondSound(vars: seq<EnvVar>, key: string)
    requires MissingCond(EntriesOf(vars, key))
    ensures HasKey(vars, key) && exists e: Env :: !InEnv(vars, key, e)
  {
    var present := PresentEnvs(EntriesOf(vars, key));
    var missing := Absent(AllEnvs, present);
    PresentOfKey(vars, key, present[0]);
    PresentOfKey(vars, key, missing[0]);
    assert missing[0] in missing;
    assert !InEnv(vars, key, missing[0]);
  }

  /** A key that is set, and not in e, is set in some but not all
      environments. */
  lemma MissingCondComplete(vars: seq<EnvVar>, key: string, e: Env)
    requires HasKey(vars, key) && !InEnv(vars, key, e)
    ensures MissingCond(EntriesOf(vars, key))
  {
    var present := PresentEnvs(EntriesOf(vars, key));
    var v :| v in vars && v.keyName == key;
    PresentOfKey(vars, key, v.environment);
    assert v.environment in present;
    PresentOfKey(vars, key, e);
    EnvInAll(e);
    assert e in Absent(AllEnvs, present);
  }

  /** A missing-value conflict "missing-"+key is reported iff the key is set
      in some but not all of development, staging and production; it is
      critical iff production is one of the missing ones, else a warning. */
  lemma MissingValueIff(vars: seq<EnvVar>, key: string)
    ensures (exists c :: c in Detect(vars) && c.kind == MissingValue && c.keyName == key) <==>
      HasKey(vars, key) && exists e: Env :: !InEnv(vars, key, e)
    ensures forall c :: c in Detect(vars) && c.kind == MissingValue && c.keyName == key ==>
      c.id == "missing-" + key && (c.severity == Critical <==> !InEnv(vars, key, Production)) &&
      (c.severity == Critical || c.severity == Warning)
  {
    var entries := EntriesOf(vars, key);
    MissingCondMeaning(vars, key);
    if MissingCond(entries) {
      var m := MissingConflict(key, entries);
      KeyConflictsMembers(key, entries, m);
      InDetect(vars, m);
    }
    forall c | c in Detect(vars) && c.kind == MissingValue && c.keyName == key
      ensures MissingCond(entries) && c == MissingConflict(key, entries)
    {
      InDetect(vars, c);
      KeyConflictsMembers(key, entries, c);
    }
  }

  /** Two present environments whose kept values hash differently. */
  predicate ValuesDiffer(entries: seq<EnvVar>) {
    exists e1, e2 :: e1 in PresentEnvs(entries) && e2 in PresentEnvs(entries) &&
      LastOf(entries, e1).Some? && LastOf(entries, e2).Some? &&
      HashOf(LastOf(entries, e1).value.decryptedValue) != HashOf(LastOf(entries, e2).value.decryptedValue)
  }

  /** Two variables naming different non-empty service ids. */
  predicate ServicesDiffer(entries: seq<EnvVar>) {
    exists v1, v2 :: v1 in entries && v2 in entries && Truthy(v1.serviceId) && Truthy(v2.serviceId) &&
      v1.serviceId != v2.serviceId
  }

  lemma {:induction false} HashesAt(present: seq<Env>, entries: seq<EnvVar>)
    ensures forall i :: 0 <= i < |present| ==> Hashes(present, entries)[i] == KeptHash(entries, present[i])
    decreases |present|
  {
    if |present| > 0 {
      var n := |present|;
      var p := present[..n - 1];
      HashesAt(p, entries);
      assert Hashes(present, entries) == Hashes(p, entries) + [KeptHash(entries, present[n - 1])];
      forall i | 0 <= i < n ensures Hashes(present, entries)[i] == KeptHash(entries, present[i]) {
        if i < n - 1 {
          assert present[i] == p[i];
        }
      }
    }
  }

  lemma HashesDiffer(entries: seq<EnvVar>)
    ensures |Distinct(Hashes(PresentEnvs(entries), entries))| > 1 <==> ValuesDiffer(entries)
  {
    var present := PresentEnvs(entries);
    var h := Hashes(present, entries);
    forall e | e in present ensures LastOf(entries, e).Some? {
      LastOfPresent(entries, e);
    }
    HashesAt(present, entries);
    DistinctMany(h);
    if exists i, j :: 0 <= i < |h| && 0 <= j < |h| && h[i] != h[j] {
      var i, j :| 0 <= i < |h| && 0 <= j < |h| && h[i] != h[j];
      ValueHashEq(LastOf(entries, present[i]).value.decryptedValue, LastOf(entries, present[j]).value.decryptedValue);
      assert present[i] in present && present[j] in present;
    }
    if ValuesDiffer(entries) {
      var e1, e2 :| e1 in present && e2 in present && LastOf(entries, e1).Some? && LastOf(entries, e2).Some? &&
        HashOf(LastOf(entries, e1).value.decryptedValue) != HashOf(LastOf(entries, e2).value.decryptedValue);
      var i :| 0 <= i < |present| && present[i] == e1;
      var j :| 0 <= j < |present| && present[j] == e2;
      ValueHashEq(LastOf(entries, e1).value.decryptedValue, LastOf(entries, e2).value.decryptedValue);
      assert h[i] != h[j];
    }
  }

  lemma ServiceIdsDiffer(entries: seq<EnvVar>)
    ensures |Distinct(ServiceIds(entries))| > 1 <==> ServicesDiffer(entries)
  {
    var ids := ServiceIds(entries);
    ServiceIdsMembers(entries);
    DistinctMany(ids);
    if exists i, j :: 0 <= i < |ids| && 0 <= j < |ids| && ids[i] != ids[j] {
      var i, j :| 0 <= i < |ids| && 0 <= j < |ids| && ids[i] != ids[j];
      assert ids[i] in ids && ids[j] in ids;
      var v1 :| v1 in entries && Truthy(v1.serviceId) && v1.serviceId.value == ids[i];
      var v2 :| v2 in entries && Truthy(v2.serviceId) && v2.serviceId.value == ids[j];
    }
    if ServicesDiffer(entries) {
      var v1, v2 :| v1 in entries && v2 in entries && Truthy(v1.serviceId) && Truthy(v2.serviceId) &&
        v1.serviceId != v2.serviceId;
      assert v1.serviceId.value in ids && v2.serviceId.value in ids;
      var i :| 0 <= i < |ids| && ids[i] == v1.serviceId.value;
      var j :| 0 <= j < |ids| && ids[j] == v2.serviceId.value;
    }
  }

  lemma ConfigCondMeaning(entries: seq<EnvVar>)
    ensures ConfigCond(entries) <==> |PresentEnvs(entries)| >= 2 && ValuesDiffer(entries) && ServicesDiffer(entries)
  {
    HashesDiffer(entries);
    ServiceIdsDiffer(entries);
  }

  /** A config-mismatch conflict "config-"+key, of severity info, is
      reported iff the key is set in at least two environments, the values
      kept for two of them hash differently, and its variables name at least
      two different non-empty service ids. */
  lemma ConfigMismatchIff(vars: seq<EnvVar>, key: string)
    ensures (exists c :: c in Detect(vars) && c.kind == ConfigMismatch && c.keyName == key) <==>
      |PresentEnvs(EntriesOf(vars, key))| >= 2 && ValuesDiffer(EntriesOf(vars, key)) && ServicesDiffer(EntriesOf(vars, key))
    ensures forall c :: c in Detect(vars) && c.kind == ConfigMismatch && c.keyName == key ==>
      c.id == "config-" + key && c.severity == Info
  {
    var entries := EntriesOf(vars, key);
    ConfigCondMeaning(entries);
    if ConfigCond(entries) {
      var cf := ConfigConflict(key, entries);
      KeyConflictsMembers(key, entries, cf);
      assert HasKey(vars, key) by {
        EntriesOfMembers(vars, key);
        assert entries[0] in entries;
      }
      InDetect(vars, cf);
    }
    forall c | c in Detect(vars) && c.kind == ConfigMismatch && c.keyName == key
      ensures ConfigCond(entries) && c == ConfigConflict(key, entries)
    {
      InDetect(vars, c);
      KeyConflictsMembers(key, entries, c);
    }
  }

  /** The `critical_mismatch` type is declared but never produced. */
  lemma NoCriticalMismatch(vars: seq<EnvVar>)
    ensures forall c :: c in Detect(vars) ==> c.kind != CriticalMismatch
  {
    forall c | c in Detect(vars) ensures c.kind != CriticalMismatch {
      InDetect(vars, c);
      KeyConflictsMembers(c.keyName, EntriesOf(vars, c.keyName), c);
    }
  }

  lemma {:induction false} ServiceNamesFrom(present: seq<Env>, entries: seq<EnvVar>, s: string)
    requires s in ServiceNames(present, entries)
    ensures s != "" && exists e :: e in present && LastOf(entries, e).Some? && LastOf(entries, e).value.serviceName == Some(s)
    decreases |present|
  {
    var p := present[..|present| - 1];
    var e := present[|present| - 1];
    if s in ServiceNames(p, entries) {
      ServiceNamesFrom(p, entries, s);
      var e' :| e' in p && LastOf(entries, e').Some? && LastOf(entries, e').value.serviceName == Some(s);
      assert e' in present;
    } else {
      assert e in present;
    }
  }

  /** `affected_services` holds non-empty service names of the key's
      variables, each once. */
  lemma AffectedServicesDistinct(vars: seq<EnvVar>)
    ensures forall c :: c in Detect(vars) ==>
      NoDuplicates(c.affectedServices) &&
      forall s :: s in c.affectedServices ==> (s != "" &&
        exists v :: v in vars && v.keyName == c.keyName && v.serviceName == Some(s))
  {
    forall c | c in Detect(vars)
      ensures NoDuplicates(c.affectedServices)
      ensures forall s :: s in c.affectedServices ==> (s != "" &&
        exists v :: v in vars && v.keyName == c.keyName && v.serviceName == Some(s))
    {
      InDetect(vars, c);
      var entries := EntriesOf(vars, c.keyName);
      EntriesOfMembers(vars, c.keyName);
      KeyConflictsMembers(c.keyName, entries, c);
      var names := ServiceNames(PresentEnvs(entries), entries);
      DistinctSpec(names);
      assert c.affectedServices == Distinct(names);
      forall s | s in c.affectedServices
        ensures s != "" && exists v :: v in vars && v.keyName == c.keyName && v.serviceName == Some(s)
      {
        ServiceNamesFrom(PresentEnvs(entries), entries, s);
        var e :| e in PresentEnvs(entries) && LastOf(entries, e).Some? && LastOf(entries, e).value.serviceName == Some(s);
        assert LastOf(entries, e).value in entries;
      }
    }
  }

  /** The number of conflicts of one kind for one key. */
  function Count(cs: seq<Conflict>, key: string, kind: Kind): nat {
    CountIf(cs, Matches(key, kind))
  }

  function Matches(key: string, kind: Kind): Conflict -> bool {
    (c: Conflict) => c.keyName == key && c.kind == kind
  }

  lemma KeyConflictsCount(k: string, entries: seq<EnvVar>, key: string, kind: Kind)
    ensures Count(KeyConflicts(k, entries), key, kind) <= (if k == key then 1 else 0)
  {
    var m: seq<Conflict> := if MissingCond(entries) then [MissingConflict(k, entries)] else [];
    var f: seq<Conflict> := if ConfigCond(entries) then [ConfigConflict(k, entries)] else [];
    assert KeyConflicts(k, entries) == m + f;
    CountIfConcat(m, f, Matches(key, kind));
    CountIfOne(MissingConflict(k, entries), Matches(key, kind));
    CountIfOne(ConfigConflict(k, entries), Matches(key, kind));
  }

  lemma {:induction false} ConflictsOfCount(vars: seq<EnvVar>, keys: seq<string>, key: string, kind: Kind)
    requires NoDuplicates(keys)
    ensures Count(ConflictsOf(vars, keys), key, kind) <= 1
    ensures key !in keys ==> Count(ConflictsOf(vars, keys), key, kind) == 0
    decreases |keys|
  {
    if |keys| > 0 {
      var p := keys[..|keys| - 1];
      var k := keys[|keys| - 1];
      NoDuplicatesInit(keys);
      ConflictsOfCount(vars, p, key, kind);
      assert ConflictsOf(vars, keys) == ConflictsOf(vars, p) + KeyConflicts(k, EntriesOf(vars, k));
      CountIfConcat(ConflictsOf(vars, p), KeyConflicts(k, EntriesOf(vars, k)), Matches(key, kind));
      KeyConflictsCount(k, EntriesOf(vars, k), key, kind);
    }
  }

  /** Each key yields at most one conflict of each type, and the result is
      ordered critical, then warning, then info, as a permutation of the
      conflicts found key by key. */
  lemma DetectShape(vars: seq<EnvVar>, key: string, kind: Kind)
    ensures Count(Detect(vars), key, kind) <= 1
    ensures forall i, j :: 0 <= i < j < |Detect(vars)| ==>
      Rank(Detect(vars)[i].severity) <= Rank(Detect(vars)[j].severity)
    ensures multiset(Detect(vars)) == multiset(ConflictsOf(vars, Keys(vars)))
  {
    var cs := ConflictsOf(vars, Keys(vars));
    DistinctSpec(KeyNames(vars));
    ConflictsOfCount(vars, Keys(vars), key, kind);
    BandsCount(cs, SeverityOf, Matches(key, kind));
    BandsSorted(cs, SeverityOf);
    BandsPermutes(cs, SeverityOf);
  }
}

=== FILE: deploy_error_map.dfy ===
/** The deploy error explainer of src/lib/deploy-error-map.ts: an ordered
    list of substring rules over the lowercased message, the first that
    fires picking a cause and a solution in Korean or English. */
module DeployErrorMap {
  import opened Text
  import opened DeployStatus

  datatype Cause =
    | NameConflict | TemplateMissing | UploadFailed | PermissionDenied | TokenInvalid
    | RateLimited | PagesFailed | NetworkFailed | QuotaReached | Unexpected

  /** The rules in the order they are tried; Unexpected is the fallback. */
  const Rules: seq<Cause> := [NameConflict, TemplateMissing, UploadFailed, PermissionDenied, TokenInvalid,
                              RateLimited, PagesFailed, NetworkFailed, QuotaReached]

  /** Whether the rule for `c` fires on the lowercased message and the
      failed step's label. */
  predicate Fires(c: Cause, msg: string, failedStep: Option<string>) {
    match c
    case NameConflict => Contains(msg, "이미 존재") || Contains(msg, "already exists") || Contains(msg, "422") || Contains(msg, "409")
    case TemplateMissing => (Contains(msg, "템플릿") && Contains(msg, "찾을 수 없")) || (Contains(msg, "template") && Contains(msg, "not found"))
    case UploadFailed => Contains(msg, "파일 업로드") || Contains(msg, "file upload") || Contains(msg, "push")
    case PermissionDenied => Contains(msg, "권한") || Contains(msg, "permission") || Contains(msg, "403")
    case TokenInvalid => Contains(msg, "토큰") || Contains(msg, "token") || Contains(msg, "401")
    case RateLimited => Contains(msg, "요청이 너무") || Contains(msg, "rate") || Contains(msg, "429")
    case PagesFailed => Contains(msg, "pages") || Contains(msg, "errored") || (failedStep.Some? && Contains(failedStep.value, "설정"))
    case NetworkFailed => Contains(msg, "network") || Contains(msg, "fetch") || Contains(msg, "500") || Contains(msg, "502")
    case QuotaReached => Contains(msg, "한도") || Contains(msg, "quota") || Contains(msg, "limit")
    case Unexpected => true
  }

  /** The rules' verdicts on one message and failed step. */
  function FiresOn(msg: string, failedStep: Option<string>): Cause -> bool {
    (c: Cause) => Fires(c, msg, failedStep)
  }

  /** The chain of guarded returns, given each rule's verdict. */
  function Chain(fires: Cause -> bool): Cause {
    if fires(NameConflict) then NameConflict
    else if fires(TemplateMissing) then TemplateMissing
    else if fires(UploadFailed) then UploadFailed
    else if fires(PermissionDenied) then PermissionDenied
    else if fires(TokenInvalid) then TokenInvalid
    else if fires(RateLimited) then RateLimited
    else if fires(PagesFailed) then PagesFailed
    else if fires(NetworkFailed) then NetworkFailed
    else if fires(QuotaReached) then QuotaReached
    else Unexpected
  }

  function Classify(msg: string, failedStep: Option<string>): Cause {
    Chain(FiresOn(msg, failedStep))
  }

  /** The first rule of `rules` from position i on that fires, else
      Unexpected. */
  function FirstFiring(rules: seq<Cause>, fires: Cause -> bool, i: nat): (r: Cause)
    ensures r == Unexpected || exists j :: i <= j < |rules| && rules[j] == r
    decreases |rules| - i
  {
    if i >= |rules| then Unexpected
    else if fires(rules[i]) then rules[i]
    else FirstFiring(rules, fires, i + 1)
  }

  lemma {:induction false} FirstFiringIndex(rules: seq<Cause>, fires: Cause -> bool, i: nat, k: nat)
    requires i <= k < |rules| && NoDuplicates(rules) && Unexpected !in rules
    ensures FirstFiring(rules, fires, i) == rules[k] <==>
      fires(rules[k]) && forall j :: i <= j < k ==> !fires(rules[j])
    decreases k - i
  {
    if i < k {
      FirstFiringIndex(rules, fires, i + 1, k);
      assert rules[i] != rules[k];
    } else if !fires(rules[i]) {
      var r := FirstFiring(rules, fires, i + 1);
      if r != Unexpected {
        var j :| i + 1 <= j < |rules| && rules[j] == r;
      }
    }
  }

  /** The chain is the ordered rule list. */
  lemma ChainIsFirstFiring(fires: Cause -> bool)
    ensures Chain(fires) == FirstFiring(Rules, fires, 0)
  {
    assert FirstFiring(Rules, fires, 8) == if fires(QuotaReached) then QuotaReached else Unexpected;
    assert FirstFiring(Rules, fires, 7) == if fires(NetworkFailed) then NetworkFailed else FirstFiring(Rules, fires, 8);
    assert FirstFiring(Rules, fires, 6) == if fires(PagesFailed) then PagesFailed else FirstFiring(Rules, fires, 7);
    assert FirstFiring(Rules, fires, 5) == if fires(RateLimited) then RateLimited else FirstFiring(Rules, fires, 6);
    assert FirstFiring(Rules, fires, 4) == if fires(TokenInvalid) then TokenInvalid else FirstFiring(Rules, fires, 5);
    assert FirstFiring(Rules, fires, 3) == if fires(PermissionDenied) then PermissionDenied else FirstFiring(Rules, fires, 4);
    assert FirstFiring(Rules, fires, 2) == if fires(UploadFailed) then UploadFailed else FirstFiring(Rules, fires, 3);
    assert FirstFiring(Rules, fires, 1) == if fires(TemplateMissing) then TemplateMissing else FirstFiring(Rules, fires, 2);
    assert FirstFiring(Rules, fires, 0) == if fires(NameConflict) then NameConflict else FirstFiring(Rules, fires, 1);
    if fires(NameConflict) {
    } else if fires(TemplateMissing) {
    } else if fires(UploadFailed) {
    } else if fires(PermissionDenied) {
    } else if fires(TokenInvalid) {
    } else if fires(RateLimited) {
    } else if fires(PagesFailed) {
    } else if fires(NetworkFailed) {
    } else if fires(QuotaReached) {
    }
  }

  /** The first rule that fires wins; with none, the cause is Unexpected. */
  lemma ChainFirstMatch(fires: Cause -> bool, k: nat)
    requires k < |Rules|
    ensures Chain(fires) == Rules[k] <==> fires(Rules[k]) && forall j :: 0 <= j < k ==> !fires(Rules[j])
    ensures Chain(fires) == Unexpected <==> forall j :: 0 <= j < |Rules| ==> !fires(Rules[j])
  {
    ChainIsFirstFiring(fires);
    RulesDistinct();
    FirstFiringSpec(Rules, fires, k);
  }

  /** Each cause has one rule, and the fallback has none. */
  lemma RulesDistinct()
    ensures NoDuplicates(Rules) && Unexpected !in Rules
  {
  }

  /** In a list of distinct rules, the first firing one is rule k exactly
      when rule k fires and no earlier one does, and is Unexpected exactly
      when none fires. */
  lemma FirstFiringSpec(rules: seq<Cause>, fires: Cause -> bool, k: nat)
    requires k < |rules| && NoDuplicates(rules) && Unexpected !in rules
    ensures FirstFiring(rules, fires, 0) == rules[k] <==> fires(rules[k]) && forall j :: 0 <= j < k ==> !fires(rules[j])
    ensures FirstFiring(rules, fires, 0) == Unexpected <==> forall j :: 0 <= j < |rules| ==> !fires(rules[j])
  {
    FirstFiringIndex(rules, fires, 0, k);
    FirstFiringNone(rules, fires, 0);
  }

  /** Nothing fires from position i on exactly when the result is
      Unexpected. */
  lemma {:induction false} FirstFiringNone(rules: seq<Cause>, fires: Cause -> bool, i: nat)
    requires Unexpected !in rules
    ensures FirstFiring(rules, fires, i) == Unexpected <==> forall j :: i <= j < |rules| ==> !fires(rules[j])
    decreases |rules| - i
  {
    if i < |rules| {
      FirstFiringNone(rules, fires, i + 1);
      assert rules[i] != Unexpected;
    }
  }

  /** For a message and failed step: the cause is the first rule that
      fires, in the order of Rules. */
  lemma ClassifyFirstMatch(msg: string, failedStep: Option<string>, k: nat)
    requires k < |Rules|
    ensures Classify(msg, failedStep) == Rules[k] <==>
      Fires(Rules[k], msg, failedStep) && forall j :: 0 <= j < k ==> !Fires(Rules[j], msg, failedStep)
    ensures Classify(msg, failedStep) == Unexpected <==> forall j :: 0 <= j < |Rules| ==> !Fires(Rules[j], msg, failedStep)
  {
    var fires := FiresOn(msg, failedStep);
    ChainFirstMatch(fires, k);
    assert forall c :: fires(c) == Fires(c, msg, failedStep);
  }

  /** A message with both "403" and "401" is a permission error, unless an
      earlier rule fires. */
  lemma PermissionBeforeToken(msg: string, failedStep: Option<string>)
    requires Contains(msg, "403") && Contains(msg, "401")
    requires !Fires(NameConflict, msg, failedStep) && !Fires(TemplateMissing, msg, failedStep) && !Fires(UploadFailed, msg, failedStep)
    ensures Classify(msg, failedStep) == PermissionDenied
  {
  }

  /** A failed step labelled with "설정" means a Pages failure whatever the
      message says, unless an earlier rule fires. */
  lemma PagesByFailedStep(msg: string, stepLabel: string)
    requires Contains(stepLabel, "설정")
    requires forall j :: 0 <= j < 6 ==> !Fires(Rules[j], msg, Some(stepLabel))
    ensures Classify(msg, Some(stepLabel)) == PagesFailed
  {
    assert !Fires(Rules[0], msg, Some(stepLabel)) && !Fires(Rules[1], msg, Some(stepLabel)) && !Fires(Rules[2], msg, Some(stepLabel));
    assert !Fires(Rules[3], msg, Some(stepLabel)) && !Fires(Rules[4], msg, Some(stepLabel)) && !Fires(Rules[5], msg, Some(stepLabel));
  }

  /** `steps.find((s) => s.status === 'error')?.label || null` */
  function FailedStep(status: Option<seq<DeployStep>>): (r: Option<string>)
    ensures r.Some? ==> r.value != ""
  {
    if status.None? then None
    else
      match FirstError(status.value)
      case None => None
      case Some(i) => if status.value[i].caption == "" then None else Some(status.value[i].caption)
  }

  function FirstError(steps: seq<DeployStep>): (r: Option<nat>)
    ensures r.Some? ==> r.value < |steps|
    decreases |steps|
  {
    if |steps| == 0 then None
    else if steps[0].status == Error then Some(0)
    else match FirstError(steps[1..])
      case None => None
      case Some(i) => Some(i + 1)
  }

  /** FirstError finds the first step in error, and nothing when none is. */
  lemma {:induction false} FirstErrorSpec(steps: seq<DeployStep>)
    ensures FirstError(steps).None? <==> forall j :: 0 <= j < |steps| ==> steps[j].status != Error
    ensures FirstError(steps).Some? ==>
      steps[FirstError(steps).value].status == Error &&
      forall j :: 0 <= j < FirstError(steps).value ==> steps[j].status != Error
    decreases |steps|
  {
    if |steps| > 0 && steps[0].status != Error {
      FirstErrorSpec(steps[1..]);
      assert forall j :: 1 <= j < |steps| ==> steps[j] == steps[1..][j - 1];
    }
  }

  datatype ErrorDetails = ErrorDetails(cause: string, solution: string, failedStep: Option<string>)

  function KoreanTexts(c: Cause): (string, string) {
    match c
    case NameConflict => ("동일한 이름의 레포지토리가 GitHub에 이미 존재합니다.",
                          "다른 사이트 이름을 사용하거나, GitHub에서 기존 레포지토리를 삭제한 후 다시 시도해주세요.")
    case TemplateMissing => ("선택한 템플릿의 원본 레포지토리를 찾을 수 없습니다.",
                             "다른 템플릿을 선택하거나, 관리자에게 문의해주세요.")
    case UploadFailed => ("템플릿 파일을 레포지토리에 업로드하는 중 오류가 발생했습니다.",
                          "다시 시도해주세요. 문제가 계속되면 GitHub 연결을 해제 후 다시 연결해보세요.")
    case PermissionDenied => ("GitHub 계정의 권한이 부족하거나 토큰이 만료되었습니다.",
                              "GitHub 연결을 해제한 후 다시 연결해주세요. (설정 → GitHub 연결 해제)")
    case TokenInvalid => ("GitHub 인증 토큰이 만료되었거나 유효하지 않습니다.", "GitHub를 다시 연결해주세요.")
    case RateLimited => ("짧은 시간에 너무 많은 요청이 발생했습니다.", "1분 후 다시 시도해주세요.")
    case PagesFailed => ("GitHub Pages 활성화 또는 빌드 중 오류가 발생했습니다.",
                         "GitHub 레포지토리의 Settings → Pages에서 직접 활성화하거나, 재시도해주세요.")
    case NetworkFailed => ("서버 또는 네트워크 오류가 발생했습니다.",
                           "잠시 후 다시 시도해주세요. 문제가 계속되면 관리자에게 문의하세요.")
    case QuotaReached => ("배포 한도에 도달했습니다.",
                          "Pro 플랜으로 업그레이드하거나, 기존 사이트를 삭제한 후 다시 시도해주세요.")
    case Unexpected => ("배포 중 예기치 않은 오류가 발생했습니다.",
                        "다시 시도해주세요. 문제가 계속되면 다른 사이트 이름으로 시도하거나 관리자에게 문의하세요.")
  }

  function EnglishTexts(c: Cause): (string, string) {
    match c
    case NameConflict => ("A repository with the same name already exists on GitHub.",
                          "Use a different site name, or delete the existing repository on GitHub and try again.")
    case TemplateMissing => ("The source repository for the selected template was not found.",
                             "Choose a different template or contact the administrator.")
    case UploadFailed => ("An error occurred while uploading template files to the repository.",
                          "Please try again. If the issue persists, disconnect and reconnect your GitHub account.")
    case PermissionDenied => ("Insufficient GitHub permissions or expired token.",
                              "Disconnect and reconnect your GitHub account. (Settings → Disconnect GitHub)")
    case TokenInvalid => ("GitHub authentication token has expired or is invalid.", "Please reconnect your GitHub account.")
    case RateLimited => ("Too many requests in a short period.", "Please wait 1 minute and try again.")
    case PagesFailed => ("An error occurred while enabling or building GitHub Pages.",
                         "Enable Pages manually in your GitHub repo Settings → Pages, or retry.")
    case NetworkFailed => ("A server or network error occurred.",
                           "Please try again later. If the issue persists, contact the administrator.")
    case QuotaReached => ("Deployment quota has been reached.", "Upgrade to Pro plan or delete existing sites and try again.")
    case Unexpected => ("An unexpected error occurred during deployment.",
                        "Please try again. If the issue persists, try a different site name or contact the administrator.")
  }

  /** `getErrorDetails(errorMessage, status, locale)` */
  function GetErrorDetails(errorMessage: string, status: Option<seq<DeployStep>>, locale: string): ErrorDetails {
    var msg := Lower(errorMessage);
    var failedStep := FailedStep(status);
    var texts := if locale == "ko" then KoreanTexts(Classify(msg, failedStep)) else EnglishTexts(Classify(msg, failedStep));
    ErrorDetails(texts.0, texts.1, failedStep)
  }

  /** Every message gets a cause and a solution, from the Korean
      table iff the locale is 'ko', picked by the first rule firing on the
      lowercased message; the failed step is passed through whatever the
      rule. */
  lemma ErrorDetailsSpec(errorMessage: string, status: Option<seq<DeployStep>>, locale: string)
    ensures var d := GetErrorDetails(errorMessage, status, locale);
      var c := FirstFiring(Rules, FiresOn(Lower(errorMessage), FailedStep(status)), 0);
      d.failedStep == FailedStep(status) &&
      (locale == "ko" ==> (d.cause, d.solution) == KoreanTexts(c)) &&
      (locale != "ko" ==> (d.cause, d.solution) == EnglishTexts(c))
  {
    ChainIsFirstFiring(FiresOn(Lower(errorMessage), FailedStep(status)));
  }

  /** The case of the message never matters. */
  lemma ErrorDetailsIgnoreCase(errorMessage: string, status: Option<seq<DeployStep>>, locale: string)
    ensures GetErrorDetails(Lower(errorMessage), status, locale) == GetErrorDetails(errorMessage, status, locale)
  {
    LowerIdempotent(errorMessage);
  }

  /** The failed step is the label of the first step in error, or null when
      no step is in error or that label is empty. */
  lemma FailedStepSpec(steps: seq<DeployStep>)
    ensures FailedStep(None) == None
    ensures FailedStep(Some(steps)).Some? ==> exists i :: (0 <= i < |steps| && steps[i].status == Error &&
      steps[i].caption == FailedStep(Some(steps)).value && forall j :: 0 <= j < i ==> steps[j].status != Error)
    ensures (forall j :: 0 <= j < |steps| ==> steps[j].status != Error) ==> FailedStep(Some(steps)) == None
    ensures forall i :: 0 <= i < |steps| && steps[i].status == Error && (forall j :: 0 <= j < i ==> steps[j].status != Error) ==>
      FailedStep(Some(steps)) == (if steps[i].caption != "" then Some(steps[i].caption) else None)
  {
    FirstErrorSpec(steps);
    forall i | 0 <= i < |steps| && steps[i].status == Error && (forall j :: 0 <= j < i ==> steps[j].status != Error)
      ensures FailedStep(Some(steps)) == (if steps[i].caption != "" then Some(steps[i].caption) else None)
    {
      var k := FirstError(steps).value;
      assert !(k < i) && !(i < k);
    }
  }
}

=== FILE: deploy_machine.dfy ===
/** The one-click deploy state machine of src/hooks/use-deploy-machine.ts:
    the reducer over deploy phases and the random site-name format. The
    `Error` object an error phase carries is modelled by its message. */
module DeployMachine {
  import opened Text

  datatype DeployState =
    | Selecting(chosen: Option<string>, siteName: string)
    | Authenticating(template: string, siteName: string)
    | ConnectingGithub(template: string, siteName: string)
    | Deploying(template: string, siteName: string)
    | Polling(deployId: string, projectId: string, template: string)
    | Success(deployId: string, projectId: string, template: string)
    | Failed(error: string, canRetry: bool, failedDeployId: Option<string>, failedProjectId: Option<string>)

  datatype DeployAction =
    | SelectTemplate(template: string)
    | SetSiteName(siteName: string)
    | RequestDeploy(template: string, siteName: string)
    | NeedsAuth(template: string, siteName: string)
    | NeedsGithub(template: string, siteName: string)
    | AuthComplete
    | GithubConnected
    | StartDeploy(template: string, siteName: string)
    | DeploySuccess(deployId: string, projectId: string, template: string)
    | DeployReady
    | DeployError(error: string, errorDeployId: Option<string>, errorProjectId: Option<string>)
    | Retry

  /** `deployReducer(state, action)`; REQUEST_DEPLOY has no case of its own
      and falls to the default, which returns the state. */
  function Reduce(s: DeployState, a: DeployAction): DeployState {
    match a
    case SelectTemplate(t) => if s.Selecting? then Selecting(Some(t), s.siteName) else s
    case SetSiteName(n) => if s.Selecting? then Selecting(s.chosen, n) else s
    case RequestDeploy(_, _) => s
    case NeedsAuth(t, n) => Authenticating(t, n)
    case NeedsGithub(t, n) => ConnectingGithub(t, n)
    case AuthComplete => if s.Authenticating? then ConnectingGithub(s.template, s.siteName) else s
    case GithubConnected => if s.ConnectingGithub? then Deploying(s.template, s.siteName) else s
    case StartDeploy(t, n) => Deploying(t, n)
    case DeploySuccess(d, p, t) => Polling(d, p, t)
    case DeployReady => if s.Polling? then Success(s.deployId, s.projectId, s.template) else s
    case DeployError(e, d, p) => Failed(e, true, d, p)
    case Retry => Selecting(None, "")
  }

  /** SELECT_TEMPLATE and SET_SITE_NAME edit one field while selecting and
      are ignored in every other phase. */
  lemma SelectingEdits(s: DeployState, t: string, n: string)
    ensures s.Selecting? ==> Reduce(s, SelectTemplate(t)) == Selecting(Some(t), s.siteName)
    ensures s.Selecting? ==> Reduce(s, SetSiteName(n)) == Selecting(s.chosen, n)
    ensures !s.Selecting? ==> Reduce(s, SelectTemplate(t)) == s && Reduce(s, SetSiteName(n)) == s
  {
  }

  /** AUTH_COMPLETE and GITHUB_CONNECTED advance one phase each, carrying
      the template and site name, and are no-ops elsewhere. */
  lemma AuthSteps(s: DeployState)
    ensures Reduce(s, AuthComplete) ==
      if s.Authenticating? then ConnectingGithub(s.template, s.siteName) else s
    ensures Reduce(s, GithubConnected) ==
      if s.ConnectingGithub? then Deploying(s.template, s.siteName) else s
  {
  }

  /** DEPLOY_READY turns polling into success with the same ids and
      template, and does nothing in any other phase. */
  lemma ReadyStep(s: DeployState)
    ensures s.Polling? ==> Reduce(s, DeployReady) == Success(s.deployId, s.projectId, s.template)
    ensures !s.Polling? ==> Reduce(s, DeployReady) == s
  {
  }

  /** DEPLOY_ERROR and RETRY act the same from every phase; the actions that
      set a phase unconditionally take their fields only from the action. */
  lemma Unconditional(s1: DeployState, s2: DeployState, a: DeployAction)
    requires a.DeployError? || a.Retry? || a.NeedsAuth? || a.NeedsGithub? || a.StartDeploy? || a.DeploySuccess?
    ensures Reduce(s1, a) == Reduce(s2, a)
    ensures a.DeployError? ==> Reduce(s1, a) == Failed(a.error, true, a.errorDeployId, a.errorProjectId)
    ensures a.Retry? ==> Reduce(s1, a) == Selecting(None, "")
  {
  }

  /** The phase after an action is one the action can lead to; in particular
      only SELECT_TEMPLATE, SET_SITE_NAME and RETRY end in `selecting`, and
      only DEPLOY_ERROR ends in `error` unless the state already was. */
  lemma PhaseAfter(s: DeployState, a: DeployAction)
    ensures Reduce(s, a).Selecting? ==> a.Retry? || s.Selecting?
    ensures Reduce(s, a).Failed? ==> a.DeployError? || s.Failed?
    ensures Reduce(s, a).Success? ==> (a.DeployReady? && s.Polling?) || s.Success?
    ensures Reduce(s, a).Failed? && a.DeployError? ==> Reduce(s, a).canRetry
  {
  }

  const SiteNameChars := "abcdefghijklmnopqrstuvwxyz0123456789"

  predicate IsSiteNameChar(c: char) {
    'a' <= c <= 'z' || '0' <= c <= '9'
  }

  lemma SiteNameCharsAll(k: nat)
    requires k < |SiteNameChars|
    ensures IsSiteNameChar(SiteNameChars[k])
  {
  }

  /** `generateSiteName()`, with the four random draws
      `Math.floor(Math.random() * chars.length)` passed in. */
  method GenerateSiteName(draws: seq<nat>) returns (name: string)
    requires |draws| == 4
    requires forall k :: 0 <= k < 4 ==> draws[k] < |SiteNameChars|
    ensures |name| == 12 && name[..8] == "my-site-"
    ensures forall k :: 8 <= k < 12 ==> IsSiteNameChar(name[k]) && name[k] == SiteNameChars[draws[k - 8]]
  {
    var suffix := "";
    for i := 0 to 4
      invariant |suffix| == i
      invariant forall k :: 0 <= k < i ==> suffix[k] == SiteNameChars[draws[k]] && IsSiteNameChar(suffix[k])
    {
      SiteNameCharsAll(draws[i]);
      suffix := suffix + [SiteNameChars[draws[i]]];
    }
    name := "my-site-" + suffix;
  }
}

=== FILE: deploy_polling.dfy ===
/** The refetch deciders of src/lib/queries/oneclick.ts: the backoff table
    for status polling and when the deployment list keeps refreshing. The
    clock (`Date.now()`) and the query's bookkeeping are parameters. */
module DeployPolling {
  import opened Text

  /** A `refetchInterval` result: a delay in milliseconds, or `false`. */
  datatype Refetch = Every(ms: int) | Stop

  const Intervals: seq<int> := [1000, 2000, 3000, 5000, 8000, 10000]

  /** `getBackoffInterval(pollCount)` */
  function BackoffInterval(pollCount: nat): int {
    Intervals[if pollCount < |Intervals| - 1 then pollCount else |Intervals| - 1]
  }

  /** The delay never shrinks as polls accumulate, lies between one and ten
      seconds, and is ten seconds from the fifth poll on. */
  lemma BackoffShape(m: nat, n: nat)
    ensures m <= n ==> BackoffInterval(m) <= BackoffInterval(n)
    ensures 1000 <= BackoffInterval(n) <= 10000
    ensures n >= 5 <==> BackoffInterval(n) == 10000
    ensures BackoffInterval(0) == 1000 && BackoffInterval(3) == 5000
  {
  }

  const PollTimeoutMs := 5 * 60 * 1000

  predicate Terminal(status: string) {
    status in ["ready", "error", "canceled", "timeout"]
  }

  /** What status polling does once the query has data: its `deploy_status`,
      `dataUpdatedAt` and `dataUpdateCount`, at time `now`. */
  datatype PollState = PollState(deployStatus: string, dataUpdatedAt: int, dataUpdateCount: nat)

  /** The status query's `refetchInterval`; the flag says whether the cached
      status is overwritten with 'timeout'. */
  function StatusRefetch(data: Option<PollState>, now: int): (Refetch, bool) {
    if data.None? then (Every(1000), false)
    else
      var d := data.value;
      if Terminal(d.deployStatus) then (Stop, false)
      else
        var firstFetchAt := d.dataUpdatedAt - d.dataUpdateCount * 3000;
        if now - firstFetchAt > PollTimeoutMs then (Stop, true)
        else (Every(BackoffInterval(d.dataUpdateCount)), false)
  }

  /** Polling is fast before the first answer, stops on ready, error,
      canceled and timeout, stops (marking the status 'timeout') once more
      than five minutes have passed since the estimated first fetch, and
      otherwise waits the backoff delay. */
  lemma StatusRefetchCases(data: Option<PollState>, now: int)
    ensures var (r, timedOut) := StatusRefetch(data, now);
      (data.None? ==> r == Every(1000) && !timedOut) &&
      (r == Stop <==> (data.Some? &&
        (Terminal(data.value.deployStatus) ||
         now - (data.value.dataUpdatedAt - data.value.dataUpdateCount * 3000) > 300000))) &&
      (timedOut <==> r == Stop && !Terminal(data.value.deployStatus)) &&
      (r.Every? ==> 1000 <= r.ms <= 10000) &&
      (data.Some? && r.Every? ==> r.ms == BackoffInterval(data.value.dataUpdateCount))
  {
    if data.Some? {
      BackoffShape(0, data.value.dataUpdateCount);
    }
  }

  predicate InFlight(status: string) {
    status in ["building", "creating", "pending"]
  }

  /** The deployment list's `refetchInterval` over the rows' `deploy_status`. */
  function ListRefetch(data: Option<seq<string>>): Refetch {
    if data.None? then Stop
    else if exists i :: 0 <= i < |data.value| && InFlight(data.value[i]) then Every(5000)
    else Stop
  }

  /** The list refreshes every five seconds exactly while some deployment is
      building, creating or pending. */
  lemma ListRefetchCases(data: Option<seq<string>>)
    ensures ListRefetch(data) == Every(5000) <==>
      data.Some? && exists i :: 0 <= i < |data.value| && data.value[i] in ["building", "creating", "pending"]
    ensures ListRefetch(data) != Every(5000) ==> ListRefetch(data) == Stop
  {
  }
}

=== FILE: deploy_status.dfy ===
/** Deploy progress of src/lib/oneclick/deploy-status.ts: the step
    indicators shown while a site deploys and the status decision taken
    from the GitHub Pages and Actions lookups, which are parameters. */
module DeployStatus {
  import opened Text

  datatype StepStatus = Completed | InProgress | Pending | Error

  /** A step indicator; `caption` is the source's `label`. */
  datatype DeployStep = DeployStep(name: string, status: StepStatus, caption: string)

  /** The columns of a `homepage_deploys` row the steps read. */
  datatype DeployRow = DeployRow(forkStatus: string, deployStatus: string, pagesStatus: string)

  function Names(steps: seq<DeployStep>): seq<string> {
    seq(|steps|, i requires 0 <= i < |steps| => steps[i].name)
  }

  /** The repo (or legacy fork) step, from `fork_status`. */
  function RepoStep(forkStatus: string): StepStatus {
    if forkStatus == "forked" then Completed
    else if forkStatus == "forking" then InProgress
    else if forkStatus == "failed" then Error
    else Pending
  }

  function PagesStep(repo: StepStatus, pagesStatus: string): StepStatus {
    if repo != Completed then Pending
    else if pagesStatus == "built" then Completed
    else if pagesStatus == "errored" then Error
    else if pagesStatus == "enabling" || pagesStatus == "building" then InProgress
    else Pending
  }

  function LiveStep(deployStatus: string, pages: StepStatus): StepStatus {
    if deployStatus == "ready" then Completed
    else if deployStatus == "error" then Error
    else if pages == Completed then InProgress
    else Pending
  }

  function PagesSteps(row: DeployRow): seq<DeployStep> {
    var repo := RepoStep(row.forkStatus);
    var pages := PagesStep(repo, row.pagesStatus);
    [DeployStep("repo", repo, "레포지토리 생성"),
     DeployStep("pages", pages, "GitHub Pages 활성화"),
     DeployStep("live", LiveStep(row.deployStatus, pages), "사이트 게시 완료")]
  }

  /** The Vercel steps kept for old rows. */
  function LegacySteps(row: DeployRow): seq<DeployStep> {
    var d := row.deployStatus;
    var project :=
      if d == "pending" then Pending
      else if d == "creating" then InProgress
      else if d in ["building", "ready", "error", "canceled"] then Completed
      else Pending;
    var build := if d == "building" then InProgress else if d == "ready" then Completed
      else if d == "error" then Error else Pending;
    var deploy := if d == "ready" then Completed else if d == "error" then Error else Pending;
    [DeployStep("fork", RepoStep(row.forkStatus), "레포지토리 복사"),
     DeployStep("project", project, "Vercel 프로젝트 생성"),
     DeployStep("build", build, "빌드 중..."),
     DeployStep("deploy", deploy, "배포 완료")]
  }

  /** `buildDeploySteps(deploy, deployMethod)` */
  function BuildDeploySteps(row: DeployRow, deployMethod: string): seq<DeployStep> {
    if deployMethod == "github_pages" then PagesSteps(row) else LegacySteps(row)
  }

  /** For GitHub Pages: the steps repo, pages, live; repo follows the fork;
      pages waits for the repo and then follows `pages_status`; live is
      completed iff ready, error iff error, and otherwise in progress iff
      pages is completed. */
  lemma PagesStepsTable(row: DeployRow)
    ensures var s := BuildDeploySteps(row, "github_pages");
      Names(s) == ["repo", "pages", "live"] &&
      (s[0].status == Completed <==> row.forkStatus == "forked") &&
      (s[0].status == InProgress <==> row.forkStatus == "forking") &&
      (s[0].status == Error <==> row.forkStatus == "failed") &&
      (s[0].status != Completed ==> s[1].status == Pending) &&
      (s[0].status == Completed ==>
        (s[1].status == Completed <==> row.pagesStatus == "built") &&
        (s[1].status == Error <==> row.pagesStatus == "errored") &&
        (s[1].status == InProgress <==> row.pagesStatus == "enabling" || row.pagesStatus == "building")) &&
      (s[2].status == Completed <==> row.deployStatus == "ready") &&
      (s[2].status == Error <==> row.deployStatus == "error") &&
      (s[2].status == InProgress <==> row.deployStatus != "ready" && row.deployStatus != "error" && s[1].status == Completed)
  {
  }

  /** Any other method: the steps fork, project, build, deploy; deploy is
      completed iff ready and error iff error; project is in progress iff
      creating and completed iff building, ready, error or canceled. */
  lemma LegacyStepsTable(row: DeployRow, deployMethod: string)
    requires deployMethod != "github_pages"
    ensures var s := BuildDeploySteps(row, deployMethod);
      var d := row.deployStatus;
      Names(s) == ["fork", "project", "build", "deploy"] &&
      s[0].status == RepoStep(row.forkStatus) &&
      (s[1].status == InProgress <==> d == "creating") &&
      (s[1].status == Completed <==> d == "building" || d == "ready" || d == "error" || d == "canceled") &&
      (s[3].status == Completed <==> d == "ready") &&
      (s[3].status == Error <==> d == "error") &&
      (s[3].status == Pending <==> d != "ready" && d != "error")
  {
  }

  // ---------------------------------------------------------------------
  // resolveDeployStatus
  // ---------------------------------------------------------------------

  /** The outcome of `getGitHubPagesStatus`: the Pages record, or the HTTP
      status of a `GitHubApiError`. */
  datatype PagesLookup = PagesInfo(status: Option<string>, htmlUrl: Option<string>) | ApiError(code: int)

  datatype WorkflowRun = WorkflowRun(status: string, conclusion: Option<string>)

  /** The outcome of `getLatestWorkflowRun`: a run, no run, or a throw. */
  datatype RunLookup = Found(run: WorkflowRun) | NoRun | RunError

  datatype StatusResult = StatusResult(deployStatus: string, pagesStatus: string, pagesUrl: Option<string>,
                                       deploymentUrl: Option<string>, errorMessage: Option<string>, changed: bool)

  const FailureMessage := "GitHub Actions 워크플로우 빌드에 실패했습니다. GitHub 레포지토리의 Actions 탭에서 로그를 확인해주세요."
  const CancelledMessage := "GitHub Actions 워크플로우가 취소되었습니다."

  predicate Concluded(run: RunLookup, conclusion: string) {
    run.Found? && run.run.status == "completed" && run.run.conclusion == Some(conclusion)
  }

  /** `x || y` on nullable strings. */
  function Or(x: Option<string>, y: Option<string>): Option<string> {
    if x.Some? && x.value != "" then x else y
  }

  /** `resolveDeployStatus`; None is the rethrown error of a failed Pages
      lookup other than 404. */
  method ResolveDeployStatus(pages: PagesLookup, run: RunLookup, currentDeployStatus: string,
                             currentPagesStatus: string, currentPagesUrl: Option<string>)
    returns (r: Option<StatusResult>)
    ensures r.None? <==> pages.ApiError? && pages.code != 404
    ensures pages.ApiError? && pages.code == 404 ==>
      r == Some(StatusResult(currentDeployStatus, currentPagesStatus, currentPagesUrl, None, None, false))
    ensures pages.PagesInfo? ==> (r.Some? &&
      var s := r.value;
      var p := pages.status;
      (p == Some("built") ==> s.deployStatus == "ready" && s.pagesStatus == "built") &&
      (p == Some("building") ==> s.deployStatus == "building" && s.pagesStatus == "building") &&
      (p == Some("errored") ==> s.deployStatus == "error" && s.pagesStatus == "errored") &&
      (p.Some? && p.value != "built" && p.value != "building" && p.value != "errored" ==>
        s.deployStatus == currentDeployStatus && s.pagesStatus == currentPagesStatus) &&
      (p.None? && Concluded(run, "success") ==> s.deployStatus == "ready" && s.pagesStatus == "built") &&
      (p.None? && (Concluded(run, "failure") || Concluded(run, "cancelled")) ==>
        s.deployStatus == "error" && s.pagesStatus == "errored") &&
      (p.None? && !Concluded(run, "success") && !Concluded(run, "failure") && !Concluded(run, "cancelled") ==>
        s.deployStatus == "building" && s.pagesStatus == "enabling") &&
      (s.errorMessage.Some? <==> p.None? && (Concluded(run, "failure") || Concluded(run, "cancelled"))) &&
      (s.changed <==> s.deployStatus != currentDeployStatus || s.pagesStatus != currentPagesStatus) &&
      s.pagesUrl == Or(pages.htmlUrl, currentPagesUrl) &&
      s.deploymentUrl == (if s.deployStatus == "ready" then s.pagesUrl else None))
  {
    if pages.ApiError? {
      if pages.code == 404 {
        return Some(StatusResult(currentDeployStatus, currentPagesStatus, currentPagesUrl, None, None, false));
      }
      return None;
    }
    var pagesStatus := pages.status;
    var newDeployStatus := currentDeployStatus;
    var newPagesStatus := currentPagesStatus;
    var errorMessage: Option<string> := None;
    if pagesStatus == Some("built") {
      newDeployStatus := "ready";
      newPagesStatus := "built";
    } else if pagesStatus == Some("building") {
      newDeployStatus := "building";
      newPagesStatus := "building";
    } else if pagesStatus == Some("errored") {
      newDeployStatus := "error";
      newPagesStatus := "errored";
    } else if pagesStatus.None? {
      if Concluded(run, "success") {
        newDeployStatus := "ready";
        newPagesStatus := "built";
      } else if Concluded(run, "failure") {
        newDeployStatus := "error";
        newPagesStatus := "errored";
        errorMessage := Some(FailureMessage);
      } else if Concluded(run, "cancelled") {
        newDeployStatus := "error";
        newPagesStatus := "errored";
        errorMessage := Some(CancelledMessage);
      } else {
        newDeployStatus := "building";
        newPagesStatus := "enabling";
      }
    }
    var changed := newDeployStatus != currentDeployStatus || newPagesStatus != currentPagesStatus;
    var resolvedPagesUrl := Or(pages.htmlUrl, currentPagesUrl);
    r := Some(StatusResult(newDeployStatus, newPagesStatus, resolvedPagesUrl,
                           if newDeployStatus == "ready" then resolvedPagesUrl else None, errorMessage, changed));
  }
}

/** The older status endpoint of src/app/api/oneclick/status/route.ts: its
    own step derivation, which keys the Pages step on `deploy_status`, and
    the write-back of the Pages status during GET. Authentication, the
    database queries and audit logging are not part of this model. */
module StatusRoute {
  import opened Text
  import opened DeployStatus

  function RoutePagesStep(repo: StepStatus, deployStatus: string): StepStatus {
    if repo != Completed then Pending
    else if deployStatus == "building" || deployStatus == "ready" then Completed
    else if deployStatus == "error" then Error
    else InProgress
  }

  function RouteLiveStep(deployStatus: string, pages: StepStatus): StepStatus {
    if deployStatus == "ready" then Completed
    else if deployStatus == "error" then Error
    else if pages == Completed && deployStatus == "building" then InProgress
    else Pending
  }

  /** `buildSteps(deploy, deployMethod)`; the legacy branch is the same as
      in deploy-status.ts. */
  function BuildSteps(row: DeployRow, deployMethod: string): seq<DeployStep> {
    if deployMethod == "github_pages" then
      var repo := RepoStep(row.forkStatus);
      var pages := RoutePagesStep(repo, row.deployStatus);
      [DeployStep("repo", repo, "레포지토리 생성"),
       DeployStep("pages", pages, "GitHub Pages 활성화"),
       DeployStep("live", RouteLiveStep(row.deployStatus, pages), "사이트 게시 완료")]
    else LegacySteps(row)
  }

  /** For GitHub Pages: repo, pages, live; pages waits for the repo and is
      then completed for building or ready, error for error and in progress
      otherwise; live is completed iff ready, error iff error, in progress
      iff pages is completed and the deploy is building. */
  lemma BuildStepsTable(row: DeployRow)
    ensures var s := BuildSteps(row, "github_pages");
      var d := row.deployStatus;
      Names(s) == ["repo", "pages", "live"] &&
      s[0].status == RepoStep(row.forkStatus) &&
      (s[0].status != Completed ==> s[1].status == Pending) &&
      (s[0].status == Completed ==>
        (s[1].status == Completed <==> d == "building" || d == "ready") &&
        (s[1].status == Error <==> d == "error") &&
        (s[1].status == InProgress <==> d != "building" && d != "ready" && d != "error")) &&
      (s[2].status == Completed <==> d == "ready") &&
      (s[2].status == Error <==> d == "error") &&
      (s[2].status == InProgress <==> s[1].status == Completed && d == "building")
  {
  }

  /** The two derivations disagree: with the repo forked, the deploy
      building and Pages still enabling, the route reports the Pages step
      completed where deploy-status.ts reports it in progress. */
  lemma StepVariantsDiffer()
    ensures var row := DeployRow("forked", "building", "enabling");
      BuildSteps(row, "github_pages")[1].status == Completed &&
      BuildDeploySteps(row, "github_pages")[1].status == InProgress
  {
  }

  /** The row GET reads and updates in place. */
  class Deploy {
    var forkStatus: string
    var deployStatus: string
    var pagesStatus: string
    var pagesUrl: Option<string>
    var deploymentUrl: Option<string>
    /** `deploy_method`, None when unset. */
    var deployMethod: Option<string>

    constructor(forkStatus: string, deployStatus: string, pagesStatus: string, pagesUrl: Option<string>,
                deploymentUrl: Option<string>, deployMethod: Option<string>)
      ensures this.forkStatus == forkStatus && this.deployStatus == deployStatus && this.pagesStatus == pagesStatus
      ensures this.pagesUrl == pagesUrl && this.deploymentUrl == deploymentUrl && this.deployMethod == deployMethod
    {
      this.forkStatus := forkStatus;
      this.deployStatus := deployStatus;
      this.pagesStatus := pagesStatus;
      this.pagesUrl := pagesUrl;
      this.deploymentUrl := deploymentUrl;
      this.deployMethod := deployMethod;
    }

    /** `deploy.deploy_method || 'github_pages'` */
    function Method(): string
      reads this
    {
      if deployMethod.Some? && deployMethod.value != "" then deployMethod.value else "github_pages"
    }

    function Row(): DeployRow
      reads this
    {
      DeployRow(forkStatus, deployStatus, pagesStatus)
    }

    /** The Pages polling of GET, then the steps it returns. `hasToken` is
        whether an active GitHub account was found; `lookup` is None when the
        Pages call threw (any error is swallowed). `written` is whether the
        row is written back. */
    method Poll(hasToken: bool, lookup: Option<PagesLookup>) returns (written: bool, steps: seq<DeployStep>)
      modifies this
      ensures forkStatus == old(forkStatus) && deployMethod == old(deployMethod)
      ensures var polled := old(Method()) == "github_pages" && old(deployStatus) != "ready" && old(deployStatus) != "error"
                            && hasToken && lookup.Some? && lookup.value.PagesInfo?;
        (!polled ==> !written && unchanged(this)) &&
        (polled ==>
          var p := lookup.value.status;
          var (d, ps) := RouteTable(p, old(deployStatus), old(pagesStatus));
          (written <==> d != old(deployStatus) || ps != old(pagesStatus)) &&
          deployStatus == d && pagesStatus == ps &&
          (written ==> pagesUrl == Or(lookup.value.htmlUrl, old(pagesUrl))) &&
          (!written ==> pagesUrl == old(pagesUrl)) &&
          deploymentUrl == (if written && d == "ready" then Or(lookup.value.htmlUrl, old(pagesUrl)) else old(deploymentUrl)))
      ensures steps == BuildSteps(Row(), Method())
    {
      written := false;
      var method_ := Method();
      if method_ == "github_pages" && deployStatus != "ready" && deployStatus != "error"
         && hasToken && lookup.Some? && lookup.value.PagesInfo? {
        var pagesStatus_ := lookup.value.status;
        var newDeployStatus := deployStatus;
        var newPagesStatus := pagesStatus;
        if pagesStatus_ == Some("built") {
          newDeployStatus := "ready";
          newPagesStatus := "built";
        } else if pagesStatus_ == Some("building") {
          newDeployStatus := "building";
          newPagesStatus := "building";
        } else if pagesStatus_ == Some("errored") {
          newDeployStatus := "error";
          newPagesStatus := "errored";
        } else if pagesStatus_.None? {
          newDeployStatus := "building";
          newPagesStatus := "enabling";
        }
        if newDeployStatus != deployStatus || newPagesStatus != pagesStatus {
          written := true;
          deployStatus := newDeployStatus;
          pagesStatus := newPagesStatus;
          pagesUrl := Or(lookup.value.htmlUrl, pagesUrl);
          if newDeployStatus == "ready" {
            deploymentUrl := pagesUrl;
          }
        }
      }
      steps := BuildSteps(Row(), Method());
    }
  }

  /** The status pair GET derives from the Pages status. */
  function RouteTable(p: Option<string>, deployStatus: string, pagesStatus: string): (string, string) {
    if p == Some("built") then ("ready", "built")
    else if p == Some("building") then ("building", "building")
    else if p == Some("errored") then ("error", "errored")
    else if p.None? then ("building", "enabling")
    else (deployStatus, pagesStatus)
  }

  /** built, building, errored and null set both statuses; any other Pages
      status keeps them, so nothing is written back. */
  lemma RouteTableCases(p: Option<string>, deployStatus: string, pagesStatus: string)
    ensures var (d, ps) := RouteTable(p, deployStatus, pagesStatus);
      (p == Some("built") ==> (d, ps) == ("ready", "built")) &&
      (p == Some("building") ==> (d, ps) == ("building", "building")) &&
      (p == Some("errored") ==> (d, ps) == ("error", "errored")) &&
      (p.None? ==> (d, ps) == ("building", "enabling")) &&
      (p.Some? && p.value !in {"built", "building", "errored"} ==> (d, ps) == (deployStatus, pagesStatus)) &&
      (d == "ready" ==> p == Some("built") || deployStatus == "ready")
  {
  }
}

=== FILE: health_score.dfy ===
/** The project health score (`computeHealthScore` and `getHealthGrade`,
    whose behaviour is fixed by src/__tests__/health-score.test.ts): three
    rounded percentages, connected services, healthy checks and filled
    environment variables, weighted 40/30/30 into an overall score, and
    the grade of a score. */
module HealthScore {
  import opened Text

  datatype Breakdown = Breakdown(connected: int, healthy: int, envComplete: int)

  datatype Score = Score(overall: int, breakdown: Breakdown)

  /** `Math.round(p / q)` for a positive q: the nearest integer, halves up. */
  function Round(p: int, q: int): (r: int)
    requires q > 0
    ensures 2 * p - q < 2 * q * r <= 2 * p + q
  {
    (2 * p + q) / (2 * q)
  }

  /** A rounded percentage of k out of n. */
  function Percent(k: nat, n: nat): int
    requires 0 < n
  {
    Round(100 * k, n)
  }

  function IsConnected(): string -> bool { (s: string) => s == "connected" }
  function IsHealthy(): string -> bool { (s: string) => s == "healthy" }
  function IsFilled(): string -> bool { (v: string) => v != "" }

  /** The score for the services' statuses, the checks' statuses and the
      variables' stored values. No checks count as all healthy and no
      variables as all filled; no services score 0. */
  function ComputeHealthScore(statuses: seq<string>, checks: seq<string>, envValues: seq<string>): Score {
    var connected := if |statuses| == 0 then 0 else Percent(CountWhere(statuses, IsConnected()), |statuses|);
    var healthy := if |checks| == 0 then 100 else Percent(CountWhere(checks, IsHealthy()), |checks|);
    var envComplete := if |envValues| == 0 then 100 else Percent(CountWhere(envValues, IsFilled()), |envValues|);
    var overall := if |statuses| == 0 then 0 else Round(4 * connected + 3 * healthy + 3 * envComplete, 10);
    Score(overall, Breakdown(connected, healthy, envComplete))
  }

  /** A percentage lies between 0 and 100, is 0 for none and 100 for all. */
  lemma PercentBounds(k: nat, n: nat)
    requires 0 < n && k <= n
    ensures 0 <= Percent(k, n) <= 100
    ensures k == 0 ==> Percent(k, n) == 0
    ensures k == n ==> Percent(k, n) == 100
  {
    RoundExact(0, n);
    RoundExact(100, n);
    assert 100 * k <= 100 * n;
    RoundMonotone(0, 100 * k, n);
    RoundMonotone(100 * k, 100 * n, n);
  }

  /** A whole quotient rounds to itself. */
  lemma RoundExact(m: int, q: int)
    requires q > 0
    ensures Round(m * q, q) == m
  {
    var r := Round(m * q, q);
    assert 2 * q * r <= 2 * q * m + q < 2 * q * (m + 1);
    assert 2 * q * (m - 1) < 2 * q * m - q < 2 * q * r;
    MulLess(2 * q, r, m + 1);
    MulLess(2 * q, m - 1, r);
  }

  /** Multiplying by a positive number keeps strict order, read backwards. */
  lemma MulLess(c: int, a: int, b: int)
    requires c > 0 && c * a < c * b
    ensures a < b
  {
    assert c * a - c * b == c * (a - b);
  }

  /** Rounding keeps order. */
  lemma RoundMonotone(p: int, p': int, q: int)
    requires q > 0 && p <= p'
    ensures Round(p, q) <= Round(p', q)
  {
    var r, r' := Round(p, q), Round(p', q);
    assert 2 * q * r <= 2 * p + q <= 2 * p' + q < 2 * q * (r' + 1);
    MulLess(2 * q, r, r' + 1);
  }

  /** Every part of the score lies between 0 and 100. */
  lemma ScoreBounds(statuses: seq<string>, checks: seq<string>, envValues: seq<string>)
    ensures var s := ComputeHealthScore(statuses, checks, envValues);
      0 <= s.overall <= 100 && 0 <= s.breakdown.connected <= 100 &&
      0 <= s.breakdown.healthy <= 100 && 0 <= s.breakdown.envComplete <= 100
  {
    if |statuses| > 0 {
      PercentBounds(CountWhere(statuses, IsConnected()), |statuses|);
    }
    if |checks| > 0 {
      PercentBounds(CountWhere(checks, IsHealthy()), |checks|);
    }
    if |envValues| > 0 {
      PercentBounds(CountWhere(envValues, IsFilled()), |envValues|);
    }
    var b := ComputeHealthScore(statuses, checks, envValues).breakdown;
    if |statuses| > 0 {
      RoundMonotone(0, 4 * b.connected + 3 * b.healthy + 3 * b.envComplete, 10);
      RoundMonotone(4 * b.connected + 3 * b.healthy + 3 * b.envComplete, 1000, 10);
    }
  }

  /** No services give an overall score of 0 and nothing connected. */
  lemma NoServices(checks: seq<string>, envValues: seq<string>)
    ensures ComputeHealthScore([], checks, envValues).overall == 0
    ensures ComputeHealthScore([], checks, envValues).breakdown.connected == 0
  {
  }

  /** All services connected, every check healthy and every variable
      filled (or none at all) give 100 everywhere. */
  lemma AllIdeal(statuses: seq<string>, checks: seq<string>, envValues: seq<string>)
    requires |statuses| > 0
    requires forall k :: 0 <= k < |statuses| ==> statuses[k] == "connected"
    requires forall k :: 0 <= k < |checks| ==> checks[k] == "healthy"
    requires forall k :: 0 <= k < |envValues| ==> envValues[k] != ""
    ensures ComputeHealthScore(statuses, checks, envValues) == Score(100, Breakdown(100, 100, 100))
  {
    CountWhereSpec(statuses, IsConnected());
    CountWhereSpec(checks, IsHealthy());
    CountWhereSpec(envValues, IsFilled());
    PercentBounds(|statuses|, |statuses|);
    if |checks| > 0 {
      PercentBounds(|checks|, |checks|);
    }
    if |envValues| > 0 {
      PercentBounds(|envValues|, |envValues|);
    }
  }

  /** The overall score never falls when a part of the breakdown rises. */
  lemma OverallMonotone(b: Breakdown, b': Breakdown)
    requires b.connected <= b'.connected && b.healthy <= b'.healthy && b.envComplete <= b'.envComplete
    ensures Round(4 * b.connected + 3 * b.healthy + 3 * b.envComplete, 10) <=
            Round(4 * b'.connected + 3 * b'.healthy + 3 * b'.envComplete, 10)
  {
    RoundMonotone(4 * b.connected + 3 * b.healthy + 3 * b.envComplete,
                  4 * b'.connected + 3 * b'.healthy + 3 * b'.envComplete, 10);
  }

  /** One of two services connected, the one check unhealthy and one of
      two variables filled score 35 overall, from 50, 0 and 50. */
  lemma MixedExample()
    ensures ComputeHealthScore(["connected", "not_started"], ["unhealthy"], ["encrypted-val", ""]) ==
      Score(35, Breakdown(50, 0, 50))
  {
    var st, ch, ev := ["connected", "not_started"], ["unhealthy"], ["encrypted-val", ""];
    assert st[..1] == ["connected"] && ev[..1] == ["encrypted-val"];
    assert CountWhere(st, IsConnected()) == 1;
    assert CountWhere(ch, IsHealthy()) == 0;
    assert CountWhere(ev, IsFilled()) == 1;
  }

  datatype Grade = Good | Warning | Critical

  /** `getHealthGrade(score)` */
  function GetHealthGrade(score: int): Grade {
    if score >= 70 then Good else if score >= 40 then Warning else Critical
  }

  function GradeRank(g: Grade): nat {
    match g
    case Critical => 0
    case Warning => 1
    case Good => 2
  }

  /** A higher score never gets a worse grade, and the boundaries sit at
      40 and 70. */
  lemma GradeMonotone(s: int, t: int)
    requires s <= t
    ensures GradeRank(GetHealthGrade(s)) <= GradeRank(GetHealthGrade(t))
    ensures GetHealthGrade(69) == Warning && GetHealthGrade(70) == Good
    ensures GetHealthGrade(39) == Critical && GetHealthGrade(40) == Warning
  {
  }
}

=== FILE: mask_value.dfy ===
/** The masked display of a secret (`maskValue`, whose behaviour is fixed
    by src/lib/crypto/index.test.ts): a short value is hidden entirely
    behind four mask marks, a longer one shows its first four characters
    followed by one mark per hidden character, at most twenty. The mark
    is a parameter: it is the bullet U+2022, which the test file stores
    in a mis-decoded three-character form. */
module MaskValue {

  function RepeatText(unit: string, n: nat): (r: string)
    ensures |r| == n * |unit|
  {
    if n == 0 then "" else RepeatText(unit, n - 1) + unit
  }

  function Min(a: int, b: int): int {
    if a <= b then a else b
  }

  /** `maskValue(value)` */
  function MaskValue(value: string, mark: string): string {
    if |value| <= 4 then RepeatText(mark, 4)
    else value[..4] + RepeatText(mark, Min(|value| - 4, 20))
  }

  /** Short values show only four marks; longer ones keep their first four
      characters and add min(length - 4, 20) marks; so with a one-character
      mark the result has at most 24 characters. */
  lemma MaskValueSpec(value: string, mark: string)
    ensures |value| <= 4 ==> MaskValue(value, mark) == RepeatText(mark, 4)
    ensures |value| > 4 ==>
      MaskValue(value, mark)[..4] == value[..4] &&
      MaskValue(value, mark)[4..] == RepeatText(mark, Min(|value| - 4, 20))
    ensures |mark| == 1 ==> |MaskValue(value, mark)| <= 24
    ensures |mark| == 1 && |value| > 4 ==> |MaskValue(value, mark)| == 4 + Min(|value| - 4, 20)
  {
    if |value| > 4 {
      var r := MaskValue(value, mark);
      assert r[..4] == value[..4];
      assert r[4..] == RepeatText(mark, Min(|value| - 4, 20));
    }
    if |value| <= 4 && |mark| == 1 {
      assert |RepeatText(mark, 4)| == 4;
    }
  }

  /** The mask reveals nothing past the fourth character: values with the
      same first four characters and lengths that cap alike mask alike. */
  lemma MaskHidesRest(a: string, b: string, mark: string)
    requires |a| > 4 && |b| > 4 && a[..4] == b[..4] && Min(|a| - 4, 20) == Min(|b| - 4, 20)
    ensures MaskValue(a, mark) == MaskValue(b, mark)
  {
  }

  /** The cases of the test: "sk-proj-abc123" keeps "sk-p" and gets ten
      marks, "abc" and "abcd" become four marks, thirty 'a's become "aaaa"
      and twenty marks. */
  lemma MaskExamples(mark: string)
    ensures MaskValue("sk-proj-abc123", mark) == "sk-p" + RepeatText(mark, 10)
    ensures MaskValue("abc", mark) == RepeatText(mark, 4) && MaskValue("abcd", mark) == RepeatText(mark, 4)
    ensures MaskValue(seq(30, _ => 'a'), mark) == "aaaa" + RepeatText(mark, 20)
  {
    assert "sk-proj-abc123"[..4] == "sk-p";
    assert seq(30, _ => 'a')[..4] == "aaaa";
  }
}

=== FILE: module_form.dfy ===
/** The list editor for array fields of the module form
    (`ArrayFieldRenderer` in src/components/my-sites/module-form.tsx):
    whether another item may be added, adding an item built from the
    item schema's defaults, changing one key of one item, and removing an
    item. */
module ModuleForm {
  import opened Text
  import opened SiteState

  /** The parts of an array field's definition the editor reads. */
  datatype ArrayField = ArrayField(maxItems: Option<int>, itemSchema: Option<seq<FieldDef>>)

  /** `Array.isArray(value) ? value : []` */
  function Items(value: Value): (r: seq<Value>)
    ensures value.List? ==> r == value.elems
    ensures !value.List? ==> r == []
  {
    if value.List? then value.elems else []
  }

  /** `!field.maxItems || items.length < field.maxItems` */
  predicate CanAdd(field: ArrayField, count: nat) {
    field.maxItems.None? || field.maxItems.value == 0 || count < field.maxItems.value
  }

  /** Without a positive cap anything may be added; with one, adding stops
      at the cap. */
  lemma CanAddSpec(field: ArrayField, count: nat)
    ensures field.maxItems.Some? && field.maxItems.value > 0 ==>
      (CanAdd(field, count) <==> count < field.maxItems.value)
    ensures field.maxItems.None? || field.maxItems.value == 0 ==> CanAdd(field, count)
  {
  }

  /** The new item after the loop has set the first fields' keys. */
  function DefaultItem(fields: seq<FieldDef>): map<string, Value>
    decreases |fields|
  {
    if |fields| == 0 then map[]
    else DefaultItem(fields[..|fields| - 1])[fields[|fields| - 1].key := fields[|fields| - 1].defaultValue]
  }

  /** The item has exactly the sub-field keys. */
  lemma {:induction false} DefaultItemKeys(fields: seq<FieldDef>)
    ensures DefaultItem(fields).Keys == set k | 0 <= k < |fields| :: fields[k].key
    decreases |fields|
  {
    if |fields| > 0 {
      var p := fields[..|fields| - 1];
      DefaultItemKeys(p);
      var keys := set k | 0 <= k < |fields| :: fields[k].key;
      var pkeys := set k | 0 <= k < |p| :: p[k].key;
      forall x | x in keys ensures x in pkeys + {fields[|fields| - 1].key} {
        var k :| 0 <= k < |fields| && fields[k].key == x;
        if k < |p| {
          assert p[k].key == x;
        }
      }
      forall x | x in pkeys ensures x in keys {
        var k :| 0 <= k < |p| && p[k].key == x;
        assert fields[k].key == x;
      }
      assert keys == pkeys + {fields[|fields| - 1].key};
    }
  }

  /** Each key holds the default of the last sub-field with that key. */
  lemma {:induction false} DefaultItemValues(fields: seq<FieldDef>, k: nat)
    requires k < |fields| && forall j :: k < j < |fields| ==> fields[j].key != fields[k].key
    ensures fields[k].key in DefaultItem(fields) && DefaultItem(fields)[fields[k].key] == fields[k].defaultValue
    decreases |fields|
  {
    if k < |fields| - 1 {
      var p := fields[..|fields| - 1];
      assert p[k] == fields[k];
      DefaultItemValues(p, k);
    }
  }

  /** `handleAdd`: None when adding is not allowed or there is no item
      schema; otherwise the list with one default item appended. */
  method Add(field: ArrayField, value: Value) returns (r: Option<seq<Value>>)
    ensures r.None? <==> !CanAdd(field, |Items(value)|) || field.itemSchema.None?
    ensures r.Some? ==> r.value == Items(value) + [Obj(DefaultItem(field.itemSchema.value))]
  {
    var items := Items(value);
    if !CanAdd(field, |items|) || field.itemSchema.None? {
      return None;
    }
    var schema := field.itemSchema.value;
    var newItem: map<string, Value> := map[];
    for i := 0 to |schema|
      invariant newItem == DefaultItem(schema[..i])
    {
      assert schema[..i + 1][..i] == schema[..i];
      newItem := newItem[schema[i].key := schema[i].defaultValue];
    }
    WholePrefix(schema);
    return Some(items + [Obj(newItem)]);
  }

  /** Adding grows the list by one, keeps the items there, and respects the
      cap. */
  lemma AddGrows(field: ArrayField, value: Value)
    requires CanAdd(field, |Items(value)|) && field.itemSchema.Some?
    ensures var next := Items(value) + [Obj(DefaultItem(field.itemSchema.value))];
      (|next| == |Items(value)| + 1 && next[..|Items(value)|] == Items(value) &&
       (field.maxItems.Some? && field.maxItems.value > 0 ==> |next| <= field.maxItems.value))
  {
  }

  /** What `{ ...item }` copies: an object's own fields; an array's
      elements and a string's characters under their indices `"0"`,
      `"1"`, ...; nothing from null, booleans and numbers. */
  function Fields(item: Value): map<string, Value> {
    match item
    case Obj(f) => f
    case List(es) => IndexFields(es)
    case Str(s) => IndexFields(seq(|s|, k requires 0 <= k < |s| => Str([s[k]])))
    case _ => map[]
  }

  /** The elements of `es` under their indices written in decimal. */
  function IndexFields(es: seq<Value>): map<string, Value>
    decreases |es|
  {
    if |es| == 0 then map[] else IndexFields(es[..|es| - 1])[NatToString(|es| - 1) := es[|es| - 1]]
  }

  /** Each element sits under its index, and there is no other key. */
  lemma IndexFieldsSpec(es: seq<Value>)
    ensures forall k :: 0 <= k < |es| ==> NatToString(k) in IndexFields(es) && IndexFields(es)[NatToString(k)] == es[k]
    ensures forall key :: key in IndexFields(es) ==> exists k: nat :: k < |es| && key == NatToString(k)
  {
    IndexFieldsValues(es);
    IndexFieldsKeys(es);
  }

  lemma {:induction false} IndexFieldsValues(es: seq<Value>)
    ensures forall k :: 0 <= k < |es| ==> NatToString(k) in IndexFields(es) && IndexFields(es)[NatToString(k)] == es[k]
    decreases |es|
  {
    if |es| > 0 {
      var n := |es| - 1;
      var init := es[..n];
      IndexFieldsValues(init);
      forall k | 0 <= k < |es|
        ensures NatToString(k) in IndexFields(es) && IndexFields(es)[NatToString(k)] == es[k]
      {
        if k < n {
          assert init[k] == es[k];
          if NatToString(k) == NatToString(n) {
            NatToStringInjective(k, n);
          }
        }
      }
    }
  }

  lemma {:induction false} IndexFieldsKeys(es: seq<Value>)
    ensures forall key :: key in IndexFields(es) ==> exists k: nat :: k < |es| && key == NatToString(k)
    decreases |es|
  {
    if |es| > 0 {
      var n := |es| - 1;
      IndexFieldsKeys(es[..n]);
      forall key | key in IndexFields(es)
        ensures exists k: nat :: k < |es| && key == NatToString(k)
      {
        if key != NatToString(n) {
          assert key in IndexFields(es[..n]);
          var k :| 0 <= k < |es[..n]| && key == NatToString(k);
          assert 0 <= k < |es|;
        } else {
          assert 0 <= n < |es| && key == NatToString(n);
        }
      }
      assert forall key :: key in IndexFields(es) ==> exists k: nat :: k < |es| && key == NatToString(k);
    }
  }

  /** `handleItemChange(index, key, newVal)` */
  function ItemChange(items: seq<Value>, index: int, key: string, newVal: Value): (r: seq<Value>)
    ensures |r| == |items|
  {
    seq(|items|, i requires 0 <= i < |items| => if i == index then Obj(Fields(items[i])[key := newVal]) else items[i])
  }

  /** Only the item at `index` changes, and in it only `key`. */
  lemma ItemChangeSpec(items: seq<Value>, index: int, key: string, newVal: Value)
    ensures forall i :: 0 <= i < |items| && i != index ==> ItemChange(items, index, key, newVal)[i] == items[i]
    ensures 0 <= index < |items| ==>
      var it := ItemChange(items, index, key, newVal)[index];
      (it.Obj? && it.fields[key] == newVal &&
       forall k :: k != key ==> ((k in it.fields <==> k in Fields(items[index])) &&
         (k in it.fields ==> it.fields[k] == Fields(items[index])[k])))
    ensures !(0 <= index < |items|) ==> ItemChange(items, index, key, newVal) == items
  {
  }

  /** Changing the title of a string item `"ab"` keeps the string's
      characters under `"0"` and `"1"`. */
  lemma ItemChangeOfString()
    ensures ItemChange([Str("ab")], 0, "title", Str("x")) ==
      [Obj(map["0" := Str("a"), "1" := Str("b"), "title" := Str("x")])]
  {
    StringAbFields();
    ItemChangeSingle(Str("ab"), "title", Str("x"));
  }

  lemma ItemChangeSingle(item: Value, key: string, newVal: Value)
    ensures ItemChange([item], 0, key, newVal) == [Obj(Fields(item)[key := newVal])]
  {
  }

  lemma StringAbFields()
    ensures Fields(Str("ab")) == map["0" := Str("a"), "1" := Str("b")]
  {
    assert seq(2, k requires 0 <= k < 2 => Str(["ab"[k]])) == [Str("a"), Str("b")];
    TwoIndexFields(Str("a"), Str("b"));
  }

  lemma TwoIndexFields(a: Value, b: Value)
    ensures IndexFields([a, b]) == map["0" := a, "1" := b]
  {
    assert [a, b][..1] == [a] && [a][..0] == [];
    assert IndexFields([a]) == map[][NatToString(0) := a];
    assert IndexFields([a, b]) == IndexFields([a])[NatToString(1) := b];
    assert NatToString(0) == "0" && NatToString(1) == "1";
  }

  /** `items.filter((_, i) => i !== index)` from position `start` on. */
  function FilterIndex(items: seq<Value>, index: int, start: nat): seq<Value>
    requires start <= |items|
    decreases |items| - start
  {
    if start == |items| then []
    else (if start == index then [] else [items[start]]) + FilterIndex(items, index, start + 1)
  }

  /** `handleRemove(index)` */
  function Remove(items: seq<Value>, index: int): seq<Value> {
    FilterIndex(items, index, 0)
  }

  lemma {:induction false} FilterIndexSpec(items: seq<Value>, index: int, start: nat)
    requires start <= |items|
    ensures start <= index < |items| ==> FilterIndex(items, index, start) == items[start..index] + items[index + 1..]
    ensures !(start <= index < |items|) ==> FilterIndex(items, index, start) == items[start..]
    decreases |items| - start
  {
    if start < |items| {
      FilterIndexSpec(items, index, start + 1);
      assert items[start..] == [items[start]] + items[start + 1..];
      if start < index < |items| {
        assert items[start..index] == [items[start]] + items[start + 1..index];
      }
    }
  }

  /** Removing drops exactly the item at `index`; an index outside the
      list removes nothing. */
  lemma RemoveSpec(items: seq<Value>, index: int)
    ensures 0 <= index < |items| ==>
      Remove(items, index) == items[..index] + items[index + 1..] && |Remove(items, index)| == |items| - 1
    ensures !(0 <= index < |items|) ==> Remove(items, index) == items
  {
    FilterIndexSpec(items, index, 0);
  }
}

=== FILE: module_panel.dfy ===
/** The state updates of the module panel
    (src/components/my-sites/module-panel.tsx): drag-and-drop reordering,
    moving a module up or down, switching a module on or off, editing one
    field, and applying a preset. Each handler computes the next
    `ModuleConfigState`; None stands for returning without calling
    `onStateChange`. */
module ModulePanel {
  import opened Text
  import opened SiteState

  /** `xs.indexOf(x)`, None for -1. */
  function Find(xs: seq<string>, x: string): (r: Option<nat>)
    ensures r.Some? ==> r.value < |xs| && xs[r.value] == x && forall k :: 0 <= k < r.value ==> xs[k] != x
    ensures r.None? <==> x !in xs
    decreases |xs|
  {
    if |xs| == 0 then None
    else if xs[0] == x then Some(0)
    else match Find(xs[1..], x)
      case None => None
      case Some(k) => Some(k + 1)
  }

  /** The element at `from` taken out and put back at `to`. */
  function Moved(xs: seq<string>, from: nat, to: nat): seq<string>
    requires from < |xs| && to < |xs|
  {
    var rest := xs[..from] + xs[from + 1..];
    rest[..to] + [xs[from]] + rest[to..]
  }

  /** Moving keeps length and elements, puts the moved element at `to`, and
      leaves the others in their relative order. */
  lemma MovedSpec(xs: seq<string>, from: nat, to: nat)
    requires from < |xs| && to < |xs|
    ensures |Moved(xs, from, to)| == |xs|
    ensures multiset(Moved(xs, from, to)) == multiset(xs)
    ensures Moved(xs, from, to)[to] == xs[from]
    ensures var m := Moved(xs, from, to); m[..to] + m[to + 1..] == xs[..from] + xs[from + 1..]
  {
    var rest := xs[..from] + xs[from + 1..];
    var m := Moved(xs, from, to);
    assert m == rest[..to] + [xs[from]] + rest[to..];
    assert m[..to] == rest[..to];
    assert m[to + 1..] == rest[to..];
    assert rest[..to] + rest[to..] == rest;
    assert xs == xs[..from] + [xs[from]] + xs[from + 1..];
    assert rest == rest[..to] + rest[to..];
    calc {
      multiset(m);
      multiset(rest[..to]) + multiset{xs[from]} + multiset(rest[to..]);
      multiset(rest) + multiset{xs[from]};
      multiset(xs[..from]) + multiset(xs[from + 1..]) + multiset{xs[from]};
      multiset(xs);
    }
  }

  /** `handleDragEnd`: nothing without a drop target, when dropped on
      itself, or when either id is not in the order. */
  method DragEnd(state: ModuleConfigState, activeId: string, overId: Option<string>)
    returns (r: Option<ModuleConfigState>)
    ensures r.None? <==> overId.None? || overId.value == activeId || activeId !in state.order || overId.value !in state.order
    ensures r.Some? ==>
      var from, to := Find(state.order, activeId).value, Find(state.order, overId.value).value;
      r.value == state.(order := Moved(state.order, from, to))
  {
    if overId.None? || activeId == overId.value {
      return None;
    }
    var oldIdx := Find(state.order, activeId);
    var newIdx := Find(state.order, overId.value);
    if oldIdx.None? || newIdx.None? {
      return None;
    }
    var next := state.order;
    var moved := next[oldIdx.value];
    next := next[..oldIdx.value] + next[oldIdx.value + 1..];
    next := next[..newIdx.value] + [moved] + next[newIdx.value..];
    return Some(state.(order := next));
  }

  /** Dragging permutes the order and drops the dragged module where the
      target was. */
  lemma DragEndPermutes(order: seq<string>, activeId: string, overId: string)
    requires activeId in order && overId in order
    ensures var m := Moved(order, Find(order, activeId).value, Find(order, overId).value);
      multiset(m) == multiset(order) && m[Find(order, overId).value] == activeId
  {
    MovedSpec(order, Find(order, activeId).value, Find(order, overId).value);
  }

  /** The order with positions i and j exchanged. */
  function Swapped(xs: seq<string>, i: nat, j: nat): (r: seq<string>)
    requires i < |xs| && j < |xs|
    ensures |r| == |xs| && r[i] == xs[j] && r[j] == xs[i]
    ensures forall k :: 0 <= k < |xs| && k != i && k != j ==> r[k] == xs[k]
    ensures multiset(r) == multiset(xs)
  {
    xs[i := xs[j]][j := xs[i]]
  }

  /** A copy of `order` with the entries at i and i + 1 exchanged in place. */
  method SwapCopy(order: seq<string>, i: nat) returns (next: seq<string>)
    requires i + 1 < |order|
    ensures next == Swapped(order, i, i + 1)
  {
    var a := new string[|order|](k requires 0 <= k < |order| => order[k]);
    a[i], a[i + 1] := a[i + 1], a[i];
    next := a[..];
  }

  /** `handleMoveUp`: swap with the predecessor; nothing for the first or
      an unknown module. */
  method MoveUp(state: ModuleConfigState, moduleId: string) returns (r: Option<ModuleConfigState>)
    ensures r.None? <==> moduleId !in state.order || Find(state.order, moduleId) == Some(0)
    ensures r.Some? ==>
      var idx := Find(state.order, moduleId).value;
      idx > 0 && r.value == state.(order := Swapped(state.order, idx - 1, idx))
  {
    var idx := Find(state.order, moduleId);
    if idx.None? || idx.value <= 0 {
      return None;
    }
    var next := SwapCopy(state.order, idx.value - 1);
    return Some(state.(order := next));
  }

  /** `handleMoveDown`: swap with the successor; nothing for the last or an
      unknown module. */
  method MoveDown(state: ModuleConfigState, moduleId: string) returns (r: Option<ModuleConfigState>)
    ensures r.None? <==> moduleId !in state.order || Find(state.order, moduleId) == Some(|state.order| - 1)
    ensures r.Some? ==>
      var idx := Find(state.order, moduleId).value;
      idx + 1 < |state.order| && r.value == state.(order := Swapped(state.order, idx, idx + 1))
  {
    var idx := Find(state.order, moduleId);
    if idx.None? || idx.value >= |state.order| - 1 {
      assert idx.Some? ==> idx == Some(|state.order| - 1);
      return None;
    }
    assert moduleId in state.order && idx.value + 1 < |state.order|;
    var next := SwapCopy(state.order, idx.value);
    return Some(state.(order := next));
  }

  /** Moving up and then down again restores the order. */
  lemma MoveUpDown(order: seq<string>, idx: nat)
    requires 0 < idx < |order|
    ensures Swapped(Swapped(order, idx - 1, idx), idx - 1, idx) == order
  {
  }

  /** `xs.filter((y) => y !== x)` */
  function Without(xs: seq<string>, x: string): (r: seq<string>)
    decreases |xs|
  {
    if |xs| == 0 then []
    else if xs[0] == x then Without(xs[1..], x)
    else [xs[0]] + Without(xs[1..], x)
  }

  lemma {:induction false} WithoutSpec(xs: seq<string>, x: string)
    ensures forall y :: y in Without(xs, x) <==> y in xs && y != x
    ensures |Without(xs, x)| <= |xs|
    ensures x !in xs ==> Without(xs, x) == xs
    decreases |xs|
  {
    if |xs| > 0 {
      WithoutSpec(xs[1..], x);
    }
  }

  /** `schema.modules.find((m) => m.id === moduleId)` */
  function FindModule(modules: seq<ModuleDef>, id: string): (r: Option<ModuleDef>)
    ensures r.Some? ==> r.value in modules && r.value.id == id
    ensures r.None? ==> forall k :: 0 <= k < |modules| ==> modules[k].id != id
    decreases |modules|
  {
    if |modules| == 0 then None
    else if modules[0].id == id then Some(modules[0])
    else FindModule(modules[1..], id)
  }

  /** `handleToggleModule`: None for a required module. */
  function Toggle(schema: Schema, state: ModuleConfigState, moduleId: string, enable: bool): Option<ModuleConfigState> {
    var m := FindModule(schema.modules, moduleId);
    if m.Some? && m.value.required then None
    else if enable then
      Some(state.(enabled := state.enabled + [moduleId],
                  order := if moduleId in state.order then state.order else state.order + [moduleId]))
    else Some(state.(enabled := Without(state.enabled, moduleId)))
  }

  /** A required module cannot be switched; switching on appends the id to
      the enabled list (a repeat is kept) and to the order when it is not
      there yet; switching off removes every occurrence and keeps the
      order; the values never change. */
  lemma ToggleSpec(schema: Schema, state: ModuleConfigState, moduleId: string, enable: bool)
    ensures var m := FindModule(schema.modules, moduleId);
      Toggle(schema, state, moduleId, enable).None? <==> m.Some? && m.value.required
    ensures Toggle(schema, state, moduleId, enable).Some? ==>
      var s := Toggle(schema, state, moduleId, enable).value;
      (s.values == state.values &&
       (enable ==> (s.enabled == state.enabled + [moduleId] && moduleId in s.order &&
          (moduleId in state.order ==> s.order == state.order) &&
          (moduleId !in state.order ==> s.order == state.order + [moduleId]))) &&
       (!enable ==> (s.order == state.order && moduleId !in s.enabled &&
          forall y :: y != moduleId ==> (y in s.enabled <==> y in state.enabled))))
  {
    WithoutSpec(state.enabled, moduleId);
  }

  /** `handleFieldChange` */
  function FieldChange(state: ModuleConfigState, moduleId: string, fieldKey: string, value: Value): ModuleConfigState {
    state.(values := state.values[moduleId := ModuleValues(state.values, moduleId)[fieldKey := value]])
  }

  /** A field change sets exactly one field of one module. */
  lemma FieldChangeSpec(state: ModuleConfigState, moduleId: string, fieldKey: string, value: Value)
    ensures var s := FieldChange(state, moduleId, fieldKey, value);
      (s.enabled == state.enabled && s.order == state.order &&
       Get(ModuleValues(s.values, moduleId), fieldKey) == value &&
       (forall k :: k != fieldKey ==> Get(ModuleValues(s.values, moduleId), k) == Get(ModuleValues(state.values, moduleId), k)) &&
       (forall id :: id != moduleId ==> ModuleValues(s.values, id) == ModuleValues(state.values, id)) &&
       s.values.Keys == state.values.Keys + {moduleId})
  {
  }

  /** The part of a configuration a preset may carry. */
  datatype PresetState = PresetState(values: Option<Values>, enabled: Option<seq<string>>, order: Option<seq<string>>)

  /** `handleApplyPreset` */
  function ApplyPreset(state: ModuleConfigState, preset: PresetState): ModuleConfigState {
    ModuleConfigState(
      if preset.values.Some? then state.values + preset.values.value else state.values,
      if preset.enabled.Some? then preset.enabled.value else state.enabled,
      if preset.order.Some? then preset.order.value else state.order)
  }

  /** The preset replaces the lists it carries and keeps the others; its
      values win module by module, the current ones stay for other modules;
      applying a preset twice is applying it once. */
  lemma ApplyPresetSpec(state: ModuleConfigState, preset: PresetState)
    ensures var s := ApplyPreset(state, preset);
      (s.enabled == (if preset.enabled.Some? then preset.enabled.value else state.enabled)) &&
      (s.order == (if preset.order.Some? then preset.order.value else state.order)) &&
      (forall id :: ModuleValues(s.values, id) ==
        if preset.values.Some? && id in preset.values.value then preset.values.value[id]
        else ModuleValues(state.values, id))
    ensures ApplyPreset(ApplyPreset(state, preset), preset) == ApplyPreset(state, preset)
  {
  }
}

=== FILE: rate_limit.dfy ===
/** The sliding-window rate limiter of src/lib/rate-limit.ts: a store of
    request timestamps per key, the composite key builder and the response
    headers. `Date.now()` is the parameter `now`. */
module RateLimit {
  import opened Text

  /** The result of `rateLimit`; `resetAt` is None where the source reads
      `timestamps[0]` of an empty list (NaN). */
  datatype Decision = Decision(success: bool, remaining: int, resetAt: Option<int>)

  /** `timestamps.filter((t) => t > windowStart)` */
  function Prune(ts: seq<int>, windowStart: int): (r: seq<int>)
    ensures |r| <= |ts|
    decreases |ts|
  {
    if |ts| == 0 then []
    else Prune(ts[..|ts| - 1], windowStart) + (if ts[|ts| - 1] > windowStart then [ts[|ts| - 1]] else [])
  }

  /** Pruning keeps exactly the timestamps inside the window, in order. */
  lemma {:induction false} PruneMembers(ts: seq<int>, windowStart: int)
    ensures forall t :: t in Prune(ts, windowStart) <==> t in ts && t > windowStart
    ensures Sorted(ts) ==> Sorted(Prune(ts, windowStart))
    decreases |ts|
  {
    if |ts| > 0 {
      var p := ts[..|ts| - 1];
      PruneMembers(p, windowStart);
      assert ts == p + [ts[|ts| - 1]];
      if Sorted(ts) {
        assert Sorted(p);
        var q := Prune(p, windowStart);
        var x := ts[|ts| - 1];
        if x > windowStart {
          forall i, j | 0 <= i < j < |q + [x]| ensures (q + [x])[i] <= (q + [x])[j] {
            if j == |q| {
              assert q[i] in q;
              var k :| 0 <= k < |p| && p[k] == q[i];
            }
          }
        }
      }
    }
  }

  predicate Sorted(ts: seq<int>) {
    forall i, j :: 0 <= i < j < |ts| ==> ts[i] <= ts[j]
  }

  /** One call for one key: the pruned list, then either a refusal that
      appends nothing or an acceptance that appends `now`. */
  function Step(ts: seq<int>, limit: int, windowMs: int, now: int): (seq<int>, Decision) {
    var kept := Prune(ts, now - windowMs);
    if |kept| >= limit then
      (kept, Decision(false, 0, if |kept| > 0 then Some(kept[0] + windowMs) else None))
    else
      var added := kept + [now];
      (added, Decision(true, limit - |added|, Some(added[0] + windowMs)))
  }

  /** A refused call stores only the in-window timestamps and reports 0
      remaining; an accepted one appends `now`, reports `limit` minus the new
      count, which is never negative, and never leaves more than `limit`. */
  lemma StepOutcome(ts: seq<int>, limit: int, windowMs: int, now: int)
    ensures var kept := Prune(ts, now - windowMs);
      var (after, d) := Step(ts, limit, windowMs, now);
      (d.success <==> |kept| < limit) &&
      (!d.success ==> after == kept && d.remaining == 0) &&
      (d.success ==> after == kept + [now] && d.remaining == limit - |after| >= 0 && |after| <= limit)
  {
  }

  /** `resetAt` is the earliest stored in-window timestamp plus the window,
      on both paths; with a clock that never goes back it is the smallest. */
  lemma StepResetAt(ts: seq<int>, limit: int, windowMs: int, now: int)
    requires Sorted(ts) && forall t :: t in ts ==> t <= now
    ensures var (after, d) := Step(ts, limit, windowMs, now);
      Sorted(after) &&
      (d.resetAt.Some? <==> |after| > 0) &&
      (d.resetAt.Some? ==> (d.resetAt.value - windowMs in after &&
         forall t :: t in after ==> d.resetAt.value - windowMs <= t))
  {
    var kept := Prune(ts, now - windowMs);
    PruneMembers(ts, now - windowMs);
    var after := Step(ts, limit, windowMs, now).0;
    if |kept| < limit {
      assert after == kept + [now];
      forall i, j | 0 <= i < j < |after| ensures after[i] <= after[j] {
        if j == |kept| {
          assert after[i] in kept;
        }
      }
    }
    if |after| > 0 {
      forall t | t in after ensures after[0] <= t {
        var i :| 0 <= i < |after| && after[i] == t;
      }
    }
  }

  /** If every key holds at most `limit` timestamps before a call with that
      limit, it still does afterwards. */
  lemma StepBounded(ts: seq<int>, limit: int, windowMs: int, now: int)
    requires |ts| <= limit
    ensures |Step(ts, limit, windowMs, now).0| <= limit
  {
  }

  class Limiter {
    /** The module-level `store` Map, one timestamp list per key. */
    var store: map<string, seq<int>>

    constructor()
      ensures store == map[]
    {
      store := map[];
    }

    function Timestamps(key: string): seq<int>
      reads this
    {
      if key in store then store[key] else []
    }

    /** Every key holds at most `limit` timestamps. */
    predicate Bounded(limit: int)
      reads this
    {
      forall k :: k in store ==> |store[k]| <= limit
    }

    /** `rateLimit(key, limit, windowMs)` at time `now`. */
    method Call(key: string, limit: int, windowMs: int, now: int) returns (d: Decision)
      modifies this
      ensures store == old(store)[key := Step(old(Timestamps(key)), limit, windowMs, now).0]
      ensures d == Step(old(Timestamps(key)), limit, windowMs, now).1
      ensures forall k :: k != key ==> Timestamps(k) == old(Timestamps(k))
      ensures limit >= 0 && old(Bounded(limit)) ==> Bounded(limit)
    {
      var windowStart := now - windowMs;
      var entry := if key in store then store[key] else [];
      if key !in store {
        store := store[key := entry];
      }
      entry := Prune(entry, windowStart);
      store := store[key := entry];
      if |entry| >= limit {
        var resetAt := if |entry| > 0 then Some(entry[0] + windowMs) else None;
        d := Decision(false, 0, resetAt);
        return;
      }
      entry := entry + [now];
      store := store[key := entry];
      var remaining := limit - |entry|;
      d := Decision(true, remaining, Some(entry[0] + windowMs));
    }
  }

  /** `ip` as a JavaScript condition: present and non-empty. */
  predicate Truthy(ip: Option<string>) {
    ip.Some? && ip.value != ""
  }

  /** `rateLimitKey(action, userId, ip)` */
  function RateLimitKey(action: string, userId: string, ip: Option<string>): string {
    if Truthy(ip) then action + ":" + userId + ":" + ip.value else action + ":" + userId
  }

  /** The key starts with "action:userId" and goes on, with ":" and the ip,
      exactly when the ip is non-empty. */
  lemma RateLimitKeyShape(action: string, userId: string, ip: Option<string>)
    ensures StartsWith(RateLimitKey(action, userId, ip), action + ":" + userId)
    ensures |RateLimitKey(action, userId, ip)| > |action + ":" + userId| <==> Truthy(ip)
    ensures Truthy(ip) ==> RateLimitKey(action, userId, ip)[|action + ":" + userId|..] == ":" + ip.value
  {
    var r := RateLimitKey(action, userId, ip);
    var p := action + ":" + userId;
    if Truthy(ip) {
      assert r == p + (":" + ip.value);
    }
  }

  /** `Math.max(1, Math.ceil((resetAt - Date.now()) / 1000))` */
  function RetryAfterSeconds(resetAt: int, now: int): (s: int)
    ensures s >= 1
    ensures s == 1 || (s - 1) * 1000 < resetAt - now <= s * 1000
  {
    var c := CeilDiv(resetAt - now, 1000);
    if c < 1 then 1 else c
  }

  /** `getRateLimitHeaders(remaining, limit, resetAt)` at time `now`; a
      `resetAt` of 0 or undefined is falsy and adds nothing. */
  function Headers(remaining: int, limit: int, resetAt: Option<int>, now: int): map<string, string> {
    var base := map["X-RateLimit-Limit" := IntToString(limit),
                    "X-RateLimit-Remaining" := IntToString(if remaining < 0 then 0 else remaining)];
    var withReset := if resetAt.Some? && resetAt.value != 0
      then base["X-RateLimit-Reset" := IntToString(CeilDiv(resetAt.value, 1000))] else base;
    if remaining <= 0 && resetAt.Some? && resetAt.value != 0
    then withReset["Retry-After" := IntToString(RetryAfterSeconds(resetAt.value, now))]
    else withReset
  }

  /** Remaining is clamped at zero; the reset header is present iff resetAt
      is truthy, and Retry-After, at least one second, iff in addition
      nothing remains. */
  lemma HeadersShape(remaining: int, limit: int, resetAt: Option<int>, now: int)
    ensures var h := Headers(remaining, limit, resetAt, now);
      var truthy := resetAt.Some? && resetAt.value != 0;
      h.Keys == {"X-RateLimit-Limit", "X-RateLimit-Remaining"} +
        (if truthy then {"X-RateLimit-Reset"} else {}) +
        (if remaining <= 0 && truthy then {"Retry-After"} else {}) &&
      h["X-RateLimit-Limit"] == IntToString(limit) &&
      h["X-RateLimit-Remaining"] == IntToString(if remaining <= 0 then 0 else remaining) &&
      (remaining <= 0 && truthy ==> exists s :: (s >= 1 && h["Retry-After"] == IntToString(s) &&
         (s == 1 || (s - 1) * 1000 < resetAt.value - now <= s * 1000)))
  {
    var truthy := resetAt.Some? && resetAt.value != 0;
    if remaining <= 0 && truthy {
      var s := RetryAfterSeconds(resetAt.value, now);
      assert Headers(remaining, limit, resetAt, now)["Retry-After"] == IntToString(s);
    }
  }
}

=== FILE: service_map_nodes.dfy ===
/** The nodes and edges of the service map
    (src/components/service-map/hooks/useServiceMapNodes.ts): one node per
    project service, the dependencies among the project's services, the
    lookup tables the map keeps, and the edges drawn for dependencies and
    for the user's own connections. */
module ServiceMapNodes {
  import opened Text

  /** The catalogue entry joined to a project service. */
  datatype Service = Service(id: string, name: string, category: string, domain: string, slug: string)

  /** A project service; `service` is None when the join is missing. */
  datatype ProjectService = ProjectService(id: string, serviceId: string, status: string, service: Option<Service>)

  datatype Dependency = Dependency(id: string, serviceId: string, dependsOn: string, dependencyType: string)

  datatype UserConnection = UserConnection(id: string, source: string, target: string, connectionType: string)

  /** The table a `forEach` loop of `map.set(key, val)` calls builds from
      the elements that pass `keep`: a later element overwrites an earlier
      one with the same key. */
  function Assoc<T, K, V>(xs: seq<T>, keep: T -> bool, key: T -> K, val: T -> V): map<K, V>
    decreases |xs|
  {
    if |xs| == 0 then map[]
    else
      var m := Assoc(xs[..|xs| - 1], keep, key, val);
      var x := xs[|xs| - 1];
      if keep(x) then m[key(x) := val(x)] else m
  }

  /** The keys are the keys of the kept elements. */
  lemma {:induction false} AssocKeys<T, K, V>(xs: seq<T>, keep: T -> bool, key: T -> K, val: T -> V)
    ensures forall k :: k in Assoc(xs, keep, key, val) <==> exists i :: 0 <= i < |xs| && keep(xs[i]) && key(xs[i]) == k
    decreases |xs|
  {
    if |xs| > 0 {
      var p := xs[..|xs| - 1];
      AssocKeys(p, keep, key, val);
      forall i | 0 <= i < |p| ensures xs[i] == p[i] {
      }
    }
  }

  /** A key holds the value of the last kept element with that key. */
  lemma {:induction false} AssocLast<T, K, V>(xs: seq<T>, keep: T -> bool, key: T -> K, val: T -> V, i: nat)
    requires i < |xs| && keep(xs[i])
    requires forall j :: i < j < |xs| && keep(xs[j]) ==> key(xs[j]) != key(xs[i])
    ensures key(xs[i]) in Assoc(xs, keep, key, val) && Assoc(xs, keep, key, val)[key(xs[i])] == val(xs[i])
    decreases |xs|
  {
    if i < |xs| - 1 {
      var p := xs[..|xs| - 1];
      assert p[i] == xs[i];
      AssocLast(p, keep, key, val, i);
    }
  }

  /** Every entry comes from a kept element. */
  lemma {:induction false} AssocFrom<T, K, V>(xs: seq<T>, keep: T -> bool, key: T -> K, val: T -> V)
    ensures forall k :: k in Assoc(xs, keep, key, val) ==>
      exists i :: 0 <= i < |xs| && keep(xs[i]) && key(xs[i]) == k && val(xs[i]) == Assoc(xs, keep, key, val)[k]
    decreases |xs|
  {
    if |xs| > 0 {
      var p := xs[..|xs| - 1];
      AssocFrom(p, keep, key, val);
      var m := Assoc(xs, keep, key, val);
      forall k | k in m
        ensures exists i :: 0 <= i < |xs| && keep(xs[i]) && key(xs[i]) == k && val(xs[i]) == m[k]
      {
        if !(keep(xs[|xs| - 1]) && key(xs[|xs| - 1]) == k) {
          assert k in Assoc(p, keep, key, val) && m[k] == Assoc(p, keep, key, val)[k];
          var i :| 0 <= i < |p| && keep(p[i]) && key(p[i]) == k && val(p[i]) == Assoc(p, keep, key, val)[k];
          assert xs[i] == p[i];
        }
      }
    }
  }

  function HasService(): ProjectService -> bool { (ps: ProjectService) => ps.service.Some? }
  function CatalogueId(): ProjectService -> string { (ps: ProjectService) => if ps.service.Some? then ps.service.value.id else "" }
  function CatalogueName(): ProjectService -> string { (ps: ProjectService) => if ps.service.Some? then ps.service.value.name else "" }

  /** `serviceNames`: catalogue id to name, for the joined services. */
  method ServiceNames(services: seq<ProjectService>) returns (names: map<string, string>)
    ensures names == Assoc(services, HasService(), CatalogueId(), CatalogueName())
  {
    names := map[];
    for i := 0 to |services|
      invariant names == Assoc(services[..i], HasService(), CatalogueId(), CatalogueName())
    {
      assert services[..i + 1][..i] == services[..i];
      var ps := services[i];
      if ps.service.Some? {
        names := names[ps.service.value.id := ps.service.value.name];
      }
    }
    WholePrefix(services);
  }

  /** `currentServiceIds` */
  function CurrentServiceIds(services: seq<ProjectService>): (r: set<string>)
    ensures forall x :: x in r <==> exists k :: 0 <= k < |services| && services[k].serviceId == x
  {
    set k | 0 <= k < |services| :: services[k].serviceId
  }

  /** Both ends of the dependency are services of the project. */
  predicate Relevant(ids: set<string>, dep: Dependency) {
    dep.serviceId in ids && dep.dependsOn in ids
  }

  function RelevantFn(ids: set<string>): Dependency -> bool { (dep: Dependency) => Relevant(ids, dep) }

  /** `relevantDependencies` */
  function RelevantDependencies(services: seq<ProjectService>, deps: seq<Dependency>): seq<Dependency> {
    Filter(deps, RelevantFn(CurrentServiceIds(services)))
  }

  /** A dependency is kept exactly when both its ends are project services,
      in the original order. */
  lemma RelevantDependenciesSpec(services: seq<ProjectService>, deps: seq<Dependency>)
    ensures forall d :: d in RelevantDependencies(services, deps) <==>
      d in deps && (exists k :: 0 <= k < |services| && services[k].serviceId == d.serviceId) &&
      (exists k :: 0 <= k < |services| && services[k].serviceId == d.dependsOn)
    ensures (forall k :: 0 <= k < |deps| ==> Relevant(CurrentServiceIds(services), deps[k])) ==>
      RelevantDependencies(services, deps) == deps
    ensures var idx := FilterIndices(deps, RelevantFn(CurrentServiceIds(services)));
      Picks(RelevantDependencies(services, deps), deps, idx) &&
      forall i :: i in idx <==> 0 <= i < |deps| && Relevant(CurrentServiceIds(services), deps[i])
  {
    RelevantMembers(services, deps);
    RelevantOrder(CurrentServiceIds(services), deps);
  }

  lemma RelevantMembers(services: seq<ProjectService>, deps: seq<Dependency>)
    ensures forall d :: d in RelevantDependencies(services, deps) <==>
      d in deps && (exists k :: 0 <= k < |services| && services[k].serviceId == d.serviceId) &&
      (exists k :: 0 <= k < |services| && services[k].serviceId == d.dependsOn)
    ensures (forall k :: 0 <= k < |deps| ==> Relevant(CurrentServiceIds(services), deps[k])) ==>
      RelevantDependencies(services, deps) == deps
  {
    FilterSpec(deps, RelevantFn(CurrentServiceIds(services)));
  }

  lemma RelevantOrder(ids: set<string>, deps: seq<Dependency>)
    ensures var idx := FilterIndices(deps, RelevantFn(ids));
      Picks(Filter(deps, RelevantFn(ids)), deps, idx) &&
      forall i :: i in idx <==> 0 <= i < |deps| && Relevant(ids, deps[i])
  {
    FilterOrder(deps, RelevantFn(ids));
  }

  function FromService(serviceId: string): Dependency -> bool { (dep: Dependency) => dep.serviceId == serviceId }

  /** `selectedServiceDeps(serviceId)`: None stands for `undefined`. */
  function SelectedServiceDeps(deps: seq<Dependency>, serviceId: Option<string>): seq<Dependency> {
    if serviceId.None? || serviceId.value == "" then [] else Filter(deps, FromService(serviceId.value))
  }

  /** No service gives nothing; a service gives all its dependencies,
      whether or not their other end is in the project. */
  lemma SelectedServiceDepsSpec(deps: seq<Dependency>, serviceId: Option<string>)
    ensures serviceId.None? ==> SelectedServiceDeps(deps, serviceId) == []
    ensures serviceId.Some? && serviceId.value != "" ==>
      forall d :: d in SelectedServiceDeps(deps, serviceId) <==> d in deps && d.serviceId == serviceId.value
  {
    if serviceId.Some? && serviceId.value != "" {
      FilterSpec(deps, FromService(serviceId.value));
    }
  }

  function Always(): ProjectService -> bool { (ps: ProjectService) => true }
  function ServiceIdOf(): ProjectService -> string { (ps: ProjectService) => ps.serviceId }
  function NodeIdOf(): ProjectService -> string { (ps: ProjectService) => ps.id }

  /** `serviceIdToNodeId` */
  method ServiceIdToNodeId(services: seq<ProjectService>) returns (m: map<string, string>)
    ensures m == Assoc(services, Always(), ServiceIdOf(), NodeIdOf())
  {
    m := map[];
    for i := 0 to |services|
      invariant m == Assoc(services[..i], Always(), ServiceIdOf(), NodeIdOf())
    {
      assert services[..i + 1][..i] == services[..i];
      m := m[services[i].serviceId := services[i].id];
    }
    WholePrefix(services);
  }

  /** Every project service id maps to the node of its last project
      service, and nothing else is mapped. */
  lemma NodeIdsSpec(services: seq<ProjectService>)
    ensures Assoc(services, Always(), ServiceIdOf(), NodeIdOf()).Keys == CurrentServiceIds(services)
    ensures forall x :: x in Assoc(services, Always(), ServiceIdOf(), NodeIdOf()) ==>
      exists k :: 0 <= k < |services| && services[k].serviceId == x &&
        services[k].id == Assoc(services, Always(), ServiceIdOf(), NodeIdOf())[x]
  {
    AssocKeys(services, Always(), ServiceIdOf(), NodeIdOf());
    AssocFrom(services, Always(), ServiceIdOf(), NodeIdOf());
  }

  /** The service has a truthy domain. */
  function HasDomain(): ProjectService -> bool { (ps: ProjectService) => ps.service.Some? && ps.service.value.domain != "" }
  function DomainOf(): ProjectService -> string { (ps: ProjectService) => if ps.service.Some? then ps.service.value.domain else "" }

  /** `nodeDomainMap`: node id to domain, for services with a domain. */
  method NodeDomainMap(services: seq<ProjectService>) returns (m: map<string, string>)
    ensures m == Assoc(services, HasDomain(), NodeIdOf(), DomainOf())
  {
    m := map[];
    for i := 0 to |services|
      invariant m == Assoc(services[..i], HasDomain(), NodeIdOf(), DomainOf())
    {
      assert services[..i + 1][..i] == services[..i];
      var ps := services[i];
      if ps.service.Some? && ps.service.value.domain != "" {
        m := m[ps.id := ps.service.value.domain];
      }
    }
    WholePrefix(services);
  }

  /** `getDomain(nodeId)`; None stands for null. */
  function GetDomain(domains: map<string, string>, nodeId: string): Option<string> {
    if nodeId in domains then Some(domains[nodeId]) else None
  }

  /** A node id has a domain exactly when one of its services has a
      non-empty domain, and then it is such a domain; other ids give null. */
  lemma GetDomainSpec(services: seq<ProjectService>, nodeId: string)
    ensures var d := GetDomain(Assoc(services, HasDomain(), NodeIdOf(), DomainOf()), nodeId);
      (d.None? <==> forall k :: 0 <= k < |services| && services[k].id == nodeId ==> !HasDomain()(services[k])) &&
      (d.Some? ==> exists k :: (0 <= k < |services| && services[k].id == nodeId && services[k].service.Some? &&
                   services[k].service.value.domain == d.value && d.value != ""))
  {
    AssocKeys(services, HasDomain(), NodeIdOf(), DomainOf());
    AssocFrom(services, HasDomain(), NodeIdOf(), DomainOf());
  }

  /** The data of a node on the map. */
  datatype Node = Node(id: string, caption: string, category: string, status: string, iconSlug: Option<string>,
                       highlighted: bool, domain: string)

  /** `isMatch`: a missing service gives `undefined`, which is falsy. */
  predicate IsMatch(ps: ProjectService, searchQuery: string) {
    searchQuery == "" || (ps.service.Some? && Contains(Lower(ps.service.value.name), Lower(searchQuery)))
  }

  function ToNode(ps: ProjectService, searchQuery: string): Node {
    var category := if ps.service.Some? && ps.service.value.category != "" then ps.service.value.category else "other";
    var domain := if ps.service.Some? && ps.service.value.domain != "" then ps.service.value.domain else "integration";
    var caption := if ps.service.Some? && ps.service.value.name != "" then ps.service.value.name else "Unknown";
    var iconSlug := if ps.service.Some? then Some(ps.service.value.slug) else None;
    Node(ps.id, caption, category, ps.status, iconSlug, IsMatch(ps, searchQuery), domain)
  }

  /** `serviceNodes` */
  function ServiceNodes(services: seq<ProjectService>, searchQuery: string): seq<Node> {
    seq(|services|, k requires 0 <= k < |services| => ToNode(services[k], searchQuery))
  }

  /** One node per project service, in order, with the service's id and
      status; category and domain fall back to 'other' and 'integration',
      the caption to 'Unknown'; the icon is the service's slug, absent
      without a service; a node is highlighted exactly when the query is
      empty or the lowercased name contains the lowercased query. */
  lemma ServiceNodesSpec(services: seq<ProjectService>, searchQuery: string)
    ensures var nodes := ServiceNodes(services, searchQuery);
      |nodes| == |services| &&
      forall k :: 0 <= k < |services| ==>
        (nodes[k].id == services[k].id && nodes[k].status == services[k].status &&
         (nodes[k].category == "other" <==> services[k].service.None? || services[k].service.value.category in {"", "other"}) &&
         (nodes[k].domain == "integration" <==>
            services[k].service.None? || services[k].service.value.domain in {"", "integration"}) &&
         (services[k].service.Some? && services[k].service.value.category != "" ==>
            nodes[k].category == services[k].service.value.category) &&
         (services[k].service.Some? && services[k].service.value.domain != "" ==>
            nodes[k].domain == services[k].service.value.domain) &&
         (nodes[k].highlighted <==> (searchQuery == "" ||
            (services[k].service.Some? && Contains(Lower(services[k].service.value.name), Lower(searchQuery))))) &&
         (services[k].service.Some? && services[k].service.value.name != "" ==>
            nodes[k].caption == services[k].service.value.name) &&
         (services[k].service.None? || services[k].service.value.name == "" ==> nodes[k].caption == "Unknown") &&
         (nodes[k].iconSlug.Some? <==> services[k].service.Some?) &&
         (nodes[k].iconSlug.Some? ==> nodes[k].iconSlug.value == services[k].service.value.slug))
  {
  }

  /** An empty query highlights every node. */
  lemma EmptyQueryHighlightsAll(services: seq<ProjectService>)
    ensures forall n :: n in ServiceNodes(services, "") ==> n.highlighted
  {
  }

  datatype Edge = Edge(id: string, source: string, target: string, connectionType: string)

  /** The node a service id maps to, when there is one and it is truthy. */
  function NodeOf(m: map<string, string>, serviceId: string): Option<string> {
    if serviceId in m && m[serviceId] != "" then Some(m[serviceId]) else None
  }

  /** The dependency edges, in dependency order. */
  function DepEdges(deps: seq<Dependency>, m: map<string, string>): seq<Edge>
    decreases |deps|
  {
    if |deps| == 0 then []
    else
      var d := deps[|deps| - 1];
      var s, t := NodeOf(m, d.serviceId), NodeOf(m, d.dependsOn);
      DepEdges(deps[..|deps| - 1], m) +
        (if s.Some? && t.Some? then [Edge("dep-" + d.id, s.value, t.value, d.dependencyType)] else [])
  }

  /** The user-connection edges, in connection order. */
  function ConnEdges(conns: seq<UserConnection>, m: map<string, string>): seq<Edge>
    decreases |conns|
  {
    if |conns| == 0 then []
    else
      var c := conns[|conns| - 1];
      var s, t := NodeOf(m, c.source), NodeOf(m, c.target);
      ConnEdges(conns[..|conns| - 1], m) +
        (if s.Some? && t.Some? then [Edge("uc-" + c.id, s.value, t.value, c.connectionType)] else [])
  }

  /** `rawEdges`: the two `forEach` loops pushing onto one list. */
  method RawEdges(relevant: seq<Dependency>, conns: seq<UserConnection>, m: map<string, string>) returns (edges: seq<Edge>)
    ensures edges == DepEdges(relevant, m) + ConnEdges(conns, m)
  {
    edges := [];
    for i := 0 to |relevant|
      invariant edges == DepEdges(relevant[..i], m)
    {
      assert relevant[..i + 1][..i] == relevant[..i];
      var d := relevant[i];
      var s, t := NodeOf(m, d.serviceId), NodeOf(m, d.dependsOn);
      if s.Some? && t.Some? {
        edges := edges + [Edge("dep-" + d.id, s.value, t.value, d.dependencyType)];
      }
    }
    WholePrefix(relevant);
    ghost var depEdges := edges;
    for i := 0 to |conns|
      invariant edges == depEdges + ConnEdges(conns[..i], m)
    {
      assert conns[..i + 1][..i] == conns[..i];
      var c := conns[i];
      var s, t := NodeOf(m, c.source), NodeOf(m, c.target);
      if s.Some? && t.Some? {
        edges := edges + [Edge("uc-" + c.id, s.value, t.value, c.connectionType)];
      }
    }
    WholePrefix(conns);
  }

  /** Dependency edges are named "dep-" plus the dependency's id, and there
      is one for a dependency exactly when both its ends map to a node:
      every edge is the edge of such a dependency, and every such
      dependency has its edge. */
  lemma {:induction false} DepEdgesSpec(deps: seq<Dependency>, m: map<string, string>)
    ensures forall e :: e in DepEdges(deps, m) ==>
      StartsWith(e.id, "dep-") && e.source in m.Values && e.target in m.Values
    ensures forall d :: d in deps && NodeOf(m, d.serviceId).Some? && NodeOf(m, d.dependsOn).Some? ==>
      Edge("dep-" + d.id, m[d.serviceId], m[d.dependsOn], d.dependencyType) in DepEdges(deps, m)
    ensures forall e :: e in DepEdges(deps, m) ==>
      exists d :: d in deps && NodeOf(m, d.serviceId).Some? && NodeOf(m, d.dependsOn).Some? &&
        e == Edge("dep-" + d.id, m[d.serviceId], m[d.dependsOn], d.dependencyType)
    ensures |DepEdges(deps, m)| <= |deps|
  {
    DepEdgesSound(deps, m);
    DepEdgesComplete(deps, m);
    forall e | e in DepEdges(deps, m) ensures StartsWith(e.id, "dep-") && e.source in m.Values && e.target in m.Values {
      var d :| d in deps && NodeOf(m, d.serviceId).Some? && NodeOf(m, d.dependsOn).Some? &&
        e == Edge("dep-" + d.id, m[d.serviceId], m[d.dependsOn], d.dependencyType);
      assert e.id[..4] == "dep-";
    }
  }

  lemma {:induction false} DepEdgesSound(deps: seq<Dependency>, m: map<string, string>)
    ensures forall e :: e in DepEdges(deps, m) ==>
      exists d :: d in deps && NodeOf(m, d.serviceId).Some? && NodeOf(m, d.dependsOn).Some? &&
        e == Edge("dep-" + d.id, m[d.serviceId], m[d.dependsOn], d.dependencyType)
    ensures |DepEdges(deps, m)| <= |deps|
    decreases |deps|
  {
    if |deps| > 0 {
      var p := deps[..|deps| - 1];
      DepEdgesSound(p, m);
      assert forall d :: d in p ==> d in deps;
    }
  }

  lemma {:induction false} DepEdgesComplete(deps: seq<Dependency>, m: map<string, string>)
    ensures forall d :: d in deps && NodeOf(m, d.serviceId).Some? && NodeOf(m, d.dependsOn).Some? ==>
      Edge("dep-" + d.id, m[d.serviceId], m[d.dependsOn], d.dependencyType) in DepEdges(deps, m)
    decreases |deps|
  {
    if |deps| > 0 {
      var p := deps[..|deps| - 1];
      DepEdgesComplete(p, m);
      assert forall d :: d in deps ==> d in p || d == deps[|deps| - 1];
    }
  }

  /** User-connection edges are named "uc-" plus the connection's id, and
      there is one for a connection exactly when both its ends map to a
      node: every edge is the edge of such a connection, and every such
      connection has its edge. */
  lemma {:induction false} ConnEdgesSpec(conns: seq<UserConnection>, m: map<string, string>)
    ensures forall e :: e in ConnEdges(conns, m) ==>
      StartsWith(e.id, "uc-") && e.source in m.Values && e.target in m.Values
    ensures forall c :: c in conns && NodeOf(m, c.source).Some? && NodeOf(m, c.target).Some? ==>
      Edge("uc-" + c.id, m[c.source], m[c.target], c.connectionType) in ConnEdges(conns, m)
    ensures forall e :: e in ConnEdges(conns, m) ==>
      exists c :: c in conns && NodeOf(m, c.source).Some? && NodeOf(m, c.target).Some? &&
        e == Edge("uc-" + c.id, m[c.source], m[c.target], c.connectionType)
    ensures |ConnEdges(conns, m)| <= |conns|
  {
    ConnEdgesSound(conns, m);
    ConnEdgesComplete(conns, m);
    forall e | e in ConnEdges(conns, m) ensures StartsWith(e.id, "uc-") && e.source in m.Values && e.target in m.Values {
      var c :| c in conns && NodeOf(m, c.source).Some? && NodeOf(m, c.target).Some? &&
        e == Edge("uc-" + c.id, m[c.source], m[c.target], c.connectionType);
      assert e.id[..3] == "uc-";
    }
  }

  lemma {:induction false} ConnEdgesSound(conns: seq<UserConnection>, m: map<string, string>)
    ensures forall e :: e in ConnEdges(conns, m) ==>
      exists c :: c in conns && NodeOf(m, c.source).Some? && NodeOf(m, c.target).Some? &&
        e == Edge("uc-" + c.id, m[c.source], m[c.target], c.connectionType)
    ensures |ConnEdges(conns, m)| <= |conns|
    decreases |conns|
  {
    if |conns| > 0 {
      var p := conns[..|conns| - 1];
      ConnEdgesSound(p, m);
      assert forall c :: c in p ==> c in conns;
    }
  }

  lemma {:induction false} ConnEdgesComplete(conns: seq<UserConnection>, m: map<string, string>)
    ensures forall c :: c in conns && NodeOf(m, c.source).Some? && NodeOf(m, c.target).Some? ==>
      Edge("uc-" + c.id, m[c.source], m[c.target], c.connectionType) in ConnEdges(conns, m)
    decreases |conns|
  {
    if |conns| > 0 {
      var p := conns[..|conns| - 1];
      ConnEdgesComplete(p, m);
      assert forall c :: c in conns ==> c in p || c == conns[|conns| - 1];
    }
  }

  /** The node table's values are node ids of project services. */
  lemma NodeIdsValues(services: seq<ProjectService>)
    ensures forall v :: v in Assoc(services, Always(), ServiceIdOf(), NodeIdOf()).Values ==>
      exists k :: 0 <= k < |services| && services[k].id == v
  {
    var m := Assoc(services, Always(), ServiceIdOf(), NodeIdOf());
    NodeIdsSpec(services);
    forall v | v in m.Values ensures exists k :: 0 <= k < |services| && services[k].id == v {
      var x :| x in m && m[x] == v;
    }
  }

  /** With the node table of the project's services, every edge joins two
      nodes of the map. */
  lemma RawEdgesJoinNodes(services: seq<ProjectService>, deps: seq<Dependency>, conns: seq<UserConnection>)
    ensures var m := Assoc(services, Always(), ServiceIdOf(), NodeIdOf());
      forall e :: e in DepEdges(RelevantDependencies(services, deps), m) + ConnEdges(conns, m) ==>
        (exists k :: 0 <= k < |services| && services[k].id == e.source) &&
        (exists k :: 0 <= k < |services| && services[k].id == e.target)
  {
    var m := Assoc(services, Always(), ServiceIdOf(), NodeIdOf());
    NodeIdsValues(services);
    DepEdgesSpec(RelevantDependencies(services, deps), m);
    ConnEdgesSpec(conns, m);
  }

  /** The dependency edges come before the user connections' ones. */
  lemma RawEdgesOrder(deps: seq<Dependency>, conns: seq<UserConnection>, m: map<string, string>)
    ensures var edges := DepEdges(deps, m) + ConnEdges(conns, m);
      (forall i :: 0 <= i < |DepEdges(deps, m)| ==> StartsWith(edges[i].id, "dep-")) &&
      (forall i :: |DepEdges(deps, m)| <= i < |edges| ==> StartsWith(edges[i].id, "uc-"))
  {
    DepEdgesSpec(deps, m);
    ConnEdgesSpec(conns, m);
    var edges := DepEdges(deps, m) + ConnEdges(conns, m);
    forall i | |DepEdges(deps, m)| <= i < |edges| ensures StartsWith(edges[i].id, "uc-") {
      assert edges[i] in ConnEdges(conns, m);
    }
    forall i | 0 <= i < |DepEdges(deps, m)| ensures StartsWith(edges[i].id, "dep-") {
      assert edges[i] in DepEdges(deps, m);
    }
  }

  /** Every relevant dependency whose services' nodes have truthy ids gets
      its edge. */
  lemma RelevantDependencyDrawn(services: seq<ProjectService>, deps: seq<Dependency>, d: Dependency)
    requires d in RelevantDependencies(services, deps)
    ensures var m := Assoc(services, Always(), ServiceIdOf(), NodeIdOf());
      d.serviceId in m && d.dependsOn in m &&
      (m[d.serviceId] != "" && m[d.dependsOn] != "" ==>
         Edge("dep-" + d.id, m[d.serviceId], m[d.dependsOn], d.dependencyType) in DepEdges(RelevantDependencies(services, deps), m))
  {
    var m := Assoc(services, Always(), ServiceIdOf(), NodeIdOf());
    NodeIdsSpec(services);
    RelevantDependenciesSpec(services, deps);
    DepEdgesSpec(RelevantDependencies(services, deps), m);
  }
}

=== FILE: site_editor.dfy ===
/** The helpers of the site editor in
    src/components/my-sites/site-editor-client.tsx: file-type tests and the
    icon, colour and badge chosen from them, the sidebar file tree, and the
    preview page with the live URL and the stylesheets injected. */
module SiteEditor {
  import opened Text

  // ---------------------------------------------------------------------
  // File types
  // ---------------------------------------------------------------------

  /** A non-empty path whose lowercased form ends with one of `suffixes`. */
  predicate HasSuffix(path: Option<string>, suffixes: seq<string>) {
    path.Some? && path.value != "" && exists k :: 0 <= k < |suffixes| && EndsWith(Lower(path.value), suffixes[k])
  }

  predicate IsHtmlFile(path: Option<string>) { HasSuffix(path, [".html", ".htm"]) }
  predicate IsCssFile(path: Option<string>) { HasSuffix(path, [".css"]) }
  predicate IsTsxFile(path: Option<string>) { HasSuffix(path, [".tsx", ".jsx"]) }
  predicate IsJsFile(path: Option<string>) { HasSuffix(path, [".js", ".ts", ".mjs", ".tsx", ".jsx"]) }
  predicate IsJsonFile(path: Option<string>) { HasSuffix(path, [".json"]) }
  predicate IsImageFile(path: Option<string>) { HasSuffix(path, [".png", ".jpg", ".jpeg", ".gif", ".svg", ".webp"]) }

  /** The tests ignore case and reject a null or empty path; every TSX/JSX
      file is also a JS file. */
  lemma FileTypeTests(path: string)
    ensures !IsHtmlFile(None) && !IsCssFile(None) && !IsTsxFile(None) && !IsJsFile(None) && !IsJsonFile(None) && !IsImageFile(None)
    ensures IsHtmlFile(Some(Lower(path))) == IsHtmlFile(Some(path))
    ensures IsCssFile(Some(Lower(path))) == IsCssFile(Some(path))
    ensures IsTsxFile(Some(Lower(path))) == IsTsxFile(Some(path))
    ensures IsJsFile(Some(Lower(path))) == IsJsFile(Some(path))
    ensures IsTsxFile(Some(path)) ==> IsJsFile(Some(path))
  {
    LowerIdempotent(path);
    if IsTsxFile(Some(path)) {
      var k :| 0 <= k < 2 && EndsWith(Lower(path), [".tsx", ".jsx"][k]);
      assert EndsWith(Lower(path), [".js", ".ts", ".mjs", ".tsx", ".jsx"][k + 3]);
    }
  }

  datatype Icon = FileCode2 | FileType | FileJson | FileImage | PlainFile

  /** `getFileIcon(path)` */
  function FileIcon(path: string): Icon {
    var p := Some(path);
    if IsHtmlFile(p) then FileCode2
    else if IsCssFile(p) then FileType
    else if IsTsxFile(p) then FileCode2
    else if IsJsFile(p) then FileJson
    else if IsJsonFile(p) then FileJson
    else if IsImageFile(p) then FileImage
    else PlainFile
  }

  /** `getFileColor(path)` */
  function FileColor(path: string): string {
    var p := Some(path);
    if IsHtmlFile(p) then "text-orange-400"
    else if IsCssFile(p) then "text-blue-400"
    else if IsTsxFile(p) then "text-sky-400"
    else if IsJsFile(p) then "text-yellow-400"
    else if IsJsonFile(p) then "text-green-400"
    else "text-muted-foreground"
  }

  /** The badge's `label` is `name` here. */
  datatype Badge = Badge(name: string, color: string)

  /** `getLanguageBadge(path)` */
  function LanguageBadge(path: Option<string>): Option<Badge> {
    if path.None? || path.value == "" then None
    else if IsHtmlFile(path) then Some(Badge("HTML", "bg-orange-500/20 text-orange-400"))
    else if IsCssFile(path) then Some(Badge("CSS", "bg-blue-500/20 text-blue-400"))
    else if IsTsxFile(path) then Some(Badge("TSX", "bg-sky-500/20 text-sky-400"))
    else if IsJsFile(path) then Some(Badge("JS", "bg-yellow-500/20 text-yellow-400"))
    else if IsJsonFile(path) then Some(Badge("JSON", "bg-green-500/20 text-green-400"))
    else None
  }

  /** TSX is tested before JS, so a .tsx or .jsx file gets the TSX icon,
      colour and badge although it also passes the JS test; a plain JS file
      gets the JS ones; a badge exists exactly for the five code types. */
  lemma TsxBeforeJs(path: string)
    ensures IsTsxFile(Some(path)) && !IsHtmlFile(Some(path)) && !IsCssFile(Some(path)) ==>
      FileIcon(path) == FileCode2 && FileColor(path) == "text-sky-400" &&
      LanguageBadge(Some(path)) == Some(Badge("TSX", "bg-sky-500/20 text-sky-400"))
    ensures IsJsFile(Some(path)) && !IsTsxFile(Some(path)) && !IsHtmlFile(Some(path)) && !IsCssFile(Some(path)) ==>
      FileIcon(path) == FileJson && FileColor(path) == "text-yellow-400"
    ensures LanguageBadge(Some(path)).Some? <==>
      IsHtmlFile(Some(path)) || IsCssFile(Some(path)) || IsJsFile(Some(path)) || IsJsonFile(Some(path))
  {
    FileTypeTests(path);
  }

  // ---------------------------------------------------------------------
  // The file tree
  // ---------------------------------------------------------------------

  /** A file of the deployed repository. */
  datatype RepoFile = RepoFile(name: string, path: string, sha: string, size: int)

  datatype TreeNode =
    | FileLeaf(name: string, path: string, sha: string, size: int)
    | DirNode(name: string, path: string, children: seq<TreeNode>)

  /** `current.find((n) => n.type === 'dir' && n.name === part)` */
  function FindDir(nodes: seq<TreeNode>, part: string): (r: Option<nat>)
    ensures r.Some? ==> r.value < |nodes| && nodes[r.value].DirNode? && nodes[r.value].name == part
    ensures r.Some? ==> forall k :: 0 <= k < r.value ==> !(nodes[k].DirNode? && nodes[k].name == part)
    ensures r.None? ==> forall k :: 0 <= k < |nodes| ==> !(nodes[k].DirNode? && nodes[k].name == part)
    decreases |nodes|
  {
    if |nodes| == 0 then None
    else if nodes[0].DirNode? && nodes[0].name == part then Some(0)
    else match FindDir(nodes[1..], part)
      case None => None
      case Some(k) => Some(k + 1)
  }

  /** The inner loop of `buildFileTree` from segment i on, with `nodes` the
      list `current` points to. */
  function InsertFile(nodes: seq<TreeNode>, parts: seq<string>, i: nat, f: RepoFile): seq<TreeNode>
    requires i < |parts|
    decreases |parts| - i
  {
    if i == |parts| - 1 then nodes + [FileLeaf(parts[i], f.path, f.sha, f.size)]
    else match FindDir(nodes, parts[i])
      case None => nodes + [DirNode(parts[i], Join(parts[..i + 1], "/"), InsertFile([], parts, i + 1, f))]
      case Some(k) => nodes[k := DirNode(nodes[k].name, nodes[k].path, InsertFile(nodes[k].children, parts, i + 1, f))]
  }

  /** The unsorted tree after the outer loop over `files`. */
  function Grow(files: seq<RepoFile>): seq<TreeNode>
    decreases |files|
  {
    if |files| == 0 then []
    else
      var f := files[|files| - 1];
      InsertFile(Grow(files[..|files| - 1]), Split(f.path, '/'), 0, f)
  }

  /** `a` may stand before `b`: directories before files, then by name. */
  predicate Precedes(a: TreeNode, b: TreeNode) {
    (a.DirNode? && b.FileLeaf?) || (a.DirNode? == b.DirNode? && LexLe(a.name, b.name))
  }

  /** `localeCompare(a, b) <= 0`, taken as code-point order. */
  predicate LexLe(a: string, b: string)
    decreases |a|
  {
    |a| == 0 || (|b| > 0 && (a[0] < b[0] || (a[0] == b[0] && LexLe(a[1..], b[1..]))))
  }

  lemma {:induction false} LexLeTotal(a: string, b: string)
    ensures LexLe(a, b) || LexLe(b, a)
    decreases |a|
  {
    if |a| > 0 && |b| > 0 && a[0] == b[0] {
      LexLeTotal(a[1..], b[1..]);
    }
  }

  lemma {:induction false} LexLeTrans(a: string, b: string, c: string)
    requires LexLe(a, b) && LexLe(b, c)
    ensures LexLe(a, c)
    decreases |a|
  {
    if |a| > 0 && a[0] == b[0] && b[0] == c[0] {
      LexLeTrans(a[1..], b[1..], c[1..]);
    }
  }

  ghost predicate Total<T(!new)>(le: (T, T) -> bool) {
    forall a, b :: le(a, b) || le(b, a)
  }

  ghost predicate Transitive<T(!new)>(le: (T, T) -> bool) {
    forall a, b, c :: le(a, b) && le(b, c) ==> le(a, c)
  }

  /** Directories-first, then by name, is a total preorder. */
  lemma PrecedesOrder()
    ensures Total(PrecedesFn()) && Transitive(PrecedesFn())
  {
    forall a, b ensures Precedes(a, b) || Precedes(b, a) {
      LexLeTotal(a.name, b.name);
    }
    forall a, b, c | Precedes(a, b) && Precedes(b, c) ensures Precedes(a, c) {
      if a.DirNode? == b.DirNode? && b.DirNode? == c.DirNode? {
        LexLeTrans(a.name, b.name, c.name);
      }
    }
  }

  /** A stable insertion sort by `le`. */
  function SortBy<T>(s: seq<T>, le: (T, T) -> bool): seq<T>
    decreases |s|
  {
    if |s| == 0 then [] else InsertBy(s[|s| - 1], SortBy(s[..|s| - 1], le), le)
  }

  function InsertBy<T>(x: T, s: seq<T>, le: (T, T) -> bool): seq<T>
    decreases |s|
  {
    if |s| == 0 then [x]
    else if !le(s[0], x) then [x] + s
    else [s[0]] + InsertBy(x, s[1..], le)
  }

  predicate SortedBy<T>(s: seq<T>, le: (T, T) -> bool) {
    forall i, j :: 0 <= i < j < |s| ==> le(s[i], s[j])
  }

  lemma {:induction false} InsertBySpec<T(!new)>(x: T, s: seq<T>, le: (T, T) -> bool)
    requires Total(le) && Transitive(le)
    requires SortedBy(s, le)
    ensures multiset(InsertBy(x, s, le)) == multiset(s) + multiset{x}
    ensures SortedBy(InsertBy(x, s, le), le)
    decreases |s|
  {
    if |s| > 0 {
      assert s == [s[0]] + s[1..];
      if !le(s[0], x) {
        assert le(x, s[0]);
        forall z | z in s ensures le(x, z) {
          var m :| 0 <= m < |s| && s[m] == z;
          if m > 0 {
            assert le(s[0], s[m]);
          }
        }
        ConsSorted(x, s, le);
      } else {
        InsertBySpec(x, s[1..], le);
        var t := InsertBy(x, s[1..], le);
        forall z | z in t ensures le(s[0], z) {
          assert z in multiset(s[1..]) + multiset{x};
          if z != x {
            var m :| 0 <= m < |s[1..]| && s[1..][m] == z;
            assert le(s[0], s[m + 1]);
          }
        }
        ConsSorted(s[0], t, le);
      }
    }
  }

  /** An item that may stand before every item of a sorted list may head it. */
  lemma ConsSorted<T>(y: T, t: seq<T>, le: (T, T) -> bool)
    requires SortedBy(t, le) && forall z :: z in t ==> le(y, z)
    ensures SortedBy([y] + t, le)
  {
    var r := [y] + t;
    forall i, j | 0 <= i < j < |r| ensures le(r[i], r[j]) {
      if i == 0 {
        assert r[j] == t[j - 1];
      } else {
        assert r[i] == t[i - 1] && r[j] == t[j - 1];
      }
    }
  }

  /** The sort orders by `le` and permutes its input. */
  lemma {:induction false} SortBySpec<T(!new)>(s: seq<T>, le: (T, T) -> bool)
    requires Total(le) && Transitive(le)
    ensures multiset(SortBy(s, le)) == multiset(s)
    ensures SortedBy(SortBy(s, le), le)
    decreases |s|
  {
    if |s| > 0 {
      var init := s[..|s| - 1];
      SortBySpec(init, le);
      InsertBySpec(s[|s| - 1], SortBy(init, le), le);
      SortByStep(s, le);
      MultisetSnoc(s);
    }
  }

  /** One step of the sort: the last item inserted into the sorted rest. */
  lemma SortByStep<T>(s: seq<T>, le: (T, T) -> bool)
    requires |s| > 0
    ensures SortBy(s, le) == InsertBy(s[|s| - 1], SortBy(s[..|s| - 1], le), le)
  {
  }

  function PrecedesFn(): (TreeNode, TreeNode) -> bool {
    (a: TreeNode, b: TreeNode) => Precedes(a, b)
  }

  /** `sortTree`: each sibling list sorted, after sorting every directory's
      children. */
  function SortTree(nodes: seq<TreeNode>): seq<TreeNode> {
    SortBy(SortEach(nodes), PrecedesFn())
  }

  function SortEach(nodes: seq<TreeNode>): (r: seq<TreeNode>)
    ensures |r| == |nodes|
    decreases nodes
  {
    seq(|nodes|, k requires 0 <= k < |nodes| =>
      var x := nodes[k];
      if x.DirNode? then DirNode(x.name, x.path, SortBy(SortEach(x.children), PrecedesFn())) else x)
  }

  /** `buildFileTree(files)` */
  method BuildFileTree(files: seq<RepoFile>) returns (root: seq<TreeNode>)
    ensures root == SortTree(Grow(files))
  {
    root := [];
    for n := 0 to |files|
      invariant root == Grow(files[..n])
    {
      var file := files[n];
      var parts := Split(file.path, '/');
      assert files[..n + 1][..n] == files[..n];
      root := InsertFile(root, parts, 0, file);
    }
    WholePrefix(files);
    root := SortTree(root);
  }

  // --- properties of the tree --------------------------------------------

  /** The paths of the file leaves under `nodes`. */
  function LeafPaths(nodes: seq<TreeNode>): multiset<string>
    decreases nodes
  {
    if |nodes| == 0 then multiset{}
    else
      var x := nodes[|nodes| - 1];
      LeafPaths(nodes[..|nodes| - 1]) + (if x.FileLeaf? then multiset{x.path} else LeafPaths(x.children))
  }

  lemma {:induction false} LeafPathsConcat(a: seq<TreeNode>, b: seq<TreeNode>)
    ensures LeafPaths(a + b) == LeafPaths(a) + LeafPaths(b)
    decreases |b|
  {
    if |b| == 0 {
      assert a + b == a;
    } else {
      var b', x := b[..|b| - 1], b[|b| - 1];
      LeafPathsConcat(a, b');
      var own := if x.FileLeaf? then multiset{x.path} else LeafPaths(x.children);
      assert (a + b)[..|a + b| - 1] == a + b' && (a + b)[|a + b| - 1] == x;
      assert LeafPaths(a + b) == LeafPaths(a + b') + own;
      assert LeafPaths(b) == LeafPaths(b') + own;
    }
  }

  /** Removing the same element from two permutations of each other. */
  lemma RemoveMatching<T>(a: seq<T>, b: seq<T>, i: nat)
    requires multiset(a) == multiset(b) && |a| > 0 && i < |b| && b[i] == a[|a| - 1]
    ensures multiset(a[..|a| - 1]) == multiset(b[..i] + b[i + 1..])
  {
    var x := a[|a| - 1];
    assert b == b[..i] + [x] + b[i + 1..];
    assert a == a[..|a| - 1] + [x];
    assert multiset(b) == multiset(b[..i]) + multiset{x} + multiset(b[i + 1..]);
    assert multiset(a) == multiset(a[..|a| - 1]) + multiset{x};
    var a', b' := multiset(a[..|a| - 1]), multiset(b[..i] + b[i + 1..]);
    assert b' == multiset(b[..i]) + multiset(b[i + 1..]);
    assert a' + multiset{x} == b' + multiset{x};
    assert forall y :: a'[y] == (a' + multiset{x})[y] - multiset{x}[y];
  }

  /** The leaves of a list are those of one member plus those of the rest. */
  lemma LeafPathsRemove(b: seq<TreeNode>, i: nat)
    requires i < |b|
    ensures LeafPaths(b) == LeafPaths(b[..i] + b[i + 1..]) + LeafPaths([b[i]])
  {
    var p, x, q := b[..i], [b[i]], b[i + 1..];
    SplitAround(b, i);
    LeafPathsConcat(p + x, q);
    LeafPathsConcat(p, x);
    LeafPathsConcat(p, q);
    UnionSwap(LeafPaths(p), LeafPaths(x), LeafPaths(q));
  }

  lemma SplitAround<T>(b: seq<T>, i: nat)
    requires i < |b|
    ensures b == (b[..i] + [b[i]]) + b[i + 1..]
  {
  }

  lemma UnionSwap<T>(a: multiset<T>, b: multiset<T>, c: multiset<T>)
    ensures a + b + c == a + c + b
  {
  }

  lemma {:induction false} LeafPathsPermutation(a: seq<TreeNode>, b: seq<TreeNode>)
    requires multiset(a) == multiset(b)
    ensures LeafPaths(a) == LeafPaths(b)
    decreases |a|
  {
    if |a| == 0 {
      assert |b| == 0;
    } else {
      var x := a[|a| - 1];
      assert x in multiset(b);
      var i :| 0 <= i < |b| && b[i] == x;
      RemoveMatching(a, b, i);
      LeafPathsPermutation(a[..|a| - 1], b[..i] + b[i + 1..]);
      LeafPathsRemove(b, i);
      LeafPathsRemove(a, |a| - 1);
      assert a[..|a| - 1] + a[|a|..] == a[..|a| - 1];
    }
  }

  /** Inserting a file adds exactly its path to the leaves. */
  lemma {:induction false} InsertFileLeaves(nodes: seq<TreeNode>, parts: seq<string>, i: nat, f: RepoFile)
    requires i < |parts|
    ensures LeafPaths(InsertFile(nodes, parts, i, f)) == LeafPaths(nodes) + multiset{f.path}
    decreases |parts| - i
  {
    if i == |parts| - 1 {
      assert (nodes + [FileLeaf(parts[i], f.path, f.sha, f.size)])[..|nodes|] == nodes;
    } else {
      match FindDir(nodes, parts[i])
      case None =>
        InsertFileLeaves([], parts, i + 1, f);
        var d := DirNode(parts[i], Join(parts[..i + 1], "/"), InsertFile([], parts, i + 1, f));
        assert (nodes + [d])[..|nodes|] == nodes;
      case Some(k) =>
        InsertFileLeaves(nodes[k].children, parts, i + 1, f);
        ReplaceChildrenLeaves(nodes, k, InsertFile(nodes[k].children, parts, i + 1, f), multiset{f.path});
    }
  }

  /** Giving one directory new children that add `extra` leaves adds
      `extra` to the leaves of the list. */
  lemma ReplaceChildrenLeaves(nodes: seq<TreeNode>, k: nat, ch: seq<TreeNode>, extra: multiset<string>)
    requires k < |nodes| && nodes[k].DirNode?
    requires LeafPaths(ch) == LeafPaths(nodes[k].children) + extra
    ensures LeafPaths(nodes[k := DirNode(nodes[k].name, nodes[k].path, ch)]) == LeafPaths(nodes) + extra
  {
    var n := DirNode(nodes[k].name, nodes[k].path, ch);
    LeafPathsReplace(nodes, k, n);
    LeafPathsSingle(nodes[k]);
    LeafPathsSingle(n);
    var a, b, c := LeafPaths(nodes[k := n]), LeafPaths(nodes), LeafPaths(nodes[k].children);
    assert a + c == b + c + extra;
    MultisetCancel(a, b, c, extra);
  }

  lemma MultisetCancel<T>(a: multiset<T>, b: multiset<T>, c: multiset<T>, extra: multiset<T>)
    requires a + c == b + c + extra
    ensures a == b + extra
  {
    forall y ensures a[y] == (b + extra)[y] {
      assert (a + c)[y] == (b + c + extra)[y];
    }
  }

  /** Replacing one node swaps its leaves for those of the new node. */
  lemma LeafPathsReplace(nodes: seq<TreeNode>, k: nat, n: TreeNode)
    requires k < |nodes|
    ensures LeafPaths(nodes[k := n]) + LeafPaths([nodes[k]]) == LeafPaths(nodes) + LeafPaths([n])
  {
    var p, q := nodes[..k], nodes[k + 1..];
    assert nodes == p + [nodes[k]] + q;
    assert nodes[k := n] == p + [n] + q;
    LeafPathsConcat(p + [nodes[k]], q);
    LeafPathsConcat(p, [nodes[k]]);
    LeafPathsConcat(p + [n], q);
    LeafPathsConcat(p, [n]);
  }

  lemma LeafPathsSingle(x: TreeNode)
    ensures LeafPaths([x]) == if x.FileLeaf? then multiset{x.path} else LeafPaths(x.children)
  {
    assert [x][..0] == [];
  }

  function Paths(files: seq<RepoFile>): multiset<string>
    decreases |files|
  {
    if |files| == 0 then multiset{} else Paths(files[..|files| - 1]) + multiset{files[|files| - 1].path}
  }

  /** Sorting keeps every node of a level, directories with their children
      sorted, and the leaves. */
  lemma {:induction false} SortEachLeaves(nodes: seq<TreeNode>)
    ensures LeafPaths(SortEach(nodes)) == LeafPaths(nodes)
    decreases nodes, 1
  {
    if |nodes| > 0 {
      var n := |nodes|;
      var p, x, r := nodes[..n - 1], nodes[n - 1], SortEach(nodes);
      SortEachLeaves(p);
      SortNodeLeaves(nodes, n - 1);
      assert r[..n - 1] == SortEach(p);
      assert r[n - 1] == if x.DirNode? then DirNode(x.name, x.path, SortBy(SortEach(x.children), PrecedesFn())) else x;
    }
  }

  /** Sorting one directory's children keeps their leaves. */
  lemma {:induction false} SortNodeLeaves(nodes: seq<TreeNode>, k: nat)
    requires k < |nodes|
    ensures nodes[k].DirNode? ==>
      LeafPaths(SortBy(SortEach(nodes[k].children), PrecedesFn())) == LeafPaths(nodes[k].children)
    decreases nodes, 0
  {
    var x := nodes[k];
    if x.DirNode? {
      PrecedesOrder();
      SortEachLeaves(x.children);
      SortBySpec(SortEach(x.children), PrecedesFn());
      LeafPathsPermutation(SortBy(SortEach(x.children), PrecedesFn()), SortEach(x.children));
    }
  }

  /** Sorting keeps every node of a level in place, with its kind, name
      and path; each directory's children come out well sorted. */
  lemma {:induction false} SortEachShape(nodes: seq<TreeNode>)
    ensures forall k :: 0 <= k < |nodes| ==>
      SortEach(nodes)[k].name == nodes[k].name && SortEach(nodes)[k].path == nodes[k].path &&
      SortEach(nodes)[k].DirNode? == nodes[k].DirNode? &&
      (nodes[k].FileLeaf? ==> SortEach(nodes)[k] == nodes[k]) &&
      (nodes[k].DirNode? ==> WellSorted(SortEach(nodes)[k].children))
    decreases nodes
  {
    forall k | 0 <= k < |nodes| && nodes[k].DirNode?
      ensures WellSorted(SortEach(nodes)[k].children)
    {
      SortEachShape(nodes[k].children);
      WellSortedOfSorted(SortEach(nodes[k].children));
    }
  }

  /** Every sibling list, at every depth, has directories first, each
      group in name order. */
  predicate WellSorted(nodes: seq<TreeNode>)
    decreases nodes
  {
    SortedBy(nodes, PrecedesFn()) &&
    forall k :: 0 <= k < |nodes| ==> nodes[k].DirNode? ==> WellSorted(nodes[k].children)
  }

  /** Sorting a level whose directories are already well sorted inside. */
  lemma WellSortedOfSorted(nodes: seq<TreeNode>)
    requires forall k :: 0 <= k < |nodes| ==> nodes[k].DirNode? ==> WellSorted(nodes[k].children)
    ensures WellSorted(SortBy(nodes, PrecedesFn()))
  {
    PrecedesOrder();
    SortBySpec(nodes, PrecedesFn());
    var s := SortBy(nodes, PrecedesFn());
    forall k | 0 <= k < |s| && s[k].DirNode? ensures WellSorted(s[k].children) {
      assert s[k] in multiset(nodes);
    }
  }

  /** After sorting, all directories precede all files and each group is in
      name order, at every depth; sorting keeps the leaves. */
  lemma SortTreeSpec(nodes: seq<TreeNode>)
    ensures WellSorted(SortTree(nodes))
    ensures LeafPaths(SortTree(nodes)) == LeafPaths(nodes)
    ensures forall i, j :: 0 <= i < j < |SortTree(nodes)| ==>
      !(SortTree(nodes)[i].FileLeaf? && SortTree(nodes)[j].DirNode?)
  {
    SortEachShape(nodes);
    WellSortedOfSorted(SortEach(nodes));
    SortTreeLeaves(nodes);
    DirsFirst(SortTree(nodes));
  }

  lemma SortTreeLeaves(nodes: seq<TreeNode>)
    ensures LeafPaths(SortTree(nodes)) == LeafPaths(nodes)
  {
    SortEachLeaves(nodes);
    PrecedesOrder();
    SortBySpec(SortEach(nodes), PrecedesFn());
    LeafPathsPermutation(SortTree(nodes), SortEach(nodes));
  }

  lemma DirsFirst(s: seq<TreeNode>)
    requires WellSorted(s)
    ensures forall i, j :: 0 <= i < j < |s| ==> !(s[i].FileLeaf? && s[j].DirNode?)
  {
    forall i, j | 0 <= i < j < |s| ensures !(s[i].FileLeaf? && s[j].DirNode?) {
      assert PrecedesFn()(s[i], s[j]);
    }
  }

  /** One file leaf per input file, with the input's path. */
  lemma {:induction false} GrowLeaves(files: seq<RepoFile>)
    ensures LeafPaths(Grow(files)) == Paths(files)
    decreases |files|
  {
    if |files| > 0 {
      var f := files[|files| - 1];
      GrowLeaves(files[..|files| - 1]);
      InsertFileLeaves(Grow(files[..|files| - 1]), Split(f.path, '/'), 0, f);
    }
  }

  /** The tree's leaves are exactly the input paths, each once per file. */
  lemma BuildFileTreeLeaves(files: seq<RepoFile>)
    ensures LeafPaths(SortTree(Grow(files))) == Paths(files)
    ensures WellSorted(SortTree(Grow(files)))
    ensures Formed(SortTree(Grow(files)), [])
  {
    GrowLeaves(files);
    SortTreeSpec(Grow(files));
    GrowFormed(files);
    SortTreeFormed(Grow(files), []);
  }

  function Last(parts: seq<string>): string
    requires |parts| > 0
  {
    parts[|parts| - 1]
  }

  /** The shape `buildFileTree` gives the nodes under the directory
      `prefix`: each file is named by the last segment of its path; each
      directory's path joins the segments down to it, its children are
      formed under it, and no two sibling directories share a name. */
  predicate Formed(nodes: seq<TreeNode>, prefix: seq<string>)
    decreases nodes
  {
    (forall k :: 0 <= k < |nodes| ==> nodes[k].FileLeaf? ==> nodes[k].name == Last(Split(nodes[k].path, '/'))) &&
    (forall k :: 0 <= k < |nodes| ==> nodes[k].DirNode? ==>
       nodes[k].path == Join(prefix + [nodes[k].name], "/") && Formed(nodes[k].children, prefix + [nodes[k].name])) &&
    (forall j, k :: 0 <= j < k < |nodes| && nodes[j].DirNode? && nodes[k].DirNode? ==> nodes[j].name != nodes[k].name)
  }

  lemma {:induction false} InsertFileFormed(nodes: seq<TreeNode>, parts: seq<string>, i: nat, f: RepoFile)
    requires i < |parts| && parts == Split(f.path, '/')
    requires Formed(nodes, parts[..i])
    ensures Formed(InsertFile(nodes, parts, i, f), parts[..i])
    decreases |parts| - i
  {
    if i == |parts| - 1 {
      FormedAppend(nodes, parts[..i], FileLeaf(parts[i], f.path, f.sha, f.size));
    } else {
      assert parts[..i] + [parts[i]] == parts[..i + 1];
      match FindDir(nodes, parts[i])
      case None =>
        InsertFileFormed([], parts, i + 1, f);
        FormedAppend(nodes, parts[..i], DirNode(parts[i], Join(parts[..i + 1], "/"), InsertFile([], parts, i + 1, f)));
      case Some(k) =>
        InsertFileFormed(nodes[k].children, parts, i + 1, f);
        FormedReplace(nodes, parts[..i], k, InsertFile(nodes[k].children, parts, i + 1, f));
    }
  }

  /** A leaf named by its path's last segment, or a formed directory whose
      name no sibling directory has, keeps a list formed when appended. */
  lemma FormedAppend(nodes: seq<TreeNode>, prefix: seq<string>, x: TreeNode)
    requires Formed(nodes, prefix)
    requires x.FileLeaf? ==> x.name == Last(Split(x.path, '/'))
    requires x.DirNode? ==>
      x.path == Join(prefix + [x.name], "/") && Formed(x.children, prefix + [x.name]) &&
      forall k :: 0 <= k < |nodes| ==> !(nodes[k].DirNode? && nodes[k].name == x.name)
    ensures Formed(nodes + [x], prefix)
  {
    var r := nodes + [x];
    assert forall k :: 0 <= k < |nodes| ==> r[k] == nodes[k];
    assert r[|nodes|] == x;
  }

  /** New formed children for a directory keep its list formed. */
  lemma FormedReplace(nodes: seq<TreeNode>, prefix: seq<string>, k: nat, ch: seq<TreeNode>)
    requires Formed(nodes, prefix) && k < |nodes| && nodes[k].DirNode?
    requires Formed(ch, prefix + [nodes[k].name])
    ensures Formed(nodes[k := DirNode(nodes[k].name, nodes[k].path, ch)], prefix)
  {
    var r := nodes[k := DirNode(nodes[k].name, nodes[k].path, ch)];
    assert forall m :: 0 <= m < |nodes| ==> r[m].name == nodes[m].name && r[m].DirNode? == nodes[m].DirNode?;
  }

  /** Before sorting, the tree is formed under the root. */
  lemma {:induction false} GrowFormed(files: seq<RepoFile>)
    ensures Formed(Grow(files), [])
    decreases |files|
  {
    if |files| > 0 {
      var f := files[|files| - 1];
      GrowFormed(files[..|files| - 1]);
      assert Split(f.path, '/')[..0] == [];
      InsertFileFormed(Grow(files[..|files| - 1]), Split(f.path, '/'), 0, f);
    }
  }

  /** Sorting keeps the tree formed: every level keeps its nodes, only
      reordered, and sorting a directory's children keeps them formed. */
  lemma {:induction false} SortTreeFormed(nodes: seq<TreeNode>, prefix: seq<string>)
    requires Formed(nodes, prefix)
    ensures Formed(SortTree(nodes), prefix)
    decreases nodes, 1
  {
    SortEachFormed(nodes, prefix);
    PrecedesOrder();
    SortBySpec(SortEach(nodes), PrecedesFn());
    FormedPermutation(SortEach(nodes), SortTree(nodes), prefix);
  }

  lemma {:induction false} SortEachFormed(nodes: seq<TreeNode>, prefix: seq<string>)
    requires Formed(nodes, prefix)
    ensures Formed(SortEach(nodes), prefix)
    decreases nodes, 0
  {
    var r := SortEach(nodes);
    forall k | 0 <= k < |nodes| && nodes[k].DirNode?
      ensures r[k] == DirNode(nodes[k].name, nodes[k].path, SortTree(nodes[k].children))
      ensures Formed(r[k].children, prefix + [nodes[k].name])
    {
      SortTreeFormed(nodes[k].children, prefix + [nodes[k].name]);
    }
  }

  /** A reordering of a formed list is formed. */
  lemma FormedPermutation(a: seq<TreeNode>, b: seq<TreeNode>, prefix: seq<string>)
    requires Formed(a, prefix) && multiset(a) == multiset(b)
    ensures Formed(b, prefix)
  {
    forall k | 0 <= k < |b|
      ensures b[k].FileLeaf? ==> b[k].name == Last(Split(b[k].path, '/'))
      ensures b[k].DirNode? ==>
        b[k].path == Join(prefix + [b[k].name], "/") && Formed(b[k].children, prefix + [b[k].name])
    {
      var i := IndexIn(a, b, k);
    }
    forall j, k | 0 <= j < k < |b| && b[j].DirNode? && b[k].DirNode?
      ensures b[j].name != b[k].name
    {
      PermutedNamesDiffer(a, b, prefix, j, k);
    }
  }

  /** An element of a reordering sits somewhere in the original. */
  lemma IndexIn<T>(a: seq<T>, b: seq<T>, k: nat) returns (i: nat)
    requires multiset(a) == multiset(b) && k < |b|
    ensures i < |a| && a[i] == b[k]
  {
    assert b[k] in multiset(a);
    i :| 0 <= i < |a| && a[i] == b[k];
  }

  lemma PermutedNamesDiffer(a: seq<TreeNode>, b: seq<TreeNode>, prefix: seq<string>, j: nat, k: nat)
    requires Formed(a, prefix) && multiset(a) == multiset(b)
    requires j < k < |b| && b[j].DirNode? && b[k].DirNode?
    ensures b[j].name != b[k].name
  {
    if b[j] == b[k] {
      CountedTwice(b, j, k);
      var i, l := TwoIndices(a, b[j]);
    } else {
      var i := IndexIn(a, b, j);
      var l := IndexIn(a, b, k);
      assert i != l;
    }
  }

  /** An item at two positions is counted twice. */
  lemma CountedTwice<T>(s: seq<T>, j: nat, k: nat)
    requires j < k < |s| && s[j] == s[k]
    ensures multiset(s)[s[j]] >= 2
  {
    assert s == s[..j] + [s[j]] + s[j + 1..k] + [s[k]] + s[k + 1..];
  }

  /** An item counted twice sits at two positions. */
  lemma {:induction false} TwoIndices<T>(s: seq<T>, x: T) returns (i: nat, l: nat)
    requires multiset(s)[x] >= 2
    ensures i < l < |s| && s[i] == x && s[l] == x
    decreases |s|
  {
    var n := |s| - 1;
    assert s == s[..n] + [s[n]];
    if s[n] == x {
      assert x in multiset(s[..n]);
      i :| 0 <= i < n && s[..n][i] == x;
      l := n;
    } else {
      i, l := TwoIndices(s[..n], x);
    }
  }

  // ---------------------------------------------------------------------
  // Preview
  // ---------------------------------------------------------------------

  /** The text of a file: the editor's for the selected file, else the
      cached one or "". */
  function ContentOf(path: string, selectedPath: Option<string>, editorContent: string, cache: map<string, string>): string {
    if Some(path) == selectedPath then editorContent else if path in cache then cache[path] else ""
  }

  /** The first path of `paths` that is an HTML file. */
  function FirstHtml(paths: seq<string>): (r: Option<string>)
    ensures r.Some? ==> IsHtmlFile(r)
    ensures r.Some? ==>
      exists j :: 0 <= j < |paths| && paths[j] == r.value && forall k :: 0 <= k < j ==> !IsHtmlFile(Some(paths[k]))
    ensures r.None? ==> forall k :: 0 <= k < |paths| ==> !IsHtmlFile(Some(paths[k]))
    decreases |paths|
  {
    if |paths| == 0 then None
    else if IsHtmlFile(Some(paths[0])) then Some(paths[0])
    else FirstHtml(paths[1..])
  }

  /** The page shown: the selected file if it is HTML, else the first HTML
      file of the listing. */
  function HtmlPath(selectedPath: Option<string>, files: Option<seq<string>>): Option<string> {
    if IsHtmlFile(selectedPath) then selectedPath
    else if files.None? then None
    else FirstHtml(files.value)
  }

  /** A CSS file whose text is not empty. */
  predicate Styled(path: string, selectedPath: Option<string>, editorContent: string, cache: map<string, string>) {
    IsCssFile(Some(path)) && ContentOf(path, selectedPath, editorContent, cache) != ""
  }

  /** The non-empty contents of the CSS files, in listing order. */
  function CssContents(paths: seq<string>, selectedPath: Option<string>, editorContent: string, cache: map<string, string>): seq<string>
    decreases |paths|
  {
    if |paths| == 0 then []
    else
      var p := paths[|paths| - 1];
      CssContents(paths[..|paths| - 1], selectedPath, editorContent, cache) +
      (if Styled(p, selectedPath, editorContent, cache) then [ContentOf(p, selectedPath, editorContent, cache)] else [])
  }

  function BaseTag(liveUrl: Option<string>): string {
    if liveUrl.Some? && liveUrl.value != "" then "<base href=\"" + liveUrl.value + "/\" target=\"_blank\">" else ""
  }

  function InlineStyle(css: seq<string>): string {
    if |css| > 0 then "<style data-linkmap-preview>\n" + Join(css, "\n") + "\n</style>" else ""
  }

  /** `[baseTag, inlineStyle].filter(Boolean).join('\n')` */
  function Injected(baseTag: string, inlineStyle: string): string {
    if baseTag != "" && inlineStyle != "" then baseTag + "\n" + inlineStyle
    else if baseTag != "" then baseTag
    else inlineStyle
  }

  /** Where the tags go into the page. */
  function Inject(html: string, injected: string): string {
    if html == "" then ""
    else if Contains(html, "<head>") then ReplaceFirst(html, "<head>", "<head>\n" + injected)
    else if Contains(html, "</head>") then ReplaceFirst(html, "</head>", injected + "\n</head>")
    else injected + "\n" + html
  }

  /** The `previewHtml` memo. */
  function PreviewHtml(selectedPath: Option<string>, files: Option<seq<string>>, editorContent: string,
                       cache: map<string, string>, liveUrl: Option<string>): string {
    var htmlPath := HtmlPath(selectedPath, files);
    var html := if htmlPath.Some? then ContentOf(htmlPath.value, selectedPath, editorContent, cache) else "";
    var css := if files.Some? then CssContents(files.value, selectedPath, editorContent, cache) else [];
    Inject(html, Injected(BaseTag(liveUrl), InlineStyle(css)))
  }

  /** `sub` occurs at i and nowhere before. */
  predicate FirstAt(s: string, sub: string, i: nat) {
    OccursAt(s, sub, i) && forall j :: 0 <= j < i ==> !OccursAt(s, sub, j)
  }

  /** With a "<head>" in the page, the tags go right after its first
      occurrence; `$$`, `$&`, `` $` `` and `$'` in the tags are expanded as
      a string replacement does, and tags without `$` go in unchanged. */
  lemma InjectAfterHead(html: string, injected: string)
    requires html != "" && Contains(html, "<head>")
    ensures IndexOf(html, "<head>").Some?
    ensures var i := IndexOf(html, "<head>").value;
      (FirstAt(html, "<head>", i) && i + 6 <= |html| &&
       Inject(html, injected) ==
         html[..i] + "<head>\n" + Substitute(injected, "<head>", html[..i], html[i + 6..]) + html[i + 6..] &&
       ('$' !in injected ==> Inject(html, injected) == html[..i] + ("<head>\n" + injected) + html[i + 6..]))
  {
    var head := "<head>\n";
    assert '$' !in head;
    ReplaceAfterHead(html, "<head>", head, injected);
  }

  /** Without "<head>" but with "</head>", the tags go right before the
      first "</head>", expanded the same way; with neither they go in
      front verbatim; an empty page stays empty. */
  lemma InjectBeforeCloseHead(html: string, injected: string)
    ensures html == "" ==> Inject(html, injected) == ""
    ensures html != "" && !Contains(html, "<head>") && !Contains(html, "</head>") ==>
      Inject(html, injected) == injected + "\n" + html
    ensures html != "" && !Contains(html, "<head>") && Contains(html, "</head>") ==>
      (IndexOf(html, "</head>").Some? &&
       var i := IndexOf(html, "</head>").value;
       (FirstAt(html, "</head>", i) && i + 7 <= |html| &&
        Inject(html, injected) ==
          html[..i] + Substitute(injected, "</head>", html[..i], html[i + 7..]) + "\n</head>" + html[i + 7..] &&
        ('$' !in injected ==> Inject(html, injected) == html[..i] + (injected + "\n</head>") + html[i + 7..])))
  {
    if html != "" && !Contains(html, "<head>") && Contains(html, "</head>") {
      assert Inject(html, injected) == ReplaceFirst(html, "</head>", injected + "\n</head>");
      CloseHeadReplace(html, injected);
    }
  }

  lemma CloseHeadReplace(html: string, injected: string)
    requires Contains(html, "</head>")
    ensures IndexOf(html, "</head>").Some?
    ensures var i := IndexOf(html, "</head>").value;
      FirstAt(html, "</head>", i) && i + 7 <= |html| &&
      ReplaceFirst(html, "</head>", injected + "\n</head>") ==
        html[..i] + Substitute(injected, "</head>", html[..i], html[i + 7..]) + "\n</head>" + html[i + 7..] &&
      ('$' !in injected ==>
        ReplaceFirst(html, "</head>", injected + "\n</head>") == html[..i] + (injected + "\n</head>") + html[i + 7..])
  {
    var tail := "\n</head>";
    assert tail[0] == '\n' && '$' !in tail;
    ReplaceBeforeTail(html, "</head>", injected, tail);
  }

  /** Replacing the first `sub` by a plain head followed by `a`: the head
      goes in as it is. */
  lemma ReplaceAfterHead(s: string, sub: string, head: string, a: string)
    requires Contains(s, sub)
    requires '$' !in head
    ensures IndexOf(s, sub).Some?
    ensures var i := IndexOf(s, sub).value;
      FirstAt(s, sub, i) && i + |sub| <= |s| &&
      ReplaceFirst(s, sub, head + a) == s[..i] + head + Substitute(a, sub, s[..i], s[i + |sub|..]) + s[i + |sub|..] &&
      ('$' !in a ==> ReplaceFirst(s, sub, head + a) == s[..i] + (head + a) + s[i + |sub|..])
  {
    FirstOccurrence(s, sub, head + a);
    var i := IndexOf(s, sub).value;
    var before, after := s[..i], s[i + |sub|..];
    SubstitutePlainHead(head, a, sub, before, after);
    var x := Substitute(a, sub, before, after);
    assert ReplaceFirst(s, sub, head + a) == before + (head + x) + after;
    Regroup4(before, head, x, after);
    if '$' !in a {
      SubstitutePlain(a, sub, before, after);
    }
  }

  /** Replacing the first `sub` by `a` followed by a plain tail: the tail
      goes in as it is. */
  lemma ReplaceBeforeTail(s: string, sub: string, a: string, tail: string)
    requires Contains(s, sub)
    requires '$' !in tail && |tail| > 0 && !IsPatternChar(tail[0])
    ensures IndexOf(s, sub).Some?
    ensures var i := IndexOf(s, sub).value;
      FirstAt(s, sub, i) && i + |sub| <= |s| &&
      ReplaceFirst(s, sub, a + tail) == s[..i] + Substitute(a, sub, s[..i], s[i + |sub|..]) + tail + s[i + |sub|..] &&
      ('$' !in a ==> ReplaceFirst(s, sub, a + tail) == s[..i] + (a + tail) + s[i + |sub|..])
  {
    FirstOccurrence(s, sub, a + tail);
    var i := IndexOf(s, sub).value;
    var before, after := s[..i], s[i + |sub|..];
    SubstitutePlainTail(a, tail, sub, before, after);
    var x := Substitute(a, sub, before, after);
    assert ReplaceFirst(s, sub, a + tail) == before + (x + tail) + after;
    Regroup4(before, x, tail, after);
    if '$' !in a {
      SubstitutePlain(a, sub, before, after);
    }
  }

  lemma Regroup4(p: string, x: string, t: string, r: string)
    ensures p + (x + t) + r == p + x + t + r
  {
  }

  /** A `$'` in the tags copies the rest of the page after "<head>". */
  lemma InjectDollarQuote(rest: string)
    ensures Inject("<head>" + rest, "$'") == "<head>\n" + rest + rest
  {
    var h := "<head>" + rest;
    assert OccursAt(h, "<head>", 0) by { assert h[..6] == "<head>"; }
    ContainsAt(h, "<head>", 0);
    InjectAfterHead(h, "$'");
    var i := IndexOf(h, "<head>").value;
    assert i == 0;
    assert h[..0] == "" && h[6..] == rest;
    var rep: string := "$'";
    assert rep[0] == '$' && IsPatternChar(rep[1]) && rep[2..] == [];
    assert Substitute(rep, "<head>", "", rest) == rest + Substitute([], "<head>", "", rest);
  }

  /** A `$$` in the tags becomes one `$`. */
  lemma InjectDollarDollar()
    ensures Inject("<head>", "a$$b") == "<head>\na$b"
  {
    var g := "<head>";
    assert StartsWith(g, "<head>") by { assert g[..6] == "<head>"; }
    assert IndexOf(g, "<head>") == Some(0);
    ContainsAt(g, "<head>", 0);
    assert g[..0] == "" && g[6..] == "";
    var rep := "<head>\n" + "a$$b";
    assert Inject(g, "a$$b") == ReplaceFirst(g, "<head>", rep);
    assert rep == "<head>\na" + "$$b";
    SubstitutePlainHead("<head>\na", "$$b", "<head>", "", "");
    assert Substitute("$$b", "<head>", "", "") == "$b";
    assert ReplaceFirst(g, "<head>", rep) == "" + Substitute(rep, "<head>", "", "") + "";
  }

  /** `IndexOf` gives the first occurrence, and `ReplaceFirst` replaces it
      with the expanded replacement. */
  lemma FirstOccurrence(s: string, sub: string, rep: string)
    requires Contains(s, sub)
    ensures IndexOf(s, sub).Some?
    ensures var i := IndexOf(s, sub).value;
      (FirstAt(s, sub, i) && i + |sub| <= |s| &&
       ReplaceFirst(s, sub, rep) == s[..i] + Substitute(rep, sub, s[..i], s[i + |sub|..]) + s[i + |sub|..])
  {
    FirstAtIndexOf(s, sub);
    ReplaceFirstAt(s, sub, rep, IndexOf(s, sub).value);
  }

  lemma ReplaceFirstAt(s: string, sub: string, rep: string, i: nat)
    requires IndexOf(s, sub) == Some(i) && i + |sub| <= |s|
    ensures ReplaceFirst(s, sub, rep) == s[..i] + Substitute(rep, sub, s[..i], s[i + |sub|..]) + s[i + |sub|..]
  {
  }

  lemma FirstAtIndexOf(s: string, sub: string)
    requires Contains(s, sub)
    ensures IndexOf(s, sub).Some?
    ensures FirstAt(s, sub, IndexOf(s, sub).value) && IndexOf(s, sub).value + |sub| <= |s|
  {
    IndexOfFound(s, sub);
    forall j | 0 <= j < IndexOf(s, sub).value ensures !OccursAt(s, sub, j) {
      IndexOfFirst(s, sub, j);
    }
  }

  lemma {:induction false} CssContentsSpec(paths: seq<string>, selectedPath: Option<string>, editorContent: string, cache: map<string, string>)
    ensures |CssContents(paths, selectedPath, editorContent, cache)| > 0 <==>
      exists k :: 0 <= k < |paths| && Styled(paths[k], selectedPath, editorContent, cache)
    decreases |paths|
  {
    if |paths| > 0 {
      var n := |paths|;
      var p := paths[..n - 1];
      CssContentsSpec(p, selectedPath, editorContent, cache);
      var last := paths[n - 1];
      var own := if Styled(last, selectedPath, editorContent, cache) then [ContentOf(last, selectedPath, editorContent, cache)] else [];
      assert CssContents(paths, selectedPath, editorContent, cache) == CssContents(p, selectedPath, editorContent, cache) + own;
      if Styled(last, selectedPath, editorContent, cache) {
        assert |own| == 1;
      } else {
        assert own == [];
        assert forall k :: 0 <= k < n - 1 ==> paths[k] == p[k];
      }
    }
  }

  /** The base tag is injected iff the live URL is set, the style block iff
      some CSS file of the listing has non-empty content, separated by a
      newline when both are. */
  lemma InjectedParts(liveUrl: Option<string>, files: seq<string>, selectedPath: Option<string>,
                      editorContent: string, cache: map<string, string>)
    ensures var base := BaseTag(liveUrl);
      var style := InlineStyle(CssContents(files, selectedPath, editorContent, cache));
      (base != "" <==> liveUrl.Some? && liveUrl.value != "") &&
      (style != "" <==> exists k :: 0 <= k < |files| && Styled(files[k], selectedPath, editorContent, cache)) &&
      Injected(base, style) == (if base != "" && style != "" then base + "\n" + style else base + style)
  {
    CssContentsSpec(files, selectedPath, editorContent, cache);
  }
}

=== FILE: site_state.dfy ===
/** The module configuration of a generated site and the template schema it
    is built from (the `ModuleConfigState` / `TemplateModuleSchema` shapes the
    code generator, the module panel and the module form share). Field values
    are untyped in the source, so they are modelled as JSON-like values. */
module SiteState {
  import opened Text

  /** An untyped field value (`unknown` in the source). */
  datatype Value =
    | Null
    | Bool(b: bool)
    | Num(n: int)
    | Str(s: string)
    | List(elems: seq<Value>)
    | Obj(fields: map<string, Value>)

  /** JavaScript truthiness. */
  predicate Truthy(v: Value) {
    match v
    case Null => false
    case Bool(b) => b
    case Num(n) => n != 0
    case Str(s) => s != ""
    case _ => true
  }

  /** Per-module field values, keyed by module id and then by field key. */
  type Values = map<string, map<string, Value>>

  datatype ModuleConfigState = ModuleConfigState(
    values: Values,
    enabled: seq<string>,
    order: seq<string>)

  datatype FieldDef = FieldDef(key: string, defaultValue: Value)

  datatype ModuleDef = ModuleDef(
    id: string,
    fields: seq<FieldDef>,
    defaultEnabled: bool,
    required: bool)

  datatype Schema = Schema(
    templateSlug: string,
    modules: seq<ModuleDef>,
    defaultOrder: seq<string>)

  /** `state.values[id] || {}` */
  function ModuleValues(values: Values, id: string): map<string, Value> {
    if id in values then values[id] else map[]
  }

  /** `m[key]` read as a value; an absent key reads as undefined, which the
      generator treats exactly like `null`. */
  function Get(m: map<string, Value>, key: string): Value {
    if key in m then m[key] else Null
  }

  /** `(m[key] as string) || dflt` where the result is then passed to `esc`:
      None when the value is truthy but not a string (esc would throw). */
  function StrOr(m: map<string, Value>, key: string, dflt: string): (r: Option<string>)
    ensures !Truthy(Get(m, key)) ==> r == Some(dflt)
    ensures Get(m, key).Str? && Get(m, key).s != "" ==> r == Some(Get(m, key).s)
    ensures Truthy(Get(m, key)) && !Get(m, key).Str? ==> r.None?
  {
    var v := Get(m, key);
    if !Truthy(v) then Some(dflt)
    else if v.Str? then Some(v.s)
    else None
  }

  /** `(item as Record<string, string>).key || dflt` for an array element;
      reading a property of `null` throws, and primitives have no such field. */
  function ItemStrOr(item: Value, key: string, dflt: string): Option<string> {
    match item
    case Null => None
    case Obj(f) => StrOr(f, key, dflt)
    case _ => Some(dflt)
  }

  /** `v.key ? <text of esc(v.key)> : ''` for an array element: Some(None) when
      the field is falsy, Some(Some(s)) for a non-empty string. */
  function ItemOptStr(item: Value, key: string): Option<Option<string>> {
    match item
    case Null => None
    case Obj(f) =>
      var v := Get(f, key);
      if !Truthy(v) then Some(None)
      else if v.Str? then Some(Some(v.s))
      else None
    case _ => Some(None)
  }

  /** `(m[key] as unknown[]) || []` */
  function ItemsOr(m: map<string, Value>, key: string): Value {
    var v := Get(m, key);
    if Truthy(v) then v else List([])
  }
}

=== FILE: system_status.dfy ===
/** The dashboard's overall system status
    (`computeSystemStatus` in src/components/dashboard/system-status-badge.tsx):
    the latest health check of each service card, summarised. */
module SystemStatus {
  import opened Text

  datatype CheckStatus = Healthy | Unhealthy | Degraded | UnknownCheck

  datatype Status = Operational | DegradedService | MajorOutage | Unknown

  /** The latest check status of each card's project service, if any. */
  function Statuses(cards: seq<string>, checks: map<string, CheckStatus>): (r: seq<Option<CheckStatus>>)
    ensures |r| == |cards|
    ensures forall k :: 0 <= k < |cards| ==> (r[k].Some? <==> cards[k] in checks)
    ensures forall k :: 0 <= k < |cards| && cards[k] in checks ==> r[k] == Some(checks[cards[k]])
  {
    seq(|cards|, k requires 0 <= k < |cards| => if cards[k] in checks then Some(checks[cards[k]]) else None)
  }

  function IsStatus(c: CheckStatus): Option<CheckStatus> -> bool {
    (s: Option<CheckStatus>) => s == Some(c)
  }

  function IsChecked(): Option<CheckStatus> -> bool {
    (s: Option<CheckStatus>) => s.Some?
  }

  /** `computeSystemStatus(allCards, healthChecks)`, the cards given by
      their project-service ids. */
  function ComputeSystemStatus(cards: seq<string>, checks: map<string, CheckStatus>): Status {
    if |cards| == 0 then Unknown
    else
      var statuses := Statuses(cards, checks);
      var checked := CountWhere(statuses, IsChecked());
      if checked == 0 then Unknown
      else
        var unhealthy := CountWhere(statuses, IsStatus(Unhealthy));
        var degraded := CountWhere(statuses, IsStatus(Degraded));
        if unhealthy > 0 && 2 * unhealthy >= checked then MajorOutage
        else if unhealthy > 0 || degraded > 0 then DegradedService
        else Operational
  }

  /** Unknown iff there are no cards or none of them has a check; a major
      outage iff some card is unhealthy and at least half of the checked
      ones are; degraded iff otherwise some card is unhealthy or degraded;
      operational iff every checked card is healthy or unknown. */
  lemma ComputeSystemStatusSpec(cards: seq<string>, checks: map<string, CheckStatus>)
    ensures var r := ComputeSystemStatus(cards, checks);
      var statuses := Statuses(cards, checks);
      var checked := CountWhere(statuses, IsChecked());
      var unhealthy := CountWhere(statuses, IsStatus(Unhealthy));
      ((r == Unknown <==> forall k :: 0 <= k < |cards| ==> cards[k] !in checks) &&
       (r == MajorOutage <==> unhealthy > 0 && 2 * unhealthy >= checked) &&
       (r == Operational <==> ((exists k :: 0 <= k < |cards| && cards[k] in checks) &&
          forall k :: 0 <= k < |cards| && cards[k] in checks ==> checks[cards[k]] in {Healthy, UnknownCheck})) &&
       (r == DegradedService <==> (!(unhealthy > 0 && 2 * unhealthy >= checked) &&
          exists k :: 0 <= k < |cards| && cards[k] in checks && checks[cards[k]] in {Unhealthy, Degraded})))
  {
    var statuses := Statuses(cards, checks);
    CountWhereSpec(statuses, IsChecked());
    CountWhereSpec(statuses, IsStatus(Unhealthy));
    CountWhereSpec(statuses, IsStatus(Degraded));
    CountBelow(statuses, IsStatus(Unhealthy), IsChecked());
    if exists k :: 0 <= k < |cards| && cards[k] in checks && checks[cards[k]] in {Unhealthy, Degraded} {
      var k :| 0 <= k < |cards| && cards[k] in checks && checks[cards[k]] in {Unhealthy, Degraded};
      assert statuses[k] == Some(checks[cards[k]]);
    }
    if exists k :: 0 <= k < |cards| && cards[k] in checks {
      var k :| 0 <= k < |cards| && cards[k] in checks;
      assert IsChecked()(statuses[k]);
    }
    if CountWhere(statuses, IsStatus(Unhealthy)) == 0 && CountWhere(statuses, IsStatus(Degraded)) == 0 {
      forall k | 0 <= k < |cards| && cards[k] in checks
        ensures checks[cards[k]] in {Healthy, UnknownCheck}
      {
        assert statuses[k] == Some(checks[cards[k]]);
        assert !IsStatus(Unhealthy)(statuses[k]) && !IsStatus(Degraded)(statuses[k]);
        assert checks[cards[k]] != Unhealthy;
        assert checks[cards[k]] != Degraded;
      }
    }
  }

  /** Counting a stronger test gives no more than counting a weaker one. */
  lemma {:induction false} CountBelow<T>(xs: seq<T>, p: T -> bool, q: T -> bool)
    requires forall x :: p(x) ==> q(x)
    ensures CountWhere(xs, p) <= CountWhere(xs, q)
    decreases |xs|
  {
    if |xs| > 0 {
      CountBelow(xs[..|xs| - 1], p, q);
    }
  }

  /** Checks of services without a card do not matter. */
  lemma OnlyCardsCount(cards: seq<string>, checks: map<string, CheckStatus>, other: map<string, CheckStatus>)
    requires forall k :: 0 <= k < |cards| ==> (cards[k] in checks <==> cards[k] in other)
    requires forall k :: 0 <= k < |cards| && cards[k] in checks ==> checks[cards[k]] == other[cards[k]]
    ensures ComputeSystemStatus(cards, checks) == ComputeSystemStatus(cards, other)
  {
    assert Statuses(cards, checks) == Statuses(cards, other);
  }
}

=== FILE: template_picker.dfy ===
/** The site-name rules and the card colouring of the template picker
    (src/components/oneclick/template-picker-step.tsx). */
module TemplatePicker {
  import opened Text
  import DeployMachine

  predicate IsAlnum(c: char) {
    'a' <= c <= 'z' || '0' <= c <= '9'
  }

  /** The characters the input keeps: `[a-z0-9-]`. */
  predicate IsNameChar(c: char) {
    IsAlnum(c) || c == '-'
  }

  /** `SITE_NAME_REGEX`, `^[a-z0-9][a-z0-9-]*[a-z0-9]$`: a letter or digit,
      any run of name characters, and a final letter or digit. */
  predicate MatchesSiteName(s: string) {
    |s| >= 2 && IsAlnum(s[0]) && IsAlnum(s[|s| - 1]) &&
    forall k :: 0 < k < |s| - 1 ==> IsNameChar(s[k])
  }

  /** A name the pattern accepts is made of name characters only. */
  lemma MatchesSiteNameChars(s: string)
    requires MatchesSiteName(s)
    ensures |s| >= 2 && forall k :: 0 <= k < |s| ==> IsNameChar(s[k])
  {
  }

  datatype NameError = TooShort | TooLong | BadCharacters

  /** `s.length`, which counts UTF-16 code units. */
  function Length(s: string): nat {
    |Utf16(s)|
  }

  /** A string of name characters has one code unit per character. */
  lemma NameCharsLength(s: string)
    requires forall k :: 0 <= k < |s| ==> IsNameChar(s[k])
    ensures Length(s) == |s|
  {
    Utf16Bmp(s);
  }

  /** `validateSiteName(name)`: the three checks in order. */
  function ValidateSiteName(name: string): Option<NameError> {
    if Length(name) < 2 then Some(TooShort)
    else if Length(name) > 100 then Some(TooLong)
    else if !MatchesSiteName(name) then Some(BadCharacters)
    else None
  }

  /** The message shown for an error. */
  function ErrorMessage(e: NameError, locale: string): string {
    match e
    case TooShort => if locale == "ko" then "최소 2자 이상이어야 합니다" else "Must be at least 2 characters"
    case TooLong => if locale == "ko" then "100자 이하여야 합니다" else "Must be 100 characters or less"
    case BadCharacters =>
      if locale == "ko" then "소문자, 숫자, 하이픈만 사용 가능합니다 (예: my-site-1)"
      else "Only lowercase letters, numbers, and hyphens allowed (e.g., my-site-1)"
  }

  /** A name is accepted exactly when it has 2 to 100 code units and fits
      the pattern; the length checks come before the pattern; an accepted
      name has as many characters as code units. */
  lemma ValidateSiteNameSpec(name: string)
    ensures ValidateSiteName(name).None? <==> 2 <= Length(name) <= 100 && MatchesSiteName(name)
    ensures ValidateSiteName(name) == Some(TooShort) <==> Length(name) < 2
    ensures ValidateSiteName(name) == Some(TooLong) <==> Length(name) > 100
    ensures ValidateSiteName(name) == Some(BadCharacters) <==> 2 <= Length(name) <= 100 && !MatchesSiteName(name)
    ensures ValidateSiteName(name).None? ==> 2 <= |name| <= 100
  {
    if MatchesSiteName(name) {
      MatchesSiteNameChars(name);
      NameCharsLength(name);
    }
  }

  /** `value.toLowerCase().replace(/[^a-z0-9-]/g, '')` */
  function Normalize(value: string): (r: string)
    ensures |r| <= |value|
    ensures forall k :: 0 <= k < |r| ==> IsNameChar(r[k])
    decreases |value|
  {
    if |value| == 0 then []
    else
      var c := LowerChar(value[0]);
      (if IsNameChar(c) then [c] else []) + Normalize(value[1..])
  }

  /** A string of name characters is left as it is, so normalising twice
      is normalising once. */
  lemma {:induction false} NormalizeKeeps(s: string)
    requires forall k :: 0 <= k < |s| ==> IsNameChar(s[k])
    ensures Normalize(s) == s
    decreases |s|
  {
    if |s| > 0 {
      NormalizeKeeps(s[1..]);
    }
  }

  lemma NormalizeIdempotent(value: string)
    ensures Normalize(Normalize(value)) == Normalize(value)
  {
    NormalizeKeeps(Normalize(value));
  }

  /** `handleSiteNameChange(value)`: the stored name and error. */
  function SiteNameChange(value: string): (string, Option<NameError>) {
    var lowered := Normalize(value);
    (lowered, if Length(lowered) >= 2 then ValidateSiteName(lowered) else None)
  }

  /** `canProceed` */
  predicate CanProceed(selectedTemplate: Option<string>, siteName: string, siteNameError: Option<NameError>) {
    selectedTemplate.Some? && selectedTemplate.value != "" && Length(siteName) >= 2 && siteNameError.None?
  }

  /** After typing, short input clears the error; longer input carries the
      validator's verdict; so proceeding implies a name the validator
      accepts. */
  lemma SiteNameChangeSpec(value: string, selectedTemplate: Option<string>)
    ensures var (name, err) := SiteNameChange(value);
      (name == Normalize(value) &&
       (|name| < 2 ==> err.None?) &&
       (|name| >= 2 ==> err == ValidateSiteName(name)) &&
       (CanProceed(selectedTemplate, name, err) <==>
          selectedTemplate.Some? && selectedTemplate.value != "" && ValidateSiteName(name).None?))
  {
    NameCharsLength(Normalize(value));
  }

  /** Typing characters outside the pattern can only lose them: a name the
      user types in pattern form survives unchanged. */
  lemma TypedValidNameKept(value: string)
    requires MatchesSiteName(value)
    ensures SiteNameChange(value).0 == value
  {
    MatchesSiteNameChars(value);
    NormalizeKeeps(value);
  }

  /** The names the deploy machine invents pass the validator. */
  lemma GeneratedNameValid(name: string)
    requires |name| == 12 && name[..8] == "my-site-"
    requires forall k :: 8 <= k < 12 ==> DeployMachine.IsSiteNameChar(name[k])
    ensures ValidateSiteName(name).None?
  {
    forall k | 0 <= k < 8 ensures IsNameChar(name[k]) {
      assert name[k] == "my-site-"[k];
    }
    NameCharsLength(name);
    assert name[0] == "my-site-"[0];
    forall k | 0 < k < 8 ensures IsNameChar(name[k]) {
      assert name[k] == "my-site-"[k];
    }
  }

  /** `TEMPLATE_COLORS`, in declaration order. */
  const TemplateColors: seq<(string, string)> := [
    ("link-in-bio", "from-pink-500/10 to-purple-500/10 border-pink-200 dark:border-pink-800"),
    ("professional", "from-blue-500/10 to-cyan-500/10 border-blue-200 dark:border-blue-800"),
    ("business", "from-amber-500/10 to-orange-500/10 border-amber-200 dark:border-amber-800"),
    ("community", "from-green-500/10 to-emerald-500/10 border-green-200 dark:border-green-800")
  ]

  const DefaultGradient := "from-primary/5 to-primary/10 border-border"

  /** `tags.some((t) => t.includes(key))` */
  predicate SomeTagHas(tags: seq<string>, key: string) {
    exists t :: t in tags && Contains(t, key)
  }

  /** The loop of `getTemplateGradient` from entry i on. */
  function GradientFrom(entries: seq<(string, string)>, tags: seq<string>, i: nat): (r: string)
    requires i <= |entries|
    decreases |entries| - i
  {
    if i == |entries| then DefaultGradient
    else if SomeTagHas(tags, entries[i].0) then entries[i].1
    else GradientFrom(entries, tags, i + 1)
  }

  /** `getTemplateGradient(tags)` */
  function TemplateGradient(tags: seq<string>): string {
    GradientFrom(TemplateColors, tags, 0)
  }

  /** The result is the colour of the first entry, from i on, whose key
      occurs in some tag, or the default when none does. */
  lemma {:induction false} GradientFromSpec(entries: seq<(string, string)>, tags: seq<string>, i: nat)
    requires i <= |entries|
    ensures (exists k :: i <= k < |entries| && SomeTagHas(tags, entries[k].0)) ==>
      exists k :: (i <= k < |entries| && SomeTagHas(tags, entries[k].0) &&
        (forall j :: i <= j < k ==> !SomeTagHas(tags, entries[j].0)) &&
        GradientFrom(entries, tags, i) == entries[k].1)
    ensures (forall k :: i <= k < |entries| ==> !SomeTagHas(tags, entries[k].0)) ==>
      GradientFrom(entries, tags, i) == DefaultGradient
    decreases |entries| - i
  {
    if i == |entries| {
    } else if SomeTagHas(tags, entries[i].0) {
      assert GradientFrom(entries, tags, i) == entries[i].1;
    } else {
      assert GradientFrom(entries, tags, i) == GradientFrom(entries, tags, i + 1);
      GradientFromSpec(entries, tags, i + 1);
      if exists k :: i <= k < |entries| && SomeTagHas(tags, entries[k].0) {
        var k0 :| i <= k0 < |entries| && SomeTagHas(tags, entries[k0].0);
        assert i + 1 <= k0;
        var k :| i + 1 <= k < |entries| && SomeTagHas(tags, entries[k].0) &&
          (forall j :: i + 1 <= j < k ==> !SomeTagHas(tags, entries[j].0)) &&
          GradientFrom(entries, tags, i + 1) == entries[k].1;
        assert forall j :: i <= j < k ==> !SomeTagHas(tags, entries[j].0);
      }
    }
  }

  /** No tags give the default gradient; a tag naming "community" alone
      gets the community colours. */
  lemma TemplateGradientExamples()
    ensures TemplateGradient([]) == DefaultGradient
    ensures TemplateGradient(["community"]) == TemplateColors[3].1
  {
    CommunityMisses();
    CommunityHits();
    assert GradientFrom(TemplateColors, ["community"], 3) == TemplateColors[3].1;
    assert GradientFrom(TemplateColors, ["community"], 2) == TemplateColors[3].1;
    assert GradientFrom(TemplateColors, ["community"], 1) == TemplateColors[3].1;
    assert GradientFrom(TemplateColors, [], 3) == DefaultGradient;
    assert GradientFrom(TemplateColors, [], 1) == DefaultGradient;
  }

  /** Of the four keys, only "community" occurs in the tag "community". */
  lemma CommunityMisses()
    ensures !SomeTagHas(["community"], TemplateColors[0].0)
    ensures !SomeTagHas(["community"], TemplateColors[1].0)
    ensures !SomeTagHas(["community"], TemplateColors[2].0)
  {
    var t := "community";
    assert t + "" == t;
    NotContainsSkip(t, "", TemplateColors[2].0);
    NotContainsShort("", TemplateColors[2].0);
  }

  lemma CommunityHits()
    ensures SomeTagHas(["community"], TemplateColors[3].0)
  {
    var t := "community";
    assert OccursAt(t, TemplateColors[3].0, 0);
    ContainsAt(t, TemplateColors[3].0, 0);
    assert t in ["community"];
  }
}

=== FILE: text.dfy ===
/** String and sequence helpers shared by the model: JavaScript's string
    operations (includes, startsWith, endsWith, indexOf, replace with a
    literal pattern, split on one character, join, trim, toLowerCase) and
    the Option type that stands for `null`/`undefined`. */
module Text {

  datatype Option<+T> = None | Some(value: T) {
    predicate IsFailure() {
      None?
    }

    function PropagateFailure<U>(): Option<U>
      requires None?
    {
      None
    }

    function Extract(): T
      requires Some?
    {
      value
    }
  }

  predicate StartsWith(s: string, p: string) {
    |p| <= |s| && s[..|p|] == p
  }

  predicate EndsWith(s: string, p: string) {
    |p| <= |s| && s[|s| - |p|..] == p
  }

  /** `sub` occurs in `s` at position k. */
  predicate OccursAt(s: string, sub: string, k: nat) {
    k + |sub| <= |s| && s[k..k + |sub|] == sub
  }

  /** `s.includes(sub)` */
  predicate Contains(s: string, sub: string) {
    exists k: nat :: k <= |s| && OccursAt(s, sub, k)
  }

  lemma ContainsAt(s: string, sub: string, k: nat)
    requires OccursAt(s, sub, k)
    ensures Contains(s, sub)
  {
  }

  /** An occurrence is either at the start or in the rest. */
  lemma ContainsUnfold(s: string, sub: string)
    ensures Contains(s, sub) <==> StartsWith(s, sub) || (|s| > 0 && Contains(s[1..], sub))
  {
    if Contains(s, sub) && !StartsWith(s, sub) {
      var k: nat :| k <= |s| && OccursAt(s, sub, k);
      assert k > 0;
      assert s[1..][k - 1..k - 1 + |sub|] == s[k..k + |sub|];
      assert OccursAt(s[1..], sub, k - 1);
    }
    if StartsWith(s, sub) {
      assert OccursAt(s, sub, 0);
    } else if |s| > 0 && Contains(s[1..], sub) {
      var k: nat :| k <= |s[1..]| && OccursAt(s[1..], sub, k);
      assert s[1..][k..k + |sub|] == s[k + 1..k + 1 + |sub|];
      assert OccursAt(s, sub, k + 1);
    }
  }

  /** A match cannot start inside a prefix that lacks the first character. */
  lemma NotContainsSkip(p: string, q: string, sub: string)
    requires |sub| > 0 && sub[0] !in p
    ensures Contains(p + q, sub) ==> Contains(q, sub)
  {
    if Contains(p + q, sub) {
      var k: nat :| k <= |p + q| && OccursAt(p + q, sub, k);
      assert (p + q)[k] == sub[0];
      forall i | 0 <= i < |p|
        ensures (p + q)[i] != sub[0]
      {
        assert (p + q)[i] == p[i];
      }
      assert k >= |p|;
      assert (p + q)[k..k + |sub|] == q[k - |p|..k - |p| + |sub|];
      assert OccursAt(q, sub, k - |p|);
    }
  }

  lemma NotContainsShort(s: string, sub: string)
    requires |s| < |sub|
    ensures !Contains(s, sub)
  {
  }

  /** `s.indexOf(sub)`, None for -1 */
  function IndexOf(s: string, sub: string): (r: Option<nat>)
    decreases |s|
  {
    if StartsWith(s, sub) then Some(0)
    else if |s| == 0 then None
    else match IndexOf(s[1..], sub)
      case None => None
      case Some(i) => Some(i + 1)
  }

  lemma {:induction false} IndexOfFound(s: string, sub: string)
    ensures IndexOf(s, sub).Some? <==> Contains(s, sub)
    ensures IndexOf(s, sub).Some? ==>
      IndexOf(s, sub).value + |sub| <= |s| &&
      s[IndexOf(s, sub).value..IndexOf(s, sub).value + |sub|] == sub
    decreases |s|
  {
    ContainsUnfold(s, sub);
    if StartsWith(s, sub) {
    } else if |s| > 0 {
      IndexOfFound(s[1..], sub);
      match IndexOf(s[1..], sub)
      case None =>
      case Some(i) =>
        assert s[i + 1..i + 1 + |sub|] == s[1..][i..i + |sub|];
    }
  }

  /** IndexOf finds the first occurrence. */
  lemma {:induction false} IndexOfFirst(s: string, sub: string, j: nat)
    requires IndexOf(s, sub).Some? && j < IndexOf(s, sub).value
    ensures !OccursAt(s, sub, j)
    decreases |s|
  {
    if j > 0 {
      IndexOfFirst(s[1..], sub, j - 1);
      if j + |sub| <= |s| {
        assert s[1..][j - 1..j - 1 + |sub|] == s[j..j + |sub|];
      }
    }
  }

  /** The text a replacement string stands for (GetSubstitution of
      ECMA-262, for a pattern without capture groups): `$$` is `$`, `$&` the
      matched text, `` $` `` the text before the match and `$'` the text
      after it; every other character, a lone `$` included, is kept. */
  function Substitute(rep: string, matched: string, before: string, after: string): string
    decreases |rep|
  {
    if |rep| == 0 then ""
    else if |rep| >= 2 && rep[0] == '$' && IsPatternChar(rep[1]) then
      PatternText(rep[1], matched, before, after) + Substitute(rep[2..], matched, before, after)
    else [rep[0]] + Substitute(rep[1..], matched, before, after)
  }

  /** The characters that make a two-character pattern after `$`. */
  predicate IsPatternChar(c: char) {
    c == '$' || c == '&' || c == '`' || c == '\''
  }

  function PatternText(c: char, matched: string, before: string, after: string): string {
    if c == '$' then "$" else if c == '&' then matched else if c == '`' then before else after
  }

  /** A first character that opens no pattern is copied. */
  lemma SubstituteCopy(rep: string, matched: string, before: string, after: string)
    requires |rep| > 0 && (rep[0] != '$' || |rep| == 1 || !IsPatternChar(rep[1]))
    ensures Substitute(rep, matched, before, after) == [rep[0]] + Substitute(rep[1..], matched, before, after)
  {
  }

  /** A replacement without `$` stands for itself. */
  lemma {:induction false} SubstitutePlain(rep: string, matched: string, before: string, after: string)
    requires '$' !in rep
    ensures Substitute(rep, matched, before, after) == rep
    decreases |rep|
  {
    if |rep| > 0 {
      assert rep[0] in rep;
      assert forall k :: 0 <= k < |rep[1..]| ==> rep[1..][k] in rep;
      SubstitutePlain(rep[1..], matched, before, after);
      assert [rep[0]] + rep[1..] == rep;
    }
  }

  /** A head without `$` is copied, and the rest is substituted. */
  lemma {:induction false} SubstitutePlainHead(a: string, b: string, matched: string, before: string, after: string)
    requires '$' !in a
    ensures Substitute(a + b, matched, before, after) == a + Substitute(b, matched, before, after)
    decreases |a|
  {
    if |a| > 0 {
      var ab := a + b;
      assert a[0] in a && ab[0] == a[0];
      assert ab[1..] == a[1..] + b;
      SubstituteCopy(ab, matched, before, after);
      assert forall k :: 0 <= k < |a[1..]| ==> a[1..][k] in a;
      SubstitutePlainHead(a[1..], b, matched, before, after);
      assert [a[0]] + a[1..] == a;
    } else {
      assert a + b == b;
    }
  }

  /** A tail without `$` that does not start with a character `$` pairs
      with is copied after the substituted head. */
  lemma {:induction false} SubstitutePlainTail(a: string, b: string, matched: string, before: string, after: string)
    requires '$' !in b && |b| > 0 && !IsPatternChar(b[0])
    ensures Substitute(a + b, matched, before, after) == Substitute(a, matched, before, after) + b
    decreases |a|
  {
    var ab := a + b;
    if |a| == 0 {
      assert ab == b;
      SubstitutePlain(b, matched, before, after);
    } else if |a| == 1 {
      SubstituteOneTail(a[0], b, matched, before, after);
      assert a == [a[0]];
    } else if a[0] == '$' && IsPatternChar(a[1]) {
      SubstitutePlainTail(a[2..], b, matched, before, after);
      SubstituteTailPattern(a, b, matched, before, after);
    } else {
      SubstitutePlainTail(a[1..], b, matched, before, after);
      SubstituteTailCopy(a, b, matched, before, after);
    }
  }

  /** One character before a plain tail. */
  lemma SubstituteOneTail(c: char, b: string, matched: string, before: string, after: string)
    requires '$' !in b && |b| > 0 && !IsPatternChar(b[0])
    ensures Substitute([c] + b, matched, before, after) == Substitute([c], matched, before, after) + b
  {
    var ab := [c] + b;
    assert ab[0] == c && ab[1] == b[0] && ab[1..] == b;
    SubstituteCopy(ab, matched, before, after);
    SubstitutePlain(b, matched, before, after);
    assert [c][1..] == [];
    SubstituteCopy([c], matched, before, after);
  }

  /** The tail step after a two-character pattern. */
  lemma SubstituteTailPattern(a: string, b: string, matched: string, before: string, after: string)
    requires |a| >= 2 && a[0] == '$' && IsPatternChar(a[1])
    requires Substitute(a[2..] + b, matched, before, after) == Substitute(a[2..], matched, before, after) + b
    ensures Substitute(a + b, matched, before, after) == Substitute(a, matched, before, after) + b
  {
    var ab := a + b;
    assert ab[2..] == a[2..] + b;
    SubstitutePattern(ab, matched, before, after);
    SubstitutePattern(a, matched, before, after);
    Assoc3(PatternText(a[1], matched, before, after), Substitute(a[2..], matched, before, after), b);
  }

  lemma SubstitutePattern(rep: string, matched: string, before: string, after: string)
    requires |rep| >= 2 && rep[0] == '$' && IsPatternChar(rep[1])
    ensures Substitute(rep, matched, before, after) ==
      PatternText(rep[1], matched, before, after) + Substitute(rep[2..], matched, before, after)
  {
  }

  lemma Assoc3(x: string, y: string, z: string)
    ensures x + (y + z) == (x + y) + z
  {
  }

  /** The tail step after a copied character. */
  lemma SubstituteTailCopy(a: string, b: string, matched: string, before: string, after: string)
    requires |a| >= 2 && !(a[0] == '$' && IsPatternChar(a[1]))
    requires Substitute(a[1..] + b, matched, before, after) == Substitute(a[1..], matched, before, after) + b
    ensures Substitute(a + b, matched, before, after) == Substitute(a, matched, before, after) + b
  {
    var ab := a + b;
    assert ab[1..] == a[1..] + b;
    SubstituteCopy(ab, matched, before, after);
    SubstituteCopy(a, matched, before, after);
    Assoc3([a[0]], Substitute(a[1..], matched, before, after), b);
  }

  /** `s.replace(pat, rep)` with a string pattern: only the first
      occurrence is replaced, by the substituted replacement text. */
  function ReplaceFirst(s: string, pat: string, rep: string): string {
    match IndexOf(s, pat)
    case None => s
    case Some(i) =>
      IndexOfFound(s, pat);
      s[..i] + Substitute(rep, pat, s[..i], s[i + |pat|..]) + s[i + |pat|..]
  }

  function LowerChar(c: char): char {
    if 'A' <= c <= 'Z' then (c as int + 32) as char else c
  }

  /** `s.toLowerCase()` restricted to the ASCII letters. */
  function Lower(s: string): (r: string)
    ensures |r| == |s|
    ensures forall i :: 0 <= i < |s| ==> r[i] == LowerChar(s[i])
  {
    seq(|s|, i requires 0 <= i < |s| => LowerChar(s[i]))
  }

  lemma LowerIdempotent(s: string)
    ensures Lower(Lower(s)) == Lower(s)
  {
  }

  /** The characters `String.prototype.trim` removes (WhiteSpace and LineTerminator). */
  predicate IsSpace(c: char) {
    c == ' ' || c == '\t' || c == '\n' || c == '\r' || c == '\U{000B}' || c == '\U{000C}' ||
    c == '\U{00A0}' || c == '\U{FEFF}' || c == '\U{1680}' || ('\U{2000}' <= c <= '\U{200A}') ||
    c == '\U{2028}' || c == '\U{2029}' || c == '\U{202F}' || c == '\U{205F}' || c == '\U{3000}'
  }

  /** A character `\w` matches. */
  predicate IsWordChar(c: char) {
    'a' <= c <= 'z' || 'A' <= c <= 'Z' || '0' <= c <= '9' || c == '_'
  }

  /** Where the run of word characters starting at i ends. */
  function WordEnd(s: string, i: nat): (r: nat)
    requires i <= |s|
    ensures i <= r <= |s| && forall k :: i <= k < r ==> IsWordChar(s[k])
    ensures r < |s| ==> !IsWordChar(s[r])
    decreases |s| - i
  {
    if i < |s| && IsWordChar(s[i]) then WordEnd(s, i + 1) else i
  }

  function TrimStart(s: string): (r: string)
    ensures |r| <= |s| && r == s[|s| - |r|..]
    ensures |r| > 0 ==> !IsSpace(r[0])
    decreases |s|
  {
    if |s| > 0 && IsSpace(s[0]) then TrimStart(s[1..]) else s
  }

  function TrimEnd(s: string): (r: string)
    ensures |r| <= |s| && r == s[..|r|]
    ensures |r| > 0 ==> !IsSpace(r[|r| - 1])
    decreases |s|
  {
    if |s| > 0 && IsSpace(s[|s| - 1]) then TrimEnd(s[..|s| - 1]) else s
  }

  /** `s.trim()` */
  function Trim(s: string): string {
    TrimEnd(TrimStart(s))
  }

  /** `s.split(c)` for a one-character separator: never empty, and no part holds `c`. */
  function Split(s: string, c: char): (r: seq<string>)
    ensures |r| >= 1
    ensures forall k :: 0 <= k < |r| ==> c !in r[k]
    decreases |s|
  {
    if |s| == 0 then [""]
    else
      var rest := Split(s[1..], c);
      if s[0] == c then [""] + rest
      else [[s[0]] + rest[0]] + rest[1..]
  }

  /** `parts.join(sep)` */
  function Join(parts: seq<string>, sep: string): string
    decreases |parts|
  {
    if |parts| == 0 then ""
    else if |parts| == 1 then parts[0]
    else parts[0] + sep + Join(parts[1..], sep)
  }

  /** Splitting on `c` and joining with `c` gives back the input. */
  lemma {:induction false} JoinSplit(s: string, c: char)
    ensures Join(Split(s, c), [c]) == s
    decreases |s|
  {
    if |s| > 0 {
      JoinSplit(s[1..], c);
      var rest := Split(s[1..], c);
      if s[0] == c {
        assert s == [c] + s[1..];
      } else {
        assert s == [s[0]] + s[1..];
        if |rest| > 1 {
          assert ([[s[0]] + rest[0]] + rest[1..])[1..] == rest[1..];
        }
      }
    }
  }

  /** A string without the separator is one piece. */
  lemma {:induction false} SplitPlain(s: string, c: char)
    requires c !in s
    ensures Split(s, c) == [s]
    decreases |s|
  {
    if |s| > 0 {
      SplitPlain(s[1..], c);
      assert [s[0]] + s[1..] == s;
    }
  }

  /** A separator after a piece without one ends that piece. */
  lemma {:induction false} SplitAt(a: string, b: string, c: char)
    requires c !in a
    ensures Split(a + [c] + b, c) == [a] + Split(b, c)
    decreases |a|
  {
    if |a| > 0 {
      SplitAt(a[1..], b, c);
      assert (a + [c] + b)[1..] == a[1..] + [c] + b;
      assert [a[0]] + a[1..] == a;
    } else {
      assert (a + [c] + b)[1..] == b;
    }
  }

  /** The first occurrence of every element, in first-appearance order
      (`[...new Set(xs)]`). */
  function Distinct<T(==)>(xs: seq<T>): (r: seq<T>)
    decreases |xs|
  {
    if |xs| == 0 then []
    else
      var d := Distinct(xs[..|xs| - 1]);
      if xs[|xs| - 1] in d then d else d + [xs[|xs| - 1]]
  }

  predicate NoDuplicates<T(==)>(xs: seq<T>) {
    forall i, j :: 0 <= i < j < |xs| ==> xs[i] != xs[j]
  }

  lemma MultisetSnoc<T>(s: seq<T>)
    requires |s| > 0
    ensures multiset(s) == multiset(s[..|s| - 1]) + multiset{s[|s| - 1]}
  {
    assert s == s[..|s| - 1] + [s[|s| - 1]];
  }

  lemma WholePrefix<T>(s: seq<T>)
    ensures s[..|s|] == s
  {
  }

  /** Without duplicates, the last item is not among the others, and
      they have no duplicates either. */
  lemma NoDuplicatesInit<T>(xs: seq<T>)
    requires |xs| > 0 && NoDuplicates(xs)
    ensures xs[|xs| - 1] !in xs[..|xs| - 1] && NoDuplicates(xs[..|xs| - 1])
  {
  }

  lemma NoDuplicatesAppend<T>(a: seq<T>, b: seq<T>)
    requires NoDuplicates(a) && NoDuplicates(b)
    requires forall x :: x in a ==> x !in b
    ensures NoDuplicates(a + b)
  {
    var c := a + b;
    forall i, j | 0 <= i < j < |c| ensures c[i] != c[j] {
      if j < |a| {
        assert c[i] == a[i] && c[j] == a[j];
      } else if i >= |a| {
        assert c[i] == b[i - |a|] && c[j] == b[j - |a|];
      } else {
        assert c[i] == a[i] && c[j] == b[j - |a|];
        assert a[i] in a && b[j - |a|] in b;
      }
    }
  }

  lemma {:induction false} DistinctSpec<T>(xs: seq<T>)
    ensures NoDuplicates(Distinct(xs))
    ensures forall x :: x in Distinct(xs) <==> x in xs
    decreases |xs|
  {
    if |xs| > 0 {
      DistinctSpec(xs[..|xs| - 1]);
      assert xs == xs[..|xs| - 1] + [xs[|xs| - 1]];
    }
  }

  /** On a list without repeats, keeping first occurrences changes nothing. */
  lemma {:induction false} DistinctOfNoDuplicates<T>(xs: seq<T>)
    requires NoDuplicates(xs)
    ensures Distinct(xs) == xs
    decreases |xs|
  {
    if |xs| > 0 {
      var prefix := xs[..|xs| - 1];
      assert NoDuplicates(prefix);
      DistinctOfNoDuplicates(prefix);
      assert xs[|xs| - 1] !in prefix;
      assert xs == prefix + [xs[|xs| - 1]];
    }
  }

  lemma DistinctElement<T>(xs: seq<T>, k: nat)
    requires k < |Distinct(xs)|
    ensures Distinct(xs)[k] in xs
  {
    DistinctSpec(xs);
    var y := Distinct(xs)[k];
    assert y in Distinct(xs);
  }

  /** More than one distinct element iff two entries differ (`new Set(xs).size > 1`). */
  lemma DistinctMany<T>(xs: seq<T>)
    ensures |Distinct(xs)| > 1 <==> exists i, j :: 0 <= i < |xs| && 0 <= j < |xs| && xs[i] != xs[j]
  {
    DistinctSpec(xs);
    if |Distinct(xs)| > 1 {
      var a, b := Distinct(xs)[0], Distinct(xs)[1];
      DistinctElement(xs, 0);
      DistinctElement(xs, 1);
      var i :| 0 <= i < |xs| && xs[i] == a;
      var j :| 0 <= j < |xs| && xs[j] == b;
    }
    if exists i, j :: 0 <= i < |xs| && 0 <= j < |xs| && xs[i] != xs[j] {
      var i, j :| 0 <= i < |xs| && 0 <= j < |xs| && xs[i] != xs[j];
      assert xs[i] in Distinct(xs) && xs[j] in Distinct(xs);
    }
  }

  /** `xs.filter(p).length` */
  function CountWhere<T>(xs: seq<T>, p: T -> bool): (r: nat)
    ensures r <= |xs|
    decreases |xs|
  {
    if |xs| == 0 then 0 else CountWhere(xs[..|xs| - 1], p) + (if p(xs[|xs| - 1]) then 1 else 0)
  }

  /** Some element passes iff the count is positive; all pass iff the count
      is the length. */
  lemma {:induction false} CountWhereSpec<T>(xs: seq<T>, p: T -> bool)
    ensures CountWhere(xs, p) > 0 <==> exists i :: 0 <= i < |xs| && p(xs[i])
    ensures CountWhere(xs, p) == |xs| <==> forall i :: 0 <= i < |xs| ==> p(xs[i])
    decreases |xs|
  {
    if |xs| > 0 {
      var q := xs[..|xs| - 1];
      CountWhereSpec(q, p);
      if exists i :: 0 <= i < |q| && p(q[i]) {
        var i :| 0 <= i < |q| && p(q[i]);
        assert xs[i] == q[i];
      }
      if !(forall i :: 0 <= i < |q| ==> p(q[i])) {
        var i :| 0 <= i < |q| && !p(q[i]);
        assert xs[i] == q[i];
      }
    }
  }

  /** `xs.filter(p)` */
  function Filter<T>(xs: seq<T>, p: T -> bool): (r: seq<T>)
    ensures |r| == CountWhere(xs, p)
    decreases |xs|
  {
    if |xs| == 0 then [] else Filter(xs[..|xs| - 1], p) + (if p(xs[|xs| - 1]) then [xs[|xs| - 1]] else [])
  }

  /** The filter keeps exactly the passing elements; `FilterOrder` states
      their order. */
  lemma {:induction false} FilterSpec<T>(xs: seq<T>, p: T -> bool)
    ensures forall x :: x in Filter(xs, p) <==> x in xs && p(x)
    ensures (forall i :: 0 <= i < |xs| ==> p(xs[i])) ==> Filter(xs, p) == xs
  {
    FilterMembers(xs, p);
    FilterAllPass(xs, p);
  }

  /** Filtering a list without repeats leaves it without repeats. */
  lemma {:induction false} FilterNoDuplicates<T>(xs: seq<T>, p: T -> bool)
    requires NoDuplicates(xs)
    ensures NoDuplicates(Filter(xs, p))
    decreases |xs|
  {
    if |xs| > 0 {
      var q := xs[..|xs| - 1];
      FilterNoDuplicates(q, p);
      FilterSpec(q, p);
      assert xs[|xs| - 1] !in q;
    }
  }

  lemma {:induction false} FilterMembers<T>(xs: seq<T>, p: T -> bool)
    ensures forall x :: x in Filter(xs, p) <==> x in xs && p(x)
    decreases |xs|
  {
    if |xs| > 0 {
      var init, last := xs[..|xs| - 1], xs[|xs| - 1];
      FilterMembers(init, p);
      assert xs == init + [last];
      if p(last) {
        assert Filter(xs, p) == Filter(init, p) + [last];
      } else {
        assert Filter(xs, p) == Filter(init, p);
      }
    }
  }

  lemma {:induction false} FilterAllPass<T>(xs: seq<T>, p: T -> bool)
    ensures (forall i :: 0 <= i < |xs| ==> p(xs[i])) ==> Filter(xs, p) == xs
    decreases |xs|
  {
    if |xs| > 0 && forall i :: 0 <= i < |xs| ==> p(xs[i]) {
      var init, last := xs[..|xs| - 1], xs[|xs| - 1];
      assert forall i :: 0 <= i < |init| ==> p(init[i]) by {
        forall i | 0 <= i < |init| ensures p(init[i]) {
          assert init[i] == xs[i];
        }
      }
      FilterAllPass(init, p);
      assert p(last);
      assert Filter(xs, p) == init + [last];
    }
  }

  /** `ys` lists the elements of `xs` at the increasing positions `idx`. */
  predicate Picks<T(==)>(ys: seq<T>, xs: seq<T>, idx: seq<nat>) {
    |idx| == |ys| &&
    (forall k :: 0 <= k < |idx| ==> idx[k] < |xs| && ys[k] == xs[idx[k]]) &&
    (forall k, l :: 0 <= k < l < |idx| ==> idx[k] < idx[l])
  }

  /** The positions of the elements that pass, in increasing order. */
  function FilterIndices<T>(xs: seq<T>, p: T -> bool): seq<nat>
    decreases |xs|
  {
    if |xs| == 0 then [] else FilterIndices(xs[..|xs| - 1], p) + (if p(xs[|xs| - 1]) then [|xs| - 1] else [])
  }

  /** The filter is the subsequence of `xs` at exactly the positions whose
      element passes, in their order. */
  lemma {:induction false} FilterOrder<T>(xs: seq<T>, p: T -> bool)
    ensures Picks(Filter(xs, p), xs, FilterIndices(xs, p))
    ensures forall i :: i in FilterIndices(xs, p) <==> 0 <= i < |xs| && p(xs[i])
  {
    FilterPicks(xs, p);
    FilterIndicesMembers(xs, p);
  }

  lemma {:induction false} FilterPicks<T>(xs: seq<T>, p: T -> bool)
    ensures Picks(Filter(xs, p), xs, FilterIndices(xs, p))
    decreases |xs|
  {
    if |xs| > 0 {
      var n := |xs| - 1;
      var q := xs[..n];
      FilterPicks(q, p);
      var ys, idx := Filter(q, p), FilterIndices(q, p);
      PicksExtend(ys, xs, idx);
      if p(xs[n]) {
        assert Filter(xs, p) == ys + [xs[n]];
        assert FilterIndices(xs, p) == idx + [n];
      } else {
        assert Filter(xs, p) == ys;
        assert FilterIndices(xs, p) == idx;
      }
    }
  }

  /** A pick from all but the last element is a pick from the whole, and
      may take the last element too. */
  lemma PicksExtend<T>(ys: seq<T>, xs: seq<T>, idx: seq<nat>)
    requires |xs| > 0 && Picks(ys, xs[..|xs| - 1], idx)
    ensures Picks(ys, xs, idx) && Picks(ys + [xs[|xs| - 1]], xs, idx + [|xs| - 1])
  {
    var n := |xs| - 1;
    assert forall k :: 0 <= k < |idx| ==> idx[k] < n && ys[k] == xs[idx[k]];
    var ys', idx' := ys + [xs[n]], idx + [n];
    forall k | 0 <= k < |idx'| ensures idx'[k] < |xs| && ys'[k] == xs[idx'[k]] {
      if k < |idx| {
        assert idx'[k] == idx[k] && ys'[k] == ys[k];
      }
    }
  }

  lemma {:induction false} FilterIndicesMembers<T>(xs: seq<T>, p: T -> bool)
    ensures forall i :: i in FilterIndices(xs, p) <==> 0 <= i < |xs| && p(xs[i])
    decreases |xs|
  {
    if |xs| > 0 {
      var n := |xs| - 1;
      var q := xs[..n];
      FilterIndicesMembers(q, p);
      assert forall i :: 0 <= i < n ==> xs[i] == q[i];
      if p(xs[n]) {
        assert FilterIndices(xs, p) == FilterIndices(q, p) + [n];
      } else {
        assert FilterIndices(xs, p) == FilterIndices(q, p);
      }
    }
  }

  /** The position of the first occurrence of x. */
  function FirstIndex<T(==)>(xs: seq<T>, x: T): (r: nat)
    requires x in xs
    ensures r < |xs| && xs[r] == x
    ensures forall k :: 0 <= k < r ==> xs[k] != x
    decreases |xs|
  {
    if xs[0] == x then 0
    else
      assert x in xs[1..] by { var k :| 0 <= k < |xs| && xs[k] == x; assert xs[1..][k - 1] == x; }
      1 + FirstIndex(xs[1..], x)
  }

  /** An element of a prefix is first found inside that prefix. */
  lemma FirstIndexPrefix<T>(xs: seq<T>, n: nat, y: T)
    requires n <= |xs| && y in xs[..n]
    ensures y in xs && FirstIndex(xs, y) == FirstIndex(xs[..n], y)
  {
    var b := FirstIndex(xs[..n], y);
    assert xs[b] == y;
    var a := FirstIndex(xs, y);
    assert a <= b;
    assert forall k :: 0 <= k < b ==> xs[k] == xs[..n][k];
  }

  /** `Distinct` lists its elements in the order of their first
      occurrences. */
  lemma {:induction false} DistinctOrder<T>(xs: seq<T>)
    ensures forall k :: 0 <= k < |Distinct(xs)| ==> Distinct(xs)[k] in xs
    ensures forall k, l :: 0 <= k < l < |Distinct(xs)| ==>
      FirstIndex(xs, Distinct(xs)[k]) < FirstIndex(xs, Distinct(xs)[l])
    decreases |xs|
  {
    DistinctSpec(xs);
    if |xs| > 0 {
      var n := |xs| - 1;
      var q := xs[..n];
      DistinctOrder(q);
      DistinctSpec(q);
      var d, r := Distinct(q), Distinct(xs);
      forall k, l | 0 <= k < l < |r|
        ensures FirstIndex(xs, r[k]) < FirstIndex(xs, r[l])
      {
        assert r[k] == d[k] && d[k] in q;
        FirstIndexPrefix(xs, n, d[k]);
        if l < |d| {
          assert r[l] == d[l] && d[l] in q;
          FirstIndexPrefix(xs, n, d[l]);
        } else {
          assert r[l] == xs[n] && xs[n] !in q;
          assert forall j :: 0 <= j < n ==> xs[j] == q[j];
          assert FirstIndex(xs, r[l]) == n;
        }
      }
    }
  }

  /** The UTF-16 code units JavaScript stores for a character: the code
      point itself below U+10000, a surrogate pair above. */
  function CodeUnits(c: char): (r: seq<int>)
    ensures 1 <= |r| <= 2
    ensures forall k :: 0 <= k < |r| ==> 0 <= r[k] < 0x10000
  {
    var v := c as int;
    if v < 0x10000 then [v] else [0xD800 + (v - 0x10000) / 0x400, 0xDC00 + (v - 0x10000) % 0x400]
  }

  /** A string as JavaScript holds it: its sequence of UTF-16 code units,
      which `length`, `charCodeAt` and `slice` count in. */
  function Utf16(s: string): (r: seq<int>)
    ensures |r| >= |s|
    decreases |s|
  {
    if |s| == 0 then [] else Utf16(s[..|s| - 1]) + CodeUnits(s[|s| - 1])
  }

  /** A character above U+FFFF becomes a high and a low surrogate, which
      give back the character. */
  lemma SurrogatePair(c: char)
    requires c as int >= 0x10000
    ensures var r := CodeUnits(c);
      |r| == 2 && 0xD800 <= r[0] < 0xDC00 && 0xDC00 <= r[1] < 0xE000 &&
      0x10000 + (r[0] - 0xD800) * 0x400 + (r[1] - 0xDC00) == c as int
  {
  }

  /** Below U+10000 a string has one code unit per character, equal to the
      character's code. */
  lemma {:induction false} Utf16Bmp(s: string)
    requires forall k :: 0 <= k < |s| ==> s[k] as int < 0x10000
    ensures |Utf16(s)| == |s|
    ensures forall k :: 0 <= k < |s| ==> Utf16(s)[k] == s[k] as int
    decreases |s|
  {
    if |s| > 0 {
      Utf16Bmp(s[..|s| - 1]);
    }
  }

  function DigitChar(d: nat): char
    requires d < 10
  {
    "0123456789"[d]
  }

  /** `String(n)` for a natural number. */
  function NatToString(n: nat): (r: string)
    ensures |r| >= 1
    ensures forall k :: 0 <= k < |r| ==> '0' <= r[k] <= '9'
  {
    if n < 10 then [DigitChar(n)] else NatToString(n / 10) + [DigitChar(n % 10)]
  }

  lemma DigitCharValue(d: nat)
    requires d < 10
    ensures DigitChar(d) as int - '0' as int == d
  {
    assert "0123456789"[d] as int == '0' as int + d;
  }

  /** Different numbers are written differently. */
  lemma {:induction false} NatToStringInjective(i: nat, j: nat)
    requires NatToString(i) == NatToString(j)
    ensures i == j
    decreases i
  {
    var s := NatToString(i);
    assert i < 10 <==> |s| == 1;
    assert j < 10 <==> |NatToString(j)| == 1;
    DigitCharValue(i % 10);
    DigitCharValue(j % 10);
    if i < 10 {
      assert s[0] == DigitChar(i) && s[0] == DigitChar(j);
    } else {
      assert s[..|s| - 1] == NatToString(i / 10) == NatToString(j / 10);
      NatToStringInjective(i / 10, j / 10);
      assert s[|s| - 1] == DigitChar(i % 10) == DigitChar(j % 10);
    }
  }

  /** `String(n)` for an integer. */
  function IntToString(n: int): string {
    if n < 0 then "-" + NatToString(-n) else NatToString(n)
  }

  /** `Math.ceil(a / d)` for a positive divisor. */
  function CeilDiv(a: int, d: int): (r: int)
    requires d > 0
    ensures (r - 1) * d < a <= r * d
  {
    -((-a) / d)
  }

  function Repeat(c: char, n: nat): (r: string)
    ensures |r| == n
    ensures forall k :: 0 <= k < n ==> r[k] == c
  {
    seq(n, _ => c)
  }
}

=== FILE: use_ai_chat.dfy ===
/** The AI chat hook (src/lib/hooks/use-ai-chat.ts): the recommendation
    blocks an assistant reply may carry, the framing of the server-sent
    event stream into lines, and the hook's message state.

    The regular expression that finds the ```json:recommendations blocks is
    abstracted: a text is given as its decomposition into plain runs and
    blocks, in text order. JSON parsing is a parameter too: `parse` gives
    the array a block body holds, or None when the body is malformed or
    not an array; `payload` gives the fields of a `data: ` line. */
module UseAiChat {
  import opened Text

  /** A piece of a reply: plain text, or one recommendation block
      (the fence, the whitespace before its newline, and its body). */
  datatype Segment = Plain(text: string) | Block(space: string, body: string)

  function Fence(): string { "```json:recommendations" }

  /** The text a decomposition stands for. */
  function Render(segs: seq<Segment>): string
    decreases |segs|
  {
    if |segs| == 0 then ""
    else
      Render(segs[..|segs| - 1]) +
      match segs[|segs| - 1]
      case Plain(t) => t
      case Block(sp, body) => Fence() + sp + "\n" + body + "```"
  }

  /** The array parsed from each block, concatenated in text order. */
  function Collected<R>(segs: seq<Segment>, parse: string -> Option<seq<R>>): seq<R>
    decreases |segs|
  {
    if |segs| == 0 then []
    else
      Collected(segs[..|segs| - 1], parse) +
      match segs[|segs| - 1]
      case Plain(_) => []
      case Block(_, body) => if parse(body).Some? then parse(body).value else []
  }

  /** `parseRecommendations(text)`: the `regex.exec` loop, pushing the
      elements of every block that parses to an array. */
  method ParseRecommendations<R>(segs: seq<Segment>, parse: string -> Option<seq<R>>) returns (results: seq<R>)
    ensures results == Collected(segs, parse)
  {
    results := [];
    for i := 0 to |segs|
      invariant results == Collected(segs[..i], parse)
    {
      assert segs[..i + 1][..i] == segs[..i];
      if segs[i].Block? {
        var parsed := parse(segs[i].body);
        if parsed.Some? {
          results := results + parsed.value;
        }
      }
    }
    WholePrefix(segs);
  }

  /** Collecting over two stretches of text is collecting over each in turn. */
  lemma {:induction false} CollectedAppend<R>(a: seq<Segment>, b: seq<Segment>, parse: string -> Option<seq<R>>)
    ensures Collected(a + b, parse) == Collected(a, parse) + Collected(b, parse)
    decreases |b|
  {
    if |b| == 0 {
      assert a + b == a;
    } else {
      CollectedAppend(a, b[..|b| - 1], parse);
      assert (a + b)[..|a + b| - 1] == a + b[..|b| - 1];
      assert (a + b)[|a + b| - 1] == b[|b| - 1];
    }
  }

  /** Every recommendation comes from a block that parses to an array
      holding it, and every element of such a block is collected. */
  lemma {:induction false} CollectedSpec<R>(segs: seq<Segment>, parse: string -> Option<seq<R>>)
    ensures forall x :: x in Collected(segs, parse) <==> Source(segs, parse, x)
    decreases |segs|
  {
    if |segs| > 0 {
      var p, last := segs[..|segs| - 1], segs[|segs| - 1];
      CollectedSpec(p, parse);
      var tail := if last.Block? && parse(last.body).Some? then parse(last.body).value else [];
      assert Collected(segs, parse) == Collected(p, parse) + tail;
      forall x ensures Source(segs, parse, x) <==> Source(p, parse, x) || x in tail {
        if Source(p, parse, x) {
          var k :| 0 <= k < |p| && Holds(p[k], parse, x);
          assert segs[k] == p[k];
        }
        if Source(segs, parse, x) && x !in tail {
          var k :| 0 <= k < |segs| && Holds(segs[k], parse, x);
          assert k < |p| && p[k] == segs[k];
        }
      }
    }
  }

  /** The block `s` parses to an array holding `x`. */
  ghost predicate Holds<R>(s: Segment, parse: string -> Option<seq<R>>, x: R) {
    s.Block? && parse(s.body).Some? && x in parse(s.body).value
  }

  /** Some block of the text parses to an array holding `x`. */
  ghost predicate Source<R>(segs: seq<Segment>, parse: string -> Option<seq<R>>, x: R) {
    exists k :: 0 <= k < |segs| && Holds(segs[k], parse, x)
  }

  /** Blocks that are malformed or not arrays contribute nothing. */
  lemma {:induction false} CollectedSkipsMalformed<R>(segs: seq<Segment>, parse: string -> Option<seq<R>>)
    requires forall k :: 0 <= k < |segs| && segs[k].Block? ==> parse(segs[k].body).None?
    ensures Collected(segs, parse) == []
    decreases |segs|
  {
    if |segs| > 0 {
      CollectedSkipsMalformed(segs[..|segs| - 1], parse);
    }
  }

  /** The plain runs of a decomposition, blocks dropped. */
  function PlainText(segs: seq<Segment>): string
    decreases |segs|
  {
    if |segs| == 0 then ""
    else PlainText(segs[..|segs| - 1]) + (if segs[|segs| - 1].Plain? then segs[|segs| - 1].text else "")
  }

  /** `stripRecommendationBlocks(text)` */
  function StripRecommendationBlocks(segs: seq<Segment>): string {
    Trim(PlainText(segs))
  }

  predicate IsPlain(s: Segment) { s.Plain? }

  function PlainFn(): Segment -> bool { (s: Segment) => IsPlain(s) }

  /** Removing the blocks leaves the text of the plain runs alone: the
      stripped text is the trimmed rendering of the decomposition with
      every block deleted, and a text without blocks is only trimmed. */
  lemma {:induction false} StripSpec(segs: seq<Segment>)
    ensures PlainText(segs) == Render(Filter(segs, PlainFn()))
    ensures (forall k :: 0 <= k < |segs| ==> segs[k].Plain?) ==> StripRecommendationBlocks(segs) == Trim(Render(segs))
  {
    PlainTextFiltered(segs);
    if forall k :: 0 <= k < |segs| ==> segs[k].Plain? {
      assert forall k :: 0 <= k < |segs| ==> PlainFn()(segs[k]);
      FilterSpec(segs, PlainFn());
    }
  }

  lemma {:induction false} PlainTextFiltered(segs: seq<Segment>)
    ensures PlainText(segs) == Render(Filter(segs, PlainFn()))
    decreases |segs|
  {
    if |segs| > 0 {
      var p, last := segs[..|segs| - 1], segs[|segs| - 1];
      PlainTextFiltered(p);
      var f := Filter(p, PlainFn());
      if last.Plain? {
        assert PlainFn()(last);
        assert Filter(segs, PlainFn()) == f + [last];
        assert (f + [last])[..|f|] == f;
      } else {
        assert !PlainFn()(last);
        assert Filter(segs, PlainFn()) == f;
      }
    }
  }

  /** The recommendations do not depend on the plain runs. */
  lemma {:induction false} CollectedIgnoresPlain<R>(segs: seq<Segment>, parse: string -> Option<seq<R>>)
    ensures Collected(segs, parse) == Collected(Filter(segs, BlockFn()), parse)
    decreases |segs|
  {
    if |segs| > 0 {
      var p, last := segs[..|segs| - 1], segs[|segs| - 1];
      CollectedIgnoresPlain(p, parse);
      var f := Filter(p, BlockFn());
      if last.Block? {
        assert BlockFn()(last);
        assert Filter(segs, BlockFn()) == f + [last];
        assert (f + [last])[..|f|] == f;
      } else {
        assert !BlockFn()(last);
        assert Filter(segs, BlockFn()) == f;
      }
    }
  }

  function BlockFn(): Segment -> bool { (s: Segment) => s.Block? }

  datatype Role = User | Assistant

  datatype ChatMessage<R> = ChatMessage(role: Role, content: string, recommendations: Option<seq<R>>)

  /** The assistant message built from a finished reply. */
  function ReplyMessage<R>(text: string, segs: seq<Segment>, parse: string -> Option<seq<R>>): ChatMessage<R> {
    var recommendations := Collected(segs, parse);
    var clean := StripRecommendationBlocks(segs);
    ChatMessage(Assistant, if clean != "" then clean else text,
      if |recommendations| > 0 then Some(recommendations) else None)
  }

  /** The reply's content is the stripped text unless that is empty, in
      which case it is the whole text; so it is empty only for an empty
      reply. Recommendations are absent exactly when none were found. */
  lemma ReplyMessageSpec<R>(text: string, segs: seq<Segment>, parse: string -> Option<seq<R>>)
    requires Render(segs) == text
    ensures var m := ReplyMessage(text, segs, parse);
      (m.role == Assistant &&
       (StripRecommendationBlocks(segs) != "" ==> m.content == StripRecommendationBlocks(segs)) &&
       (StripRecommendationBlocks(segs) == "" ==> m.content == text) &&
       (m.content == "" <==> text == "") &&
       (m.recommendations.None? <==> Collected(segs, parse) == []) &&
       (m.recommendations.Some? ==> m.recommendations.value == Collected(segs, parse)))
  {
    if text == "" {
      EmptyRender(segs);
      assert PlainText(segs) == "";
    }
  }

  /** An empty text decomposes into empty runs only. */
  lemma {:induction false} EmptyRender(segs: seq<Segment>)
    requires Render(segs) == ""
    ensures PlainText(segs) == ""
    decreases |segs|
  {
    if |segs| > 0 {
      EmptyRender(segs[..|segs| - 1]);
    }
  }

  /** What `JSON.parse` of a `data: ` payload gives: a malformed payload,
      or the truthy `error` field if any and the `chunk` field ("" when
      absent or empty). */
  datatype Payload = Malformed | Fields(error: Option<string>, chunk: string)

  /** The payload of a line, or None when the line is skipped: blank after
      trimming, not starting with "data: ", or the "[DONE]" marker. */
  function DataOf(line: string): Option<string> {
    var trimmed := Trim(line);
    if trimmed == "" || !StartsWith(trimmed, "data: ") then None
    else if trimmed[6..] == "[DONE]" then None
    else Some(trimmed[6..])
  }

  /** The reply text so far and the error shown. */
  datatype StreamState = StreamState(fullText: string, error: Option<string>)

  /** The effect of one complete line. */
  function Step(st: StreamState, line: string, payload: string -> Payload): StreamState {
    match DataOf(line)
    case None => st
    case Some(data) =>
      match payload(data)
      case Malformed => st
      case Fields(e, chunk) => if e.Some? then st.(error := e) else st.(fullText := st.fullText + chunk)
  }

  /** The effect of a run of complete lines, in order. */
  function Fold(st: StreamState, lines: seq<string>, payload: string -> Payload): StreamState
    decreases |lines|
  {
    if |lines| == 0 then st else Step(Fold(st, lines[..|lines| - 1], payload), lines[|lines| - 1], payload)
  }

  /** The text of all received, in arrival order. */
  function Concat(parts: seq<string>): string
    decreases |parts|
  {
    if |parts| == 0 then "" else Concat(parts[..|parts| - 1]) + parts[|parts| - 1]
  }

  /** The newline-terminated lines of a stream: every piece but the last. */
  function CompleteLines(s: string): seq<string> {
    var parts := Split(s, '\n');
    parts[..|parts| - 1]
  }

  /** Splitting `s + t` keeps the complete pieces of `s` and re-splits
      its last piece continued by `t`. */
  predicate SplitsAppended(s: string, t: string, c: char) {
    var p := Split(s, c);
    Split(s + t, c) == p[..|p| - 1] + Split(p[|p| - 1] + t, c)
  }

  /** Appending text to a stream leaves its complete lines alone and
      continues its last, unfinished line. */
  lemma {:induction false} SplitAppend(s: string, t: string, c: char)
    ensures SplitsAppended(s, t, c)
    decreases |s|
  {
    if |s| == 0 {
      assert s + t == t;
    } else {
      var x, u := s[0], s[1..];
      assert s == [x] + u;
      SplitAppend(u, t, c);
      if x == c {
        SplitAppendSeparator(u, t, c);
      } else if |Split(u, c)| == 1 {
        SplitAppendOnePiece(x, u, t, c);
      } else {
        SplitAppendPieces(x, u, t, c);
      }
    }
  }

  lemma SplitAppendSeparator(u: string, t: string, c: char)
    requires SplitsAppended(u, t, c)
    ensures SplitsAppended([c] + u, t, c)
  {
    var p' := Split(u, c);
    var q := Split(p'[|p'| - 1] + t, c);
    assert [c] + u + t == [c] + (u + t);
    SplitCons(c, u, c);
    SplitCons(c, u + t, c);
    SeparatorShift(p', q);
  }

  lemma SplitAppendOnePiece(x: char, u: string, t: string, c: char)
    requires x != c && |Split(u, c)| == 1 && SplitsAppended(u, t, c)
    ensures SplitsAppended([x] + u, t, c)
  {
    var last := Split(u, c)[0];
    var q := Split(last + t, c);
    assert Split(u + t, c) == q;
    assert [x] + u + t == [x] + (u + t);
    SplitCons(x, u, c);
    SplitCons(x, u + t, c);
    assert Split([x] + u, c) == [[x] + last];
    SplitCons(x, last + t, c);
    assert [x] + last + t == [x] + (last + t);
  }

  lemma SplitAppendPieces(x: char, u: string, t: string, c: char)
    requires x != c && |Split(u, c)| > 1 && SplitsAppended(u, t, c)
    ensures SplitsAppended([x] + u, t, c)
  {
    var p' := Split(u, c);
    var q := Split(p'[|p'| - 1] + t, c);
    assert [x] + u + t == [x] + (u + t);
    SplitCons(x, u, c);
    SplitCons(x, u + t, c);
    PieceShift(x, p', q);
  }

  /** One step of `split`: a separator starts a new piece, any other
      character joins the first one. */
  lemma SplitCons(x: char, u: string, c: char)
    ensures Split([x] + u, c) ==
      if x == c then [""] + Split(u, c) else [[x] + Split(u, c)[0]] + Split(u, c)[1..]
  {
    assert ([x] + u)[1..] == u;
  }

  /** The list algebra behind a leading separator. */
  lemma SeparatorShift(p: seq<string>, q: seq<string>)
    requires |p| > 0
    ensures [""] + (p[..|p| - 1] + q) == ([""] + p)[..|p|] + q
    ensures ([""] + p)[|p|] == p[|p| - 1]
  {
  }

  /** The list algebra behind a leading character that extends the first
      of several pieces. */
  lemma PieceShift(x: char, p: seq<string>, q: seq<string>)
    requires |p| > 1
    ensures var r, u := p[..|p| - 1] + q, [[x] + p[0]] + p[1..];
      [[x] + r[0]] + r[1..] == u[..|u| - 1] + q && u[|u| - 1] == p[|p| - 1]
  {
    var r, u := p[..|p| - 1] + q, [[x] + p[0]] + p[1..];
    assert r[0] == p[0];
    assert r[1..] == p[1..|p| - 1] + q;
    assert u[..|u| - 1] == [[x] + p[0]] + p[1..|p| - 1];
  }

  /** A stream that ends with a newline has every line complete. */
  lemma {:induction false} CompleteLinesOfTerminated(s: string)
    ensures CompleteLines(s + "\n") == Split(s, '\n')
  {
    SplitAppend(s, "\n", '\n');
    var p := Split(s, '\n');
    SplitLastNewline(p[|p| - 1], '\n');
  }

  lemma {:induction false} SplitLastNewline(x: string, c: char)
    requires c !in x
    ensures Split(x + [c], c) == [x, ""]
    decreases |x|
  {
    if |x| > 0 {
      SplitLastNewline(x[1..], c);
      assert (x + [c])[1..] == x[1..] + [c];
      assert [x[0]] + x[1..] == x;
    }
  }

  /** The assistant message built from a finished reply: its recommendation
      blocks are parsed out and stripped from the shown text. */
  method BuildReply<R>(text: string, decompose: string -> seq<Segment>, parse: string -> Option<seq<R>>)
    returns (reply: ChatMessage<R>)
    ensures reply == ReplyMessage(text, decompose(text), parse)
  {
    var segs := decompose(text);
    var recommendations := ParseRecommendations(segs, parse);
    var cleanContent := StripRecommendationBlocks(segs);
    reply := ChatMessage(Assistant, if cleanContent != "" then cleanContent else text,
      if |recommendations| > 0 then Some(recommendations) else None);
  }

  /** The read loop of `sendMessage`: each read is appended to the buffer,
      the buffer is split on '\n', its last piece is kept for the next
      read, and the other lines are handled in order. The error starts
      cleared. A last line without its newline is never handled. */
  method ReadStream(received: seq<string>, payload: string -> Payload) returns (fullText: string, error: Option<string>)
    ensures StreamState(fullText, error) == Fold(StreamState("", None), CompleteLines(Concat(received)), payload)
  {
    fullText, error := "", None;
    var buffer := "";
    ghost var done: seq<string> := [];
    for i := 0 to |received|
      invariant done + [buffer] == Split(Concat(received[..i]), '\n')
      invariant StreamState(fullText, error) == Fold(StreamState("", None), done, payload)
    {
      assert received[..i + 1][..i] == received[..i];
      FramingStep(done, buffer, Concat(received[..i]), received[i]);
      var lines := Split(buffer + received[i], '\n');
      buffer := lines[|lines| - 1];
      FoldAppend(StreamState("", None), done, lines[..|lines| - 1], payload);
      fullText, error := HandleLines(fullText, error, lines[..|lines| - 1], payload);
      done := done + lines[..|lines| - 1];
    }
    WholePrefix(received);
  }

  /** One read: the lines completed so far stay, the kept piece is
      continued by the read and split again. */
  lemma FramingStep(done: seq<string>, buffer: string, s: string, t: string)
    requires done + [buffer] == Split(s, '\n')
    ensures var lines := Split(buffer + t, '\n');
      (done + lines[..|lines| - 1]) + [lines[|lines| - 1]] == Split(s + t, '\n')
  {
    var p := Split(s, '\n');
    assert p[|p| - 1] == buffer by {
      assert (done + [buffer])[|done|] == buffer;
    }
    SplitAppend(s, t, '\n');
    assert Split(s + t, '\n') == p[..|p| - 1] + Split(buffer + t, '\n');
    KeepLast(done, buffer, p, Split(buffer + t, '\n'), Split(s + t, '\n'));
  }

  /** The list algebra of one read: the kept piece is replaced by the
      pieces it becomes. */
  lemma KeepLast(done: seq<string>, buffer: string, p: seq<string>, lines: seq<string>, whole: seq<string>)
    requires done + [buffer] == p && |lines| > 0
    requires whole == p[..|p| - 1] + lines
    ensures (done + lines[..|lines| - 1]) + [lines[|lines| - 1]] == whole
  {
    assert p[..|p| - 1] == done;
    assert lines == lines[..|lines| - 1] + [lines[|lines| - 1]];
  }

  /** The `for (const line of lines)` loop. */
  method HandleLines(text0: string, error0: Option<string>, lines: seq<string>, payload: string -> Payload)
    returns (fullText: string, error: Option<string>)
    ensures StreamState(fullText, error) == Fold(StreamState(text0, error0), lines, payload)
  {
    fullText, error := text0, error0;
    for j := 0 to |lines|
      invariant StreamState(fullText, error) == Fold(StreamState(text0, error0), lines[..j], payload)
    {
      assert lines[..j + 1][..j] == lines[..j];
      var trimmed := Trim(lines[j]);
      if trimmed != "" && StartsWith(trimmed, "data: ") {
        var data := trimmed[6..];
        if data != "[DONE]" {
          var parsed := payload(data);
          if parsed.Fields? {
            if parsed.error.Some? {
              error := parsed.error;
            } else if parsed.chunk != "" {
              fullText := fullText + parsed.chunk;
            }
          }
        }
      }
    }
    WholePrefix(lines);
  }

  /** Handling two runs of lines is handling the first, then the second. */
  lemma {:induction false} FoldAppend(st: StreamState, a: seq<string>, b: seq<string>, payload: string -> Payload)
    ensures Fold(st, a + b, payload) == Fold(Fold(st, a, payload), b, payload)
    decreases |b|
  {
    if |b| == 0 {
      assert a + b == a;
    } else {
      FoldAppend(st, a, b[..|b| - 1], payload);
      assert (a + b)[..|a + b| - 1] == a + b[..|b| - 1];
      assert (a + b)[|a + b| - 1] == b[|b| - 1];
    }
  }

  /** A line that carries chunk text and no error. */
  predicate ChunkLine(line: string, payload: string -> Payload) {
    DataOf(line).Some? && payload(DataOf(line).value).Fields? && payload(DataOf(line).value).error.None?
  }

  /** A line that carries an error. */
  predicate ErrorLine(line: string, payload: string -> Payload) {
    DataOf(line).Some? && payload(DataOf(line).value).Fields? && payload(DataOf(line).value).error.Some?
  }

  /** The chunks of the chunk lines, in arrival order. */
  function Chunks(lines: seq<string>, payload: string -> Payload): string
    decreases |lines|
  {
    if |lines| == 0 then ""
    else
      var last := lines[|lines| - 1];
      Chunks(lines[..|lines| - 1], payload) + ChunkOf(last, payload)
  }

  /** The text a line adds: its chunk when it is a chunk line. */
  function ChunkOf(line: string, payload: string -> Payload): string {
    if ChunkLine(line, payload) then payload(DataOf(line).value).chunk else ""
  }

  /** The text grows by exactly the chunks, in order. */
  lemma {:induction false} FoldText(st: StreamState, lines: seq<string>, payload: string -> Payload)
    ensures Fold(st, lines, payload).fullText == st.fullText + Chunks(lines, payload)
    decreases |lines|
  {
    if |lines| > 0 {
      var p, last := lines[..|lines| - 1], lines[|lines| - 1];
      FoldText(st, p, payload);
      StepText(Fold(st, p, payload), last, payload);
      assert Fold(st, lines, payload) == Step(Fold(st, p, payload), last, payload);
      assert Chunks(lines, payload) == Chunks(p, payload) + ChunkOf(last, payload);
    }
  }

  lemma StepText(st: StreamState, line: string, payload: string -> Payload)
    ensures Step(st, line, payload).fullText == st.fullText + ChunkOf(line, payload)
  {
  }

  /** Without error lines the error stays as it was. */
  lemma {:induction false} FoldNoError(st: StreamState, lines: seq<string>, payload: string -> Payload)
    requires forall k :: 0 <= k < |lines| ==> !ErrorLine(lines[k], payload)
    ensures Fold(st, lines, payload).error == st.error
    decreases |lines|
  {
    if |lines| > 0 {
      FoldNoError(st, lines[..|lines| - 1], payload);
    }
  }

  /** Otherwise the error is the one of the last error line, and later
      lines do not clear it. */
  lemma {:induction false} FoldLastError(st: StreamState, lines: seq<string>, k: nat, payload: string -> Payload)
    requires k < |lines| && ErrorLine(lines[k], payload)
    requires forall j :: k < j < |lines| ==> !ErrorLine(lines[j], payload)
    ensures Fold(st, lines, payload).error == payload(DataOf(lines[k]).value).error
  {
    assert lines == lines[..k + 1] + lines[k + 1..];
    FoldAppend(st, lines[..k + 1], lines[k + 1..], payload);
    assert lines[..k + 1][..k] == lines[..k];
    FoldNoError(Fold(st, lines[..k + 1], payload), lines[k + 1..], payload);
  }

  /** How the response to the chat request turned out: refused (not ok,
      or no body) with the error text shown, or a body delivering some
      received and then perhaps interrupted. */
  datatype Interrupt = Abort | Failure(message: string)
  datatype Response = Refused(message: string) | Body(received: seq<string>, interrupt: Option<Interrupt>)

  /** The hook's state. */
  class AiChat<R> {
    var messages: seq<ChatMessage<R>>
    var streamingText: string
    var isStreaming: bool
    var error: Option<string>

    constructor()
      ensures messages == [] && streamingText == "" && !isStreaming && error.None?
    {
      messages, streamingText, isStreaming, error := [], "", false, None;
    }

    /** `sendMessage(content)`: the user message is appended and the
        stream read; a finished stream appends the reply; a refusal or a
        failure shows its message; an abort shows nothing. The streaming
        text follows the reply text and is cleared once the reply is
        appended. `decompose` is the block regex's view of a text. */
    method SendMessage(content: string, response: Response, decompose: string -> seq<Segment>,
                       parse: string -> Option<seq<R>>, payload: string -> Payload)
      modifies this
      ensures !isStreaming
      ensures response.Refused? ==>
        messages == old(messages) + [ChatMessage(User, content, None)] &&
        streamingText == "" && error == Some(response.message)
      ensures response.Body? ==>
        var st := Fold(StreamState("", None), CompleteLines(Concat(response.received)), payload);
        (response.interrupt.None? ==>
           messages == old(messages) + [ChatMessage(User, content, None),
                                        ReplyMessage(st.fullText, decompose(st.fullText), parse)] &&
           streamingText == "" && error == st.error) &&
        (response.interrupt.Some? ==>
           messages == old(messages) + [ChatMessage(User, content, None)] && streamingText == st.fullText &&
           error == (if response.interrupt.value.Failure? then Some(response.interrupt.value.message) else st.error))
    {
      messages := messages + [ChatMessage(User, content, None)];
      streamingText := "";
      error := None;
      isStreaming := true;
      match response {
        case Refused(message) =>
          error := Some(message);
        case Body(received, interrupt) =>
          Receive(received, interrupt, decompose, parse, payload);
      }
      isStreaming := false;
    }

    /** The body's part of `sendMessage`: the stream is read into the
        streaming text; unless interrupted, the reply is appended and the
        streaming text cleared; a failure's message replaces the error. */
    method Receive(received: seq<string>, interrupt: Option<Interrupt>, decompose: string -> seq<Segment>,
                   parse: string -> Option<seq<R>>, payload: string -> Payload)
      modifies this
      ensures isStreaming == old(isStreaming)
      ensures var st := Fold(StreamState("", None), CompleteLines(Concat(received)), payload);
        (interrupt.None? ==>
           messages == old(messages) + [ReplyMessage(st.fullText, decompose(st.fullText), parse)] &&
           streamingText == "" && error == st.error) &&
        (interrupt.Some? ==>
           messages == old(messages) && streamingText == st.fullText &&
           error == (if interrupt.value.Failure? then Some(interrupt.value.message) else st.error))
    {
      var fullText, streamError := ReadStream(received, payload);
      streamingText := fullText;
      error := streamError;
      if interrupt.None? {
        var reply := BuildReply(fullText, decompose, parse);
        messages := messages + [reply];
        streamingText := "";
      } else if interrupt.value.Failure? {
        error := Some(interrupt.value.message);
      }
    }

    /** `stop()`: a partly streamed reply is kept as a message. */
    method Stop(decompose: string -> seq<Segment>, parse: string -> Option<seq<R>>)
      modifies this
      ensures old(streamingText) != "" ==>
        messages == old(messages) + [ReplyMessage(old(streamingText), decompose(old(streamingText)), parse)]
      ensures old(streamingText) == "" ==> messages == old(messages)
      ensures streamingText == "" && !isStreaming && error == old(error)
    {
      if streamingText != "" {
        var reply := BuildReply(streamingText, decompose, parse);
        messages := messages + [reply];
        streamingText := "";
      }
      isStreaming := false;
    }

    /** `reset()` */
    method Reset()
      modifies this
      ensures messages == [] && streamingText == "" && error.None? && !isStreaming
    {
      messages, streamingText, error, isStreaming := [], "", None, false;
    }
  }
}

=== FILE: zone_layout.dfy ===
/** The three-zone service-map layout of src/lib/layout/zone-layout.ts:
    service nodes grouped by domain into FRONTEND, BACKEND and DEVTOOLS
    columns and placed on an integer grid inside each zone. The domain
    lookup `getDomain` is a parameter. */
module ZoneLayout {
  import opened Text

  datatype Zone = Frontend | Backend | Devtools

  /** `ZONE_ORDER` */
  const ZoneOrder: seq<Zone> := [Frontend, Backend, Devtools]

  function ZoneIndex(z: Zone): (i: nat)
    ensures i < 3 && ZoneOrder[i] == z
  {
    match z
    case Frontend => 0
    case Backend => 1
    case Devtools => 2
  }

  function ZoneKey(z: Zone): string {
    match z
    case Frontend => "frontend"
    case Backend => "backend"
    case Devtools => "devtools"
  }

  function ZoneLabel(z: Zone): string {
    match z
    case Frontend => "FRONTEND"
    case Backend => "BACKEND"
    case Devtools => "DEVTOOLS"
  }

  function ZoneEmoji(z: Zone): string {
    match z
    case Frontend => "🖥️"
    case Backend => "⚙️"
    case Devtools => "🛠️"
  }

  function ZoneColor(z: Zone): string {
    match z
    case Frontend => "rgba(59, 130, 246, 0.04)"
    case Backend => "rgba(139, 92, 246, 0.04)"
    case Devtools => "rgba(234, 179, 8, 0.04)"
  }

  const ZoneGap := 32
  const ZonePadding := 24
  const ZoneHeaderHeight := 44
  const NodeWidth := 160
  const NodeHeight := 48
  const NodeGapX := 16
  const NodeGapY := 12
  const InnerCols := 3
  const MinZoneWidth := InnerCols * NodeWidth + (InnerCols - 1) * NodeGapX + 2 * ZonePadding
  const MinZoneHeight := ZoneHeaderHeight + NodeHeight + 2 * ZonePadding

  /** `domainToZone(domain)`: `DOMAIN_TO_ZONE[domain] ?? 'backend'`, and
      backend for a null or empty domain. */
  function DomainToZone(domain: Option<string>): Zone {
    if domain.None? || domain.value == "" then Backend
    else
      var d := domain.value;
      if d == "infrastructure" then Frontend
      else if d == "backend" || d == "communication" || d == "business" || d == "ai_ml" || d == "integration" then Backend
      else if d == "devtools" || d == "observability" then Devtools
      else Backend
  }

  /** Only infrastructure goes to the frontend zone, only devtools and
      observability to the devtools zone; everything else, null included,
      to the backend zone. */
  lemma DomainToZoneCases(domain: Option<string>)
    ensures DomainToZone(domain) == Frontend <==> domain == Some("infrastructure")
    ensures DomainToZone(domain) == Devtools <==> domain == Some("devtools") || domain == Some("observability")
    ensures DomainToZone(domain) == Backend <==>
      domain != Some("infrastructure") && domain != Some("devtools") && domain != Some("observability")
  {
  }

  datatype Position = Position(x: int, y: int)

  /** A service node; `data` stands for the fields the layout copies unchanged. */
  datatype ServiceNode = ServiceNode(id: string, position: Position, parentId: Option<string>, extent: Option<string>, data: string)

  datatype LayoutNode =
    | ZoneBox(id: string, position: Position, zone: Zone, title: string, emoji: string,
              count: nat, width: int, height: int, color: string)
    | Service(node: ServiceNode)

  function ZoneOf(getDomain: string -> Option<string>, id: string): Zone {
    DomainToZone(getDomain(id))
  }

  /** `zones[idx].serviceNodeIds`: the ids of the nodes of zone z, in input order. */
  function Members(nodes: seq<ServiceNode>, getDomain: string -> Option<string>, z: Zone): seq<string>
    decreases |nodes|
  {
    if |nodes| == 0 then []
    else
      var n := nodes[|nodes| - 1];
      Members(nodes[..|nodes| - 1], getDomain, z) + (if ZoneOf(getDomain, n.id) == z then [n.id] else [])
  }

  /** `nodeMap.get(id)`: the last node with that id. */
  function LastById(nodes: seq<ServiceNode>, id: string): (r: Option<ServiceNode>)
    ensures r.Some? ==> r.value in nodes && r.value.id == id
    decreases |nodes|
  {
    if |nodes| == 0 then None
    else if nodes[|nodes| - 1].id == id then Some(nodes[|nodes| - 1])
    else LastById(nodes[..|nodes| - 1], id)
  }

  /** `zoneSizes[i].w`: `cols` is at most three, so this is always the minimum. */
  function ZoneWidth(count: nat): int {
    var cols := if count == 0 then 1 else if count < InnerCols then count else InnerCols;
    var w := cols * NodeWidth + (cols - 1) * NodeGapX + 2 * ZonePadding;
    if w < MinZoneWidth then MinZoneWidth else w
  }

  function Rows(count: nat): nat {
    var r := CeilDiv(count, InnerCols);
    if r < 1 then 1 else r
  }

  /** `zoneSizes[i].h` */
  function ZoneHeight(count: nat): int {
    var rows := Rows(count);
    var h := ZoneHeaderHeight + rows * NodeHeight + (rows - 1) * NodeGapY + 2 * ZonePadding;
    if h < MinZoneHeight then MinZoneHeight else h
  }

  /** Every zone is exactly the minimum width; its height grows by 60 per
      row of three nodes and is never below the minimum. */
  lemma ZoneSize(count: nat)
    ensures ZoneWidth(count) == MinZoneWidth == 560
    ensures ZoneHeight(count) == 80 + 60 * Rows(count) >= MinZoneHeight
    ensures (Rows(count) - 1) * 3 < count <= Rows(count) * 3 || (count == 0 && Rows(count) == 1)
  {
  }

  function Max3(a: int, b: int, c: int): (m: int)
    ensures m >= a && m >= b && m >= c && (m == a || m == b || m == c)
  {
    if a >= b && a >= c then a else if b >= c then b else c
  }

  function Count(nodes: seq<ServiceNode>, getDomain: string -> Option<string>, z: Zone): nat {
    |Members(nodes, getDomain, z)|
  }

  /** `maxHeight` */
  function MaxHeight(nodes: seq<ServiceNode>, getDomain: string -> Option<string>): int {
    Max3(ZoneHeight(Count(nodes, getDomain, Frontend)),
         ZoneHeight(Count(nodes, getDomain, Backend)),
         ZoneHeight(Count(nodes, getDomain, Devtools)))
  }

  /** The position of the idx-th node of a zone, relative to the zone. */
  function GridPosition(idx: nat): Position {
    Position(ZonePadding + (idx % InnerCols) * (NodeWidth + NodeGapX),
             ZoneHeaderHeight + ZonePadding + (idx / InnerCols) * (NodeHeight + NodeGapY))
  }

  /** The copy of a node placed at the idx-th slot of a zone. */
  function PlaceOne(nodes: seq<ServiceNode>, id: string, idx: nat, zoneId: string): seq<LayoutNode> {
    match LastById(nodes, id)
    case None => []
    case Some(n) => [Service(n.(position := GridPosition(idx), parentId := Some(zoneId), extent := Some("parent")))]
  }

  /** The `forEach` over a zone's ids. */
  function Placed(nodes: seq<ServiceNode>, ids: seq<string>, zoneId: string): seq<LayoutNode>
    decreases |ids|
  {
    if |ids| == 0 then []
    else Placed(nodes, ids[..|ids| - 1], zoneId) + PlaceOne(nodes, ids[|ids| - 1], |ids| - 1, zoneId)
  }

  function ZoneId(z: Zone): string {
    "zone-" + ZoneKey(z)
  }

  function ZoneBoxOf(nodes: seq<ServiceNode>, getDomain: string -> Option<string>, z: Zone, x: int): LayoutNode {
    var count := Count(nodes, getDomain, z);
    ZoneBox(ZoneId(z), Position(x, 0), z, ZoneLabel(z), ZoneEmoji(z), count,
            ZoneWidth(count), MaxHeight(nodes, getDomain), ZoneColor(z))
  }

  /** The zone node followed by the zone's service nodes. */
  function Section(nodes: seq<ServiceNode>, getDomain: string -> Option<string>, z: Zone, x: int): seq<LayoutNode> {
    [ZoneBoxOf(nodes, getDomain, z, x)] + Placed(nodes, Members(nodes, getDomain, z), ZoneId(z))
  }

  /** `xOffset` before the i-th zone. */
  function XOffset(nodes: seq<ServiceNode>, getDomain: string -> Option<string>, i: nat): int
    requires i <= 3
  {
    if i == 0 then 0
    else XOffset(nodes, getDomain, i - 1) + ZoneWidth(Count(nodes, getDomain, ZoneOrder[i - 1])) + ZoneGap
  }

  /** The output of the first i zones. */
  function LayoutUpTo(nodes: seq<ServiceNode>, getDomain: string -> Option<string>, i: nat): seq<LayoutNode>
    requires i <= 3
  {
    if i == 0 then []
    else LayoutUpTo(nodes, getDomain, i - 1) + Section(nodes, getDomain, ZoneOrder[i - 1], XOffset(nodes, getDomain, i - 1))
  }

  /** `computeZoneLayout(serviceNodes, getDomain).nodes` */
  function Layout(nodes: seq<ServiceNode>, getDomain: string -> Option<string>): seq<LayoutNode> {
    LayoutUpTo(nodes, getDomain, 3)
  }

  // ---------------------------------------------------------------------
  // The imperative layout
  // ---------------------------------------------------------------------

  /** The grouping loop that pushes each id into its zone. */
  method GroupByZone(nodes: seq<ServiceNode>, getDomain: string -> Option<string>) returns (zones: array<seq<string>>)
    ensures fresh(zones) && zones.Length == 3
    ensures forall z :: zones[ZoneIndex(z)] == Members(nodes, getDomain, z)
  {
    zones := new seq<string>[3](_ => []);
    for i := 0 to |nodes|
      invariant forall z :: zones[ZoneIndex(z)] == Members(nodes[..i], getDomain, z)
    {
      assert nodes[..i + 1][..i] == nodes[..i];
      var node := nodes[i];
      var zone := DomainToZone(getDomain(node.id));
      var idx := ZoneIndex(zone);
      zones[idx] := zones[idx] + [node.id];
    }
    WholePrefix(nodes);
  }

  /** `new Map(serviceNodes.map((n) => [n.id, n]))` */
  method BuildNodeMap(nodes: seq<ServiceNode>) returns (nodeMap: map<string, ServiceNode>)
    ensures forall id :: id in nodeMap <==> LastById(nodes, id).Some?
    ensures forall id :: id in nodeMap ==> nodeMap[id] == LastById(nodes, id).value
  {
    nodeMap := map[];
    for i := 0 to |nodes|
      invariant forall id :: id in nodeMap <==> LastById(nodes[..i], id).Some?
      invariant forall id :: id in nodeMap ==> nodeMap[id] == LastById(nodes[..i], id).value
    {
      assert nodes[..i + 1][..i] == nodes[..i];
      nodeMap := nodeMap[nodes[i].id := nodes[i]];
    }
    WholePrefix(nodes);
  }

  /** The `forEach` placing a zone's nodes. */
  method PlaceZone(nodes: seq<ServiceNode>, nodeMap: map<string, ServiceNode>, ids: seq<string>, zoneId: string)
    returns (placed: seq<LayoutNode>)
    requires forall id :: id in nodeMap <==> LastById(nodes, id).Some?
    requires forall id :: id in nodeMap ==> nodeMap[id] == LastById(nodes, id).value
    ensures placed == Placed(nodes, ids, zoneId)
  {
    placed := [];
    for idx := 0 to |ids|
      invariant placed == Placed(nodes, ids[..idx], zoneId)
    {
      assert ids[..idx + 1][..idx] == ids[..idx];
      var nodeId := ids[idx];
      if nodeId in nodeMap {
        var original := nodeMap[nodeId];
        var localRow := idx / InnerCols;
        var localCol := idx % InnerCols;
        var localX := ZonePadding + localCol * (NodeWidth + NodeGapX);
        var localY := ZoneHeaderHeight + ZonePadding + localRow * (NodeHeight + NodeGapY);
        placed := placed + [Service(original.(position := Position(localX, localY), parentId := Some(zoneId), extent := Some("parent")))];
      }
    }
    WholePrefix(ids);
  }

  /** `computeZoneLayout(serviceNodes, getDomain)` */
  method ComputeZoneLayout(nodes: seq<ServiceNode>, getDomain: string -> Option<string>) returns (result: seq<LayoutNode>)
    ensures result == Layout(nodes, getDomain)
  {
    var zones := GroupByZone(nodes, getDomain);
    var members := [zones[0], zones[1], zones[2]];
    assert members == [Members(nodes, getDomain, Frontend), Members(nodes, getDomain, Backend),
                       Members(nodes, getDomain, Devtools)] by {
      assert ZoneIndex(Frontend) == 0 && ZoneIndex(Backend) == 1 && ZoneIndex(Devtools) == 2;
    }
    var maxHeight := Max3(ZoneHeight(|members[0]|), ZoneHeight(|members[1]|), ZoneHeight(|members[2]|));
    assert maxHeight == MaxHeight(nodes, getDomain);
    var nodeMap := BuildNodeMap(nodes);
    result := [];
    var xOffset := 0;
    for i := 0 to 3
      invariant result == LayoutUpTo(nodes, getDomain, i)
      invariant xOffset == XOffset(nodes, getDomain, i)
    {
      var z := ZoneOrder[i];
      var ids := members[i];
      assert ids == Members(nodes, getDomain, z);
      var zoneNodeId := "zone-" + ZoneKey(z);
      var count := |ids|;
      var w := ZoneWidth(count);
      var box := ZoneBox(zoneNodeId, Position(xOffset, 0), z, ZoneLabel(z), ZoneEmoji(z), count, w, maxHeight, ZoneColor(z));
      assert box == ZoneBoxOf(nodes, getDomain, z, xOffset);
      var placed := PlaceZone(nodes, nodeMap, ids, zoneNodeId);
      result := result + [box] + placed;
      assert result == LayoutUpTo(nodes, getDomain, i) + Section(nodes, getDomain, z, xOffset);
      xOffset := xOffset + w + ZoneGap;
    }
  }

  // ---------------------------------------------------------------------
  // Properties
  // ---------------------------------------------------------------------

  lemma {:induction false} PlacedServices(nodes: seq<ServiceNode>, ids: seq<string>, zoneId: string)
    ensures forall k :: 0 <= k < |Placed(nodes, ids, zoneId)| ==> Placed(nodes, ids, zoneId)[k].Service?
    decreases |ids|
  {
    if |ids| > 0 {
      PlacedServices(nodes, ids[..|ids| - 1], zoneId);
    }
  }

  /** The layout is the three zones in ZONE_ORDER, each zone node followed by
      that zone's service nodes only. */
  lemma LayoutShape(nodes: seq<ServiceNode>, getDomain: string -> Option<string>)
    ensures Layout(nodes, getDomain) ==
      Section(nodes, getDomain, Frontend, XOffset(nodes, getDomain, 0)) +
      Section(nodes, getDomain, Backend, XOffset(nodes, getDomain, 1)) +
      Section(nodes, getDomain, Devtools, XOffset(nodes, getDomain, 2))
    ensures forall z, x, k :: 1 <= k < |Section(nodes, getDomain, z, x)| ==> Section(nodes, getDomain, z, x)[k].Service?
  {
    assert LayoutUpTo(nodes, getDomain, 1) == Section(nodes, getDomain, Frontend, XOffset(nodes, getDomain, 0));
    assert LayoutUpTo(nodes, getDomain, 2) == LayoutUpTo(nodes, getDomain, 1) + Section(nodes, getDomain, Backend, XOffset(nodes, getDomain, 1));
    forall z, x, k | 1 <= k < |Section(nodes, getDomain, z, x)| ensures Section(nodes, getDomain, z, x)[k].Service? {
      PlacedServices(nodes, Members(nodes, getDomain, z), ZoneId(z));
    }
  }

  /** The zones start at x = 0, 592 and 1184. */
  lemma XOffsets(nodes: seq<ServiceNode>, getDomain: string -> Option<string>)
    ensures XOffset(nodes, getDomain, 0) == 0
    ensures XOffset(nodes, getDomain, 1) == 592
    ensures XOffset(nodes, getDomain, 2) == 1184
  {
    ZoneSize(Count(nodes, getDomain, Frontend));
    ZoneSize(Count(nodes, getDomain, Backend));
  }

  /** The zone nodes are "zone-frontend", "zone-backend" and
      "zone-devtools", at x = 0, 592 and 1184, all of the common maximum
      height and of width MIN_ZONE_WIDTH, each counting its nodes. */
  lemma ZoneBoxes(nodes: seq<ServiceNode>, getDomain: string -> Option<string>, z: Zone)
    ensures var b := ZoneBoxOf(nodes, getDomain, z, XOffset(nodes, getDomain, ZoneIndex(z)));
      b.id == ["zone-frontend", "zone-backend", "zone-devtools"][ZoneIndex(z)] &&
      b.position == Position(592 * ZoneIndex(z), 0) &&
      b.count == |Members(nodes, getDomain, z)| &&
      b.width == MinZoneWidth &&
      b.height == MaxHeight(nodes, getDomain) &&
      b.height >= ZoneHeight(|Members(nodes, getDomain, z)|)
  {
    XOffsets(nodes, getDomain);
    ZoneSize(Count(nodes, getDomain, z));
    ZoneIdText(z);
  }

  lemma ZoneIdText(z: Zone)
    ensures ZoneId(z) == ["zone-frontend", "zone-backend", "zone-devtools"][ZoneIndex(z)]
  {
    match z
    case Frontend => assert "zone-" + "frontend" == "zone-frontend";
    case Backend => assert "zone-" + "backend" == "zone-backend";
    case Devtools => assert "zone-" + "devtools" == "zone-devtools";
  }

  lemma {:induction false} PlacedAt(nodes: seq<ServiceNode>, ids: seq<string>, zoneId: string)
    requires forall id :: id in ids ==> LastById(nodes, id).Some?
    ensures |Placed(nodes, ids, zoneId)| == |ids|
    ensures forall idx :: 0 <= idx < |ids| ==>
      Placed(nodes, ids, zoneId)[idx] ==
        Service(LastById(nodes, ids[idx]).value.(position := GridPosition(idx), parentId := Some(zoneId), extent := Some("parent")))
    decreases |ids|
  {
    if |ids| > 0 {
      var p := ids[..|ids| - 1];
      assert forall id :: id in p ==> id in ids;
      PlacedAt(nodes, p, zoneId);
      var last := ids[|ids| - 1];
      assert LastById(nodes, last).Some?;
      var one := PlaceOne(nodes, last, |ids| - 1, zoneId);
      assert one == [Service(LastById(nodes, last).value.(position := GridPosition(|ids| - 1), parentId := Some(zoneId), extent := Some("parent")))];
      PlacedSnoc(nodes, ids, zoneId);
      var r := Placed(nodes, ids, zoneId);
      assert r == Placed(nodes, p, zoneId) + one;
      forall idx | 0 <= idx < |ids|
        ensures r[idx] == Service(LastById(nodes, ids[idx]).value.(position := GridPosition(idx), parentId := Some(zoneId), extent := Some("parent")))
      {
        if idx < |p| {
          assert r[idx] == Placed(nodes, p, zoneId)[idx];
          assert ids[idx] == p[idx];
        } else {
          assert r[idx] == one[0];
        }
      }
    }
  }

  lemma PlacedSnoc(nodes: seq<ServiceNode>, ids: seq<string>, zoneId: string)
    requires |ids| > 0
    ensures Placed(nodes, ids, zoneId) == Placed(nodes, ids[..|ids| - 1], zoneId) + PlaceOne(nodes, ids[|ids| - 1], |ids| - 1, zoneId)
  {
  }

  lemma {:induction false} LastByIdOfMember(nodes: seq<ServiceNode>, n: ServiceNode)
    requires n in nodes
    ensures LastById(nodes, n.id).Some?
    decreases |nodes|
  {
    if nodes[|nodes| - 1] != n {
      assert n in nodes[..|nodes| - 1];
      LastByIdOfMember(nodes[..|nodes| - 1], n);
    }
  }

  lemma {:induction false} MembersFromNodes(nodes: seq<ServiceNode>, getDomain: string -> Option<string>, z: Zone)
    ensures forall id :: id in Members(nodes, getDomain, z) ==>
      ZoneOf(getDomain, id) == z && exists n :: n in nodes && n.id == id
    decreases |nodes|
  {
    if |nodes| > 0 {
      var p := nodes[..|nodes| - 1];
      MembersFromNodes(p, getDomain, z);
      forall id | id in Members(nodes, getDomain, z)
        ensures ZoneOf(getDomain, id) == z && exists n :: n in nodes && n.id == id
      {
        if id in Members(p, getDomain, z) {
          var n :| n in p && n.id == id;
          assert n in nodes;
        } else {
          assert nodes[|nodes| - 1] in nodes;
        }
      }
    }
  }

  /** The idx-th node of a zone is the input node with that id, moved to
      x = 24 + (idx mod 3)·176 and y = 68 + (idx div 3)·60 inside the zone,
      with parentId "zone-"+zone and extent 'parent'; the zone is the one
      its domain maps to. */
  lemma PlacedNodes(nodes: seq<ServiceNode>, getDomain: string -> Option<string>, z: Zone)
    ensures var ids := Members(nodes, getDomain, z);
      var placed := Placed(nodes, ids, ZoneId(z));
      |placed| == |ids| &&
      forall idx :: 0 <= idx < |ids| ==>
        ZoneOf(getDomain, ids[idx]) == z &&
        LastById(nodes, ids[idx]).Some? &&
        placed[idx] == Service(LastById(nodes, ids[idx]).value.(
          position := Position(24 + (idx % 3) * 176, 68 + (idx / 3) * 60),
          parentId := Some("zone-" + ZoneKey(z)), extent := Some("parent")))
  {
    var ids := Members(nodes, getDomain, z);
    MembersFromNodes(nodes, getDomain, z);
    MembersPlaceable(nodes, getDomain, z);
    PlacedAt(nodes, ids, ZoneId(z));
    forall idx | 0 <= idx < |ids|
      ensures GridPosition(idx) == Position(24 + (idx % 3) * 176, 68 + (idx / 3) * 60)
    {
      GridPositionValue(idx);
    }
  }

  lemma GridPositionValue(idx: nat)
    ensures GridPosition(idx) == Position(24 + (idx % 3) * 176, 68 + (idx / 3) * 60)
  {
  }

  /** Every member of a zone has a node to place. */
  lemma MembersPlaceable(nodes: seq<ServiceNode>, getDomain: string -> Option<string>, z: Zone)
    ensures forall id :: id in Members(nodes, getDomain, z) ==> LastById(nodes, id).Some?
  {
    MembersFromNodes(nodes, getDomain, z);
    forall id | id in Members(nodes, getDomain, z) ensures LastById(nodes, id).Some? {
      var n :| n in nodes && n.id == id;
      LastByIdOfMember(nodes, n);
    }
  }

  function Ids(nodes: seq<ServiceNode>): seq<string>
    decreases |nodes|
  {
    if |nodes| == 0 then [] else Ids(nodes[..|nodes| - 1]) + [nodes[|nodes| - 1].id]
  }

  /** Every input node is assigned to exactly one zone: the three member
      lists together hold each input id as often as the input does. */
  lemma {:induction false} MembersPartition(nodes: seq<ServiceNode>, getDomain: string -> Option<string>)
    ensures multiset(Members(nodes, getDomain, Frontend)) + multiset(Members(nodes, getDomain, Backend)) +
      multiset(Members(nodes, getDomain, Devtools)) == multiset(Ids(nodes))
    decreases |nodes|
  {
    if |nodes| > 0 {
      var p, n := nodes[..|nodes| - 1], nodes[|nodes| - 1];
      MembersPartition(p, getDomain);
      forall z ensures multiset(Members(nodes, getDomain, z)) ==
        multiset(Members(p, getDomain, z)) + (if ZoneOf(getDomain, n.id) == z then multiset{n.id} else multiset{})
      {
      }
      assert multiset(Ids(nodes)) == multiset(Ids(p)) + multiset{n.id};
    }
  }

  /** With distinct ids, the node placed for an id is that input node. */
  lemma {:induction false} LastByIdUnique(nodes: seq<ServiceNode>, n: ServiceNode)
    requires n in nodes
    requires NoDuplicates(Ids(nodes))
    ensures LastById(nodes, n.id) == Some(n)
    decreases |nodes|
  {
    var p := nodes[..|nodes| - 1];
    var last := nodes[|nodes| - 1];
    IdsAt(nodes);
    if last != n {
      assert n in p;
      var i :| 0 <= i < |p| && p[i] == n;
      assert Ids(nodes)[i] == n.id && Ids(nodes)[|nodes| - 1] == last.id;
      assert last.id != n.id;
      assert Ids(p) == Ids(nodes)[..|nodes| - 1];
      LastByIdUnique(p, n);
    }
  }

  lemma {:induction false} IdsAt(nodes: seq<ServiceNode>)
    ensures |Ids(nodes)| == |nodes|
    ensures forall i :: 0 <= i < |nodes| ==> Ids(nodes)[i] == nodes[i].id
    decreases |nodes|
  {
    if |nodes| > 0 {
      IdsAt(nodes[..|nodes| - 1]);
    }
  }
}
